=== FILE: README.md ===
# GlueousReader core, modelled in Dafny

GlueousReader is a Tkinter PDF reader built around a thin host that loads plugins. This project models the logic that remains once widgets, PyMuPDF, OpenAI, threads and file I/O are taken away. That logic is sequential state and arithmetic. Every model is a pure function on immutable data, and the widgets' effects become returned values: menu operations, scroll requests and messages shown.

The modules follow the program's components:

- `FileStates` (`file_state.dfy`): the per-document view-state record (`FileState`, `Favorite`), its defaults and its dictionary form.
- `Tabs` (`tab.dfy`): the current tab plugin. It covers the find-or-create of a record in the persisted `file_states` list, attribute routing into the record, `open`, `show_page`, `reset_tab`, and the tab list.
- `Viewport` (`viewport.dfy`): the scheduling prototype's visible-rectangle computation, the centre-shift test, render suppression and the debounced render.
- `Zoom`, `Pages`, `PageTurning`: zoom stepping through the configured levels, page stepping, the page-turning buttons and the page label.
- `LegacyTabs` (`legacy_tab.dfy`) and `PdfReader` (`pdf_reader.dfy`): the older tab class and the single-file reader.
- `Ocr` and `OcrDebug`: the OCR cache, result filtering and box mapping, the priority task queue, the text merge, and the debugging overlay.
- `MindMap`, `Summary`, `AiConfigure`: the text logic of the AI plugins. It covers page-range extraction, token-budget chunking, titles and file names, summary lengths and prompts, and configuration validation and storage.
- `Menus` (`menu.dfy`): the host's menu tree, menu construction, settings and periodic execution.
- `ContextMenus`: the context-menu registry.
- `Plugins`: the plugin registry and lifecycle.
- `Drag` and `TextSelection`: the two mouse-selection plugins.
- `Wrappers`, `Text`, `Geometry`, `JsonValue`: shared definitions. These are results and Python's exceptions, string operations as Python performs them, rectangles, and JSON values with Python's conversions.

Where the documented design and the code disagree, the model follows the code. The main differences are these:

- Loading a record does not validate the zoom, the rotation or the display mode (`FileStates.FromJsonAcceptsAnyModeAndRotation`).
- A new record's page number defaults to 1, not 0 (see Findings).
- The tab rasterises at the zoom divided by 100. The model treats this as a defect: `Tabs.ShowPage` renders at the zoom itself, and `Tabs.ShowPageAsWritten` keeps the division (see Findings).
- The selection plugins read `page`, `canvas_width` and `canvas_height` from the tab, and no tab has them. The selection models take the page's content and the canvas size as inputs; the as-written members state what the code does instead (see Findings).
- The OCR, OCR-debug and summary commands read the reader's data through a `data` attribute that the plugin context lacks. The models read it through `get_data()`, and the as-written members raise `AttributeError` (see Findings).
- The record store inserts new records at the front and returns the very dictionary held in the list. The model represents that reference as an index into the list.

## Model

| member | source | states |
|---|---|---|
| Text.StripLeft | plugins/AI/Summary.py:286-287 | the suffix left after removing only leading whitespace, which starts with a non-space |
| Text.StripRight | plugins/AI/Summary.py:286-287 | the prefix left after removing only trailing whitespace, which ends with a non-space |
| Text.Strip | plugins/AI/Summary.py:286-287 | an infix of the text with only whitespace before and after it, empty exactly for an all-space text and otherwise bounded by non-spaces; a text without space at its ends is unchanged |
| Text.StripIdempotent | plugins/AI/Summary.py:286-287 | stripping an already stripped text changes nothing |
| Text.StripUnique | plugins/AI/Summary.py:286-287 | any infix with only whitespace around it that is empty or bounded by non-spaces is the stripped text |
| Text.Split | plugins/AI/MindMap.py:313 | splitting on one character gives at least one piece and no piece holds the separator |
| Text.JoinSplit | plugins/AI/MindMap.py:313 | joining the pieces of a split with the separator gives back the text |
| Text.SplitJoin | plugins/AI/MindMap.py:313 | splitting the join of separator-free pieces gives back the pieces |
| Text.Lines | plugins/AI/MindMap.py:635 | the lines hold no line break |
| Text.Take | plugins/Tab/Right_Button/TextSelectionPlugin.py:144 | `s[:n]` is the prefix of length `n`, or all of `s` when shorter |
| Text.NonEmpty | plugins/AI/Summary.py:349-351 | only non-empty parts are kept, at most as many as there were |
| Text.ConcatNonEmpty | plugins/AI/Summary.py:349-351 | skipping empty parts does not change the concatenation |
| Text.ReplaceChars | plugins/AI/MindMap.py:650-651 | replacing forbidden characters keeps the length, replaces exactly those, and leaves none |
| Text.ReplaceCharsClean | plugins/AI/MindMap.py:650-651 | a text free of forbidden characters is left as it is |
| Text.NatToString | plugins/Tab/PageTurning/PageNo.py:49 | a natural number prints as a non-empty run of digits |
| Text.IntToString | plugins/Tab/PageTurning/PageNo.py:49 | an integer prints as digits, preceded by a minus sign when negative |
| Text.NatToStringInjective | plugins/Tab/PageTurning/PageNo.py:49 | distinct natural numbers print differently |
| Text.IntToStringInjective | plugins/Tab/PageTurning/PageNo.py:49 | distinct integers print differently |
| Text.DigitsValueOfNat | plugins/AI/MindMap.py:492-496 | the digits a natural number prints as have that number as value |
| Text.ParseIntToString | plugins/AI/MindMap.py:492-496 | `int(str(i)) == i` |
| Text.ParseInt | plugins/AI/MindMap.py:492-496 | blank text is rejected, and only a leading minus sign gives a negative number |
| Text.ParseDigits | plugins/AI/MindMap.py:492-496 | a run of digits parses to its value |
| Text.ParseSigned | plugins/AI/MindMap.py:492-496 | a minus sign and digits parse to the negated value |
| Text.JoinAppend | plugins/AI/MindMap.py:106-109 | adding a text to a joined chunk appends the separator and the text |
| Geometry.Normalise | plugins/Tab/Selection/DragPlugin.py:153 | the rectangle is normal and its corners are the two points' coordinates |
| Geometry.NormaliseSymmetric | plugins/Tab/Selection/DragPlugin.py:153 | the order of the two corners does not matter |
| Geometry.NormaliseOfNormal | plugins/Tab/Selection/DragPlugin.py:153 | a normal rectangle is its own normalisation |
| Geometry.NormaliseContainsCorners | plugins/Tab/Selection/DragPlugin.py:153 | both corners lie in the normalised rectangle |
| Geometry.DivideScaleRoundTrip | plugins/Tab/Selection/DragPlugin.py:72-81 | dividing by the zoom and multiplying back, either way round, is the identity |
| Geometry.DivideKeepsContainment | plugins/Tab/Selection/DragPlugin.py:94-102 | at a positive zoom a canvas point is in a canvas rectangle exactly when the page point is in the page rectangle |
| Geometry.ScaleKeepsNormal | plugins/Tab/Selection/DragPlugin.py:72-81 | a positive zoom keeps a rectangle normal in either direction |
| JsonValue.Get | plugins/Tab/FileState.py:182-204 | `d.get(key, default)` is the stored value when the key is present, the default when it is missing |
| JsonValue.Index | plugins/Tab/FileState.py:198-201 | a list index in range gives the item, out of range `IndexError`, a scalar `TypeError` |
| JsonValue.Truncate | plugins/Tab/FileState.py:201 | `int` on a float rounds toward zero |
| JsonValue.ToFloat | plugins/Tab/FileState.py:198 | numbers and booleans convert, with a number's own value; anything else raises |
| JsonValue.ToInt | plugins/Tab/FileState.py:201 | integers are kept, floats truncated toward zero, booleans convert; anything else raises |
| FileStates.FavoriteFromJson | plugins/Tab/FileState.py:21-42 | a dictionary without `page_no` is a `ValueError`, otherwise `page_no` is copied as is and `name` defaults to the empty string; a string or list entry fails with `TypeError` when `page_no` is in it and `ValueError` otherwise, and any other entry with `TypeError` |
| FileStates.FavoriteToJson | plugins/Tab/FileState.py:45-63 | a bookmark is saved as an object with exactly the keys `name` and `page_no` |
| FileStates.FavoriteRoundTrip | plugins/Tab/FileState.py:21-63 | loading a saved bookmark gives the same bookmark back |
| FileStates.NewFileState | plugins/Tab/FileState.py:76-133 | a new record has the given path, no bookmarks, `open_count` 0, `display_mode` "continuous", `scroll_pos` (0.0, 0.0), `page_no` 1, `zoom` 1.0, `rotation` 0 and `sidebar_dx` 572 |
| FileStates.FavoritesToJson | plugins/Tab/FileState.py:246 | the saved bookmark list has one entry per bookmark, in order |
| FileStates.FavoritesFromJson | plugins/Tab/FileState.py:204 | the bookmark list loads exactly when every entry loads, keeping length and order |
| FileStates.ToJson | plugins/Tab/FileState.py:209-262 | the saved dictionary has exactly the 17 keys, the scroll and window positions as lists, and the bookmarks in their original order |
| FileStates.ScrollPosFromJson | plugins/Tab/FileState.py:197-198 | a two-element list of floats becomes the scroll pair; a shorter list raises |
| FileStates.WindowPosFromJson | plugins/Tab/FileState.py:200-201 | a four-element list of integers becomes the window tuple; a shorter list raises |
| FileStates.FromJson | plugins/Tab/FileState.py:137-206 | a missing `file_path` is a `ValueError`; every copied key present is taken as is and every absent key gets the constructor's default; the load succeeds exactly when the scroll position, the window position and the bookmarks convert, and holds what they convert to |
| FileStates.ConvertedFields | plugins/Tab/FileState.py:196-204 | an absent scroll position, window position or bookmark list converts to its default; the bookmarks are what iterating the stored value gives, and a value that cannot be iterated into bookmarks fails the load |
| FileStates.FavoritesOf | plugins/Tab/FileState.py:204 | a list loads entry by entry; an empty string or dictionary loads no bookmarks; a non-empty string is a `ValueError`, a non-empty dictionary a `TypeError` or `ValueError`, and any other value a `TypeError` |
| FileStates.StringFavoritesFailOnFirstItem | plugins/Tab/FileState.py:40-204 | a non-empty string of bookmarks fails with the error its first character raises as an entry |
| FileStates.DictFavoritesFailOnAKey | plugins/Tab/FileState.py:40-204 | a non-empty dictionary of bookmarks fails with the error one of its keys raises as an entry, and with that of every key when all keys agree |
| FileStates.ConvertedFieldsLoad | plugins/Tab/FileState.py:196-203 | a scroll pair, a window tuple and bookmarks stored in their saved form convert back to exactly those fields |
| FileStates.ScrollPosRoundTrip | plugins/Tab/FileState.py:196-197 | a saved scroll pair loads back as itself |
| FileStates.WindowPosRoundTrip | plugins/Tab/FileState.py:199-200 | a saved window tuple loads back as itself |
| FileStates.FromJsonAcceptsAnyModeAndRotation | plugins/Tab/FileState.py:186-189 | any value under `display_mode` or `rotation` is accepted unchecked |
| FileStates.DefaultRoundTrip | plugins/Tab/FileState.py:179-262 | loading the saved form of a new record gives that record |
| FileStates.FavoritesRoundTrip | plugins/Tab/FileState.py:204-246 | the bookmark list survives saving and loading, order included |
| FileStates.RoundTrip | plugins/Tab/FileState.py:179-262 | loading the saved form of any record reproduces every field |
| FileStates.RoundTripConverted | plugins/Tab/FileState.py:197-257 | the path, both positions and the bookmarks survive saving and loading |
| FileStates.RoundTripCopied | plugins/Tab/FileState.py:182-194 | a record's saved form holds every field that loading copies |
| Tabs.FindFrom | plugins/Tab/Tab.py:34-38 | the scan returns the first record whose `file_path` equals the path, none when no record has it, and `KeyError` only if a record without `file_path` comes before any match |
| Tabs.FindOrCreate | plugins/Tab/Tab.py:33-42 | the tab's record matches its path and no earlier record does; when every record has a path there is no error |
| Tabs.FindOrCreateExisting | plugins/Tab/Tab.py:34-38 | with a matching record present, the list is unchanged and the first match is used |
| Tabs.FindOrCreateNew | plugins/Tab/Tab.py:39-42 | with no match, the default record for the path (`page_no` 1) goes to position 0, the list grows by exactly one and the old records keep their order |
| Tabs.DefaultRecord | plugins/Tab/Tab.py:41 | the inserted record has exactly the 17 known keys |
| Tabs.DefaultRecordFields | plugins/Tab/FileState.py:90-124 | the inserted record holds the path, no openings, zoom 1.0 and `page_no` 1 |
| Tabs.FreshRecord | plugins/Tab/FileState.py:105-106 | the evidently intended record has all 17 keys with the defaults, except that it starts on page 0 (see Findings) |
| Tabs.SetTarget | plugins/Tab/Tab.py:63-84 | `state` goes on the object; a name is written into the record exactly when it is no class annotation, a record exists and the record has that key |
| Tabs.GetAttr | plugins/Tab/Tab.py:53-60 | the object's own attribute wins; otherwise the record's key; `AttributeError` exactly when neither exists |
| Tabs.SetAttr | plugins/Tab/Tab.py:63-84 | a write into the record leaves the object attributes alone and the other way round; the record's key set never changes |
| Tabs.SetThenGet | plugins/Tab/Tab.py:53-84 | reading back an assigned attribute gives the assigned value unless an object attribute shadows the record key |
| Tabs.ShadowedAssignment | plugins/Tab/Tab.py:53-84 | a concrete case where the write lands in the record but the read returns the shadowing object attribute |
| Tabs.StateValue | plugins/Tab/Tab.py:53-60 | reading a record key through the tab succeeds exactly when a record exists and has the key; otherwise `AttributeError` |
| Tabs.SetStateValue | plugins/Tab/Tab.py:80-84 | writing a record key through the tab changes exactly that key of that record in the shared list |
| Tabs.InRange | plugins/Tab/Tab.py:150 | an integer page number is compared with the page count; a non-number raises `TypeError` |
| Tabs.Increment | plugins/Tab/Tab.py:138 | `+= 1` adds one to an integer or float, and raises on anything that is not a number |
| Tabs.RenderScaleAsWritten | plugins/Tab/Tab.py:158 | the rendering scale is the zoom divided by 100 |
| Tabs.RenderScale | plugins/Tab/Tab.py:158 | the corrected scale is a hundred times the as-written one, and the default zoom 1.0 renders the page at its own size |
| Tabs.RenderScaleUnits | plugins/Tab/Tab.py:158 | as written every positive zoom renders below its own factor and the default 1.0 at 0.01; read as a factor, 1.0 renders at 1.0 and larger zooms render larger |
| Tabs.ShowPage | plugins/Tab/Tab.py:146-164 | nothing is drawn without a document with pages or with `page_no` outside `[0, total_pages)`; a drawn page is the record's `page_no`, in range, at the record's zoom |
| Tabs.ShowPageAsWritten | plugins/Tab/Tab.py:146-164 | the same outcome and page as the corrected `show_page`, with the scale divided by 100 |
| Tabs.ShowPageOfRecord | plugins/Tab/Tab.py:146-158 | for a record with an integer page and a float zoom, the page is drawn at that zoom exactly when it lies in `[0, total_pages)`, and nothing is drawn otherwise |
| Tabs.ResetTab | plugins/Tab/Tab.py:173-180 | the record reference and document are cleared and the page count is 0; the record stays in the list |
| Tabs.Open | plugins/Tab/Tab.py:115-143 | a failure leaves the list as it was and resets the tab; a success loads the document, sets the page count and counts the opening in the tab's record and nowhere else |
| Tabs.OpenCountsOnce | plugins/Tab/Tab.py:121-143 | a successful open raises an integer `open_count` by exactly one; a failed one leaves it unchanged |
| Tabs.OpenSucceeds | plugins/Tab/Tab.py:24-143 | a new tab for an unseen path on a document with pages opens, and its record's count becomes 1 |
| Tabs.DefaultRecordOpens | plugins/Tab/Tab.py:24-143 | opening a list whose first record is the default one for a path succeeds on a document with pages and counts one opening |
| Tabs.RecordOpens | plugins/Tab/Tab.py:61-143 | any first record with an integer page, a float zoom and an integer count opens on a document with pages, whether or not the page is in range, and its count goes up by one |
| Tabs.DefaultPageSkipsFirst | plugins/Tab/Tab.py:150-158 | with the record's default `page_no` 1, a one-page document shows nothing and a longer one shows its second page; with the scale as written too, at 0.01 |
| Tabs.FreshRecordShowsFirstPage | plugins/Tab/Tab.py:150-158 | a new tab's record shows the first page of any document with pages, at scale 1.0 |
| Tabs.CreateTab | plugins/Tab/Tab.py:201-212 | creating a tab never fails when every record has a path, and the list grows by at most one |
| Tabs.NewOnePageTabBlank | plugins/Tab/Tab.py:24-158 | as written, a new tab for a one-page document opens and counts one opening, yet no page is drawn |
| Tabs.CreateTabMatches | plugins/Tab/Tab.py:33-50 | an opened tab refers to the record for its own path |
| Tabs.OpenCountedKeepsOtherKeys | plugins/Tab/Tab.py:138 | counting an opening changes no other key of the record |
| Tabs.GetCurrentTab | plugins/Tab/Tab.py:215-239 | the current tab is the first tab whose frame is the selected widget; none when there are no tabs, nothing is selected, the path is unknown or no tab has that frame |
| Tabs.CloseTab | plugins/Tab/Tab.py:243-253 | closing removes the first occurrence of the tab when present and nothing otherwise |
| Tabs.CloseTabKeepsOthers | plugins/Tab/Tab.py:249-250 | every other tab stays, as many times as before |
| FileStates.GetKeyToJson | plugins/Tab/FileState.py:209-262 | every key of a saved record holds that field's value |
| FileStates.CopiedOrDefaultUnique | plugins/Tab/FileState.py:179-206 | the keys copied or defaulted, with the converted fields, determine the loaded record completely |
| Tabs.OpenSteps | plugins/Tab/Tab.py:121-139 | when the steps succeed the tab holds the new document and its page count and the record's count went up once |
| Viewport.TotalPixels | schedule/pdf_viewer_example.py:23-24 | the page's pixel size is the page extent times the scale, truncated to an integer |
| Viewport.NewViewer | schedule/pdf_viewer_example.py:7-75 | a new viewer has nothing rendered yet |
| Viewport.ClampedPixels | schedule/pdf_viewer_example.py:83-93 | each corner is the view fraction times the pixel size, widened by the 80-pixel margin and clamped to `[0, total_pix_width] x [0, total_pix_height]` |
| Viewport.VisibleRectOnPage | schedule/pdf_viewer_example.py:77-101 | the visible rectangle lies inside `[0, total_pix_width / scale] x [0, total_pix_height / scale]` |
| Viewport.VisibleRectNormal | schedule/pdf_viewer_example.py:83-99 | for view fractions with start at most end, the rectangle has `x0 <= x1` and `y0 <= y1` |
| Viewport.VisibleRectCoversView | schedule/pdf_viewer_example.py:77-101 | the clip, in pixels, contains the visible part of the page and reaches at most the 80-pixel margin beyond it on every side |
| Viewport.VisibleRect | schedule/pdf_viewer_example.py:77-101 | the clip converts back to the clamped pixel rectangle and lies within the page |
| Viewport.ClampedCovers | schedule/pdf_viewer_example.py:83-93 | the widened and clamped pixel rectangle contains the view's own pixel span on both axes and reaches at most the 80-pixel margin beyond it |
| Viewport.ClampedPixelsNormal | schedule/pdf_viewer_example.py:83-93 | for view fractions with start at most end, the widened and clamped pixel rectangle is not inverted on either axis |
| Viewport.RegionChanged | schedule/pdf_viewer_example.py:109-122 | the region counts as changed when nothing was rendered, and otherwise exactly when the pixel centre moved by more than 15 along some axis |
| Viewport.SameRegionUnchanged | schedule/pdf_viewer_example.py:115-122 | the region just rendered never counts as changed |
| Viewport.SmallShiftUnchanged | schedule/pdf_viewer_example.py:115-122 | a centre shift of at most the threshold along both axes is not a change |
| Viewport.RenderVisibleArea | schedule/pdf_viewer_example.py:124-150 | an unchanged region draws nothing and changes nothing; a changed one is recorded as rendered and, when rasterising succeeds, drawn at its top-left corner times the scale; when rasterising fails, the region stays recorded, the old image stays and the error propagates |
| Viewport.RenderIdempotent | schedule/pdf_viewer_example.py:128-131 | a second render with the same view draws nothing, whether or not either rasterisation succeeds |
| Viewport.FailedRenderNotRetried | schedule/pdf_viewer_example.py:126-138 | after a failed rasterisation, a render of the same or a nearby view draws nothing even when rasterising would succeed |
| Viewport.DrawnAtClampedCorner | schedule/pdf_viewer_example.py:148-150 | the image is placed where the clamped pixel rectangle starts |
| Viewport.Schedule | schedule/pdf_viewer_example.py:103-107 | a request cancels any pending callback and leaves exactly the new one armed and stored |
| Viewport.Fire | schedule/pdf_viewer_example.py:107 | Tk's firing step alone: a callback goes on to render exactly when it is still armed, and is itself disarmed (the render then re-arms, see Viewport.Callback) |
| Viewport.LastRequestWins | schedule/pdf_viewer_example.py:103-107 | after two requests the first callback does nothing and the second renders |
| Viewport.RequestsCoalesce | schedule/pdf_viewer_example.py:103-107 | any number of requests leaves exactly one armed render, the stored one |
| Viewport.ScheduleTimes | schedule/pdf_viewer_example.py:103-107 | repeated requests keep the scheduler's invariant and use one new id each |
| Viewport.Start | schedule/pdf_viewer_example.py:61-75 | a new viewer starts with nothing rendered and exactly one render request armed |
| Viewport.FirstCallbackDraws | schedule/pdf_viewer_example.py:75-131 | the first callback after start-up draws whatever the view when rasterising succeeds, and leaves exactly one render armed |
| Viewport.Callback | schedule/pdf_viewer_example.py:30-126 | a callback that is no longer armed changes nothing; an armed one requests two renders through `xview()` and `yview()`, leaving only the second armed, and then renders exactly as `render_visible_area` does |
| Viewport.PollsForever | schedule/pdf_viewer_example.py:30-107 | once a render is armed, any number of callbacks leave exactly one render armed: the viewer never goes idle |
| Viewport.IdleCallbackRearms | schedule/pdf_viewer_example.py:30-129 | a callback whose view has not moved draws and changes nothing, yet arms a fresh render |
| Zoom.Levels | plugins/Tab/Zoom/ZoomIn.py:90 | the levels are the setting, or `[100]` when it is absent |
| Zoom.ShippedLevelsAscending | config/settings.py:20 | the shipped zoom levels are strictly ascending |
| Zoom.ShippedLevelsRenderScale | plugins/Tab/Tab.py:158 | as written every shipped level renders below the page's own size; read as factors, exactly the levels from 1.0 up render at or above it |
| Zoom.FirstAbove | plugins/Tab/Zoom/ZoomIn.py:94-97 | the scan finds the first level above the zoom, and every level before it is at most the zoom |
| Zoom.LastBelow | plugins/Tab/Zoom/ZoomOut.py:94-97 | the reversed scan finds the last level below the zoom, and every level after it is at least the zoom |
| Zoom.NextLevel | plugins/Tab/Zoom/ZoomIn.py:93-97 | an empty list raises `IndexError`; otherwise the chosen level is one of the levels |
| Zoom.PrevLevel | plugins/Tab/Zoom/ZoomOut.py:93-97 | an empty list raises `IndexError`; otherwise the chosen level is one of the levels |
| Zoom.NextLevelIsFirstLarger | plugins/Tab/Zoom/ZoomIn.py:93-97 | zooming in gives the first level in list order above the zoom, or the last level when none is above |
| Zoom.PrevLevelIsLastSmaller | plugins/Tab/Zoom/ZoomOut.py:93-97 | zooming out gives the last level in list order below the zoom, or the first level when none is below |
| Zoom.NextLevelIsSuccessor | plugins/Tab/Zoom/ZoomIn.py:94-97 | on a strictly ascending list, zooming in from a level below the top gives the next level |
| Zoom.PrevLevelIsPredecessor | plugins/Tab/Zoom/ZoomOut.py:94-97 | on a strictly ascending list, zooming out from a level above the bottom gives the previous level |
| Zoom.ZoomInOutRoundTrip | plugins/Tab/Zoom/ZoomOut.py:93-97 | on a strictly ascending list, zooming in then out (or out then in) returns to the starting level unless it was at the end |
| Zoom.LevelsSaturate | plugins/Tab/Zoom/ZoomIn.py:93 | at or beyond the top level zooming in stays at the top, and at or below the bottom level zooming out stays at the bottom |
| Zoom.Step | plugins/Tab/Zoom/ZoomOut.py:78-100 | with no tab nothing changes; an empty list raises; a success writes the selected level into the tab's record |
| Zoom.StepStoresShippedLevel | plugins/Tab/Zoom/ZoomIn.py:78-100 | with the shipped levels and a numeric zoom, both commands succeed and store a shipped level |
| Pages.NextPage | plugins/Tab/PageTurning/PageDown.py:94-100 | the page advances by exactly one when it is below `total - 1` and is unchanged otherwise |
| Pages.PrevPage | plugins/Tab/PageTurning/PageUp.py:90-96 | the page goes back by exactly one when it is positive and is unchanged otherwise |
| Pages.StepsKeepBounds | plugins/Tab/PageTurning/PageDown.py:94-95 | a page inside the document stays inside it after either step, and a step back never makes it negative |
| Pages.StepsInverse | plugins/Tab/PageTurning/PageUp.py:90-91 | a forward step followed by a backward one, or the other way round, returns to the start whenever the first step moved |
| Pages.ButtonStates | plugins/Tab/PageTurning/PageDown.py:35-39 | without a tab both buttons are disabled |
| Pages.ButtonsMatchSteps | plugins/Tab/PageTurning/PageDown.py:42-50 | the previous button is enabled exactly when `page_no > 0`, and the next one exactly when `page_no < total_pages - 1`: each exactly when its step would move |
| Pages.Label | plugins/Tab/PageTurning/PageNo.py:51-52 | without a tab or pages the label is "0/0" |
| Pages.LabelParts | plugins/Tab/PageTurning/PageNo.py:47-50 | with pages, the label splits at its `/` into `page_no + 1` and the total |
| Pages.LabelInjective | plugins/Tab/PageTurning/PageNo.py:47-50 | different pages or totals never share a label |
| Pages.LabelShowsPageInRange | plugins/Tab/PageTurning/PageNo.py:49 | for a page inside the document the shown number lies between 1 and the total |
| PageTurning.Decrement | plugins/Tab/PageTurning/PageUp.py:91 | `-= 1` subtracts one from an integer or float, and raises on anything that is not a number |
| PageTurning.Turn | plugins/Tab/PageTurning/PageDown.py:94-95 | for an integer page, forward gives `page + 1` when below `total - 1` and backward gives `page - 1` when positive, otherwise nothing; a missing page number is `AttributeError` |
| PageTurning.Redraw | plugins/Tab/PageTurning/PageDown.py:96-98 | the label and buttons are refreshed exactly when showing the page succeeds, and the record list is unchanged |
| PageTurning.Run | plugins/Tab/PageTurning/PageDown.py:89-91 | without a tab nothing happens, and the record list never changes length |
| PageTurning.PageDown | plugins/Tab/PageTurning/PageDown.py:85-100 | without a tab nothing happens |
| PageTurning.PageUp | plugins/Tab/PageTurning/PageUp.py:81-96 | without a tab nothing happens (the page is redrawn with `show_page`; see Findings) |
| PageTurning.PageUpAsWritten | plugins/Tab/PageTurning/PageUp.py:81-96 | without a tab nothing happens |
| PageTurning.RenderPageMissing | plugins/Tab/PageTurning/PageUp.py:92 | no record answers the attribute `render_page`, so reading it raises `AttributeError` |
| PageTurning.PageUpAsWrittenNeverRedraws | plugins/Tab/PageTurning/PageUp.py:90-94 | as written, moving back stores `page - 1` but raises `AttributeError` before drawing or refreshing anything |
| PageTurning.RunSteps | plugins/Tab/PageTurning/PageDown.py:94-95 | the page number a turn stores is the one the step rule gives, and the other records are untouched |
| PageTurning.RunKeepsBounds | plugins/Tab/PageTurning/PageUp.py:90-91 | a page inside the document stays inside it after either turn, and the record's other keys are untouched |
| PageTurning.TurnDraws | plugins/Tab/PageTurning/PageDown.py:94-98 | turning within an open document draws the new page and refreshes the label and buttons |
| PageTurning.TabButtons | plugins/Tab/PageTurning/PageDown.py:35-39 | without a tab both buttons are disabled |
| PageTurning.TabButtonsMatchTurns | plugins/Tab/PageTurning/PageDown.py:41-50 | for an integer page number each button is enabled exactly when its command would turn the page |
| PageTurning.LegacyPageUp | plugins/PageTurning/PageUp.py:42-56 | without a tab nothing happens; otherwise `current_page` goes back by one exactly when positive, and at 0 nothing changes |
| PageTurning.LegacyPageUpBounds | plugins/PageTurning/PageUp.py:51-53 | the legacy command never makes the page negative, keeps it inside the document and draws the page it moved to |
| LegacyTabs.NewLegacyTab | glueous/Tab.py:15-29 | a new tab has its path, no document, page 0 of 0 and zoom 1.0 |
| LegacyTabs.ShowPage | glueous/Tab.py:91-108 | nothing is drawn without a document with pages or with `current_page` outside `[0, total_pages)`; otherwise `current_page` is drawn at the zoom itself, failing only when rasterising fails |
| LegacyTabs.ResetTab | glueous/Tab.py:128-135 | the reset tab has no document, page 0 of 0 and no path, and keeps its zoom |
| LegacyTabs.OpenPdf | glueous/Tab.py:60-88 | a success stores the path and document, the page count, page 0 and zoom 1.0; a failure to open resets the tab with its old zoom; a failure to draw resets it with zoom 1.0, set before drawing; a document that opens and draws always succeeds |
| LegacyTabs.FailedOpenIsReset | glueous/Tab.py:61-142 | a failed opening leaves a reset tab that draws nothing; its zoom is the old one or 1.0, and, when the old zoom was not 1.0, it is 1.0 exactly when the document had opened |
| LegacyTabs.OpenShowsFirstPage | glueous/Tab.py:71-78 | after opening a document with pages its first page is drawn at scale 1.0 |
| LegacyTabs.ResetIdempotent | glueous/Tab.py:128-135 | resetting twice is resetting once, and a reset tab draws nothing |
| LegacyTabs.Context | glueous/Tab.py:117-125 | the context has exactly the keys `current_page`, `total_pages`, `zoom`, `doc` and `file_path` |
| LegacyTabs.ContextDeterminesTab | glueous/Tab.py:119-125 | the context holds the tab's current values: equal contexts mean equal tabs |
| PdfReader.NewPdfTab | pdf_reader.py:100-116 | a new tab has its path, no document, page 0 of 0, zoom 1.0, no selection and no segments |
| PdfReader.ScaleWords | pdf_reader.py:210-218 | each text segment is its word box multiplied by the zoom, with the text unchanged, one per word in order |
| PdfReader.ScaleWordsInvertible | pdf_reader.py:213-218 | dividing the segments by a non-zero zoom gives back the page's words |
| PdfReader.ScaleImages | pdf_reader.py:221-232 | every image segment is a placement of one of the page's images, scaled, with that image's number |
| PdfReader.ScaleRects | pdf_reader.py:226-232 | the placements of one image are scaled one by one, in order |
| PdfReader.ScaleImagesComplete | pdf_reader.py:221-232 | every placement of every image appears among the segments |
| PdfReader.ShowPage | pdf_reader.py:189-232 | nothing happens unless the page is showable; otherwise the selection is cleared, and the segments are rebuilt at the zoom, or left empty when rasterising raises; nothing else changes |
| PdfReader.ResetTab | pdf_reader.py:312-319 | the reset tab has no document, page 0 of 0 and no path; zoom, segments and selection are kept |
| PdfReader.OpenPdf | pdf_reader.py:163-187 | opening succeeds exactly when the file opens and its first page draws (or it has none); a success stores the path, document and page count, page 0 and zoom 1.0; a failure leaves `pdf_doc` None, page 0 of 0 and no path |
| PdfReader.PrevPage | pdf_reader.py:277-283 | the page goes back by one and True is returned exactly when `current_page > 0`; otherwise False and nothing changes |
| PdfReader.NextPage | pdf_reader.py:285-291 | the page advances by one and True is returned exactly when `current_page < total_pages - 1`; otherwise False and nothing changes |
| PdfReader.NextThenPrev | pdf_reader.py:277-291 | going forward and back returns to the starting page, with the page's words shown at the tab's zoom |
| PdfReader.OnMouseDown | pdf_reader.py:234-240 | a press records the start point and drops the selection |
| PdfReader.OnMouseUp | pdf_reader.py:254-261 | a release without an earlier press raises `AttributeError`; otherwise the stored selection is normalised (`x1 <= x2`, `y1 <= y2`) |
| PdfReader.SelectionSpansPoints | pdf_reader.py:258-261 | the selection contains the press and the release point, and dragging the other way gives the same selection |
| PdfReader.CloseCurrentTab | pdf_reader.py:459-479 | nothing is closed without a selected frame or with at most one tab; otherwise exactly the current tab is removed and reset |
| PdfReader.CloseCurrentTabKeepsOthers | pdf_reader.py:471-473 | closing removes one tab and keeps every other one |
| PdfReader.PageLabel | pdf_reader.py:502-510 | the label starts with "页码: " and reads "页码: 0/0" without a current tab or pages |
| PdfReader.PageLabelInjective | pdf_reader.py:505-508 | two tabs with pages share a label only at the same page of equally long documents |
| Ocr.CacheKey | plugins/OCR/OCRPlugin.py:109-113 | the key is the file path, then `#page`, then the page number in decimal |
| Ocr.LastHashAfterFile | plugins/OCR/OCRPlugin.py:113 | no `#` follows the one after the file path, so the key's last `#` separates path and page |
| Ocr.CacheKeyInjective | plugins/OCR/OCRPlugin.py:113 | different pages, or pages of different files, never share a key |
| Ocr.CachedResult | plugins/OCR/OCRPlugin.py:116-125 | a page has a cached result exactly when its key is in the cache, and it is the stored value |
| Ocr.SaveResult | plugins/OCR/OCRPlugin.py:128-134 | saving adds the page's key and no other |
| Ocr.SaveThenGet | plugins/OCR/OCRPlugin.py:116-134 | after saving a page its results read back, an unknown key still reads as none, and every other page reads as before |
| Ocr.CachedResultAsWritten | plugins/OCR/OCRPlugin.py:116-125 | as written, the lookup reads the context's `data` attribute, which the reader's access object lacks, so it always raises `AttributeError` |
| Ocr.SaveResultAsWritten | plugins/OCR/OCRPlugin.py:128-134 | as written, saving reads the context's `data` attribute and always raises `AttributeError` |
| Ocr.PageBoxWithinImage | plugins/OCR/OCRPlugin.py:241-254 | a detection inside the image lands inside the image's rectangle on the page, as a normal rectangle |
| Ocr.Placed | plugins/OCR/OCRPlugin.py:245-254 | along one axis, ordered pixel positions in the image map to ordered positions inside the image's span on the page |
| Ocr.Recognised | plugins/OCR/OCRPlugin.py:256-260 | a kept detection keeps its confidence and has its text stripped |
| Ocr.MapDetections | plugins/OCR/OCRPlugin.py:231-260 | no result has a confidence below 0.2 and there are no more results than detections |
| Ocr.MapDetectionsKeeps | plugins/OCR/OCRPlugin.py:231-260 | exactly the detections of confidence at least 0.2 appear, each as its recognised result |
| Ocr.ImageResults | plugins/OCR/OCRPlugin.py:176-264 | an image that cannot be read, is not placed, or is placed in a rectangle under 10 points wide or high contributes nothing |
| Ocr.AllImageResults | plugins/OCR/OCRPlugin.py:175-264 | no result of a page has a confidence below 0.2 |
| Ocr.PerformOcr | plugins/OCR/OCRPlugin.py:137-278 | a cached result is returned as is; a page beyond the document gives nothing; otherwise the cache is unchanged or holds exactly the new results for the page |
| Ocr.PerformOcrAsWritten | plugins/OCR/OCRPlugin.py:137-147 | the first step, the cache lookup, raises `AttributeError` outside any `try` |
| Ocr.PerformOcrCached | plugins/OCR/OCRPlugin.py:145-147 | once a page's results are cached, asking again returns them without recognising anything |
| Ocr.Clipped | plugins/OCR/OCRPlugin.py:322-328 | with no clip every result is kept; with one only results meeting the clip are kept, in order |
| Ocr.Merge | plugins/OCR/OCRPlugin.py:330-335 | without recognised texts the page's text is returned unchanged |
| Ocr.MergeRecoverable | plugins/OCR/OCRPlugin.py:330-335 | the page's own text stays in front, followed by a line break only if it is non-empty and lacks one, and the recognised lines read back from the rest |
| Ocr.OcrBlocks | plugins/OCR/OCRPlugin.py:358-375 | one text block per recognised result, with its text and box |
| Ocr.ModifiedGetText | plugins/OCR/OCRPlugin.py:281-388 | a disabled plugin or unnamed document returns the backend's output; an unrecognised page is queued with priority 1 when automatic OCR is on; recognised texts are appended as lines in the text formats and as blocks after the original ones in the dictionary formats |
| Ocr.ModifiedGetTextAsWritten | plugins/OCR/OCRPlugin.py:281-388 | the cache lookup raises inside the `try`, whose handler returns the backend's text: output unchanged, queue unchanged |
| Ocr.MergedTextRecoverable | plugins/OCR/OCRPlugin.py:319-335 | in the text formats the result starts with the page's own text and the clipped recognised lines read back from what follows |
| Ocr.FindTask | plugins/OCR/OCRPlugin.py:403-404 | the first queued task for the page, or none when the page is not queued |
| Ocr.InsertPos | plugins/OCR/OCRPlugin.py:413-421 | a new task goes before the first task of strictly larger priority, after all others |
| Ocr.AddToQueue | plugins/OCR/OCRPlugin.py:391-421 | the two loops compute the queue update: a queued page moves only for a strictly better priority, otherwise nothing changes; a new task is inserted by priority |
| Ocr.Enqueue | plugins/OCR/OCRPlugin.py:391-421 | a new page lengthens the queue by one, a queued page keeps its length, and a queued page without a strictly better priority leaves the queue as it is |
| Ocr.InsertPosUnique | plugins/OCR/OCRPlugin.py:413-421 | the insertion point is the only position with those two properties |
| Ocr.InsertKeepsSorted | plugins/OCR/OCRPlugin.py:413-421 | inserting keeps the queue ordered by priority |
| Ocr.RemoveKeepsSortedAndUnique | plugins/OCR/OCRPlugin.py:406-408 | popping a task keeps the order and the absence of duplicates and adds nothing |
| Ocr.InsertKeepsUnique | plugins/OCR/OCRPlugin.py:413-421 | inserting a page not yet queued keeps the queue free of duplicate pages |
| Ocr.EnqueueKeepsInvariant | plugins/OCR/OCRPlugin.py:391-421 | adding a task keeps the queue ordered by priority and free of duplicate pages |
| Ocr.EnqueuePlacesTask | plugins/OCR/OCRPlugin.py:403-421 | afterwards the page is queued with the better of its old and new priorities |
| Ocr.InsertIsStable | plugins/OCR/OCRPlugin.py:413-421 | the new task follows every task of priority not larger and precedes every task of larger priority |
| Ocr.FindInUnique | plugins/OCR/OCRPlugin.py:403-404 | in a queue without duplicate pages the page's task is the one found |
| Ocr.EnqueueIdempotent | plugins/OCR/OCRPlugin.py:391-421 | adding the same request twice is adding it once |
| OcrDebug.ColourOf | plugins/OCR/OCRDebugPlugin.py:130-135 | green exactly above 0.8, red exactly at or below 0.5, orange in between |
| OcrDebug.ColourMonotone | plugins/OCR/OCRDebugPlugin.py:130-135 | a more confident result is never drawn in a worse colour |
| OcrDebug.BoxFor | plugins/OCR/OCRDebugPlugin.py:119-153 | the box is the page box times the zoom, coloured by confidence, labelled with the first 20 characters |
| OcrDebug.DrawBoxes | plugins/OCR/OCRDebugPlugin.py:110-153 | one box per result, in order |
| OcrDebug.BoxesInvertible | plugins/OCR/OCRDebugPlugin.py:124-148 | at a positive zoom each box divides back to its result's page box, and the label is a prefix of the text, the whole text when it has at most 20 characters |
| OcrDebug.SummaryAccounts | plugins/OCR/OCRDebugPlugin.py:96-105 | the summary lists the first ten results numbered from 1 in order, and shown plus left-out results is the count |
| OcrDebug.SummaryText | plugins/OCR/OCRDebugPlugin.py:96-105 | the text opens with the page heading and, with nothing left out, ends with the entry lines |
| OcrDebug.EntryLines | plugins/OCR/OCRDebugPlugin.py:99-102 | no entries give no lines |
| OcrDebug.ShowOcrResults | plugins/OCR/OCRDebugPlugin.py:57-107 | without a tab with a document nothing is shown; shown results have one box per result and the 1-based page number |
| OcrDebug.ShowOcrResultsAsWritten | plugins/OCR/OCRDebugPlugin.py:57-86 | without a document or the OCR plugin the command warns as before; otherwise the cache lookup raises `AttributeError` out of the command |
| OcrDebug.ShowUsesCache | plugins/OCR/OCRDebugPlugin.py:77-93 | a recognised page is shown from the cache, which stays as it is; otherwise the page is recognised first, and an empty result shows the "no text" note |
| OcrDebug.Preview | plugins/OCR/OCRDebugPlugin.py:181 | the preview is the text when it has at most 500 characters, else its first 500 followed by `...` |
| Ocr.InsertTask | plugins/OCR/OCRPlugin.py:413-421 | inserting a task lengthens the queue by exactly one |
| Ocr.RemoveAt | plugins/OCR/OCRPlugin.py:407 | removing a queued task shortens the queue by exactly one |
| MindMap.Stop | plugins/AI/MindMap.py:50 | the last page read is `min(end, total)`, the total when the end is unbounded |
| MindMap.PageAt | plugins/AI/MindMap.py:49 | a page number in range reads that page; one at or past the page count raises `IndexError`; a negative one wraps round the document, and raises only when there are no pages |
| MindMap.WrapLands | plugins/AI/MindMap.py:49 | PyMuPDF's repeated adding of the page count to a negative number ends on the one index in range a whole number of page counts away |
| MindMap.PageAtWraps | plugins/AI/MindMap.py:49 | a negative page number reads the page a whole number of page counts further on |
| MindMap.PagesFromSlice | plugins/AI/MindMap.py:48-51 | reading pages `i` up to `stop` one by one gives exactly the slice of page texts |
| MindMap.ExtractIsSlice | plugins/AI/MindMap.py:43-51 | from a positive start page the texts extracted are exactly the 1-based pages start to end, cut at the last page |
| MindMap.ExtractDocumentText | plugins/AI/MindMap.py:43-51 | one text per number of the range, each the page that number reaches after wrapping; it fails only for a non-empty range over a document without pages |
| MindMap.ExtractWrapsRound | plugins/AI/MindMap.py:43-51 | from start page -5 of a three-page document the pages are read three times over |
| MindMap.JoinAll | plugins/AI/MindMap.py:112-116 | each chunk group becomes its texts joined by newlines, one chunk per group, in order |
| MindMap.SplitIntoChunks | plugins/AI/MindMap.py:88-118 | the loop returns the chunks of the greedy chunking, the closed ones then the stripped open one |
| MindMap.FlattenAppend | plugins/AI/MindMap.py:104-113 | appending a group appends its texts to the flattened texts |
| MindMap.SumTokensAppend | plugins/AI/MindMap.py:108-112 | adding a text to a group adds its count to the group's token total |
| MindMap.JoinNotEmpty | plugins/AI/MindMap.py:115-116 | a chunk whose first text is not empty is not empty |
| MindMap.OpenChunkNotEmpty | plugins/AI/MindMap.py:115-116 | once a non-empty text has been fed, the open chunk is not empty, so it is always returned |
| MindMap.ExtendKeepsGreedy | plugins/AI/MindMap.py:106-109 | a text that keeps the count below the budget joins the open chunk and the greedy guarantees still hold |
| MindMap.CloseKeepsGreedy | plugins/AI/MindMap.py:110-112 | a text that reaches the budget closes the open chunk and opens the next, and the guarantees still hold |
| MindMap.FeedKeepsGreedy | plugins/AI/MindMap.py:104-112 | one step of the loop keeps the texts in order, no group empty, groups of several texts under budget, every close justified |
| MindMap.FeedAllGreedy | plugins/AI/MindMap.py:88-113 | after all non-empty texts the chunker state satisfies the greedy guarantees |
| MindMap.FlattenLength | plugins/AI/MindMap.py:104-116 | non-empty groups hold at least as many texts as there are groups |
| MindMap.ChunksShape | plugins/AI/MindMap.py:88-118 | no texts give no chunks; for texts none of which is empty, at most one chunk per text, each closed group joined by newlines and only the last stripped |
| MindMap.BlanksLeaveNothing | plugins/AI/MindMap.py:97-101 | empty texts alone close no chunk and leave the open chunk empty |
| MindMap.BlanksThenTexts | plugins/AI/MindMap.py:97-101 | feeding empty texts first ends in the state the other texts reach alone |
| MindMap.LeadingBlanksVanish | plugins/AI/MindMap.py:97-101 | empty texts before the others change neither the chunker's state nor the chunks: the next text replaces the empty open chunk |
| MindMap.BlankExtendsChunk | plugins/AI/MindMap.py:104-106 | an empty text after a non-empty open chunk, within the budget, adds one line break to it and closes nothing |
| MindMap.OnOk | plugins/AI/MindMap.py:489-509 | the dialog accepts only parsed integers, an end of 0 or empty means unbounded, and a start after a non-zero end is refused |
| MindMap.OnOkParsed | plugins/AI/MindMap.py:489-506 | with the fields parsed, a start after a non-zero end is refused and anything else is accepted, an end of 0 meaning no bound |
| MindMap.OnOkAcceptsNumbers | plugins/AI/MindMap.py:489-509 | numbers typed as they print are accepted exactly when the end is 0 or not before the start, with those values |
| MindMap.Unfence | plugins/AI/MindMap.py:312-313 | an answer not starting with a backquote is left as it is |
| MindMap.StripFence | plugins/AI/MindMap.py:309-313 | an answer that does not open with a backquote once stripped is shown stripped and otherwise unchanged |
| MindMap.DropEnds | plugins/AI/MindMap.py:313 | `[1:-1]` drops the first and last line, leaving nothing from fewer than two |
| MindMap.UnfenceRoundTrip | plugins/AI/MindMap.py:309-313 | an answer wrapped in an opening fence line and a closing fence gives back exactly its body |
| MindMap.UnfenceLines | plugins/AI/MindMap.py:312-313 | unfencing newline-joined lines opening with a backquote loses exactly the first and last line |
| MindMap.FenceLinesHaveNoBreak | plugins/AI/MindMap.py:313 | a fence line and body lines without newlines stay separate lines once joined |
| MindMap.JoinStartsWith | plugins/AI/MindMap.py:312 | joined lines start as their first line does |
| MindMap.FirstNonEmptyIsFirst | plugins/AI/MindMap.py:635-643 | the search returns `""` exactly when every candidate is empty, otherwise the first non-empty one |
| MindMap.GetTitleIsFirst | plugins/AI/MindMap.py:630-643 | the title is that of the first heading line with a non-empty title, and `""` exactly when there is none |
| MindMap.DefaultFilenameValid | plugins/AI/MindMap.py:529-531 | the default file name holds no forbidden character |
| MindMap.FilenameFor | plugins/AI/MindMap.py:646-652 | the offered name is never empty and holds no forbidden character |
| MindMap.FilenameFromTitle | plugins/AI/MindMap.py:646-652 | no title gives the default name; otherwise the title with exactly its forbidden characters replaced by `_`, unchanged when valid |
| MindMap.InitialFilename | plugins/AI/MindMap.py:646-652 | the offered name is non-empty and free of forbidden characters, and is the default name when the text has no title |
| MindMap.MindMapNeverReady | plugins/AI/MindMap.py:348 | as written, the readiness check looks for `api_key`, which the configuration never holds, so the command never proceeds |
| MindMap.ConfirmedConfigReady | plugins/AI/MindMap.py:348 | checking `token` instead, any configuration confirmed in the dialog lets the command proceed |
| Summary.GetSummaryLength | plugins/AI/Summary.py:257-264 | the stored length, `"medium"` when none is stored |
| Summary.SetSummaryLength | plugins/AI/Summary.py:266-274 | a known length is stored under `summary_length`; an unknown one leaves the data unchanged |
| Summary.SetThenGetLength | plugins/AI/Summary.py:257-274 | a known length set is the one read back, an unknown one changes nothing, and no other key is touched |
| Summary.GetSummaryLengthAsWritten | plugins/AI/Summary.py:257-264 | as written, reading the length goes through the context's missing `data` attribute and always raises `AttributeError` |
| Summary.SetSummaryLengthAsWritten | plugins/AI/Summary.py:266-274 | as written, an unknown length is ignored and a known one raises `AttributeError` on the context's missing `data` attribute |
| Summary.ConfigureKeepsValid | plugins/AI/Summary.py:433-446 | configuring the length never stores an unknown value, so the stored length always has a prompt |
| Summary.ConfigureLength | plugins/AI/Summary.py:433-445 | cancelling or an empty choice leaves the data as it is, and no key other than the length changes |
| Summary.ConfigureLengthAsWritten | plugins/AI/Summary.py:433-438 | reading the current length raises `AttributeError` before the dialog |
| Summary.PromptFor | plugins/AI/Summary.py:326 | a list or dictionary length cannot be hashed and raises `TypeError`; any other length gives one of the three instructions, the length's own for a known length and the medium one otherwise |
| Summary.FullPromptSplits | plugins/AI/Summary.py:326-327 | a prompt is built exactly for a hashable length, and is then the instruction, a blank line and exactly the text |
| Summary.PageTexts | plugins/AI/Summary.py:297-304 | at most one text per page, none of them empty |
| Summary.PageTextsKeeps | plugins/AI/Summary.py:297-304 | exactly the pages read successfully with non-empty text are kept |
| Summary.GetTextToSummarize | plugins/AI/Summary.py:276-287 | a non-blank selection is summarised, stripped |
| Summary.NothingToSummarise | plugins/AI/Summary.py:291-306 | without a selection the text is empty exactly when there is no document or no page yields text |
| Summary.JoinFirstNotEmpty | plugins/AI/Summary.py:306 | pages joined with a non-empty first text are not empty |
| Summary.Contents | plugins/AI/Summary.py:349-351 | each streamed delta contributes its content, a missing one nothing |
| Summary.CallAiApi | plugins/AI/Summary.py:320-327 | `ValueError` is raised exactly when url, token or model is missing or empty; past that check an unhashable length raises `TypeError` |
| Summary.StreamedIsWholeText | plugins/AI/Summary.py:346-352 | for a hashable length, a streamed summary is the concatenation of all deltas in order |
| Summary.ConfirmedConfigComplete | plugins/AI/Summary.py:322 | any configuration confirmed in the configuration dialog passes the completeness check |
| Summary.GenerateSummary | plugins/AI/Summary.py:360-414 | no tab warns about the document, blank text warns about nothing to summarise, an incomplete configuration fails with `ValueError`, and with a complete one an unhashable stored length fails with `TypeError` |
| Summary.GenerateSummaryAsWritten | plugins/AI/Summary.py:360-381 | no tab and no text warn as before; with text, reading the length raises `AttributeError` before the service is asked |
| Summary.GenerateAsksWithStoredLength | plugins/AI/Summary.py:380-419 | the service is asked with the stored length's instruction and the text; a raised call fails and a reply's content is the summary |
| Summary.GenerateCallsService | plugins/AI/Summary.py:360-419 | with text to summarise, the command reports the service call made with the stored length: its error, a failure when there is no content, or the summary |
| Summary.StoredPrompt | plugins/AI/Summary.py:326-327 | a stored known length puts its own instruction, a blank line and then the text into the prompt |
| Summary.CallReportsReply | plugins/AI/Summary.py:320-358 | with url, token and model set, an unhashable length is a `TypeError`; otherwise a call that raises is an API error and a non-streamed reply gives back its message content unchanged |
| AiConfigure.ToDict | plugins/AI/AIConfigure.py:46-57 | the dictionary form has exactly the keys url, token, model, stream |
| AiConfigure.DictRoundTrip | plugins/AI/AIConfigure.py:37-57 | reading a configuration back from its dictionary gives it back |
| AiConfigure.FromDict | plugins/AI/AIConfigure.py:36-55 | a configuration read from a dictionary holds exactly that dictionary's four fields, and a dictionary of just those fields is its dictionary form |
| AiConfigure.ValidateInput | plugins/AI/AIConfigure.py:169-187 | valid exactly when no field is blank after stripping, otherwise names the first blank field in url, token, model order |
| AiConfigure.OnConfirm | plugins/AI/AIConfigure.py:189-199 | a configuration results exactly when the input validates |
| AiConfigure.ConfirmedIsClean | plugins/AI/AIConfigure.py:189-199 | a confirmed configuration has no blank field and confirming it again gives it back |
| AiConfigure.DefaultConfiguration | plugins/AI/AIConfigure.py:268-273 | the default is empty url, token and model with streaming on |
| AiConfigure.SaveConfiguration | plugins/AI/AIConfigure.py:341-359 | with the data reached through `get_data()`, saving succeeds exactly when all four keys are present and stores url, model and stream only |
| AiConfigure.GetConfiguration | plugins/AI/AIConfigure.py:281-303 | with the data reached through `get_data()` and copied before the token is added, the lookup gives the environment's token and leaves the storage as it is |
| AiConfigure.GetConfigurationAsWritten | plugins/AI/AIConfigure.py:294-303 | as written, the lookup reads the context's missing `data` attribute and always raises `AttributeError` |
| AiConfigure.GetConfigurationInPlace | plugins/AI/AIConfigure.py:294-303 | with the data reached but not copied, the lookup gives the environment's token and writes it into the stored configuration |
| AiConfigure.SaveConfigurationAsWritten | plugins/AI/AIConfigure.py:341-359 | as written, saving fails: with `KeyError` exactly when a key is missing, otherwise with `AttributeError` on the context's missing `data` attribute |
| AiConfigure.SaveThenGet | plugins/AI/AIConfigure.py:281-359 | a saved configuration read back is the one saved, with the token from the environment |
| AiConfigure.TokenLeaksIntoData | plugins/AI/AIConfigure.py:295-299 | as written, reading after a save writes the token into the stored data |
| AiConfigure.TokenNeverStored | plugins/AI/AIConfigure.py:341-359 | with a copying lookup, no save or read ever stores the token |
| AiConfigure.Configure | plugins/AI/AIConfigure.py:321-339 | with `get_data()` and the copying lookup, cancelling leaves the storage; confirming stores a configuration that reads back as the one confirmed, without its token |
| AiConfigure.ConfigureAsWritten | plugins/AI/AIConfigure.py:321-339 | as written, the command leaves the storage unchanged and shows the `AttributeError` raised by the first lookup, whatever the dialog would return |
| AiConfigure.ConfigureInPlace | plugins/AI/AIConfigure.py:321-339 | with `get_data()` but the in-place lookup, a confirmed configuration still reads back as the one confirmed |
| AiConfigure.CancelStoresToken | plugins/AI/AIConfigure.py:294-339 | with the in-place lookup, merely opening and cancelling the dialog stores the environment's token in the data |
| AiConfigure.ConfiguredReadsBack | plugins/AI/AIConfigure.py:281-359 | after confirming a configuration, reading it back gives exactly its dictionary form, the token coming from the environment |
| AiConfigure.ConfirmedUsable | plugins/AI/AIConfigure.py:281-359 | any configuration confirmed in the dialog and read back has url, token and model set, whatever was stored before |
| Menus.FindMenu | glueous/ReaderAccess.py:44-50 | the first submenu with the label, and none exactly when no submenu carries it |
| Menus.AddMenu | glueous/ReaderAccess.py:36-66 | an address one step per label; at most one item is added at the top level and every other item stays as it was |
| Menus.AddMenuReachesPath | glueous/ReaderAccess.py:36-66 | the node reached lies under submenus labelled exactly as the path |
| Menus.AddMenuIdempotent | glueous/ReaderAccess.py:36-66 | walking the same path again creates nothing and reaches the same node |
| Menus.FindMenuAfterUpdate | glueous/ReaderAccess.py:44-50 | changing a found submenu's children does not change which submenu is found |
| Menus.FindMenuAfterAppend | glueous/ReaderAccess.py:53-61 | a submenu appended where none had the label is the one found next time |
| Menus.AppendAt | glueous/ReaderAccess.py:75 | appending at the root extends the top level; deeper appends keep the top level's length |
| Menus.AppendAtAppends | glueous/ReaderAccess.py:75 | appending at an existing node adds exactly that item at the end of its children |
| Menus.AddItemLandsAtPath | glueous/ReaderAccess.py:68-90 | after adding a command or separator, the node at the path ends with it, preceded by the children the walk left |
| Menus.AddMenuCommand | glueous/ReaderAccess.py:79-89 | at the top level the command is appended; below it the top level gains at most the new submenu and no other top-level entry changes |
| Menus.AddMenuSeparator | glueous/ReaderAccess.py:68-76 | the same as a command, with the separator marker `construct_menu` draws |
| Menus.AppendKeepsLabels | glueous/ReaderAccess.py:75 | appending an item changes no submenu's label on any existing path |
| Menus.ConstructMenu | glueous/Reader.py:15-68 | building draws at most one operation per item |
| Menus.ConstructMenuAppend | glueous/Reader.py:60-68 | items are built in order: building a concatenation builds each part in turn |
| Menus.SeparatorOpsAppend | glueous/Reader.py:61-62 | separators drawn add up over concatenated operations |
| Menus.SeparatorsDrawn | glueous/Reader.py:60-68 | one separator is drawn per `"separator"` item, at any depth |
| Menus.SeparatorsDrawnItem | glueous/Reader.py:60-68 | one item draws as many separators as it holds |
| Menus.AppendAtSeparators | glueous/ReaderAccess.py:75 | appending an item anywhere adds its separators to the tree's count |
| Menus.SeparatorItemsAppend | glueous/Reader.py:60 | separator items add up over concatenated item lists |
| Menus.SeparatorItemsUpdate | glueous/ReaderAccess.py:75 | replacing one item changes the count by the difference of the two items |
| Menus.AddMenuSeparators | glueous/ReaderAccess.py:53-61 | the submenus the walk creates hold no separators |
| Menus.SeparatorNeverDrawn | glueous/ReaderAccess.py:68-77 | as written, the menu built after adding a separator draws no more separators than before |
| Menus.AddMenuSeparatorAsWritten | glueous/ReaderAccess.py:68-76 | the same, with the marker spelt `"seperator"` |
| Menus.SeparatorDrawn | glueous/Reader.py:61-62 | with the recognised spelling one more separator is drawn, last on the bar when added at the top |
| Menus.UpdateMenubarIdempotent | glueous/Reader.py:142-147 | the bar is cleared and rebuilt, so rebuilding twice equals once and the old contents do not matter |
| Menus.UpdateMenubar | glueous/Reader.py:142-147 | the bar holds at most one entry per item, and an empty tree gives an empty bar whatever it held |
| Menus.GetSetting | glueous/ReaderAccess.py:22-26 | a missing setting reads as the default |
| Menus.SetSetting | glueous/ReaderAccess.py:29-33 | setting adds the key and keeps every other key |
| Menus.SetThenGetSetting | glueous/ReaderAccess.py:22-33 | a setting reads back what was set and no other setting changes |
| Menus.ContextAttribute | glueous/ReaderAccess.py:16-149 | an attribute of the reader's access object is found exactly when the class defines it or a plugin attaches it, and any other name raises `AttributeError` |
| Menus.DataOnlyThroughGetData | glueous/ReaderAccess.py:145-149 | the access object has no `data` attribute; the data is reached only through `get_data()` |
| Menus.PeriodicallyExecute | glueous/Reader.py:163-172 | only positions of registered functions are reported as having raised |
| Menus.Shift | glueous/Reader.py:167 | positions of a later batch are renumbered by the length of the earlier one |
| Menus.PeriodicallyExecuteAppend | glueous/Reader.py:167-171 | running two lists in turn is running their concatenation, with the failures of both in order |
| Menus.PeriodicallyExecuteAllSucceed | glueous/Reader.py:167-171 | when no function raises nothing is reported |
| ContextMenus.UpdateContextMenu | plugins/ContextMenu.py:119-139 | an unknown context raises `KeyError`; otherwise the trees and widgets stay as they are |
| ContextMenus.UpdateSyncs | plugins/ContextMenu.py:119-139 | the context's menu matches its tree afterwards, others are untouched, and right click is bound only with a widget |
| ContextMenus.SetContext | plugins/ContextMenu.py:70-81 | a new context starts with an empty tree; an existing one keeps its tree and changes only its widget |
| ContextMenus.SetContextKeepsTree | plugins/ContextMenu.py:70-81 | a placeholder binds nothing, and edits made before the widget arrives are kept once it does |
| ContextMenus.AddContextMenu | plugins/ContextMenu.py:84-92 | `KeyError` exactly for an unknown context; no context is added |
| ContextMenus.AddContextItem | plugins/ContextMenu.py:95-117 | adding under a path fails exactly for an unknown context |
| ContextMenus.AddContextMenuSeparatorAsWritten | plugins/ContextMenu.py:95-103 | the separator as written fails exactly for an unknown context |
| ContextMenus.AddContextMenuSeparator | plugins/ContextMenu.py:95-103 | the corrected separator fails exactly for an unknown context |
| ContextMenus.AddContextMenuCommand | plugins/ContextMenu.py:106-117 | adding a command fails exactly for an unknown context |
| ContextMenus.AddContextItemIsMenuAddition | plugins/ContextMenu.py:84-117 | a context addition changes only that tree, exactly as the same menu-bar addition would, and keeps menus in step |
| ContextMenus.ContextSeparatorDrawn | plugins/ContextMenu.py:95-103 | as written a context separator is never drawn; with the recognised spelling exactly one more is |
| ContextMenus.ShowContextMenu | plugins/ContextMenu.py:142-157 | an unknown context raises `KeyError`; otherwise the menu shown is the one built from its tree |
| Plugins.NewPlugin | glueous_plugin/Plugin.py:38-100 | a new plugin is enabled, with the class's name, `"plugin"` as default description and no hotkeys by default |
| Plugins.Hotkey | glueous_plugin/Plugin.py:84-91 | without a class attribute the hotkey is the first of the hotkeys, none when there are none |
| Plugins.Enable | glueous_plugin/Plugin.py:110-114 | enabling switches the plugin on and changes nothing else |
| Plugins.Disable | glueous_plugin/Plugin.py:117-121 | disabling switches the plugin off and changes nothing else |
| Plugins.Append | glueous/PluginManager.py:60-67 | the plugin goes last, its name maps to it and so does each of its hotkeys, replacing earlier owners |
| Plugins.AppendValid | glueous/PluginManager.py:60-67 | appending keeps the manager's maps consistent, and a plugin with no hotkeys adds no hotkey mapping |
| Plugins.SliceBound | glueous/PluginManager.py:43-44 | a slice bound is clamped into the list |
| Plugins.GetItem | glueous/PluginManager.py:37-46 | integers index the list, a negative one from the end; strings the names; slices give the sub-list between Python's clamped bounds, the whole list for `[:]`; anything else `TypeError` |
| Plugins.AppendedIsFound | glueous/PluginManager.py:37-67 | the newest plugin of a name is the one found by name and the last in the list |
| Plugins.SetAble | glueous_plugin/Plugin.py:110-121 | switching one plugin on or off changes no other plugin and no mapping |
| Plugins.Run | glueous/PluginManager.py:156-162 | a hotkey runs its plugin exactly when it is mapped and the plugin is enabled |
| Plugins.DisableStopsRun | glueous/PluginManager.py:156-162 | disabling a plugin stops its hotkeys and enabling it restores them |
| Plugins.Unloaded | glueous/PluginManager.py:165-171 | exactly the enabled plugins are unloaded, in list order |
| Plugins.IndexOf | glueous/PluginManager.py:144 | the first place a name occurs in the loading order |
| Plugins.EnabledNames | glueous/PluginManager.py:146-147 | exactly the registered names whose plugin is enabled |
| Plugins.OrderedCalls | glueous/PluginManager.py:144-149 | after the first loop the names still waiting are those not in the loading order |
| Plugins.OrderedCallsWhom | glueous/PluginManager.py:144-149 | the first loop calls exactly the waiting enabled plugins named in the order |
| Plugins.IndexOfTail | glueous/PluginManager.py:144 | a name past the head of the order is found one place later than in the tail |
| Plugins.OrderedCallsSorted | glueous/PluginManager.py:144-149 | the first loop calls plugins in the order their names first appear |
| Plugins.SortedCons | glueous/PluginManager.py:144-149 | a call for the head of the order before the calls for the rest keeps them sorted |
| Plugins.RestCalls | glueous/PluginManager.py:151-154 | the second loop calls exactly the remaining enabled plugins |
| Plugins.RestCallsDistinct | glueous/PluginManager.py:151-154 | the second loop calls each remaining plugin at most once |
| Plugins.LoadedCallsEachOnce | glueous/PluginManager.py:137-154 | every enabled plugin is loaded exactly once, the named ones first in loading order, then the rest |
| Plugins.Loaded | glueous/PluginManager.py:137-153 | at most one call per name of the loading order and of the rest, and every enabled plugin missing from the order is loaded |
| Plugins.CallPlugin | glueous/PluginManager.py:126-134 | a method that raises yields `None`, otherwise its value |
| Plugins.LoadDirectory | glueous/PluginManager.py:100-123 | when the load completes, the count returned is the number of plugins appended after the existing ones, which are kept |
| Plugins.LoadFile | glueous/PluginManager.py:70-97 | a module that raises while executing fails the load with that exception; otherwise one enabled plugin per class is appended in order and the count is the number of classes |
| Plugins.Instantiate | glueous/PluginManager.py:88-97 | one plugin per class, appended in order after the existing ones, and the count is the number of classes |
| Plugins.SkippedFilesAddNothing | glueous/PluginManager.py:117-121 | a file whose name starts with `_` adds nothing; a loadable one that imports adds one plugin per class; a broken one fails the load |
| Plugins.LoadFailsIff | glueous/PluginManager.py:85-123 | the directory load fails exactly when some loadable file raises, and then with the exception of the first such file |
| Plugins.BrokenFileStopsLoading | glueous/PluginManager.py:85-123 | one broken plugin file anywhere in the listing stops the whole load |
| Plugins.ContextMenuAsWritten | plugins/ContextMenu.py:11-13 | the shipped context-menu file is loadable and raises `ImportError` when executed |
| Plugins.ContextMenuFixed | plugins/ContextMenu.py:11-13 | with its helper available, the context-menu file is loadable and imports cleanly |
| Plugins.ContextMenuStopsLoading | plugins/ContextMenu.py:13 | as shipped, the context-menu file makes the reader's plugin load fail with `ImportError` |
| Plugins.ContextMenuFixedLoads | glueous/PluginManager.py:117-121 | with the helper defined, the context-menu file adds one plugin per class to a load that had succeeded |
| Drag.Scan | plugins/Tab/Selection/DragPlugin.py:97-105 | the scan fails only when some block is malformed |
| Drag.IsOnText | plugins/Tab/Selection/DragPlugin.py:84-107 | failing to read the blocks, or a zero zoom, means the point is not on text |
| Drag.ScanFindsHit | plugins/Tab/Selection/DragPlugin.py:97-105 | over well-formed blocks the scan answers true exactly when some text block contains the point |
| Drag.IsOnTextOnCanvas | plugins/Tab/Selection/DragPlugin.py:84-107 | at a positive zoom a canvas point is on text exactly when some text block, scaled to the canvas, contains it |
| Drag.IsOnTextAsWritten | plugins/Tab/Selection/DragPlugin.py:84-107 | the first read, `tab.page`, raises inside the `try` unless something attached `page` to the tab, so the answer is `false` wherever the press is |
| Drag.GetSelectedText | plugins/Tab/Selection/DragPlugin.py:59-81 | no tab or no selection gives `""`; a selection at zoom zero raises |
| Drag.SelectedTextClip | plugins/Tab/Selection/DragPlugin.py:72-81 | the text is clipped to the page rectangle that the zoom maps back onto the selection |
| Drag.GetSelectedTextAsWritten | plugins/Tab/Selection/DragPlugin.py:59-81 | with a selection the read of `current_tab.page` raises `AttributeError`; without one the answer is `""` |
| Drag.EdgeScroll | plugins/Tab/Selection/DragPlugin.py:224-239 | within 30 pixels of an edge, three units towards that edge, only on an axis whose content is larger than the canvas, one scroll per axis at most |
| Drag.EdgeScrollAsWritten | plugins/Tab/Selection/DragPlugin.py:224-240 | with no `canvas_width` or `canvas_height` on the tab, a point within 30 pixels of an edge raises `AttributeError` and any other point scrolls nothing |
| Drag.MouseDown | plugins/Tab/Selection/DragPlugin.py:132-135 | the press point and whether it is on text are recorded; the selection is left alone |
| Drag.MouseDrag | plugins/Tab/Selection/DragPlugin.py:137-170 | no press does nothing; in text mode the normalised rectangle becomes the selection and is drawn; otherwise the state is unchanged |
| Drag.PageDragScrolls | plugins/Tab/Selection/DragPlugin.py:160-170 | a page drag scrolls exactly the axes that moved, by the floor of a tenth of the distance |
| Drag.FloorTenth | plugins/Tab/Selection/DragPlugin.py:168-170 | Python's `// 10` is the floor of a tenth |
| Drag.MouseUp | plugins/Tab/Selection/DragPlugin.py:172-173 | the press is forgotten and nothing else changes |
| Drag.LeftClick | plugins/Tab/Selection/DragPlugin.py:175-189 | with a drawn text selection, the rectangle is deleted and the selection cleared, the text shown exactly when not blank; otherwise nothing |
| Drag.Bind | plugins/Tab/Selection/DragPlugin.py:191-194 | binding an event replaces its handlers and leaves other events alone |
| Drag.BindAdd | plugins/Tab/Selection/DragPlugin.py:191-194 | binding with `add="+"` runs the new handler after the existing ones |
| Drag.SetupAsWritten | plugins/Tab/Selection/DragPlugin.py:190-194 | `<Button-1>` ends up with only the click handler; motion and release keep theirs |
| Drag.Setup | plugins/Tab/Selection/DragPlugin.py:190-194 | with the click handler added, `<Button-1>` runs the press handler and then the click handler |
| Drag.Dispatch | plugins/Tab/Selection/DragPlugin.py:190-194 | inputs whose events have no handler bound change nothing and produce no effects |
| Drag.AsWrittenDragIsInert | plugins/Tab/Selection/DragPlugin.py:191-194 | as written the click handler replaces the press handler, so no input sequence selects, draws or scrolls anything |
| Drag.DragSelects | plugins/Tab/Selection/DragPlugin.py:132-170 | with both press handlers bound, press on text and drag selects and draws the spanned rectangle; press off text scrolls instead |
| Drag.TextDragAfterPress | plugins/Tab/Selection/DragPlugin.py:137-158 | a drag after a press on text makes the rectangle between the two points the selection and draws it |
| Drag.PageDragAfterPress | plugins/Tab/Selection/DragPlugin.py:160-170 | a drag after a press off text selects nothing and scrolls each axis that moved by the floor of a tenth of the distance |
| Drag.PressThenDrag | plugins/Tab/Selection/DragPlugin.py:132-170 | with both bound, a press and a drag run the press handler then the drag handler |
| Drag.PressClearsSelection | plugins/Tab/Selection/DragPlugin.py:132-189 | with both bound, a press on text clears a shown selection; a press elsewhere leaves it drawn |
| Drag.PressNeverOnTextAsWritten | plugins/Tab/Selection/DragPlugin.py:84-170 | even with both handlers bound, the as-written hit test makes a press and a drag select and draw nothing, and only scroll |
| TextSelection.MouseDown | plugins/Tab/Right_Button/TextSelectionPlugin.py:94-102 | the press is recorded, selection mode ends, and a new live timer is started |
| TextSelection.TimerFires | plugins/Tab/Right_Button/TextSelectionPlugin.py:98-100 | a live timer starts selection mode; a cancelled one changes nothing |
| TextSelection.MouseDrag | plugins/Tab/Right_Button/TextSelectionPlugin.py:104-124 | ignored unless selecting with a press; otherwise the normalised rectangle is stored and drawn, nothing else changes |
| TextSelection.ToPageRoundTrip | plugins/Tab/Right_Button/TextSelectionPlugin.py:159-185 | converting to page coordinates is inverted by converting back, and keeps a selection normalised at a positive zoom |
| TextSelection.ExtractText | plugins/Tab/Right_Button/TextSelectionPlugin.py:159-185 | the page text clipped to the converted rectangle; a zero zoom raises |
| TextSelection.ExtractTextAsWritten | plugins/Tab/Right_Button/TextSelectionPlugin.py:159-185 | the read of `tab.page` raises `AttributeError` before the zoom is used, whatever the rectangle |
| TextSelection.MessageFor | plugins/Tab/Right_Button/TextSelectionPlugin.py:140-149 | a failed extraction shows its error; a successful one shows a preview or the no-text note |
| TextSelection.Release | plugins/Tab/Right_Button/TextSelectionPlugin.py:126-152 | the timer is cancelled and selection ends; with a selection the message is the one for that rectangle's extraction and the rectangle is cleared |
| TextSelection.MouseUp | plugins/Tab/Right_Button/TextSelectionPlugin.py:126-152 | the timer is cancelled and selection ends; without a selection nothing is shown, otherwise a message is shown and the rectangle cleared |
| TextSelection.MouseUpAsWritten | plugins/Tab/Right_Button/TextSelectionPlugin.py:126-152 | the state changes as on a release with the page reachable, but every release with a selection shows the `AttributeError` message |
| TextSelection.ReleaseShowsPreview | plugins/Tab/Right_Button/TextSelectionPlugin.py:138-148 | the note about no text appears exactly when the text is blank; the preview is a prefix of at most 300 characters, the whole text when short |
| TextSelection.LongPressSelects | plugins/Tab/Right_Button/TextSelectionPlugin.py:94-152 | press, timer, drag, release shows the text under the rectangle spanned, then leaves nothing selected and no timer live |
| TextSelection.LongPressFailsAsWritten | plugins/Tab/Right_Button/TextSelectionPlugin.py:94-173 | as written, press, timer, drag and release always end in the error message and leave nothing selected and no timer live |
| TextSelection.ShortPressSelectsNothing | plugins/Tab/Right_Button/TextSelectionPlugin.py:94-152 | releasing before the timer fires shows nothing, and the cancelled timer can no longer start selection |

## Left out

- Widgets, dialogs, message boxes, the clipboard, browser help and the markmap export are left out. Their effects appear only as returned messages, menu operations and scroll or draw effects.
- PyMuPDF is an input. Opening a document, its page count, rasterising, page texts, text blocks and word and image rectangles are given as parameters or data. The pixel buffer and image conversion are left out.
- The OCR engine, image decoding and resizing are inputs. Only the detections and the ratio between the engine's image size and the placed rectangle matter. The OCR worker thread and its loop are left out, apart from the queue operations it performs.
- The AI services (`OpenAI` calls, `compress_text` and `_compress_chunk` with their asyncio concurrency, `_generate_mindmap_text`) are left out. The summary's service is a function parameter, and the mind map is modelled up to its readiness check, chunking and answer clean-up.
- Summary.GenerateSummary: the sixty-second timeout, the worker thread and the `after(0, …)` hand-back are not modelled. The service is taken to answer in time.
- MindMap.SplitIntoChunks: `count_tokens` (tiktoken, or a quarter of the length) is a function parameter, so the chunking claims hold for any token counter. The greedy lemmas (MindMap.FeedAllGreedy, MindMap.ChunksShape) are stated for texts none of which is empty; blank pages are ordinary input. Empty texts before the first non-empty one vanish (MindMap.LeadingBlanksVanish), so the guarantees hold for texts whose only empty ones lead. An empty text after a non-empty chunk joins it as an extra line break (MindMap.BlankExtendsChunk); the greedy guarantees for such chunks are not stated.
- MindMap.Unfence: the fence removal is stated through the lines it keeps, and splits on `"\n"` as the source does.
- MindMap.GetTitle: `Text.Lines` cuts at every line-break character, whereas `splitlines` also treats `"\r\n"` as one break and drops a trailing empty line. The title search ignores empty lines, so the first non-empty line is the same either way.
- Text.ParseInt: Python's `int()` also accepts underscores between digits and non-ASCII decimal digits. The model accepts only ASCII digits with an optional sign and surrounding whitespace.
- JsonValue.ToFloat: `float()` and `int()` on numeric strings are not modelled, and strings are rejected with `ValueError`.
- OcrDebug.SummaryText: the `{:.2f}` formatting of confidences is a function parameter, since floating-point formatting is left out.
- FileStates.ToJson: records are keyed by the 17 known names. A dictionary in the data file may carry other keys. `from_json` ignores them, but the tab keeps the raw dictionary, and its attribute lookup (plugins/Tab/Tab.py:53-60) would find them. The model's records cannot hold such keys.
- Menus.AddMenuCommand: the keyword arguments must not include `type` or `children`, since Tk accepts neither. Command callables and other option values are represented as JSON values.
- Plugins.GetItem: a `bool` key, which Python treats as an `int`, is not distinguished. Slices with a step other than 1 are not modelled.
- Plugins.Loaded: Python does not fix the order in which a set is iterated. The order of the names left after the first loop is the parameter `leftover`.
- Module discovery through `importlib` and `Path.glob` is an input: the files found and the plugin classes in each. `bind_hotkeys` (Tk key bindings) is left out.
- Menus.PeriodicallyExecute: a function that raises is taken to leave the state as it was. The Python function may have changed something before raising. The `after(frequency, …)` rescheduling is left out.
- `Reader.dump_data` (writing the data file) and the reader's start-up are file I/O and are left out.
- TextSelection.TimerFires: the half-second `threading.Timer` is an explicit event. Its timing against mouse events is the caller's choice of event order.
- Tabs.ShowPage: the scroll position anchor and the canvas image item are left out. The model states which page is rasterised and at what scale. It renders at the zoom itself, not zoom / 100 as plugins/Tab/Tab.py:158 does; the as-written scale is Tabs.ShowPageAsWritten (see Findings).
- Tabs.ShowPageOfRecord: built on the corrected Tabs.ShowPage, so its scale is the zoom itself; as written it is the zoom divided by 100 (Tabs.ShowPageAsWritten, Tabs.DefaultPageSkipsFirst).
- The zoom plugins' redraw after changing the zoom, and the `update_zoom` helpers, are left out. The model states the new zoom stored in the record.
- `add_menu_to_menu_structure`, imported by plugins/ContextMenu.py, is defined nowhere in glueous/ReaderAccess.py, so the import fails (see Findings). The context-menu operations are modelled as the file evidently intends: the same path walk as `ReaderAccess.add_menu`, applied to the context's own tree.
- Viewport.Schedule: time is not modelled (the 5 and 100 ms delays, the `<Configure>` event that also requests renders). Mouse-wheel scrolling calls Tk's own `yview_scroll`, not the overridden `yview`, so it requests no render; the polling render picks it up (Viewport.PollsForever). Callbacks are numbered and fired explicitly, and Viewport.Poll fires the armed one once per given view.
- Coordinates and zoom are `real`. Floating-point rounding is not modelled.
- Ocr.CachedResult: models the lookup with the data reached through `get_data()`. As written it raises `AttributeError` (see Findings and Ocr.CachedResultAsWritten).
- Ocr.SaveResult: models the save with the data reached through `get_data()`. As written it raises `AttributeError` (Ocr.SaveResultAsWritten).
- Summary.GetSummaryLength: models the read through `get_data()`. As written it raises `AttributeError` (Summary.GetSummaryLengthAsWritten).
- Summary.SetSummaryLength: models the write through `get_data()`. As written a known length raises `AttributeError` (Summary.SetSummaryLengthAsWritten).
- AiConfigure.GetConfiguration: models the lookup through `get_data()`, with the stored dictionary copied before the token is added. As written it raises `AttributeError` (AiConfigure.GetConfigurationAsWritten), and with the data reached it would store the token (AiConfigure.GetConfigurationInPlace).
- AiConfigure.SaveConfiguration: models the save through `get_data()`. As written it raises `KeyError` or `AttributeError` (AiConfigure.SaveConfigurationAsWritten).
- AiConfigure.Configure: built on the two corrected operations above; the command as written is AiConfigure.ConfigureAsWritten.
- MindMap.PageAt: PyMuPDF's `Document.__getitem__` is described by its behaviour: numbers at or past the page count raise `IndexError`, and negative ones have the page count added until they are not negative. On a document without pages that loop never ends; the model raises `IndexError` there instead.
- FileStates.FavoritesOf: Python iterates a dictionary in insertion order and fails on its first key, whose error depends on whether that key contains `page_no`. A JSON object here has no key order, so when the keys disagree the model picks `ValueError`.
- Drag.IsOnText: models the test with the tab's page reachable. Tabs have no `page` attribute (plugins/Tab/Tab.py:53-60), so as written the lookup raises inside the `try` and every press counts as off the text (Drag.IsOnTextAsWritten).
- Drag.IsOnTextOnCanvas: built on Drag.IsOnText, with the page reachable; as written the answer is always no (Drag.IsOnTextAsWritten).
- Drag.GetSelectedText: models the extraction with the tab's page reachable; as written it raises `AttributeError` whenever a selection exists (Drag.GetSelectedTextAsWritten).
- Drag.SelectedTextClip: the clip is computed from `current_tab.page.rect`, which as written raises `AttributeError` (Drag.GetSelectedTextAsWritten).
- Drag.EdgeScroll: models the scroll with the canvas sizes known. Tabs have no `canvas_width` or `canvas_height`, so as written a drag near an edge raises `AttributeError` (Drag.EdgeScrollAsWritten).
- Drag.MouseDrag: its edge scrolling is the corrected Drag.EdgeScroll; as written it raises near an edge (Drag.EdgeScrollAsWritten).
- Drag.LeftClick: the press is classified by the corrected Drag.IsOnText; as written no press is on text (Drag.PressNeverOnTextAsWritten).
- Drag.DragSelects: holds with the page reachable and both handlers bound; as written neither holds (Drag.AsWrittenDragIsInert, Drag.PressNeverOnTextAsWritten).
- Drag.PressClearsSelection: stated for a press the corrected Drag.IsOnText puts on text; as written no press is (Drag.IsOnTextAsWritten).
- TextSelection.ExtractText: models the extraction with the tab's page reachable; as written `current_tab.page` (plugins/Tab/Right_Button/TextSelectionPlugin.py:173) raises `AttributeError`, which the handler reports as a failure (TextSelection.ExtractTextAsWritten).
- TextSelection.MouseUp: built on the corrected TextSelection.ExtractText; as written every release with a selection reports the `AttributeError` (TextSelection.MouseUpAsWritten).
- TextSelection.ReleaseShowsPreview: holds with the page reachable; as written the release reports the failure (TextSelection.MouseUpAsWritten).
- TextSelection.LongPressSelects: holds with the page reachable; as written a long press ends in the failure message (TextSelection.LongPressFailsAsWritten).
- Ocr.PerformOcr: built on the corrected Ocr.CachedResult and Ocr.SaveResult. As written its first step, the cache lookup at plugins/OCR/OCRPlugin.py:145, raises `AttributeError` outside any `try` (Ocr.PerformOcrAsWritten).
- Ocr.PerformOcrCached: holds with the cache reached through `get_data()`; as written the lookup raises (Ocr.PerformOcrAsWritten).
- Ocr.ModifiedGetText: built on the corrected cache lookup. As written the lookup at plugins/OCR/OCRPlugin.py:303 raises inside the `try`, whose handler returns the original text, so the output is never changed (Ocr.ModifiedGetTextAsWritten).
- Ocr.MergedTextRecoverable: about the corrected Ocr.ModifiedGetText; as written no OCR text is merged (Ocr.ModifiedGetTextAsWritten).
- OcrDebug.ShowOcrResults: built on the corrected cache lookup; as written plugins/OCR/OCRDebugPlugin.py:81 raises `AttributeError` out of the command (OcrDebug.ShowOcrResultsAsWritten).
- OcrDebug.ShowUsesCache: about the corrected OcrDebug.ShowOcrResults; as written the command fails before the cache is consulted (OcrDebug.ShowOcrResultsAsWritten).
- OcrDebug.Preview: models the truncation of a page's text. The command reaches the page through `current_tab.page` (plugins/OCR/OCRDebugPlugin.py:175), which tabs do not have, so as written it raises `AttributeError` before any preview; that read is not modelled.
- Summary.GenerateSummary: built on the corrected Summary.GetSummaryLength. As written, with text to summarise, the length read at plugins/AI/Summary.py:381 raises `AttributeError` before the service is asked (Summary.GenerateSummaryAsWritten).
- Summary.GenerateCallsService: about the corrected Summary.GenerateSummary; as written the service is never called (Summary.GenerateSummaryAsWritten).
- Summary.GenerateAsksWithStoredLength: about the corrected Summary.GenerateSummary; as written no prompt is built (Summary.GenerateSummaryAsWritten).
- Summary.ConfigureLength: built on the corrected length read and write; as written the command raises `AttributeError` at its first read (Summary.ConfigureLengthAsWritten).
- Summary.ConfigureKeepsValid: about the corrected Summary.ConfigureLength; as written the command fails (Summary.ConfigureLengthAsWritten).

## Findings

| source | as written | input that shows it | evidently intended | confidence | as-written member | corrected member |
|---|---|---|---|---|---|---|
| plugins/Tab/Tab.py:158 | the page is rasterised at `zoom / 100` | the default zoom 1.0 renders at scale 0.01, and every shipped zoom level renders below 1.0 | the zoom is a factor, as the default zoom 1.0, the shipped levels and the other readers' `Matrix(zoom, zoom)` show | not executed; medium (ZoomIn's fallback level 100 suggests percent was once meant) | Tabs.RenderScaleAsWritten, Tabs.ShowPageAsWritten, Tabs.RenderScaleUnits, Zoom.ShippedLevelsRenderScale | Tabs.RenderScale, Tabs.ShowPage |
| plugins/Tab/FileState.py:105-106 | a new record starts at `page_no` 1, commented as 1-based | a new one-page document shows nothing, and a longer one opens on its second page, because `show_page` indexes from 0 (plugins/Tab/Tab.py:150,157) | a new record opens on the first page, `page_no` 0 | not executed; high | Tabs.DefaultPageSkipsFirst, Tabs.NewOnePageTabBlank | Tabs.FreshRecord, Tabs.FreshRecordShowsFirstPage |
| plugins/Tab/PageTurning/PageUp.py:92 | the previous-page command calls `current_tab.render_page()`, which the tab class does not define | any tab with `page_no` > 0: the page number goes down, then `AttributeError` is raised and the page is never redrawn | redraw with `show_page`, as the next-page command does | not executed; high | PageTurning.PageUpAsWritten, PageTurning.PageUpAsWrittenNeverRedraws | PageTurning.PageUp, PageTurning.TurnDraws |
| glueous/ReaderAccess.py:75 | separators are stored as `{"type": "seperator"}`, but `construct_menu` draws only `"separator"` (glueous/Reader.py:61) | `add_menu_separator(["文件"])`: the rebuilt menu has no more separators than before | a separator is drawn | not executed; high | Menus.AddMenuSeparatorAsWritten, Menus.SeparatorNeverDrawn | Menus.AddMenuSeparator, Menus.SeparatorDrawn |
| plugins/ContextMenu.py:102 | context-menu separators are also stored as `"seperator"` | `add_context_menu_separator(c, [])` on a known context: the menu built draws no separator | a separator is drawn | not executed; high | ContextMenus.AddContextMenuSeparatorAsWritten, ContextMenus.ContextSeparatorDrawn | ContextMenus.AddContextMenuSeparator, ContextMenus.ContextSeparatorDrawn |
| plugins/AI/AIConfigure.py:295-299 | the token is written into the dictionary held in the reader's data, which is saved to the data file | once the data is reached (the row below): save any configuration, then read it, as every AI command does; the stored configuration now holds the token, and even opening and cancelling the dialog stores it | the token lives only in the environment, as `_save_configuration` intends (plugins/AI/AIConfigure.py:349-357) | not executed; high, though masked as shipped by the `data` error below | AiConfigure.GetConfigurationInPlace, AiConfigure.TokenLeaksIntoData, AiConfigure.ConfigureInPlace, AiConfigure.CancelStoresToken | AiConfigure.GetConfiguration, AiConfigure.TokenNeverStored, AiConfigure.Configure |
| plugins/AI/MindMap.py:348 | the mind map checks the configuration for `api_key`, but the configuration service provides `token` | any configuration confirmed in the dialog: the command stops with "configure AI first"; masked as shipped by the `data` error, which `get_AI_configuration` raises first (plugins/AI/AIConfigure.py:295) | check `token` | not executed; high | MindMap.MindMapNeverReady | MindMap.ConfirmedConfigReady |
| plugins/Tab/Selection/DragPlugin.py:191-194 | `<Button-1>` is bound to the press handler and then to the click handler, and the second `bind` replaces the first | press on text and drag: nothing is selected, drawn or scrolled, whatever the inputs | both handlers run, for example by binding the second with `add="+"`; the corrected lemma also takes the page as reachable (the row below) | not executed; high | Drag.SetupAsWritten, Drag.AsWrittenDragIsInert | Drag.Setup, Drag.DragSelects |
| plugins/ContextMenu.py:13 | the file imports `add_menu_to_menu_structure` from `glueous.ReaderAccess`, which defines no such name | start the reader with the shipped plugin directory: executing ContextMenu.py raises `ImportError`, nothing in `load_plugins_from_file` or the reader's constructor catches it (glueous/PluginManager.py:86, glueous/Reader.py:137), and start-up stops | the helper exists and the file imports, adding its plugin | not executed; high | Plugins.ContextMenuAsWritten, Plugins.ContextMenuStopsLoading | Plugins.ContextMenuFixed, Plugins.ContextMenuFixedLoads |
| plugins/OCR/OCRPlugin.py:123-132 | the OCR cache is reached as `self.context.data`, but the access object defines no `data` attribute, only `get_data()` (glueous/ReaderAccess.py:145-149) | look up or save the OCR result of any page: `AttributeError` is raised before the cache is consulted | `self.context.get_data()` | not executed; high | Ocr.CachedResultAsWritten, Ocr.SaveResultAsWritten, Ocr.PerformOcrAsWritten, Ocr.ModifiedGetTextAsWritten, OcrDebug.ShowOcrResultsAsWritten, Menus.DataOnlyThroughGetData | Ocr.CachedResult, Ocr.SaveResult, Ocr.SaveThenGet, Ocr.PerformOcr, Ocr.ModifiedGetText, OcrDebug.ShowOcrResults |
| plugins/AI/Summary.py:264-274 | the summary length is read and written through `self.context.data` | read the length, or set `"short"`: `AttributeError` is raised | `self.context.get_data()` | not executed; high | Summary.GetSummaryLengthAsWritten, Summary.SetSummaryLengthAsWritten, Summary.GenerateSummaryAsWritten, Summary.ConfigureLengthAsWritten, Menus.DataOnlyThroughGetData | Summary.GetSummaryLength, Summary.SetSummaryLength, Summary.SetThenGetLength, Summary.GenerateSummary, Summary.ConfigureLength |
| plugins/AI/AIConfigure.py:295-349 | the AI configuration is read and saved through `self.context.data` | open the AI configuration command: the first lookup raises `AttributeError` and the command only shows the error; every AI command that asks for the configuration fails the same way | `self.context.get_data()` | not executed; high | AiConfigure.GetConfigurationAsWritten, AiConfigure.SaveConfigurationAsWritten, AiConfigure.ConfigureAsWritten, Menus.DataOnlyThroughGetData | AiConfigure.GetConfiguration, AiConfigure.SaveConfiguration, AiConfigure.Configure, AiConfigure.SaveThenGet |
| plugins/Tab/Selection/DragPlugin.py:72-107 | the drag plugin reads `current_tab.page`, `canvas_width` and `canvas_height`, none of which a tab has (plugins/Tab/Tab.py:53-60 finds neither an attribute nor a record key of those names) | press on a line of text: the `page` lookup raises inside `is_on_text`, which answers no, so no selection starts; a drag near the window edge raises `AttributeError` | the page and canvas sizes are attributes of the tab | not executed; high | Drag.IsOnTextAsWritten, Drag.GetSelectedTextAsWritten, Drag.EdgeScrollAsWritten, Drag.PressNeverOnTextAsWritten | Drag.IsOnText, Drag.GetSelectedText, Drag.EdgeScroll, Drag.DragSelects |
| plugins/Tab/Right_Button/TextSelectionPlugin.py:173 | the text-selection plugin extracts through `current_tab.page` | long-press and release over text: the extraction raises `AttributeError`, and the handler shows the failure instead of the text | the page is an attribute of the tab | not executed; high | TextSelection.ExtractTextAsWritten, TextSelection.MouseUpAsWritten, TextSelection.LongPressFailsAsWritten | TextSelection.ExtractText, TextSelection.MouseUp, TextSelection.LongPressSelects |

=== FILE: ai_configure.dfy ===
/** The AI configuration plugin: the configuration record and its dictionary
    form, validation of the dialog's fields, and where the configuration
    lives between runs: url, model and stream in the reader's data under
    `ai_configuration`, the token in the environment variable
    `GLUEOUS_READER_AI_TOKEN`.
 */
module AiConfigure {
  import opened Wrappers
  import opened Text
  import Menus

  datatype AIConfiguration = AIConfiguration(url: string, token: string, model: string, stream: bool)

  /** A configuration value: a string or a flag. */
  datatype ConfigValue = CStr(s: string) | CBool(b: bool)

  type ConfigDict = map<string, ConfigValue>

  /** Python truthiness of a looked-up value; a missing key reads as `None`. */
  predicate Truthy(d: ConfigDict, key: string) {
    key in d && match d[key]
      case CStr(s) => s != ""
      case CBool(b) => b
  }

  /** `to_dict`. */
  function ToDict(c: AIConfiguration): (d: ConfigDict)
    ensures d.Keys == {"url", "token", "model", "stream"}
  {
    map["url" := CStr(c.url), "token" := CStr(c.token), "model" := CStr(c.model), "stream" := CBool(c.stream)]
  }

  /** Reading a configuration back from its dictionary form. */
  function FromDict(d: ConfigDict): (r: Option<AIConfiguration>)
    ensures r.Some? ==> forall k :: k in ToDict(r.value) ==> k in d && d[k] == ToDict(r.value)[k]
    ensures d.Keys == {"url", "token", "model", "stream"} && r.Some? ==> ToDict(r.value) == d
  {
    if && "url" in d && d["url"].CStr? && "token" in d && d["token"].CStr?
       && "model" in d && d["model"].CStr? && "stream" in d && d["stream"].CBool?
    then Some(AIConfiguration(d["url"].s, d["token"].s, d["model"].s, d["stream"].b))
    else None
  }

  /** The dictionary form loses nothing. */
  lemma DictRoundTrip(c: AIConfiguration)
    ensures FromDict(ToDict(c)) == Some(c)
  {
  }

  /** The outcome of `_validate_input`: the first blank field, in the order
      url, token, model. */
  datatype Validation = Valid | MissingUrl | MissingToken | MissingModel

  function ValidateInput(url: string, token: string, model: string): (v: Validation)
    ensures v == Valid <==> Strip(url) != "" && Strip(token) != "" && Strip(model) != ""
    ensures v == MissingUrl <==> Strip(url) == ""
    ensures v == MissingToken <==> Strip(url) != "" && Strip(token) == ""
  {
    if Strip(url) == "" then MissingUrl
    else if Strip(token) == "" then MissingToken
    else if Strip(model) == "" then MissingModel
    else Valid
  }

  /** `_on_confirm`: the configuration with stripped fields when the input
      validates; otherwise the dialog stays open and there is none. */
  function OnConfirm(url: string, token: string, model: string, stream: bool): (r: Option<AIConfiguration>)
    ensures r.Some? <==> ValidateInput(url, token, model) == Valid
  {
    if ValidateInput(url, token, model) == Valid
    then Some(AIConfiguration(Strip(url), Strip(token), Strip(model), stream))
    else None
  }

  /** A confirmed configuration has no blank field and no surrounding
      whitespace, so confirming it again gives it back. */
  lemma ConfirmedIsClean(url: string, token: string, model: string, stream: bool)
    requires OnConfirm(url, token, model, stream).Some?
    ensures var c := OnConfirm(url, token, model, stream).value;
            && c.url != "" && c.token != "" && c.model != ""
            && OnConfirm(c.url, c.token, c.model, c.stream) == Some(c)
  {
    var c := OnConfirm(url, token, model, stream).value;
    assert c == AIConfiguration(Strip(url), Strip(token), Strip(model), stream);
    StripIdempotent(url);
    StripIdempotent(token);
    StripIdempotent(model);
    assert ValidateInput(c.url, c.token, c.model) == Valid;
  }

  const DataKey: string := "ai_configuration"

  /** `DEFAULT_CONFIGURATION`. */
  function DefaultConfiguration(): (d: ConfigDict)
    ensures FromDict(d) == Some(AIConfiguration("", "", "", true))
  {
    map["url" := CStr(""), "token" := CStr(""), "model" := CStr(""), "stream" := CBool(true)]
  }

  /** Where the configuration lives: the dictionary stored in the reader's
      data (which is written to the data file), and the environment. */
  datatype Storage = Storage(saved: Option<ConfigDict>, envToken: Option<string>)

  /** `_save_configuration` as written: the new dictionary reads url, model
      and stream first (`KeyError` when one is missing), then storing it
      raises on `self.context.data`. Nothing is saved. */
  function SaveConfigurationAsWritten(st: Storage, config: ConfigDict): (r: Result<Storage>)
    ensures r.Failure?
    ensures r.error == KeyError <==> !("url" in config && "model" in config && "stream" in config)
    ensures r.error == AttributeError <==> "url" in config && "model" in config && "stream" in config
  {
    if !("url" in config && "model" in config && "stream" in config) then Failure(KeyError)
    else match Menus.ContextAttribute("data", st)
      case Failure(e) => Failure(e)
      case Success(data) => SaveConfiguration(data, config)
  }

  /** `_save_configuration` with the data reached through `get_data()`: url,
      model and stream into the data, the token into the environment. */
  function SaveConfiguration(st: Storage, config: ConfigDict): (r: Result<Storage>)
    ensures r.Success? <==> "url" in config && "model" in config && "stream" in config && "token" in config
                            && config["token"].CStr?
    ensures r.Success? ==> r.value.saved.Some? && r.value.saved.value.Keys == {"url", "model", "stream"}
  {
    if !("url" in config && "model" in config && "stream" in config) then Failure(KeyError)
    else if "token" !in config || !config["token"].CStr? then Failure(KeyError)
    else Success(Storage(Some(map["url" := config["url"], "model" := config["model"], "stream" := config["stream"]]),
                         Some(config["token"].s)))
  }

  /** `get_AI_configuration` as written: it reads `self.context.data`,
      which the context does not have. */
  function GetConfigurationAsWritten(st: Storage): (r: Result<(ConfigDict, Storage)>)
    ensures r == Failure(AttributeError)
  {
    match Menus.ContextAttribute("data", st)
    case Failure(e) => Failure(e)
    case Success(data) => Success(GetConfigurationInPlace(data))
  }

  /** `get_AI_configuration` with the data reached through `get_data()` but
      otherwise as written: the stored dictionary (the default when there is
      none) has the environment's token written into it. The dictionary
      returned is the very object held in the data, so the token ends up in
      the stored configuration too. */
  function GetConfigurationInPlace(st: Storage): (r: (ConfigDict, Storage))
    ensures r.0 == (if st.saved.Some? then st.saved.value else DefaultConfiguration())["token" := CStr(st.envToken.GetOr(""))]
    ensures st.saved.Some? ==> r.1.saved == Some(r.0)
  {
    var token := CStr(st.envToken.GetOr(""));
    match st.saved
    case Some(d) => (d["token" := token], Storage(Some(d["token" := token]), st.envToken))
    case None => (DefaultConfiguration()["token" := token], st)
  }

  /** The same lookup returning a copy: the stored configuration is left as
      it is. */
  function GetConfiguration(st: Storage): (r: (ConfigDict, Storage))
    ensures r.1 == st
    ensures "token" in r.0 && r.0["token"] == CStr(st.envToken.GetOr(""))
  {
    var base := if st.saved.Some? then st.saved.value else DefaultConfiguration();
    (base["token" := CStr(st.envToken.GetOr(""))], st)
  }

  /** Saving a confirmed configuration and reading it back gives it back,
      with the token coming from the environment. */
  lemma SaveThenGet(st: Storage, c: AIConfiguration)
    ensures SaveConfiguration(st, ToDict(c)).Success?
    ensures FromDict(GetConfiguration(SaveConfiguration(st, ToDict(c)).value).0) == Some(c)
    ensures FromDict(GetConfigurationInPlace(SaveConfiguration(st, ToDict(c)).value).0) == Some(c)
  {
  }

  /** The stored configuration keeps no token. */
  predicate TokenNotStored(st: Storage) {
    st.saved.None? || "token" !in st.saved.value
  }

  /** As written, saving a configuration and then reading it (which every
      AI command does) leaves the token in the stored data, which is
      written to the data file. */
  lemma TokenLeaksIntoData(st: Storage, c: AIConfiguration)
    ensures var saved := SaveConfiguration(st, ToDict(c)).value;
            && TokenNotStored(saved)
            && !TokenNotStored(GetConfigurationInPlace(saved).1)
            && GetConfigurationInPlace(saved).1.saved.value["token"] == CStr(c.token)
  {
  }

  /** With the copying lookup, no sequence of saves and reads ever stores
      the token. */
  lemma TokenNeverStored(st: Storage, config: ConfigDict)
    requires TokenNotStored(st)
    ensures TokenNotStored(GetConfiguration(st).1)
    ensures SaveConfiguration(st, config).Success? ==> TokenNotStored(SaveConfiguration(st, config).value)
  {
  }

  /** A configuration the AI commands can use: url, token and model are all
      set. */
  predicate Usable(config: ConfigDict) {
    Truthy(config, "url") && Truthy(config, "token") && Truthy(config, "model")
  }

  /** After configuring, reading the configuration gives exactly the
      dictionary form of what was confirmed. */
  lemma ConfiguredReadsBack(st: Storage, c: AIConfiguration)
    ensures GetConfiguration(Configure(st, Some(c))).0 == ToDict(c)
  {
    var saved := SaveConfiguration(GetConfiguration(st).1, ToDict(c)).value;
    assert saved.saved.value["token" := CStr(c.token)] == ToDict(c);
  }

  /** Any configuration confirmed in the dialog and read back is usable,
      whatever was stored before. */
  lemma ConfirmedUsable(st: Storage, url: string, token: string, model: string, stream: bool)
    requires OnConfirm(url, token, model, stream).Some?
    ensures Usable(GetConfiguration(Configure(st, Some(OnConfirm(url, token, model, stream).value))).0)
  {
    var c := OnConfirm(url, token, model, stream).value;
    ConfirmedIsClean(url, token, model, stream);
    ConfiguredReadsBack(st, c);
    UsableDict(c);
  }

  /** The dictionary form of a configuration with url, token and model set
      is usable. */
  lemma UsableDict(c: AIConfiguration)
    requires c.url != "" && c.token != "" && c.model != ""
    ensures Usable(ToDict(c))
  {
  }

  /** The plugin's `run` as written: reading the configuration raises
      before the dialog opens; the error is caught and shown, and nothing is
      stored. The result is the storage and the error shown, if any. */
  function ConfigureAsWritten(st: Storage, edited: Option<AIConfiguration>): (r: (Storage, Option<Error>))
    ensures r == (st, Some(AttributeError))
  {
    match GetConfigurationAsWritten(st)
    case Failure(e) => (st, Some(e))
    case Success((_, st1)) =>
      match edited
      case None => (st1, None)
      case Some(c) =>
        match SaveConfigurationAsWritten(st1, ToDict(c))
        case Failure(e) => (st1, Some(e))
        case Success(st2) => (st2, None)
  }

  /** `run` with the data reached through `get_data()` but the in-place
      lookup kept. */
  function ConfigureInPlace(st: Storage, edited: Option<AIConfiguration>): (r: Storage)
    ensures edited.Some? ==> FromDict(GetConfiguration(r).0) == edited
  {
    var (_, st1) := GetConfigurationInPlace(st);
    match edited
    case None => st1
    case Some(c) => SaveConfiguration(st1, ToDict(c)).value
  }

  /** With the in-place lookup, merely opening the dialog and cancelling
      writes the environment's token into a stored configuration. */
  lemma CancelStoresToken(st: Storage)
    requires st.saved.Some?
    ensures ConfigureInPlace(st, None).saved == Some(st.saved.value["token" := CStr(st.envToken.GetOr(""))])
    ensures !TokenNotStored(ConfigureInPlace(st, None))
  {
  }

  /** The plugin's `run` with the data reached through `get_data()` and the
      copying lookup: read the configuration, let the user edit it in the
      dialog (`None` when cancelled or never confirmed) and save the
      result. */
  function Configure(st: Storage, edited: Option<AIConfiguration>): (r: Storage)
    ensures edited.None? ==> r == GetConfiguration(st).1
    ensures edited.Some? ==> FromDict(GetConfiguration(r).0) == edited && TokenNotStored(r)
  {
    var (_, st1) := GetConfiguration(st);
    match edited
    case None => st1
    case Some(c) => SaveConfiguration(st1, ToDict(c)).value
  }
}

=== FILE: context_menu.dfy ===
/** The context-menu registry: for each named context, the widget it is
    attached to (if any yet), the menu tree, and the Tk menu built from it;
    plus which context each widget's right click opens.
 */
module ContextMenus {
  import opened Wrappers
  import opened Menus

  /** Widgets are known by identity only. */
  type Widget = nat

  /** `ContextMenuInfo(widget, structure, menu)`: the menu is represented
      by the operations last used to build it. */
  datatype Info = Info(widget: Option<Widget>, structure: seq<Item>, menu: seq<MenuOp>)

  /** The plugin's `context_menus`, and the right-click binding of each
      widget (binding again replaces the previous one). */
  datatype Registry = Registry(menus: map<string, Info>, bindings: map<Widget, string>)

  /** Every context's menu shows its current tree. */
  predicate Synced(r: Registry) {
    forall c :: c in r.menus ==> r.menus[c].menu == ConstructMenu(r.menus[c].structure)
  }

  /** `update_context_menu`: rebuild the context's menu from its tree and,
      when it has a widget, bind the widget's right click to it. */
  function UpdateContextMenu(r: Registry, context: string): (res: Result<Registry>)
    ensures res.Failure? <==> context !in r.menus
    ensures res.Failure? ==> res.error == KeyError
    ensures res.Success? ==> res.value.menus.Keys == r.menus.Keys
                             && res.value.menus[context].structure == r.menus[context].structure
                             && res.value.menus[context].widget == r.menus[context].widget
  {
    if context !in r.menus then Failure(KeyError)
    else
      var info := r.menus[context];
      var rebuilt := info.(menu := ConstructMenu(info.structure));
      var bindings := match info.widget
        case None => r.bindings
        case Some(w) => r.bindings[w := context];
      Success(Registry(r.menus[context := rebuilt], bindings))
  }

  /** After an update the context's menu matches its tree, other contexts
      are untouched, and the binding changes only when there is a widget. */
  lemma UpdateSyncs(r: Registry, context: string, other: string)
    requires Synced(r) && context in r.menus
    ensures var u := UpdateContextMenu(r, context).value;
            && Synced(u)
            && (other != context && other in r.menus ==> u.menus[other] == r.menus[other])
            && (r.menus[context].widget.None? ==> u.bindings == r.bindings)
            && (r.menus[context].widget.Some? ==> u.bindings == r.bindings[r.menus[context].widget.value := context])
  {
  }

  /** `set_context`: a new context starts with an empty tree; an existing
      one keeps its tree and menu and only changes widget. */
  function SetContext(r: Registry, context: string, widget: Option<Widget>): (res: Registry)
    ensures context in res.menus && res.menus.Keys == r.menus.Keys + {context}
    ensures res.menus[context].widget == widget
    ensures context !in r.menus ==> res.menus[context].structure == []
    ensures context in r.menus ==> res.menus[context].structure == r.menus[context].structure
  {
    var info := if context !in r.menus then Info(widget, [], [])
                else r.menus[context].(widget := widget);
    UpdateContextMenu(r.(menus := r.menus[context := info]), context).value
  }

  /** A placeholder context (no widget) binds nothing, and modifications
      made before the widget is attached are kept when it is. */
  lemma SetContextKeepsTree(r: Registry, context: string, widget: Widget)
    requires Synced(r)
    ensures var p := SetContext(r, context, None);
            && Synced(p)
            && p.bindings == r.bindings
            && SetContext(p, context, Some(widget)).menus[context].structure == p.menus[context].structure
            && SetContext(p, context, Some(widget)).bindings == r.bindings[widget := context]
  {
  }

  /** `add_context_menu`: the walk of `add_menu` on the context's own tree;
      an unknown context raises `KeyError`. The result carries the address
      of the node reached. */
  function AddContextMenu(r: Registry, context: string, path: seq<string>): (res: Result<(Registry, seq<nat>)>)
    ensures res.Failure? <==> context !in r.menus
    ensures res.Success? ==> res.value.0.menus.Keys == r.menus.Keys
  {
    if context !in r.menus then Failure(KeyError)
    else
      var (tree, address) := AddMenu(r.menus[context].structure, path);
      var r1 := r.(menus := r.menus[context := r.menus[context].(structure := tree)]);
      Success((UpdateContextMenu(r1, context).value, address))
  }

  /** Appends an item under the node a path leads to. */
  function AddContextItem(r: Registry, context: string, path: seq<string>, item: Item): (res: Result<Registry>)
    ensures res.Failure? <==> context !in r.menus
  {
    var (r1, address) :- AddContextMenu(r, context, path);
    var info := r1.menus[context];
    UpdateContextMenu(r1.(menus := r1.menus[context := info.(structure := AppendAt(info.structure, address, item))]), context)
  }

  /** `add_context_menu_separator` as written, storing `"seperator"`. */
  function AddContextMenuSeparatorAsWritten(r: Registry, context: string, path: seq<string>): (res: Result<Registry>)
    ensures res.Failure? <==> context !in r.menus
  {
    AddContextItem(r, context, path, Marker(StoredSeparatorKind))
  }

  /** `add_context_menu_separator` storing the recognised spelling. */
  function AddContextMenuSeparator(r: Registry, context: string, path: seq<string>): (res: Result<Registry>)
    ensures res.Failure? <==> context !in r.menus
  {
    AddContextItem(r, context, path, Marker(SeparatorKind))
  }

  /** `add_context_menu_command`. */
  function AddContextMenuCommand(r: Registry, context: string, path: seq<string>, options: Options): (res: Result<Registry>)
    requires "type" !in options && "children" !in options
    ensures res.Failure? <==> context !in r.menus
  {
    AddContextItem(r, context, path, CommandItem(options))
  }

  /** Adding an item changes only the context's tree, exactly as the same
      addition to the host's menu tree would, and keeps every menu in step
      with its tree. */
  lemma AddContextItemIsMenuAddition(r: Registry, context: string, path: seq<string>, options: Options, other: string)
    requires Synced(r) && context in r.menus
    requires "type" !in options && "children" !in options
    ensures var res := AddContextMenuCommand(r, context, path, options);
            && res.Success? && Synced(res.value)
            && res.value.menus[context].structure == AddMenuCommand(r.menus[context].structure, path, options)
            && res.value.menus[context].widget == r.menus[context].widget
            && (other != context && other in r.menus ==> res.value.menus[other] == r.menus[other])
    ensures var res := AddContextMenuSeparator(r, context, path);
            && res.Success? && Synced(res.value)
            && res.value.menus[context].structure == Menus.AddMenuSeparator(r.menus[context].structure, path)
  {
  }

  /** As written a context-menu separator never shows; with the recognised
      spelling it does. */
  lemma ContextSeparatorDrawn(r: Registry, context: string, path: seq<string>)
    requires Synced(r) && context in r.menus
    ensures var res := AddContextMenuSeparatorAsWritten(r, context, path);
            && res.Success?
            && SeparatorOps(res.value.menus[context].menu) == SeparatorOps(r.menus[context].menu)
    ensures var res := AddContextMenuSeparator(r, context, path);
            && res.Success?
            && SeparatorOps(res.value.menus[context].menu) == SeparatorOps(r.menus[context].menu) + 1
  {
    SeparatorNeverDrawn(r.menus[context].structure, path);
    SeparatorDrawn(r.menus[context].structure, path);
  }

  /** `_show_context_menu`: the menu popped up, `KeyError` for an unknown
      context. */
  function ShowContextMenu(r: Registry, context: string): (res: Result<seq<MenuOp>>)
    ensures res.Failure? <==> context !in r.menus
    ensures res.Success? && Synced(r) ==> res.value == ConstructMenu(r.menus[context].structure)
  {
    if context !in r.menus then Failure(KeyError) else Success(r.menus[context].menu)
  }
}

=== FILE: drag.dfy ===
/** Mouse dragging on the page canvas: a drag that starts on text draws a
    selection rectangle, any other drag scrolls the page; near an edge a
    text drag also scrolls; a left click shows and clears the selection.
    Also the hit test deciding whether a point is on text, and the text
    under the selection.

    The canvas, its items and its scrolling are represented by the effects
    the handlers ask for; the page's text blocks and text extraction are
    inputs.
 */
module Drag {
  import opened Wrappers
  import opened Text
  import opened Geometry
  import opened JsonValue
  import Tabs
  import FileStates

  // ---------------------------------------------------------------------
  // Hit testing

  /** A block of the page's text dictionary: its `"type"` and its
      `"bbox"`, if present. */
  datatype Block = Block(kind: Json, bbox: Option<seq<real>>)

  /** `block.get("type") == 0` in Python, where `False` and `0.0` equal 0. */
  predicate IsZero(j: Json) {
    j == JInt(0) || j == JReal(0.0) || j == JBool(false)
  }

  /** The block is a text block whose bounding box holds the page point. */
  predicate Hit(b: Block, px: real, py: real) {
    && IsZero(b.kind) && b.bbox.Some? && |b.bbox.value| == 4
    && Rect(b.bbox.value[0], b.bbox.value[1], b.bbox.value[2], b.bbox.value[3]).Contains(px, py)
  }

  /** A text block whose non-empty bbox cannot be unpacked into four
      numbers makes the scan raise. */
  predicate Malformed(b: Block) {
    IsZero(b.kind) && b.bbox.Some? && b.bbox.value != [] && |b.bbox.value| != 4
  }

  /** The loop of `_is_on_text` over the blocks. */
  function Scan(blocks: seq<Block>, px: real, py: real): (r: Result<bool>)
    ensures r.Failure? ==> exists k :: 0 <= k < |blocks| && Malformed(blocks[k])
    decreases |blocks|
  {
    if blocks == [] then Success(false)
    else if Malformed(blocks[0]) then Failure(ValueError)
    else if Hit(blocks[0], px, py) then Success(true)
    else
      Scan(blocks[1..], px, py)
  }

  /** `_is_on_text`: the canvas point, divided by the zoom, lies in some
      text block; reading the blocks failing, a zero zoom or a malformed
      block all give `false`. */
  function IsOnText(blocks: Result<seq<Block>>, zoom: real, x: int, y: int): (r: bool)
    ensures blocks.Failure? || zoom == 0.0 ==> !r
  {
    if blocks.Failure? || zoom == 0.0 then false
    else match Scan(blocks.value, x as real / zoom, y as real / zoom)
      case Success(b) => b
      case Failure(_) => false
  }

  /** `_is_on_text` as written: it first reads `tab.page`, which no tab is
      given (`attrs` are the tab object's own attributes, `state` its
      record, and no record key has that name), so the read raises inside
      the `try` and the answer is `false` wherever the press is. `blocks`
      is what the page's text dictionary would hold. */
  function IsOnTextAsWritten(attrs: map<string, Json>, state: Option<FileStates.Record>,
                             blocks: Result<seq<Block>>, zoom: real, x: int, y: int): (r: bool)
    ensures "page" !in attrs ==> !r
    ensures "page" in attrs ==> r == IsOnText(blocks, zoom, x, y)
  {
    match Tabs.GetAttr(attrs, state, "page")
    case Failure(_) => false
    case Success(_) => IsOnText(blocks, zoom, x, y)
  }

  /** With well-formed blocks the scan finds a hit exactly when there is
      one. */
  lemma {:induction false} ScanFindsHit(blocks: seq<Block>, px: real, py: real)
    requires forall k :: 0 <= k < |blocks| ==> !Malformed(blocks[k])
    ensures Scan(blocks, px, py) == Success(exists k :: 0 <= k < |blocks| && Hit(blocks[k], px, py))
    decreases |blocks|
  {
    if blocks != [] {
      ScanFindsHit(blocks[1..], px, py);
      if !Hit(blocks[0], px, py) {
        if exists k :: 0 <= k < |blocks| && Hit(blocks[k], px, py) {
          var k :| 0 <= k < |blocks| && Hit(blocks[k], px, py);
          assert blocks[1..][k - 1] == blocks[k];
        }
      }
    }
  }

  /** The canvas-side reading of the hit test: at a positive zoom, a point
      is on text exactly when some text block, scaled to the canvas,
      contains it. */
  lemma IsOnTextOnCanvas(blocks: seq<Block>, zoom: real, x: int, y: int)
    requires zoom > 0.0
    requires forall k :: 0 <= k < |blocks| ==> !Malformed(blocks[k])
    ensures IsOnText(Success(blocks), zoom, x, y) <==>
              exists k :: 0 <= k < |blocks| && IsZero(blocks[k].kind) && blocks[k].bbox.Some? && |blocks[k].bbox.value| == 4
                          && BoxOf(blocks[k].bbox.value).Scale(zoom).Contains(x as real, y as real)
  {
    ScanFindsHit(blocks, x as real / zoom, y as real / zoom);
    forall k | 0 <= k < |blocks| && blocks[k].bbox.Some? && |blocks[k].bbox.value| == 4
      ensures BoxOf(blocks[k].bbox.value).Contains(x as real / zoom, y as real / zoom)
              <==> BoxOf(blocks[k].bbox.value).Scale(zoom).Contains(x as real, y as real)
    {
      var b := BoxOf(blocks[k].bbox.value);
      DivideScaleRoundTrip(b, zoom);
      DivideKeepsContainment(b.Scale(zoom), x as real, y as real, zoom);
    }
  }

  function BoxOf(bbox: seq<real>): Rect
    requires |bbox| == 4
  {
    Rect(bbox[0], bbox[1], bbox[2], bbox[3])
  }

  // ---------------------------------------------------------------------
  // The selected text

  /** What `get_selected_text` reads from the tab: its selection attribute
      (`None` when the tab has none yet) and its zoom. */
  datatype DragTab = DragTab(selection: Option<Option<Rect>>, zoom: real)

  /** `get_selected_text`: the page's text clipped to the selection divided
      by the zoom; `""` without a tab or a selection. */
  function GetSelectedText(tab: Option<DragTab>, getText: Rect -> string): (r: Result<string>)
    ensures tab.None? || tab.value.selection.None? || tab.value.selection.value.None? ==> r == Success("")
    ensures r.Failure? <==> tab.Some? && tab.value.selection.Some? && tab.value.selection.value.Some? && tab.value.zoom == 0.0
  {
    if tab.None? || tab.value.selection.None? || tab.value.selection.value.None? then Success("")
    else if tab.value.zoom == 0.0 then Failure(ZeroDivisionError)
    else Success(getText(tab.value.selection.value.value.Divide(tab.value.zoom)))
  }

  /** The clip asked for is the page rectangle that the zoom maps back onto
      the canvas selection. */
  lemma SelectedTextClip(sel: Rect, zoom: real, getText: Rect -> string)
    requires zoom != 0.0
    ensures exists clip: Rect :: clip.Scale(zoom) == sel
              && GetSelectedText(Some(DragTab(Some(Some(sel)), zoom)), getText) == Success(getText(clip))
  {
    DivideScaleRoundTrip(sel, zoom);
    var clip := sel.Divide(zoom);
    assert clip.Scale(zoom) == sel;
  }

  /** `get_selected_text` as written: with a selection it reads
      `current_tab.page` before dividing by the zoom, so it raises
      `AttributeError`; without one it answers `""` as before. */
  function GetSelectedTextAsWritten(tab: Option<DragTab>, attrs: map<string, Json>, state: Option<FileStates.Record>,
                                    getText: Rect -> string): (r: Result<string>)
    ensures "page" !in attrs ==>
              && (r.Failure? <==> tab.Some? && tab.value.selection.Some? && tab.value.selection.value.Some?)
              && (r.Failure? ==> r.error == AttributeError)
              && (r.Success? ==> r.value == "")
    ensures "page" in attrs ==> r == GetSelectedText(tab, getText)
  {
    if tab.None? || tab.value.selection.None? || tab.value.selection.value.None? then Success("")
    else match Tabs.GetAttr(attrs, state, "page")
      case Failure(e) => Failure(e)
      case Success(_) => GetSelectedText(tab, getText)
  }

  // ---------------------------------------------------------------------
  // The drag handlers

  /** `_drag_state` (the tab's `_drag_selection_rect` always equals its
      `selection_rect`). */
  datatype DragState = DragState(start: Option<(int, int)>, textMode: bool, selection: Option<Rect>, canvasId: Option<nat>)

  const Initial: DragState := DragState(None, false, None, None)

  /** What the handlers ask of the canvas and the screen. */
  datatype Effect =
    | DeleteItem(id: nat)
    | DrawRect(id: nat, rect: Rect)
    | ScrollX(units: int)
    | ScrollY(units: int)
    | ShowText(text: string)

  /** The canvas's size on screen and the size of its content. */
  datatype CanvasSize = CanvasSize(width: int, height: int, contentWidth: int, contentHeight: int)

  const EdgeThreshold: int := 30
  const EdgeStep: int := 3

  /** `_check_edge_scroll`: within 30 pixels of an edge, scroll three units
      towards it, on an axis whose content is larger than the canvas. */
  function EdgeScroll(x: int, y: int, c: CanvasSize): (effects: seq<Effect>)
    ensures |effects| <= 2
    ensures forall e :: e in effects ==> (e.ScrollX? || e.ScrollY?)
    ensures ScrollX(-EdgeStep) in effects <==> x < EdgeThreshold && c.contentWidth > c.width
    ensures ScrollX(EdgeStep) in effects <==> !(x < EdgeThreshold) && x > c.width - EdgeThreshold && c.contentWidth > c.width
    ensures ScrollY(-EdgeStep) in effects <==> y < EdgeThreshold && c.contentHeight > c.height
    ensures ScrollY(EdgeStep) in effects <==> !(y < EdgeThreshold) && y > c.height - EdgeThreshold && c.contentHeight > c.height
    ensures forall e :: e in effects && e.ScrollX? ==> e.units == EdgeStep || e.units == -EdgeStep
  {
    HorizontalScroll(x, c) + VerticalScroll(y, c)
  }

  function HorizontalScroll(x: int, c: CanvasSize): seq<Effect> {
    if x < EdgeThreshold && c.contentWidth > c.width then [ScrollX(-EdgeStep)]
    else if x > c.width - EdgeThreshold && c.contentWidth > c.width then [ScrollX(EdgeStep)]
    else []
  }

  function VerticalScroll(y: int, c: CanvasSize): seq<Effect> {
    if y < EdgeThreshold && c.contentHeight > c.height then [ScrollY(-EdgeStep)]
    else if y > c.height - EdgeThreshold && c.contentHeight > c.height then [ScrollY(EdgeStep)]
    else []
  }

  /** Within 30 pixels of a vertical edge; `_check_edge_scroll` reads the
      content width only then (Python's `and` short-circuits). */
  predicate NearSide(x: int, c: CanvasSize) {
    x < EdgeThreshold || x > c.width - EdgeThreshold
  }

  /** Within 30 pixels of a horizontal edge. */
  predicate NearTopOrBottom(y: int, c: CanvasSize) {
    y < EdgeThreshold || y > c.height - EdgeThreshold
  }

  /** `_check_edge_scroll` as written: the content size is read as
      `tab.canvas_width` and `tab.canvas_height`, names no tab is given, so
      near an edge the read raises `AttributeError` (after any horizontal
      scroll already done). The result is the scrolls done and the error
      raised, if any. */
  function EdgeScrollAsWritten(attrs: map<string, Json>, state: Option<FileStates.Record>,
                               x: int, y: int, c: CanvasSize): (r: (seq<Effect>, Option<Error>))
    ensures "canvas_width" !in attrs && "canvas_height" !in attrs ==>
              && r.0 == []
              && (r.1.Some? <==> NearSide(x, c) || NearTopOrBottom(y, c))
              && (r.1.Some? ==> r.1.value == AttributeError)
    ensures "canvas_width" in attrs && "canvas_height" in attrs ==> r == (EdgeScroll(x, y, c), None)
  {
    var wide := Tabs.GetAttr(attrs, state, "canvas_width");
    var tall := Tabs.GetAttr(attrs, state, "canvas_height");
    assert "canvas_width" !in attrs ==> wide == Failure(AttributeError);
    assert "canvas_height" !in attrs ==> tall == Failure(AttributeError);
    if NearSide(x, c) && wide.Failure? then ([], Some(wide.error))
    else if NearTopOrBottom(y, c) && tall.Failure? then (HorizontalScroll(x, c), Some(tall.error))
    else (EdgeScroll(x, y, c), None)
  }

  /** `on_mouse_down`: remember where the press was and whether it was on
      text. */
  function MouseDown(st: DragState, x: int, y: int, onText: bool): (r: DragState)
    ensures r.start == Some((x, y)) && r.textMode == onText
    ensures r.selection == st.selection && r.canvasId == st.canvasId
  {
    st.(start := Some((x, y)), textMode := onText)
  }

  /** `on_mouse_drag`: with no press recorded nothing happens; in text mode
      the old rectangle is replaced by a new one (`newId` is the id the
      canvas gives it) and the normalised rectangle becomes the selection;
      otherwise the page scrolls by a tenth of the distance from the
      press point on each axis that moved (Python's `//` floors, as
      Dafny's division does for a positive divisor). */
  function MouseDrag(st: DragState, x: int, y: int, newId: nat, c: CanvasSize): (r: (DragState, seq<Effect>))
    ensures st.start.None? ==> r == (st, [])
    ensures st.start.Some? && st.textMode ==>
              var (x1, y1) := st.start.value;
              && r.0.selection == Some(Normalise(x1 as real, y1 as real, x as real, y as real))
              && r.0.canvasId == Some(newId)
              && DrawRect(newId, r.0.selection.value) in r.1
    ensures st.start.Some? && !st.textMode ==> r.0 == st
  {
    match st.start
    case None => (st, [])
    case Some((x1, y1)) =>
      if st.textMode then
        var rect := Normalise(x1 as real, y1 as real, x as real, y as real);
        var delete := if st.canvasId.Some? then [DeleteItem(st.canvasId.value)] else [];
        (st.(canvasId := Some(newId), selection := Some(rect)),
         delete + [DrawRect(newId, rect)] + EdgeScroll(x, y, c))
      else
        var dx := x1 - x;
        var dy := y1 - y;
        (st, (if dx != 0 then [ScrollX(dx / 10)] else []) + (if dy != 0 then [ScrollY(dy / 10)] else []))
  }

  /** A page drag scrolls each axis by the floor of a tenth of the distance
      moved back towards the press point, and only an axis that moved. */
  lemma PageDragScrolls(st: DragState, x: int, y: int, newId: nat, c: CanvasSize)
    requires st.start.Some? && !st.textMode
    ensures var (x1, y1) := st.start.value;
            var effects := MouseDrag(st, x, y, newId, c).1;
            && (x1 == x <==> forall e :: e in effects ==> !e.ScrollX?)
            && (y1 == y <==> forall e :: e in effects ==> !e.ScrollY?)
            && (forall e :: e in effects && e.ScrollX? ==> e.units * 10 <= x1 - x < e.units * 10 + 10)
            && (forall e :: e in effects && e.ScrollY? ==> e.units * 10 <= y1 - y < e.units * 10 + 10)
  {
    var (x1, y1) := st.start.value;
    var dx, dy := x1 - x, y1 - y;
    var horizontal := if dx != 0 then [ScrollX(dx / 10)] else [];
    var vertical := if dy != 0 then [ScrollY(dy / 10)] else [];
    assert MouseDrag(st, x, y, newId, c).1 == horizontal + vertical;
    FloorTenth(dx);
    FloorTenth(dy);
    if dx != 0 {
      assert ScrollX(dx / 10) in horizontal + vertical;
    }
    if dy != 0 {
      assert ScrollY(dy / 10) in horizontal + vertical;
    }
    assert forall e: Effect :: e in horizontal + vertical && e.ScrollX? ==> e == ScrollX(dx / 10);
    assert forall e: Effect :: e in horizontal + vertical && e.ScrollY? ==> e == ScrollY(dy / 10);
  }

  lemma FloorTenth(d: int)
    ensures (d / 10) * 10 <= d < (d / 10) * 10 + 10
  {
  }

  /** `on_mouse_up`: forget the press. */
  function MouseUp(st: DragState): (r: DragState)
    ensures r.start.None? && r.(start := st.start) == st
  {
    st.(start := None)
  }

  /** `on_left_click`: in text mode with a rectangle drawn, show the
      selected text (when it is not blank), delete the rectangle and clear
      the selection. */
  function LeftClick(st: DragState, text: string): (r: (DragState, seq<Effect>))
    ensures st.textMode && st.canvasId.Some? && st.selection.Some? ==>
              && r.0 == st.(canvasId := None, selection := None)
              && DeleteItem(st.canvasId.value) in r.1
              && (ShowText(text) in r.1 <==> Strip(text) != "")
    ensures !(st.textMode && st.canvasId.Some? && st.selection.Some?) ==> r == (st, [])
  {
    if st.textMode && st.canvasId.Some? && st.selection.Some? then
      ((st.(canvasId := None, selection := None)),
       (if Strip(text) != "" then [ShowText(text)] else []) + [DeleteItem(st.canvasId.value)])
    else (st, [])
  }

  // ---------------------------------------------------------------------
  // Event bindings

  datatype Handler = OnMouseDown | OnMouseDrag | OnMouseUp | OnLeftClick
  datatype TkEvent = Button1 | B1Motion | ButtonRelease1

  /** The handlers bound to each event, run in order. */
  type Bindings = map<TkEvent, seq<Handler>>

  /** `widget.bind(event, handler)`: replaces what the event had. */
  function Bind(b: Bindings, e: TkEvent, h: Handler): (r: Bindings)
    ensures e in r && r[e] == [h]
    ensures forall other :: other != e ==> (other in r <==> other in b) && (other in b ==> r[other] == b[other])
  {
    b[e := [h]]
  }

  /** `widget.bind(event, handler, add="+")`: runs after what the event had. */
  function BindAdd(b: Bindings, e: TkEvent, h: Handler): (r: Bindings)
    ensures e in r && r[e] == (if e in b then b[e] else []) + [h]
  {
    b[e := (if e in b then b[e] else []) + [h]]
  }

  /** `setup_drag_event` as written: the left-click handler is bound to
      `<Button-1>` after the press handler, replacing it. */
  function SetupAsWritten(): (b: Bindings)
    ensures Button1 in b && B1Motion in b && ButtonRelease1 in b
    ensures b[Button1] == [OnLeftClick] && b[B1Motion] == [OnMouseDrag] && b[ButtonRelease1] == [OnMouseUp]
  {
    Bind(Bind(Bind(Bind(map[], Button1, OnMouseDown), B1Motion, OnMouseDrag), ButtonRelease1, OnMouseUp),
         Button1, OnLeftClick)
  }

  /** The bindings with the left-click handler added after the press
      handler. */
  function Setup(): (b: Bindings)
    ensures Button1 in b && B1Motion in b && ButtonRelease1 in b
    ensures b[Button1] == [OnMouseDown, OnLeftClick] && b[B1Motion] == [OnMouseDrag] && b[ButtonRelease1] == [OnMouseUp]
  {
    BindAdd(Bind(Bind(Bind(map[], Button1, OnMouseDown), B1Motion, OnMouseDrag), ButtonRelease1, OnMouseUp),
            Button1, OnLeftClick)
  }

  /** A mouse action, with what the environment answers: whether the press
      is on text and the text under the selection, or the id of the next
      canvas item and the canvas size. */
  datatype Input =
    | Press(x: int, y: int, onText: bool, selectedText: string)
    | Motion(x: int, y: int, newId: nat, canvas: CanvasSize)
    | Release

  function EventOf(i: Input): TkEvent {
    match i
    case Press(_, _, _, _) => Button1
    case Motion(_, _, _, _) => B1Motion
    case Release => ButtonRelease1
  }

  /** One handler run on one input. */
  function RunHandler(h: Handler, st: DragState, i: Input): (DragState, seq<Effect>)
  {
    match (h, i)
    case (OnMouseDown, Press(x, y, onText, _)) => (MouseDown(st, x, y, onText), [])
    case (OnLeftClick, Press(_, _, _, text)) => LeftClick(st, text)
    case (OnMouseDrag, Motion(x, y, newId, c)) => MouseDrag(st, x, y, newId, c)
    case (OnMouseUp, Release) => (MouseUp(st), [])
    case _ => (st, [])
  }

  /** The handlers bound to the event, in order. */
  function RunHandlers(hs: seq<Handler>, st: DragState, i: Input): (DragState, seq<Effect>)
    decreases |hs|
  {
    if hs == [] then (st, [])
    else
      var (st1, e1) := RunHandler(hs[0], st, i);
      var (st2, e2) := RunHandlers(hs[1..], st1, i);
      (st2, e1 + e2)
  }

  /** Dispatching a sequence of inputs through the bindings. */
  function Dispatch(b: Bindings, st: DragState, inputs: seq<Input>): (r: (DragState, seq<Effect>))
    ensures (forall i :: 0 <= i < |inputs| ==> EventOf(inputs[i]) !in b) ==> r == (st, [])
    decreases |inputs|
  {
    if inputs == [] then (st, [])
    else
      var e := EventOf(inputs[0]);
      var (st1, e1) := RunHandlers(if e in b then b[e] else [], st, inputs[0]);
      var (st2, e2) := Dispatch(b, st1, inputs[1..]);
      // an input with no handler leaves the state and effects alone
      var unbound := forall i :: 0 <= i < |inputs| ==> EventOf(inputs[i]) !in b;
      assert e !in b ==> st1 == st && e1 == [];
      assert unbound ==> forall j :: 0 <= j < |inputs[1..]| ==> EventOf(inputs[1..][j]) !in b by {
        forall j | 0 <= j < |inputs[1..]| ensures inputs[1..][j] == inputs[j + 1] { }
      }
      assert unbound ==> st2 == st && e1 + e2 == [];
      (st2, e1 + e2)
  }

  /** No press recorded and nothing selected or drawn. */
  predicate Idle(st: DragState) {
    st.start.None? && st.selection.None? && st.canvasId.None?
  }

  /** As written the press handler never runs, so no input ever selects,
      draws or scrolls anything: the plugin does nothing at all. */
  lemma {:induction false} AsWrittenDragIsInert(st: DragState, inputs: seq<Input>)
    requires Idle(st)
    ensures Idle(Dispatch(SetupAsWritten(), st, inputs).0)
    ensures Dispatch(SetupAsWritten(), st, inputs).1 == []
    decreases |inputs|
  {
    if inputs != [] {
      var b := SetupAsWritten();
      assert b[Button1] == [OnLeftClick] && b[B1Motion] == [OnMouseDrag] && b[ButtonRelease1] == [OnMouseUp];
      var e := EventOf(inputs[0]);
      var (st1, e1) := RunHandlers(b[e], st, inputs[0]);
      assert Idle(st1) && e1 == [];
      AsWrittenDragIsInert(st1, inputs[1..]);
    }
  }

  /** With both press handlers bound, pressing on text and dragging selects
      the rectangle between the two points and draws it; pressing off text
      and dragging scrolls the page instead. */
  lemma DragSelects(x1: int, y1: int, x2: int, y2: int, text: string, newId: nat, c: CanvasSize)
    ensures var (st, effects) := Dispatch(Setup(), Initial, [Press(x1, y1, true, text), Motion(x2, y2, newId, c)]);
            var rect := Normalise(x1 as real, y1 as real, x2 as real, y2 as real);
            && st.selection == Some(rect)
            && st.canvasId == Some(newId)
            && DrawRect(newId, rect) in effects
    ensures var (st, effects) := Dispatch(Setup(), Initial, [Press(x1, y1, false, text), Motion(x2, y2, newId, c)]);
            && st.selection.None?
            && (x1 != x2 ==> ScrollX((x1 - x2) / 10) in effects)
            && (y1 != y2 ==> ScrollY((y1 - y2) / 10) in effects)
  {
    PressThenDrag(x1, y1, true, text, x2, y2, newId, c);
    PressThenDrag(x1, y1, false, text, x2, y2, newId, c);
    TextDragAfterPress(x1, y1, x2, y2, newId, c);
    PageDragAfterPress(x1, y1, x2, y2, newId, c);
  }

  /** Even with both press handlers bound, the hit test as written makes
      every press a page drag: a press and a drag never select and only
      scroll. */
  lemma PressNeverOnTextAsWritten(attrs: map<string, Json>, state: Option<FileStates.Record>,
                                   blocks: Result<seq<Block>>, zoom: real,
                                   x1: int, y1: int, x2: int, y2: int, text: string, newId: nat, c: CanvasSize)
    requires "page" !in attrs
    ensures var onText := IsOnTextAsWritten(attrs, state, blocks, zoom, x1, y1);
            var (st, effects) := Dispatch(Setup(), Initial, [Press(x1, y1, onText, text), Motion(x2, y2, newId, c)]);
            && st.selection.None? && st.canvasId.None?
            && (forall e :: e in effects ==> e.ScrollX? || e.ScrollY?)
  {
    var onText := IsOnTextAsWritten(attrs, state, blocks, zoom, x1, y1);
    assert !onText;
    PressThenDrag(x1, y1, false, text, x2, y2, newId, c);
    var s1 := MouseDown(Initial, x1, y1, false);
    assert s1.start == Some((x1, y1)) && !s1.textMode;
    var sx: seq<Effect> := if x1 - x2 != 0 then [ScrollX((x1 - x2) / 10)] else [];
    var sy: seq<Effect> := if y1 - y2 != 0 then [ScrollY((y1 - y2) / 10)] else [];
    assert MouseDrag(s1, x2, y2, newId, c).1 == sx + sy;
  }

  /** A drag after a press on text selects the rectangle between the two
      points and draws it. */
  lemma TextDragAfterPress(x1: int, y1: int, x2: int, y2: int, newId: nat, c: CanvasSize)
    ensures var (st, effects) := MouseDrag(MouseDown(Initial, x1, y1, true), x2, y2, newId, c);
            var rect := Normalise(x1 as real, y1 as real, x2 as real, y2 as real);
            st.selection == Some(rect) && st.canvasId == Some(newId) && DrawRect(newId, rect) in effects
  {
    var s1 := MouseDown(Initial, x1, y1, true);
    assert s1.start == Some((x1, y1)) && s1.textMode;
  }

  /** A drag after a press off text scrolls each axis that moved and
      selects nothing. */
  lemma PageDragAfterPress(x1: int, y1: int, x2: int, y2: int, newId: nat, c: CanvasSize)
    ensures var (st, effects) := MouseDrag(MouseDown(Initial, x1, y1, false), x2, y2, newId, c);
            && st.selection.None?
            && (x1 != x2 ==> ScrollX((x1 - x2) / 10) in effects)
            && (y1 != y2 ==> ScrollY((y1 - y2) / 10) in effects)
  {
    var s1 := MouseDown(Initial, x1, y1, false);
    assert s1.start == Some((x1, y1)) && !s1.textMode && s1.selection.None?;
    var effects := MouseDrag(s1, x2, y2, newId, c).1;
    var sx: seq<Effect> := if x1 - x2 != 0 then [ScrollX((x1 - x2) / 10)] else [];
    var sy: seq<Effect> := if y1 - y2 != 0 then [ScrollY((y1 - y2) / 10)] else [];
    assert effects == sx + sy;
  }

  /** From the initial state, a press and a drag run the press handler and
      then the drag handler. */
  lemma PressThenDrag(x1: int, y1: int, onText: bool, text: string, x2: int, y2: int, newId: nat, c: CanvasSize)
    ensures Dispatch(Setup(), Initial, [Press(x1, y1, onText, text), Motion(x2, y2, newId, c)])
            == MouseDrag(MouseDown(Initial, x1, y1, onText), x2, y2, newId, c)
  {
    var b := Setup();
    assert b[Button1] == [OnMouseDown, OnLeftClick] && b[B1Motion] == [OnMouseDrag];
    var press := Press(x1, y1, onText, text);
    var motion := Motion(x2, y2, newId, c);
    var s1 := MouseDown(Initial, x1, y1, onText);
    assert [OnMouseDown, OnLeftClick][1..] == [OnLeftClick] && [OnLeftClick][1..] == [] && [OnMouseDrag][1..] == [];
    assert LeftClick(s1, text) == (s1, []);
    assert RunHandlers([OnLeftClick], s1, press) == (s1, [] + []);
    assert RunHandler(OnMouseDown, Initial, press) == (s1, []);
    assert RunHandlers([OnMouseDown, OnLeftClick], Initial, press) == (s1, [] + ([] + []));
    assert RunHandler(OnMouseDrag, s1, motion) == MouseDrag(s1, x2, y2, newId, c);
    var r := MouseDrag(s1, x2, y2, newId, c);
    assert RunHandlers([OnMouseDrag], s1, motion) == (r.0, r.1 + []);
    assert Dispatch(b, r.0, []) == (r.0, []);
    var inputs := [press, motion];
    assert inputs[1..] == [motion] && inputs[1..][1..] == [];
    assert Dispatch(b, s1, [motion]) == (r.0, r.1 + [] + []);
    assert r.1 + [] + [] == r.1;
    assert inputs[0] == press && EventOf(press) == Button1 && Button1 in b;
    assert Dispatch(b, Initial, inputs) == (r.0, ([] + ([] + [])) + r.1);
    assert ([] + ([] + [])) + r.1 == r.1;
  }

  /** With both bound, a press on text while a selection is shown clears it
      before the next drag starts a new one; a press elsewhere starts a page
      drag and leaves the selection drawn, since the press handler has
      already left text mode when the click handler runs. */
  lemma PressClearsSelection(st: DragState, x: int, y: int, onText: bool, text: string)
    requires st.textMode && st.canvasId.Some? && st.selection.Some?
    ensures var (st1, effects) := Dispatch(Setup(), st, [Press(x, y, onText, text)]);
            && st1.start == Some((x, y)) && st1.textMode == onText
            && (onText ==> st1.selection.None? && st1.canvasId.None? && DeleteItem(st.canvasId.value) in effects)
            && (!onText ==> st1.selection == st.selection && st1.canvasId == st.canvasId && effects == [])
  {
    var b := Setup();
    assert b[Button1] == [OnMouseDown, OnLeftClick];
    var press := Press(x, y, onText, text);
    var s1 := MouseDown(st, x, y, onText);
    var r := LeftClick(s1, text);
    assert RunHandler(OnMouseDown, st, press) == (s1, []);
    assert RunHandler(OnLeftClick, s1, press) == r;
    assert [OnMouseDown, OnLeftClick][1..] == [OnLeftClick] && [OnLeftClick][1..] == [];
    assert RunHandlers([OnLeftClick], s1, press) == (r.0, r.1 + []);
    assert RunHandlers([OnMouseDown, OnLeftClick], st, press) == (r.0, [] + (r.1 + []));
    assert Dispatch(b, r.0, []) == (r.0, []);
    assert [press][1..] == [];
    assert [press][0] == press && EventOf(press) == Button1 && Button1 in b;
    assert Dispatch(b, st, [press]) == (r.0, ([] + (r.1 + [])) + []);
    assert ([] + (r.1 + [])) + [] == r.1;
  }
}

=== FILE: file_state.dfy ===
/** The per-document view-state record (`FileState`) and its bookmarks
    (`Favorite`), with their dictionary serialisation.

    Python does not check the types of the values it copies out of the
    dictionary, so every field that the loader copies verbatim is kept as a
    `Json` value. Only `scroll_pos` and `window_pos` are converted (with
    `float` and `int`) and can therefore fail on malformed input.
 */
module FileStates {
  import opened Wrappers
  import opened JsonValue
  import Text

  /** One bookmark: a page number and a name, both stored as given. */
  datatype Favorite = Favorite(pageNo: Json, name: Json)

  /** The layouts the record documents; `FavoriteFromJson` and
      `FromJson` do not check against them. */
  const DisplayModes: seq<string> := ["single page", "continuous", "facing", "book view"]
  const Rotations: seq<int> := [0, 90, 180, 270]

  /** `Favorite.from_json`: `page_no` is required, `name` defaults to "".
      The `"page_no" in json_obj` test runs on whatever the value is: a
      substring test on a string and a membership test on a list, either
      followed, when it succeeds, by indexing with a string (`TypeError`);
      any other value does not support `in` (`TypeError`). */
  function FavoriteFromJson(j: Json): (r: Result<Favorite>)
    ensures j.JObj? && "page_no" !in j.fields ==> r == Failure(ValueError)
    ensures j.JObj? && "page_no" in j.fields ==>
              r.Success? && r.value.pageNo == j.fields["page_no"]
    ensures j.JObj? && "page_no" in j.fields && "name" !in j.fields ==>
              r == Success(Favorite(j.fields["page_no"], JStr("")))
    ensures !j.JObj? ==> r.Failure?
    ensures j.JStr? ==> r == Failure(if Text.Contains(j.s, "page_no") then TypeError else ValueError)
    ensures j.JList? ==> r == Failure(if JStr("page_no") in j.items then TypeError else ValueError)
    ensures !(j.JObj? || j.JStr? || j.JList?) ==> r == Failure(TypeError)
  {
    match j
    case JObj(m) =>
      if "page_no" !in m then Failure(ValueError)
      else Success(Favorite(m["page_no"], Get(m, "name", JStr(""))))
    case JStr(s) => Failure(if Text.Contains(s, "page_no") then TypeError else ValueError)
    case JList(items) => Failure(if JStr("page_no") in items then TypeError else ValueError)
    case _ => Failure(TypeError)
  }

  /** `Favorite.to_json` */
  function FavoriteToJson(f: Favorite): (j: Json)
    ensures j.JObj? && j.fields.Keys == {"name", "page_no"}
  {
    JObj(map["name" := f.name, "page_no" := f.pageNo])
  }

  /** Loading a saved bookmark gives the bookmark back. */
  lemma FavoriteRoundTrip(f: Favorite)
    ensures FavoriteFromJson(FavoriteToJson(f)) == Success(f)
  {
  }

  /** The view state of one document. */
  datatype FileState = FileState(
    filePath: Json,
    favorites: seq<Favorite>,
    isPinned: Json,
    isMissing: Json,
    openCount: Json,
    useDefaultState: Json,
    displayMode: Json,
    scrollPos: (real, real),
    pageNo: Json,
    zoom: Json,
    rotation: Json,
    windowState: Json,
    windowPos: (int, int, int, int),
    showToc: Json,
    sidebarDx: Json,
    displayR2l: Json,
    reparseIdx: Json
  )

  /** `FileState(file_path)`: the documented defaults. `page_no` starts at 1
      although the tab that displays it indexes pages from 0. */
  function NewFileState(filePath: Json): (s: FileState)
    ensures s.filePath == filePath && s.favorites == []
    ensures s.openCount == JInt(0) && s.pageNo == JInt(1) && s.zoom == JReal(1.0)
    ensures s.displayMode == JStr("continuous") && s.scrollPos == (0.0, 0.0)
    ensures s.rotation == JInt(0) && s.sidebarDx == JInt(572)
  {
    FileState(
      filePath := filePath,
      favorites := [],
      isPinned := JBool(false),
      isMissing := JBool(false),
      openCount := JInt(0),
      useDefaultState := JBool(false),
      displayMode := JStr("continuous"),
      scrollPos := (0.0, 0.0),
      pageNo := JInt(1),
      zoom := JReal(1.0),
      rotation := JInt(0),
      windowState := JInt(0),
      windowPos := (0, 0, 0, 0),
      showToc := JBool(false),
      sidebarDx := JInt(572),
      displayR2l := JBool(false),
      reparseIdx := JInt(0)
    )
  }

  /** The 17 keys of a saved record, each named as in the data file. */
  datatype Key =
    | FilePath | Favorites | IsPinned | IsMissing | OpenCount
    | UseDefaultState | DisplayMode | ScrollPos | PageNo | Zoom
    | Rotation | WindowState | WindowPos | ShowToc | SidebarDx
    | DisplayR2l | ReparseIdx
  {
    function Name(): string {
      match this
      case FilePath => "file_path"
      case Favorites => "favorites"
      case IsPinned => "is_pinned"
      case IsMissing => "is_missing"
      case OpenCount => "open_count"
      case UseDefaultState => "use_default_state"
      case DisplayMode => "display_mode"
      case ScrollPos => "scroll_pos"
      case PageNo => "page_no"
      case Zoom => "zoom"
      case Rotation => "rotation"
      case WindowState => "window_state"
      case WindowPos => "window_pos"
      case ShowToc => "show_toc"
      case SidebarDx => "sidebar_dx"
      case DisplayR2l => "display_r2l"
      case ReparseIdx => "reparse_idx"
    }

    /** The keys whose values `from_json` copies without conversion. */
    predicate Verbatim() {
      !(FilePath? || Favorites? || ScrollPos? || WindowPos?)
    }
  }

  /** The key spelled `name`, if `name` is one of the 17 field names. */
  function KeyNamed(name: string): (r: Option<Key>)
    ensures r.Some? ==> r.value.Name() == name
  {
    if name == "file_path" then Some(FilePath)
    else if name == "favorites" then Some(Favorites)
    else if name == "is_pinned" then Some(IsPinned)
    else if name == "is_missing" then Some(IsMissing)
    else if name == "open_count" then Some(OpenCount)
    else if name == "use_default_state" then Some(UseDefaultState)
    else if name == "display_mode" then Some(DisplayMode)
    else if name == "scroll_pos" then Some(ScrollPos)
    else if name == "page_no" then Some(PageNo)
    else if name == "zoom" then Some(Zoom)
    else if name == "rotation" then Some(Rotation)
    else if name == "window_state" then Some(WindowState)
    else if name == "window_pos" then Some(WindowPos)
    else if name == "show_toc" then Some(ShowToc)
    else if name == "sidebar_dx" then Some(SidebarDx)
    else if name == "display_r2l" then Some(DisplayR2l)
    else if name == "reparse_idx" then Some(ReparseIdx)
    else None
  }

  /** Every field name is recognised as its own key. */
  lemma KeyNamedName(k: Key)
    ensures KeyNamed(k.Name()) == Some(k)
  {
    if k in {FilePath, Favorites, IsPinned, IsMissing, OpenCount, UseDefaultState} {
      KeyNamedFirst(k);
    } else if k in {DisplayMode, ScrollPos, PageNo, Zoom, Rotation, WindowState} {
      KeyNamedMiddle(k);
    } else {
      KeyNamedLast(k);
    }
  }

  /** The first six names tested. */
  lemma KeyNamedFirst(k: Key)
    requires k in {FilePath, Favorites, IsPinned, IsMissing, OpenCount, UseDefaultState}
    ensures KeyNamed(k.Name()) == Some(k)
  {
    match k
    case FilePath =>
    case Favorites =>
    case IsPinned =>
    case IsMissing =>
    case OpenCount =>
    case UseDefaultState =>
  }

  /** The next six names tested. */
  lemma KeyNamedMiddle(k: Key)
    requires k in {DisplayMode, ScrollPos, PageNo, Zoom, Rotation, WindowState}
    ensures KeyNamed(k.Name()) == Some(k)
  {
    match k
    case DisplayMode =>
    case ScrollPos =>
    case PageNo =>
    case Zoom =>
    case Rotation =>
    case WindowState =>
  }

  /** The last five names tested. */
  lemma KeyNamedLast(k: Key)
    requires k in {WindowPos, ShowToc, SidebarDx, DisplayR2l, ReparseIdx}
    ensures KeyNamed(k.Name()) == Some(k)
  {
    match k
    case WindowPos =>
    case ShowToc =>
    case SidebarDx =>
    case DisplayR2l =>
    case ReparseIdx =>
  }

  /** A saved record: the dictionary `to_json` produces and `from_json`
      reads, keyed by field name. */
  type Record = map<Key, Json>

  const AllKeys: set<Key> := {
    FilePath, Favorites, IsPinned, IsMissing, OpenCount, UseDefaultState,
    DisplayMode, ScrollPos, PageNo, Zoom, Rotation, WindowState, WindowPos,
    ShowToc, SidebarDx, DisplayR2l, ReparseIdx
  }

  /** Reading any key of a saved record finds the field. */
  lemma GetKeyToJson(s: FileState, k: Key)
    ensures k in ToJson(s) && ToJson(s)[k] == Field(s, k)
  {
    match k
    case FilePath =>
    case Favorites =>
    case IsPinned =>
    case IsMissing =>
    case OpenCount =>
    case UseDefaultState =>
    case DisplayMode =>
    case ScrollPos =>
    case PageNo =>
    case Zoom =>
    case Rotation =>
    case WindowState =>
    case WindowPos =>
    case ShowToc =>
    case SidebarDx =>
    case DisplayR2l =>
    case ReparseIdx =>
  }

  function FavoritesToJson(fs: seq<Favorite>): (js: seq<Json>)
    ensures |js| == |fs|
    ensures forall i :: 0 <= i < |fs| ==> js[i] == FavoriteToJson(fs[i])
  {
    if |fs| == 0 then [] else [FavoriteToJson(fs[0])] + FavoritesToJson(fs[1..])
  }

  /** `[Favorite.from_json(fav) for fav in items]`: the first failing item
      decides the error. */
  function FavoritesFromJson(items: seq<Json>): (r: Result<seq<Favorite>>)
    ensures r.Success? <==> forall i :: 0 <= i < |items| ==> FavoriteFromJson(items[i]).Success?
    ensures r.Success? ==> |r.value| == |items|
    ensures r.Success? ==> forall i :: 0 <= i < |items| ==> Success(r.value[i]) == FavoriteFromJson(items[i])
  {
    if |items| == 0 then Success([])
    else
      var f :- FavoriteFromJson(items[0]);
      var rest :- FavoritesFromJson(items[1..]);
      Success([f] + rest)
  }

  /** The value `to_json` stores under `k`. */
  function Field(s: FileState, k: Key): Json {
    match k
    case FilePath => s.filePath
    case Favorites => JList(FavoritesToJson(s.favorites))
    case IsPinned => s.isPinned
    case IsMissing => s.isMissing
    case OpenCount => s.openCount
    case UseDefaultState => s.useDefaultState
    case DisplayMode => s.displayMode
    case ScrollPos => JList([JReal(s.scrollPos.0), JReal(s.scrollPos.1)])
    case PageNo => s.pageNo
    case Zoom => s.zoom
    case Rotation => s.rotation
    case WindowState => s.windowState
    case WindowPos => JList([JInt(s.windowPos.0), JInt(s.windowPos.1), JInt(s.windowPos.2), JInt(s.windowPos.3)])
    case ShowToc => s.showToc
    case SidebarDx => s.sidebarDx
    case DisplayR2l => s.displayR2l
    case ReparseIdx => s.reparseIdx
  }

  /** `FileState.to_json`: a dictionary with exactly the 17 keys, the two
      tuples as lists and the bookmarks in order. */
  function ToJson(s: FileState): (d: Record)
    ensures d.Keys == AllKeys
    ensures forall k :: k in d ==> d[k] == Field(s, k)
    ensures d[ScrollPos] == JList([JReal(s.scrollPos.0), JReal(s.scrollPos.1)])
    ensures d[WindowPos] ==
              JList([JInt(s.windowPos.0), JInt(s.windowPos.1), JInt(s.windowPos.2), JInt(s.windowPos.3)])
    ensures d[Favorites].JList? && |d[Favorites].items| == |s.favorites|
    ensures forall i :: 0 <= i < |s.favorites| ==>
              d[Favorites].items[i] == FavoriteToJson(s.favorites[i])
  {
    map k | k in AllKeys :: Field(s, k)
  }

  /** `(float(p[0]), float(p[1]))`, evaluated left to right. */
  function ScrollPosFromJson(p: Json): (r: Result<(real, real)>)
    ensures p.JList? && |p.items| == 2 && p.items[0].JReal? && p.items[1].JReal? ==>
              r == Success((p.items[0].r, p.items[1].r))
    ensures p.JList? && |p.items| < 2 ==> r.Failure?
  {
    var a :- Index(p, 0);
    var x :- ToFloat(a);
    var b :- Index(p, 1);
    var y :- ToFloat(b);
    Success((x, y))
  }

  /** `(int(p[0]), int(p[1]), int(p[2]), int(p[3]))`, evaluated left to right. */
  function WindowPosFromJson(p: Json): (r: Result<(int, int, int, int)>)
    ensures p.JList? && |p.items| == 4 && (forall i :: 0 <= i < 4 ==> p.items[i].JInt?) ==>
              r == Success((p.items[0].i, p.items[1].i, p.items[2].i, p.items[3].i))
    ensures p.JList? && |p.items| < 4 ==> r.Failure?
  {
    var a :- Index(p, 0);
    var w :- ToInt(a);
    var b :- Index(p, 1);
    var x :- ToInt(b);
    var c :- Index(p, 2);
    var y :- ToInt(c);
    var d :- Index(p, 3);
    var z :- ToInt(d);
    Success((w, x, y, z))
  }

  /** Each verbatim field of `s` is the value stored under its key in `o`,
      or, when the key is absent, the value `FileState(file_path)` gives it. */
  predicate CopiedOrDefault(o: Record, s: FileState)
    requires FilePath in o
  {
    CopiedFlags(o, s) && CopiedCounters(o, s) && CopiedView(o, s)
  }

  /** `CopiedOrDefault` for the on/off switches. */
  predicate CopiedFlags(o: Record, s: FileState)
    requires FilePath in o
  {
    var d := NewFileState(o[FilePath]);
    && s.isPinned == Get(o, IsPinned, d.isPinned)
    && s.isMissing == Get(o, IsMissing, d.isMissing)
    && s.useDefaultState == Get(o, UseDefaultState, d.useDefaultState)
    && s.showToc == Get(o, ShowToc, d.showToc)
    && s.displayR2l == Get(o, DisplayR2l, d.displayR2l)
  }

  /** `CopiedOrDefault` for the counters and window fields. */
  predicate CopiedCounters(o: Record, s: FileState)
    requires FilePath in o
  {
    var d := NewFileState(o[FilePath]);
    && s.openCount == Get(o, OpenCount, d.openCount)
    && s.reparseIdx == Get(o, ReparseIdx, d.reparseIdx)
    && s.windowState == Get(o, WindowState, d.windowState)
    && s.sidebarDx == Get(o, SidebarDx, d.sidebarDx)
  }

  /** `CopiedOrDefault` for the page view. */
  predicate CopiedView(o: Record, s: FileState)
    requires FilePath in o
  {
    var d := NewFileState(o[FilePath]);
    && s.displayMode == Get(o, DisplayMode, d.displayMode)
    && s.pageNo == Get(o, PageNo, d.pageNo)
    && s.zoom == Get(o, Zoom, d.zoom)
    && s.rotation == Get(o, Rotation, d.rotation)
  }

  /** `[Favorite.from_json(fav) for fav in favs]` for any stored value.
      A list gives its items. A string gives its one-character strings and
      a dictionary its keys, so an empty one loads no bookmarks and a
      non-empty one fails on its first item; the model does not keep the
      order of a dictionary's keys, and picks `ValueError` when any key
      would raise it. Any other value is not iterable (`TypeError`). */
  function FavoritesOf(favs: Json): (r: Result<seq<Favorite>>)
    ensures favs.JList? ==> r == FavoritesFromJson(favs.items)
    ensures favs == JStr("") || favs == JObj(map[]) ==> r == Success([])
    ensures r.Success? ==> favs.JList? || r.value == []
    ensures favs.JStr? && favs.s != "" ==> r == Failure(ValueError)
    ensures favs.JObj? && favs.fields != map[] ==> r.Failure? && r.error in {TypeError, ValueError}
    ensures !(favs.JList? || favs.JStr? || favs.JObj?) ==> r == Failure(TypeError)
  {
    match favs
    case JList(items) => FavoritesFromJson(items)
    case JStr(s) => if s == "" then Success([]) else Failure(ValueError)
    case JObj(m) =>
      if m == map[] then Success([])
      else Failure(if exists k :: k in m && !Text.Contains(k, "page_no") then ValueError else TypeError)
    case _ => Failure(TypeError)
  }

  /** A non-empty string fails exactly as its first character does. */
  lemma StringFavoritesFailOnFirstItem(s: string)
    requires s != ""
    ensures FavoritesOf(JStr(s)) == Failure(FavoriteFromJson(JStr([s[0]])).error)
  {
    assert !Text.Contains([s[0]], "page_no");
  }

  /** A non-empty dictionary fails as one of its keys does: when the keys
      all agree, as each of them does. */
  lemma DictFavoritesFailOnAKey(m: map<string, Json>)
    requires m != map[]
    ensures exists k :: k in m && FavoritesOf(JObj(m)) == Failure(FavoriteFromJson(JStr(k)).error)
    ensures forall k :: k in m && (forall k' :: k' in m ==> Text.Contains(k', "page_no") == Text.Contains(k, "page_no")) ==>
              FavoritesOf(JObj(m)) == Failure(FavoriteFromJson(JStr(k)).error)
  {
    if exists k :: k in m && !Text.Contains(k, "page_no") {
      var k :| k in m && !Text.Contains(k, "page_no");
      assert FavoritesOf(JObj(m)) == Failure(FavoriteFromJson(JStr(k)).error);
    } else {
      var k :| k in m;
      assert FavoritesOf(JObj(m)) == Failure(FavoriteFromJson(JStr(k)).error);
    }
  }

  /** The entries `from_json` converts rather than copies, in the order it
      reads them: the scroll position, the window position and the
      bookmarks. An absent entry converts its default. */
  function ConvertedFields(o: Record): (r: Result<((real, real), (int, int, int, int), seq<Favorite>)>)
    ensures r.Success? && ScrollPos !in o ==> r.value.0 == (0.0, 0.0)
    ensures r.Success? && WindowPos !in o ==> r.value.1 == (0, 0, 0, 0)
    ensures r.Success? && Favorites !in o ==> r.value.2 == []
    ensures r.Success? ==> FavoritesOf(Get(o, Favorites, JList([]))) == Success(r.value.2)
    ensures Favorites in o && FavoritesOf(o[Favorites]).Failure? ==> r.Failure?
  {
    var scroll :- ScrollPosFromJson(Get(o, ScrollPos, JList([JReal(0.0), JReal(0.0)])));
    var window :- WindowPosFromJson(Get(o, WindowPos, JList([JInt(0), JInt(0), JInt(0), JInt(0)])));
    var favorites :- FavoritesOf(Get(o, Favorites, JList([])));
    Success((scroll, window, favorites))
  }

  /** `FileState.from_json`. A missing `file_path` is a `ValueError`; every
      verbatim key present is copied as is, and every one absent takes the
      value the constructor gives it. `favorites` loads as `FavoritesOf` says. */
  function FromJson(o: Record): (r: Result<FileState>)
    ensures FilePath !in o ==> r == Failure(ValueError)
    ensures r.Success? ==> r.value.filePath == o[FilePath]
    ensures r.Success? ==> CopiedOrDefault(o, r.value)
    ensures r.Success? && ScrollPos !in o ==> r.value.scrollPos == (0.0, 0.0)
    ensures r.Success? && WindowPos !in o ==> r.value.windowPos == (0, 0, 0, 0)
    ensures r.Success? && Favorites !in o ==> r.value.favorites == []
    ensures FilePath in o ==> (r.Success? <==> ConvertedFields(o).Success?)
    ensures r.Success? ==> ConvertedFields(o).value == (r.value.scrollPos, r.value.windowPos, r.value.favorites)
  {
    if FilePath !in o then Failure(ValueError)
    else
      var converted :- ConvertedFields(o);
      var (scroll, window, favorites) := converted;
      Success(FileState(
        filePath := o[FilePath],
        favorites := favorites,
        isPinned := Get(o, IsPinned, JBool(false)),
        isMissing := Get(o, IsMissing, JBool(false)),
        openCount := Get(o, OpenCount, JInt(0)),
        useDefaultState := Get(o, UseDefaultState, JBool(false)),
        displayMode := Get(o, DisplayMode, JStr("continuous")),
        scrollPos := scroll,
        pageNo := Get(o, PageNo, JInt(1)),
        zoom := Get(o, Zoom, JReal(1.0)),
        rotation := Get(o, Rotation, JInt(0)),
        windowState := Get(o, WindowState, JInt(0)),
        windowPos := window,
        showToc := Get(o, ShowToc, JBool(false)),
        sidebarDx := Get(o, SidebarDx, JInt(572)),
        displayR2l := Get(o, DisplayR2l, JBool(false)),
        reparseIdx := Get(o, ReparseIdx, JInt(0))
      ))
  }

  /** Any value under `display_mode` or `rotation` is accepted, including
      ones outside the documented choices. */
  lemma FromJsonAcceptsAnyModeAndRotation(path: Json, mode: Json, rotation: Json)
    ensures var r := FromJson(map[FilePath := path, DisplayMode := mode, Rotation := rotation]);
            r.Success? && r.value.displayMode == mode && r.value.rotation == rotation
  {
  }

  /** Loading the dictionary of the default record gives the default record. */
  lemma DefaultRoundTrip(path: Json)
    ensures FromJson(ToJson(NewFileState(path))) == Success(NewFileState(path))
  {
    RoundTrip(NewFileState(path));
  }

  /** Loading saved bookmarks gives them back, in order. */
  lemma FavoritesRoundTrip(fs: seq<Favorite>)
    ensures FavoritesFromJson(FavoritesToJson(fs)) == Success(fs)
  {
    var js := FavoritesToJson(fs);
    forall i | 0 <= i < |js| ensures FavoriteFromJson(js[i]) == Success(fs[i]) {
      FavoriteRoundTrip(fs[i]);
    }
    var r := FavoritesFromJson(js);
    assert r.Success?;
    assert r.value == fs;
  }

  /** Saving a record and loading it again reproduces every field, with the
      bookmarks in their original order. */
  lemma RoundTrip(s: FileState)
    ensures FromJson(ToJson(s)) == Success(s)
  {
    var d := ToJson(s);
    RoundTripConverted(s);
    RoundTripCopied(s);
    var r := FromJson(d);
    CopiedOrDefaultUnique(d, r.value, s);
  }

  /** The converted fields survive a save and load. */
  lemma RoundTripConverted(s: FileState)
    ensures var r := FromJson(ToJson(s));
            && r.Success? && r.value.filePath == s.filePath
            && r.value.scrollPos == s.scrollPos && r.value.windowPos == s.windowPos
            && r.value.favorites == s.favorites
  {
    var o := ToJson(s);
    GetKeyToJson(s, FilePath);
    GetKeyToJson(s, ScrollPos);
    GetKeyToJson(s, WindowPos);
    GetKeyToJson(s, Favorites);
    ConvertedFieldsLoad(o, s);
  }

  /** A record whose converted entries hold the fields of `s` in their saved
      form converts them back to those fields. */
  lemma ConvertedFieldsLoad(o: Record, s: FileState)
    requires ScrollPos in o && o[ScrollPos] == JList([JReal(s.scrollPos.0), JReal(s.scrollPos.1)])
    requires WindowPos in o
    requires o[WindowPos] == JList([JInt(s.windowPos.0), JInt(s.windowPos.1), JInt(s.windowPos.2), JInt(s.windowPos.3)])
    requires Favorites in o && o[Favorites] == JList(FavoritesToJson(s.favorites))
    ensures ConvertedFields(o) == Success((s.scrollPos, s.windowPos, s.favorites))
  {
    WindowPosRoundTrip(s.windowPos);
    ScrollPosRoundTrip(s.scrollPos);
    FavoritesRoundTrip(s.favorites);
  }

  /** A saved window position loads back as itself. */
  lemma WindowPosRoundTrip(p: (int, int, int, int))
    ensures WindowPosFromJson(JList([JInt(p.0), JInt(p.1), JInt(p.2), JInt(p.3)])) == Success(p)
  {
    var w := JList([JInt(p.0), JInt(p.1), JInt(p.2), JInt(p.3)]);
    assert forall i :: 0 <= i < 4 ==> w.items[i].JInt?;
  }

  /** A saved scroll position loads back as itself. */
  lemma ScrollPosRoundTrip(p: (real, real))
    ensures ScrollPosFromJson(JList([JReal(p.0), JReal(p.1)])) == Success(p)
  {
  }

  /** A record's own dictionary holds every verbatim field of it. */
  lemma RoundTripCopied(s: FileState)
    ensures FilePath in ToJson(s) && CopiedOrDefault(ToJson(s), s)
  {
    var o := ToJson(s);
    forall k: Key ensures k in o && o[k] == Field(s, k) {
      GetKeyToJson(s, k);
    }
    CopiedFlagsFromFields(o, s);
    CopiedCountersFromFields(o, s);
    CopiedViewFromFields(o, s);
  }

  /** A record holding every field of `s` under its key. */
  predicate HoldsFields(o: Record, s: FileState) {
    forall k: Key :: k in o && o[k] == Field(s, k)
  }

  /** Such a record copies the on/off switches of `s`. */
  lemma CopiedFlagsFromFields(o: Record, s: FileState)
    requires HoldsFields(o, s)
    ensures FilePath in o && CopiedFlags(o, s)
  {
    assert FilePath in o;
    assert o[IsPinned] == s.isPinned && o[IsMissing] == s.isMissing;
    assert o[UseDefaultState] == s.useDefaultState;
    assert o[ShowToc] == s.showToc && o[DisplayR2l] == s.displayR2l;
  }

  /** Such a record copies the counters and window fields of `s`. */
  lemma CopiedCountersFromFields(o: Record, s: FileState)
    requires HoldsFields(o, s)
    ensures FilePath in o && CopiedCounters(o, s)
  {
    assert FilePath in o;
    assert o[OpenCount] == s.openCount && o[ReparseIdx] == s.reparseIdx;
    assert o[WindowState] == s.windowState && o[SidebarDx] == s.sidebarDx;
  }

  /** Such a record copies the page view of `s`. */
  lemma CopiedViewFromFields(o: Record, s: FileState)
    requires HoldsFields(o, s)
    ensures FilePath in o && CopiedView(o, s)
  {
    assert FilePath in o;
    assert o[DisplayMode] == s.displayMode && o[PageNo] == s.pageNo;
    assert o[Zoom] == s.zoom && o[Rotation] == s.rotation;
  }

  lemma CopiedOrDefaultUnique(o: Record, a: FileState, b: FileState)
    requires FilePath in o && CopiedOrDefault(o, a) && CopiedOrDefault(o, b)
    requires a.filePath == b.filePath && a.favorites == b.favorites
    requires a.scrollPos == b.scrollPos && a.windowPos == b.windowPos
    ensures a == b
  {
  }
}

=== FILE: geometry.dfy ===
/** Rectangles and the canvas/page coordinate conversions used for hit
    testing, selection and OCR box mapping. Coordinates are `real`: the
    claims are algebraic, not about floating-point rounding.
 */
module Geometry {

  function Min(a: real, b: real): (m: real)
    ensures m <= a && m <= b
    ensures m == a || m == b
  {
    if a <= b then a else b
  }

  function Max(a: real, b: real): (m: real)
    ensures a <= m && b <= m
    ensures m == a || m == b
  {
    if a >= b then a else b
  }

  /** An axis-aligned rectangle `(x0, y0, x1, y1)`, as a `fitz.Rect` or a
      4-tuple on the canvas. */
  datatype Rect = Rect(x0: real, y0: real, x1: real, y1: real) {

    /** The top-left corner is not right of or below the bottom-right one. */
    predicate Normal() {
      x0 <= x1 && y0 <= y1
    }

    /** Point containment with every edge inclusive. */
    predicate Contains(x: real, y: real) {
      x0 <= x <= x1 && y0 <= y <= y1
    }

    predicate Within(outer: Rect) {
      outer.x0 <= x0 && x1 <= outer.x1 && outer.y0 <= y0 && y1 <= outer.y1
    }

    /** Every coordinate multiplied by `f` (page to canvas at zoom `f`). */
    function Scale(f: real): Rect {
      Rect(x0 * f, y0 * f, x1 * f, y1 * f)
    }

    /** Every coordinate divided by `f` (canvas to page at zoom `f`). */
    function Divide(f: real): Rect
      requires f != 0.0
    {
      Rect(x0 / f, y0 / f, x1 / f, y1 / f)
    }
  }

  /** The rectangle spanned by two corner points in any order, as
      `(min(x1, x2), min(y1, y2), max(x1, x2), max(y1, y2))`. */
  function Normalise(x1: real, y1: real, x2: real, y2: real): (r: Rect)
    ensures r.Normal()
    ensures {r.x0, r.x1} == {x1, x2} && {r.y0, r.y1} == {y1, y2}
  {
    Rect(Min(x1, x2), Min(y1, y2), Max(x1, x2), Max(y1, y2))
  }

  /** The order in which the two corners are given does not matter. */
  lemma NormaliseSymmetric(x1: real, y1: real, x2: real, y2: real)
    ensures Normalise(x1, y1, x2, y2) == Normalise(x2, y2, x1, y1)
  {
  }

  /** A normal rectangle is its own normalisation. */
  lemma NormaliseOfNormal(r: Rect)
    requires r.Normal()
    ensures Normalise(r.x0, r.y0, r.x1, r.y1) == r
  {
  }

  /** Both corners lie in their normalised rectangle. */
  lemma NormaliseContainsCorners(x1: real, y1: real, x2: real, y2: real)
    ensures Normalise(x1, y1, x2, y2).Contains(x1, y1)
    ensures Normalise(x1, y1, x2, y2).Contains(x2, y2)
  {
  }

  /** Converting to the page and back to the canvas is the identity. */
  lemma DivideScaleRoundTrip(r: Rect, zoom: real)
    requires zoom != 0.0
    ensures r.Divide(zoom).Scale(zoom) == r
    ensures r.Scale(zoom).Divide(zoom) == r
  {
    DivideThenScale(r, zoom);
    ScaleThenDivide(r, zoom);
  }

  /** Canvas to page and back. */
  lemma DivideThenScale(r: Rect, zoom: real)
    requires zoom != 0.0
    ensures r.Divide(zoom).Scale(zoom) == r
  {
    var a, b, c, d := r.x0 / zoom, r.y0 / zoom, r.x1 / zoom, r.y1 / zoom;
    DivideTimes(r.x0, zoom);
    DivideTimes(r.y0, zoom);
    DivideTimes(r.x1, zoom);
    DivideTimes(r.y1, zoom);
    assert r.Divide(zoom) == Rect(a, b, c, d);
  }

  /** Page to canvas and back. */
  lemma ScaleThenDivide(r: Rect, zoom: real)
    requires zoom != 0.0
    ensures r.Scale(zoom).Divide(zoom) == r
  {
    var a, b, c, d := r.x0 * zoom, r.y0 * zoom, r.x1 * zoom, r.y1 * zoom;
    assert r.Scale(zoom) == Rect(a, b, c, d);
    TimesDivide(r.x0, zoom);
    TimesDivide(r.y0, zoom);
    TimesDivide(r.x1, zoom);
    TimesDivide(r.y1, zoom);
  }

  /** Dividing and then multiplying by the same non-zero factor cancel. */
  lemma DivideTimes(a: real, f: real)
    requires f != 0.0
    ensures (a / f) * f == a
  {
  }

  /** Multiplying and then dividing by the same non-zero factor cancel. */
  lemma TimesDivide(a: real, f: real)
    requires f != 0.0
    ensures (a * f) / f == a
  {
  }

  /** A positive zoom keeps containment: a canvas point lies in a canvas
      rectangle exactly when the page point lies in the page rectangle. */
  lemma DivideKeepsContainment(r: Rect, x: real, y: real, zoom: real)
    requires zoom > 0.0
    ensures r.Contains(x, y) <==> r.Divide(zoom).Contains(x / zoom, y / zoom)
  {
    assert r.x0 <= x <==> r.x0 / zoom <= x / zoom by { DivideMonotone(r.x0, x, zoom); }
    assert x <= r.x1 <==> x / zoom <= r.x1 / zoom by { DivideMonotone(x, r.x1, zoom); }
    assert r.y0 <= y <==> r.y0 / zoom <= y / zoom by { DivideMonotone(r.y0, y, zoom); }
    assert y <= r.y1 <==> y / zoom <= r.y1 / zoom by { DivideMonotone(y, r.y1, zoom); }
  }

  lemma DivideMonotone(a: real, b: real, zoom: real)
    requires zoom > 0.0
    ensures a <= b <==> a / zoom <= b / zoom
  {
    if a <= b {
      assert (b - a) / zoom >= 0.0;
      assert b / zoom - a / zoom == (b - a) / zoom;
    } else {
      assert (a - b) / zoom > 0.0;
      assert a / zoom - b / zoom == (a - b) / zoom;
    }
  }

  /** A positive zoom keeps a rectangle normal in either direction. */
  lemma ScaleKeepsNormal(r: Rect, zoom: real)
    requires zoom > 0.0 && r.Normal()
    ensures r.Scale(zoom).Normal()
    ensures r.Divide(zoom).Normal()
  {
    DivideMonotone(r.x0, r.x1, zoom);
    DivideMonotone(r.y0, r.y1, zoom);
  }
}

=== FILE: json_value.dfy ===
/** JSON values as the reader stores them in its data file, and the Python
    conversions (`float(x)`, `int(x)`, `x[i]`, `d.get(k, default)`) that the
    loaders apply to them.
 */
module JsonValue {
  import opened Wrappers

  datatype Json =
    | JNull
    | JBool(b: bool)
    | JInt(i: int)
    | JReal(r: real)
    | JStr(s: string)
    | JList(items: seq<Json>)
    | JObj(fields: map<string, Json>)

  /** `d.get(key, default)` */
  function Get<K>(d: map<K, Json>, key: K, default: Json): (r: Json)
    ensures key in d ==> r == d[key]
    ensures key !in d ==> r == default
  {
    if key in d then d[key] else default
  }

  /** `x[i]` for a non-negative index: lists are indexed, strings yield a
      one-character string, dictionaries (whose keys are strings) raise
      `KeyError`, anything else is not subscriptable. */
  function Index(x: Json, i: nat): (r: Result<Json>)
    ensures x.JList? && i < |x.items| ==> r == Success(x.items[i])
    ensures x.JList? && i >= |x.items| ==> r == Failure(IndexError)
    ensures (x.JNull? || x.JBool? || x.JInt? || x.JReal?) ==> r == Failure(TypeError)
  {
    match x
    case JList(items) => if i < |items| then Success(items[i]) else Failure(IndexError)
    case JStr(s) => if i < |s| then Success(JStr([s[i]])) else Failure(IndexError)
    case JObj(_) => Failure(KeyError)
    case _ => Failure(TypeError)
  }

  /** Python's `int(r)` on a float: truncation toward zero. */
  function Truncate(r: real): (i: int)
    ensures r >= 0.0 ==> i as real <= r < i as real + 1.0
    ensures r < 0.0 ==> i as real - 1.0 < r <= i as real
  {
    if r >= 0.0 then r.Floor else -((-r).Floor)
  }

  /** `float(x)` for the numeric JSON values. Parsing a numeric string is not
      modelled: every string is rejected with `ValueError`. */
  function ToFloat(x: Json): (r: Result<real>)
    ensures x.JReal? ==> r == Success(x.r)
    ensures x.JInt? ==> r == Success(x.i as real)
    ensures r.Success? <==> (x.JReal? || x.JInt? || x.JBool?)
  {
    match x
    case JReal(v) => Success(v)
    case JInt(v) => Success(v as real)
    case JBool(b) => Success(if b then 1.0 else 0.0)
    case JStr(_) => Failure(ValueError)
    case _ => Failure(TypeError)
  }

  /** `int(x)` for the numeric JSON values; floats are truncated toward zero.
      Parsing a numeric string is not modelled, as for `ToFloat`. */
  function ToInt(x: Json): (r: Result<int>)
    ensures x.JInt? ==> r == Success(x.i)
    ensures x.JReal? ==> r == Success(Truncate(x.r))
    ensures r.Success? <==> (x.JReal? || x.JInt? || x.JBool?)
  {
    match x
    case JInt(v) => Success(v)
    case JReal(v) => Success(Truncate(v))
    case JBool(b) => Success(if b then 1 else 0)
    case JStr(_) => Failure(ValueError)
    case _ => Failure(TypeError)
  }

  /** Python truthiness of a JSON value. */
  predicate Truthy(x: Json) {
    match x
    case JNull => false
    case JBool(b) => b
    case JInt(i) => i != 0
    case JReal(r) => r != 0.0
    case JStr(s) => s != ""
    case JList(items) => items != []
    case JObj(fields) => fields != map[]
  }
}

=== FILE: legacy_tab.dfy ===
/** The host's own tab (`glueous/Tab.py`): the fields it starts with,
    opening a document, the page-display guard, resetting and the context
    dictionary it hands to plugins. Opening and rasterising are parameters,
    as for the plugin tab.
 */
module LegacyTabs {
  import opened Wrappers
  import opened Tabs
  import Pages

  datatype LegacyTab = LegacyTab(
    filePath: Option<string>,
    doc: Option<Doc>,
    currentPage: int,
    totalPages: nat,
    zoom: real)

  /** `Tab.__init__`: no document, page 0 of 0, zoom 1.0. */
  function NewLegacyTab(filePath: Option<string>): (t: LegacyTab)
    ensures t.filePath == filePath && t.doc.None?
    ensures t.currentPage == 0 && t.totalPages == 0 && t.zoom == 1.0
  {
    LegacyTab(filePath, None, 0, 0, 1.0)
  }

  /** A page drawn by `show_page`: index and matrix scale (the zoom itself,
      not divided by 100 as in the plugin tab). */
  function ShowPage(t: LegacyTab, rasterOk: bool): (r: Result<Option<Render>>)
    ensures !HasPages(t.doc) || !Pages.InBounds(t.currentPage, t.totalPages) ==> r == Success(None)
    ensures r.Success? && r.value.Some? ==> r.value.value == Render(t.currentPage, t.zoom)
    ensures HasPages(t.doc) && Pages.InBounds(t.currentPage, t.totalPages) ==>
              (r.Success? <==> rasterOk)
  {
    if !HasPages(t.doc) || !Pages.InBounds(t.currentPage, t.totalPages) then Success(None)
    else if !rasterOk then Failure(RenderError)
    else Success(Some(Render(t.currentPage, t.zoom)))
  }

  /** `reset_tab`: no document, page 0 of 0, no path; the zoom is kept. */
  function ResetTab(t: LegacyTab): (r: LegacyTab)
    ensures r.doc.None? && r.currentPage == 0 && r.totalPages == 0 && r.filePath.None?
    ensures r.zoom == t.zoom
  {
    t.(doc := None, currentPage := 0, totalPages := 0, filePath := None)
  }

  /** `open_pdf`: the returned tab and flag. Any exception, in opening the
      file or in drawing its first page, resets the tab. A failure to open
      leaves the old zoom; a failure to draw comes after the zoom was set
      back to 1.0, which the reset keeps. */
  function OpenPdf(t: LegacyTab, path: string, attempt: Result<Doc>, rasterOk: bool): (r: (LegacyTab, bool))
    ensures r.1 ==> && attempt.Success?
                    && r.0 == LegacyTab(Some(path), Some(attempt.value), 0, attempt.value.pageCount, 1.0)
    ensures attempt.Failure? ==> r == (ResetTab(t), false)
    ensures attempt.Success? && !r.1 ==> r.0 == ResetTab(t).(zoom := 1.0)
    ensures attempt.Success? && (attempt.value.pageCount == 0 || rasterOk) ==> r.1
  {
    match attempt
    case Failure(_) => (ResetTab(t), false)
    case Success(doc) =>
      var loaded := LegacyTab(Some(path), Some(doc), 0, doc.pageCount, 1.0);
      if ShowPage(loaded, rasterOk).Failure? then (ResetTab(loaded), false)
      else (loaded, true)
  }

  /** After a successful opening the first page is on screen when the
      document has one. */
  lemma OpenShowsFirstPage(t: LegacyTab, path: string, doc: Doc)
    requires doc.pageCount > 0
    ensures var (o, ok) := OpenPdf(t, path, Success(doc), true);
            ok && ShowPage(o, true) == Success(Some(Render(0, 1.0)))
  {
  }

  /** A failed opening leaves a reset tab that shows nothing, keeping either
      the old zoom (the file did not open) or 1.0 (its first page could not
      be drawn). */
  lemma FailedOpenIsReset(t: LegacyTab, path: string, attempt: Result<Doc>, rasterOk: bool)
    ensures var (o, ok) := OpenPdf(t, path, attempt, rasterOk);
            !ok ==> && ResetTab(o) == o && ShowPage(o, rasterOk) == Success(None)
                    && (o.zoom == t.zoom || o.zoom == 1.0)
    ensures var (o, ok) := OpenPdf(t, path, attempt, rasterOk);
            !ok && t.zoom != 1.0 ==> (o.zoom == 1.0 <==> attempt.Success?)
  {
  }

  /** A failed opening and a reset agree, and resetting twice is resetting
      once. */
  lemma ResetIdempotent(t: LegacyTab)
    ensures ResetTab(ResetTab(t)) == ResetTab(t)
    ensures ShowPage(ResetTab(t), true) == Success(None)
  {
  }

  /** A value of the context dictionary. */
  datatype ContextValue =
    | CInt(i: int)
    | CReal(r: real)
    | CDoc(doc: Option<Doc>)
    | CPath(path: Option<string>)

  /** `get_context`. */
  function Context(t: LegacyTab): (c: map<string, ContextValue>)
    ensures c.Keys == {"current_page", "total_pages", "zoom", "doc", "file_path"}
  {
    map["current_page" := CInt(t.currentPage), "total_pages" := CInt(t.totalPages),
        "zoom" := CReal(t.zoom), "doc" := CDoc(t.doc), "file_path" := CPath(t.filePath)]
  }

  /** The context determines the tab: two tabs with the same context are the
      same tab. */
  lemma ContextDeterminesTab(a: LegacyTab, b: LegacyTab)
    requires Context(a) == Context(b)
    ensures a == b
  {
    assert Context(a)["current_page"] == Context(b)["current_page"];
    assert Context(a)["total_pages"] == Context(b)["total_pages"];
    assert Context(a)["zoom"] == Context(b)["zoom"];
    assert Context(a)["doc"] == Context(b)["doc"];
    assert Context(a)["file_path"] == Context(b)["file_path"];
  }
}

=== FILE: menu.dfy ===
/** The menu tree the host keeps (`menu_structure`), the path walk that
    finds or creates a submenu in it, the items plugins add under a path,
    and `construct_menu`, which turns the tree into the sequence of
    operations performed on a Tk menu.

    Also the global settings and the periodic execution loop of the reader.
 */
module Menus {
  import opened Wrappers
  import opened JsonValue

  /** Keyword arguments passed on to Tk's `add_command` (the callable
      itself is represented by a JSON value). */
  type Options = map<string, Json>

  /** One dictionary of the tree, by its `"type"`: a submenu (`tearoff` 0
      and its children), a command with its options, or an item carrying
      only a type, such as a separator. */
  datatype Item =
    | MenuItem(caption: string, tearoff: int, children: seq<Item>)
    | CommandItem(options: Options)
    | Marker(kind: string)

  const SeparatorKind: string := "separator"
  /** The spelling under which separators are stored. */
  const StoredSeparatorKind: string := "seperator"

  // ---------------------------------------------------------------------
  // Finding or creating a submenu

  /** The position of the first submenu labelled `name`; commands and
      markers never match, whatever their options say. */
  function FindMenu(items: seq<Item>, name: string): (r: Option<nat>)
    ensures r.Some? ==> r.value < |items| && items[r.value].MenuItem? && items[r.value].caption == name
    ensures r.Some? ==> forall j :: 0 <= j < r.value ==> !(items[j].MenuItem? && items[j].caption == name)
    ensures r.None? ==> forall j :: 0 <= j < |items| ==> !(items[j].MenuItem? && items[j].caption == name)
  {
    if items == [] then None
    else if items[0].MenuItem? && items[0].caption == name then Some(0)
    else match FindMenu(items[1..], name)
      case Some(k) => Some(k + 1)
      case None => None
  }

  /** `add_menu`: walk `path`, reusing the first submenu with each label and
      appending an empty one where there is none. The result is the new
      tree and the address of the node reached, as the positions taken at
      each level; the empty address is the root. */
  function AddMenu(items: seq<Item>, path: seq<string>): (r: (seq<Item>, seq<nat>))
    ensures |r.1| == |path|
    ensures path == [] ==> r == (items, [])
    ensures path != [] ==> |r.0| == |items| || |r.0| == |items| + 1
    ensures path != [] ==> forall j :: 0 <= j < |items| && j != r.1[0] ==> r.0[j] == items[j]
    decreases |path|
  {
    if path == [] then (items, [])
    else match FindMenu(items, path[0])
      case Some(k) =>
        var (children, address) := AddMenu(items[k].children, path[1..]);
        (items[k := items[k].(children := children)], [k] + address)
      case None =>
        var (children, address) := AddMenu([], path[1..]);
        (items + [MenuItem(path[0], 0, children)], [|items|] + address)
  }

  /** The children of the node at an address, `None` when the address does
      not lead through submenus. */
  function ChildrenAt(items: seq<Item>, address: seq<nat>): (r: Option<seq<Item>>)
    ensures address == [] ==> r == Some(items)
    decreases |address|
  {
    if address == [] then Some(items)
    else if address[0] < |items| && items[address[0]].MenuItem? then
      ChildrenAt(items[address[0]].children, address[1..])
    else None
  }

  /** The labels of the submenus an address passes through. */
  function LabelsAt(items: seq<Item>, address: seq<nat>): (r: Option<seq<string>>)
    decreases |address|
  {
    if address == [] then Some([])
    else if address[0] < |items| && items[address[0]].MenuItem? then
      match LabelsAt(items[address[0]].children, address[1..])
      case Some(rest) => Some([items[address[0]].caption] + rest)
      case None => None
    else None
  }

  /** The walk reaches a node whose way down is labelled exactly `path`,
      and the node it reaches is the same one the walk would find again. */
  lemma {:induction false} AddMenuReachesPath(items: seq<Item>, path: seq<string>)
    ensures var (tree, address) := AddMenu(items, path);
            && LabelsAt(tree, address) == Some(path)
            && ChildrenAt(tree, address).Some?
    decreases |path|
  {
    if path != [] {
      match FindMenu(items, path[0])
      case Some(k) =>
        var (children, address) := AddMenu(items[k].children, path[1..]);
        AddMenuReachesPath(items[k].children, path[1..]);
        var tree := items[k := items[k].(children := children)];
        assert tree[k].children == children && tree[k].caption == path[0];
        assert ([k] + address)[1..] == address;
        assert [path[0]] + path[1..] == path;
      case None =>
        var (children, address) := AddMenu([], path[1..]);
        AddMenuReachesPath([], path[1..]);
        var tree := items + [MenuItem(path[0], 0, children)];
        assert tree[|items|] == MenuItem(path[0], 0, children);
        assert ([|items|] + address)[1..] == address;
        assert [path[0]] + path[1..] == path;
    }
  }

  /** `add_menu` is idempotent: walking the same path again creates nothing
      and reaches the same node. */
  lemma {:induction false} AddMenuIdempotent(items: seq<Item>, path: seq<string>)
    ensures var (tree, address) := AddMenu(items, path);
            AddMenu(tree, path) == (tree, address)
    decreases |path|
  {
    if path != [] {
      var (tree, address) := AddMenu(items, path);
      match FindMenu(items, path[0])
      case Some(k) =>
        var (children, _) := AddMenu(items[k].children, path[1..]);
        AddMenuIdempotent(items[k].children, path[1..]);
        FindMenuAfterUpdate(items, path[0], k, children);
        assert tree[k] == items[k].(children := children);
        assert tree[k := tree[k].(children := children)] == tree;
      case None =>
        var (children, _) := AddMenu([], path[1..]);
        AddMenuIdempotent([], path[1..]);
        FindMenuAfterAppend(items, path[0], children);
        assert tree[|items|] == MenuItem(path[0], 0, children);
        assert tree[|items| := tree[|items|].(children := children)] == tree;
    }
  }

  lemma {:induction false} FindMenuAfterUpdate(items: seq<Item>, name: string, k: nat, children: seq<Item>)
    requires FindMenu(items, name) == Some(k)
    ensures FindMenu(items[k := items[k].(children := children)], name) == Some(k)
    decreases |items|
  {
    var updated := items[k := items[k].(children := children)];
    if k > 0 {
      assert updated[0] == items[0];
      assert updated[1..] == items[1..][k - 1 := items[1..][k - 1].(children := children)];
      FindMenuAfterUpdate(items[1..], name, k - 1, children);
    }
  }

  lemma {:induction false} FindMenuAfterAppend(items: seq<Item>, name: string, children: seq<Item>)
    requires FindMenu(items, name).None?
    ensures FindMenu(items + [MenuItem(name, 0, children)], name) == Some(|items|)
    decreases |items|
  {
    if items != [] {
      var m := MenuItem(name, 0, children);
      assert (items + [m])[0] == items[0];
      assert (items + [m])[1..] == items[1..] + [m];
      FindMenuAfterAppend(items[1..], name, children);
    }
  }

  /** Appends an item to the children of the node at an address. */
  function AppendAt(items: seq<Item>, address: seq<nat>, item: Item): (r: seq<Item>)
    ensures address == [] ==> r == items + [item]
    ensures |address| > 0 ==> |r| == |items|
    ensures |address| > 0 ==> forall j :: 0 <= j < |items| && j != address[0] ==> r[j] == items[j]
    decreases |address|
  {
    if address == [] then items + [item]
    else if address[0] < |items| && items[address[0]].MenuItem? then
      items[address[0] := items[address[0]].(children := AppendAt(items[address[0]].children, address[1..], item))]
    else items
  }

  /** Appending at a node that exists adds exactly that item to the end of
      its children. */
  lemma {:induction false} AppendAtAppends(items: seq<Item>, address: seq<nat>, item: Item)
    requires ChildrenAt(items, address).Some?
    ensures ChildrenAt(AppendAt(items, address, item), address) == Some(ChildrenAt(items, address).value + [item])
    decreases |address|
  {
    if address != [] {
      AppendAtAppends(items[address[0]].children, address[1..], item);
    }
  }

  /** `add_menu_command`: the submenu at `path` (created if need be) gains
      one command item at the end. Tk accepts neither a `type` nor a
      `children` option, so the options hold neither. */
  function AddMenuCommand(items: seq<Item>, path: seq<string>, options: Options): (r: seq<Item>)
    requires "type" !in options && "children" !in options
    ensures path == [] ==> r == items + [CommandItem(options)]
    ensures path != [] ==> |r| == |items| || |r| == |items| + 1
    ensures path != [] ==> forall j :: 0 <= j < |items| && j != AddMenu(items, path).1[0] ==> r[j] == items[j]
  {
    var (tree, address) := AddMenu(items, path);
    AppendAt(tree, address, CommandItem(options))
  }

  /** `add_menu_separator` as written: the marker stored is spelt
      `"seperator"`. */
  function AddMenuSeparatorAsWritten(items: seq<Item>, path: seq<string>): (r: seq<Item>)
    ensures path == [] ==> r == items + [Marker(StoredSeparatorKind)]
    ensures path != [] ==> |r| == |items| || |r| == |items| + 1
    ensures path != [] ==> forall j :: 0 <= j < |items| && j != AddMenu(items, path).1[0] ==> r[j] == items[j]
  {
    var (tree, address) := AddMenu(items, path);
    AppendAt(tree, address, Marker(StoredSeparatorKind))
  }

  /** `add_menu_separator` storing the spelling that `construct_menu`
      recognises. */
  function AddMenuSeparator(items: seq<Item>, path: seq<string>): (r: seq<Item>)
    ensures path == [] ==> r == items + [Marker(SeparatorKind)]
    ensures path != [] ==> |r| == |items| || |r| == |items| + 1
    ensures path != [] ==> forall j :: 0 <= j < |items| && j != AddMenu(items, path).1[0] ==> r[j] == items[j]
  {
    var (tree, address) := AddMenu(items, path);
    AppendAt(tree, address, Marker(SeparatorKind))
  }

  /** After adding a command or separator, the node at `path` ends with it
      and its earlier children are those `add_menu` leaves. */
  lemma AddItemLandsAtPath(items: seq<Item>, path: seq<string>, options: Options)
    requires "type" !in options && "children" !in options
    ensures var (tree, address) := AddMenu(items, path);
            && ChildrenAt(tree, address).Some?
            && ChildrenAt(AddMenuCommand(items, path, options), address)
                 == Some(ChildrenAt(tree, address).value + [CommandItem(options)])
            && ChildrenAt(AddMenuSeparator(items, path), address)
                 == Some(ChildrenAt(tree, address).value + [Marker(SeparatorKind)])
            && LabelsAt(AddMenuCommand(items, path, options), address) == Some(path)
  {
    var (tree, address) := AddMenu(items, path);
    AddMenuReachesPath(items, path);
    AppendAtAppends(tree, address, CommandItem(options));
    AppendAtAppends(tree, address, Marker(SeparatorKind));
    AppendKeepsLabels(tree, address, address, CommandItem(options));
  }

  lemma {:induction false} AppendKeepsLabels(items: seq<Item>, address: seq<nat>, other: seq<nat>, item: Item)
    requires LabelsAt(items, other).Some?
    ensures LabelsAt(AppendAt(items, address, item), other) == LabelsAt(items, other)
    decreases |other|
  {
    if other != [] && address == [] {
      assert (items + [item])[other[0]] == items[other[0]];
    } else if other != [] && address[0] < |items| && items[address[0]].MenuItem? {
      var k := address[0];
      var updated := AppendAt(items, address, item);
      if other[0] == k {
        assert updated[k].caption == items[k].caption;
        assert updated[k].children == AppendAt(items[k].children, address[1..], item);
        AppendKeepsLabels(items[k].children, address[1..], other[1..], item);
      } else if other[0] < |items| {
        assert updated[other[0]] == items[other[0]];
      }
    }
  }

  // ---------------------------------------------------------------------
  // Building the Tk menu

  /** One operation on a Tk menu. A cascade carries the submenu's own
      operations. */
  datatype MenuOp =
    | AddSeparator
    | AddCommand(options: Options)
    | AddCascade(caption: string, tearoff: int, ops: seq<MenuOp>)

  /** `construct_menu`: each item in order; a submenu is built from its
      children first and then added as a cascade with its label; a marker
      other than `"separator"` adds nothing. */
  function ConstructMenu(items: seq<Item>): (ops: seq<MenuOp>)
    ensures |ops| <= |items|
    decreases items
  {
    if items == [] then []
    else ItemOps(items[0]) + ConstructMenu(items[1..])
  }

  function ItemOps(item: Item): (ops: seq<MenuOp>)
    ensures |ops| <= 1
    decreases item
  {
    match item
    case Marker(kind) => if kind == SeparatorKind then [AddSeparator] else []
    case CommandItem(options) => [AddCommand(options)]
    case MenuItem(caption, tearoff, children) => [AddCascade(caption, tearoff, ConstructMenu(children))]
  }

  /** Operations follow the order of the tree: building a concatenation is
      building each part in turn. */
  lemma {:induction false} ConstructMenuAppend(a: seq<Item>, b: seq<Item>)
    ensures ConstructMenu(a + b) == ConstructMenu(a) + ConstructMenu(b)
    decreases |a|
  {
    if a == [] {
      assert a + b == b;
    } else {
      assert (a + b)[0] == a[0];
      assert (a + b)[1..] == a[1..] + b;
      ConstructMenuAppend(a[1..], b);
    }
  }

  /** Separator markers anywhere in the tree, spelt as `construct_menu`
      expects. */
  function SeparatorItems(items: seq<Item>): nat
    decreases items
  {
    if items == [] then 0
    else ItemSeparators(items[0]) + SeparatorItems(items[1..])
  }

  function ItemSeparators(item: Item): nat
    decreases item
  {
    match item
    case Marker(kind) => if kind == SeparatorKind then 1 else 0
    case CommandItem(_) => 0
    case MenuItem(_, _, children) => SeparatorItems(children)
  }

  /** Separators drawn anywhere in the built menu. */
  function SeparatorOps(ops: seq<MenuOp>): nat
    decreases ops
  {
    if ops == [] then 0
    else OpSeparators(ops[0]) + SeparatorOps(ops[1..])
  }

  function OpSeparators(op: MenuOp): nat
    decreases op
  {
    match op
    case AddSeparator => 1
    case AddCommand(_) => 0
    case AddCascade(_, _, ops) => SeparatorOps(ops)
  }

  lemma {:induction false} SeparatorOpsAppend(a: seq<MenuOp>, b: seq<MenuOp>)
    ensures SeparatorOps(a + b) == SeparatorOps(a) + SeparatorOps(b)
    decreases |a|
  {
    if a == [] {
      assert a + b == b;
    } else {
      assert (a + b)[0] == a[0];
      assert (a + b)[1..] == a[1..] + b;
      SeparatorOpsAppend(a[1..], b);
    }
  }

  /** The built menu draws one separator per `"separator"` marker in the
      tree, at any depth. */
  lemma {:induction false} SeparatorsDrawn(items: seq<Item>)
    ensures SeparatorOps(ConstructMenu(items)) == SeparatorItems(items)
    decreases items
  {
    if items != [] {
      SeparatorsDrawnItem(items[0]);
      SeparatorsDrawn(items[1..]);
      SeparatorOpsAppend(ItemOps(items[0]), ConstructMenu(items[1..]));
    }
  }

  lemma {:induction false} SeparatorsDrawnItem(item: Item)
    ensures SeparatorOps(ItemOps(item)) == ItemSeparators(item)
    decreases item
  {
    match item
    case Marker(_) =>
    case CommandItem(_) =>
    case MenuItem(_, _, children) =>
      SeparatorsDrawn(children);
      assert SeparatorOps(ItemOps(item)) == OpSeparators(ItemOps(item)[0]) + SeparatorOps([]);
  }

  /** Appending an item anywhere adds its separators to the tree's count. */
  lemma {:induction false} AppendAtSeparators(items: seq<Item>, address: seq<nat>, item: Item)
    requires ChildrenAt(items, address).Some?
    ensures SeparatorItems(AppendAt(items, address, item)) == SeparatorItems(items) + ItemSeparators(item)
    decreases |address|
  {
    if address == [] {
      SeparatorItemsAppend(items, [item]);
    } else {
      var k := address[0];
      AppendAtSeparators(items[k].children, address[1..], item);
      SeparatorItemsUpdate(items, k, items[k].(children := AppendAt(items[k].children, address[1..], item)));
    }
  }

  lemma {:induction false} SeparatorItemsAppend(a: seq<Item>, b: seq<Item>)
    ensures SeparatorItems(a + b) == SeparatorItems(a) + SeparatorItems(b)
    decreases |a|
  {
    if a == [] {
      assert a + b == b;
    } else {
      assert (a + b)[0] == a[0];
      assert (a + b)[1..] == a[1..] + b;
      SeparatorItemsAppend(a[1..], b);
    }
  }

  lemma {:induction false} SeparatorItemsUpdate(items: seq<Item>, k: nat, item: Item)
    requires k < |items|
    ensures SeparatorItems(items[k := item]) + ItemSeparators(items[k]) == SeparatorItems(items) + ItemSeparators(item)
    decreases |items|
  {
    if k > 0 {
      assert items[k := item][1..] == items[1..][k - 1 := item];
      SeparatorItemsUpdate(items[1..], k - 1, item);
    } else {
      assert items[k := item][1..] == items[1..];
    }
  }

  /** The walk only adds submenus with no separators in them. */
  lemma {:induction false} AddMenuSeparators(items: seq<Item>, path: seq<string>)
    ensures SeparatorItems(AddMenu(items, path).0) == SeparatorItems(items)
    decreases |path|
  {
    if path != [] {
      match FindMenu(items, path[0])
      case Some(k) =>
        var (children, _) := AddMenu(items[k].children, path[1..]);
        AddMenuSeparators(items[k].children, path[1..]);
        SeparatorItemsUpdate(items, k, items[k].(children := children));
      case None =>
        var (children, _) := AddMenu([], path[1..]);
        AddMenuSeparators([], path[1..]);
        SeparatorItemsAppend(items, [MenuItem(path[0], 0, children)]);
    }
  }

  /** As written, `add_menu_separator` never shows: the menu built
      afterwards draws exactly as many separators as before. */
  lemma SeparatorNeverDrawn(items: seq<Item>, path: seq<string>)
    ensures SeparatorOps(ConstructMenu(AddMenuSeparatorAsWritten(items, path)))
            == SeparatorOps(ConstructMenu(items))
  {
    var (tree, address) := AddMenu(items, path);
    AddMenuReachesPath(items, path);
    AppendAtSeparators(tree, address, Marker(StoredSeparatorKind));
    AddMenuSeparators(items, path);
    SeparatorsDrawn(AddMenuSeparatorAsWritten(items, path));
    SeparatorsDrawn(items);
  }

  /** With the recognised spelling every separator added is drawn, and one
      added at the top level is the last operation on the menu bar. */
  lemma SeparatorDrawn(items: seq<Item>, path: seq<string>)
    ensures SeparatorOps(ConstructMenu(AddMenuSeparator(items, path)))
            == SeparatorOps(ConstructMenu(items)) + 1
    ensures path == [] ==> ConstructMenu(AddMenuSeparator(items, path)) == ConstructMenu(items) + [AddSeparator]
  {
    var (tree, address) := AddMenu(items, path);
    AddMenuReachesPath(items, path);
    AppendAtSeparators(tree, address, Marker(SeparatorKind));
    AddMenuSeparators(items, path);
    SeparatorsDrawn(AddMenuSeparator(items, path));
    SeparatorsDrawn(items);
    if path == [] {
      ConstructMenuAppend(items, [Marker(SeparatorKind)]);
    }
  }

  /** `update_menubar`: the menu bar is cleared and rebuilt from the tree,
      so what it held before does not matter. */
  function UpdateMenubar(menubar: seq<MenuOp>, structure: seq<Item>): (r: seq<MenuOp>)
    ensures |r| <= |structure|
    ensures structure == [] ==> r == []
  {
    ConstructMenu(structure)
  }

  /** Rebuilding twice gives the same menu as rebuilding once, whatever the
      menu bar held before, and a command added at the top level appears
      as the last operation. */
  lemma UpdateMenubarIdempotent(menubar: seq<MenuOp>, other: seq<MenuOp>, structure: seq<Item>, options: Options)
    requires "type" !in options && "children" !in options
    ensures UpdateMenubar(UpdateMenubar(menubar, structure), structure) == UpdateMenubar(menubar, structure)
    ensures UpdateMenubar(menubar, structure) == UpdateMenubar(other, structure)
    ensures UpdateMenubar(menubar, AddMenuCommand(structure, [], options))
            == UpdateMenubar(menubar, structure) + [AddCommand(options)]
  {
    ConstructMenuAppend(structure, [CommandItem(options)]);
  }

  // ---------------------------------------------------------------------
  // The plugins' context

  /** The attributes a plugin finds on its `context`, a `ReaderAccess`: the
      reader reference, the methods the class defines, and the functions
      plugins attach to it when they load (the tab plugin's `create_tab`,
      `get_current_tab` and `close_tab`, the drag plugin's
      `get_selected_text`, the AI configuration plugin's
      `get_AI_configuration`, and the buttons and helpers of the page and
      zoom plugins). The reader's data is reached through `get_data()`;
      nothing defines or attaches a `data` attribute. */
  const ContextAttributes: set<string> := {
    "_reader", "get_setting", "set_setting", "add_menu", "add_menu_separator",
    "add_menu_command", "update_menubar", "add_tool", "bind_root", "bind_notebook",
    "get_notebook", "get_data",
    "create_tab", "get_current_tab", "close_tab", "get_selected_text",
    "get_AI_configuration", "context_menu_manager", "setup_text_selection",
    "get_zoom_in_button", "get_zoom_out_button", "update_page_number",
    "get_next_button", "get_prev_button", "update_page_turning_button"
  }

  /** `context.<name>`, evaluating to `value` when the context has that
      attribute and raising `AttributeError` otherwise. */
  function ContextAttribute<T>(name: string, value: T): (r: Result<T>)
    ensures r.Success? <==> name in ContextAttributes
    ensures r.Success? ==> r.value == value
  {
    if name in ContextAttributes then Success(value) else Failure(AttributeError)
  }

  /** `context.data` raises, while `context.get_data()` reaches the data. */
  lemma DataOnlyThroughGetData<T>(data: T)
    ensures ContextAttribute("data", data) == Failure(AttributeError)
    ensures ContextAttribute("get_data", data) == Success(data)
  {
  }

  // ---------------------------------------------------------------------
  // Settings and periodic execution

  type Settings = map<string, Json>

  /** `get_setting`. */
  function GetSetting(settings: Settings, key: string, default: Json): (r: Json)
    ensures key !in settings ==> r == default
  {
    Get(settings, key, default)
  }

  /** `set_setting`. */
  function SetSetting(settings: Settings, key: string, value: Json): (r: Settings)
    ensures r.Keys == settings.Keys + {key}
  {
    settings[key := value]
  }

  /** A setting reads back what was set, and no other setting changes. */
  lemma SetThenGetSetting(settings: Settings, key: string, value: Json, other: string, default: Json)
    ensures GetSetting(SetSetting(settings, key, value), key, default) == value
    ensures other != key ==> GetSetting(SetSetting(settings, key, value), other, default) == GetSetting(settings, other, default)
  {
  }

  /** `periodically_execute`: every registered function is called in order
      on the state; one that raises is reported (by its position) and
      leaves the state as it was, and the loop goes on with the next. */
  function PeriodicallyExecute<S>(functions: seq<S -> Result<S>>, s: S): (r: (S, seq<nat>))
    ensures forall k :: 0 <= k < |r.1| ==> r.1[k] < |functions|
    decreases |functions|
  {
    if functions == [] then (s, [])
    else
      var n := |functions| - 1;
      var (s1, failed) := PeriodicallyExecute(functions[..n], s);
      match functions[n](s1)
      case Success(s2) => (s2, failed)
      case Failure(_) => (s1, failed + [n])
  }

  /** Positions renumbered by an offset. */
  function Shift(positions: seq<nat>, offset: nat): (r: seq<nat>)
    ensures |r| == |positions|
    ensures forall k :: 0 <= k < |r| ==> r[k] == positions[k] + offset
  {
    seq(|positions|, k requires 0 <= k < |positions| => positions[k] + offset)
  }

  /** A failure stops nothing: running two lists back to back is running
      their concatenation, with the second list's failures numbered after
      the first's. */
  lemma {:induction false} PeriodicallyExecuteAppend<S>(fs: seq<S -> Result<S>>, gs: seq<S -> Result<S>>, s: S)
    ensures var (s1, f1) := PeriodicallyExecute(fs, s);
            var (s2, f2) := PeriodicallyExecute(gs, s1);
            PeriodicallyExecute(fs + gs, s) == (s2, f1 + Shift(f2, |fs|))
    decreases |gs|
  {
    var (s1, f1) := PeriodicallyExecute(fs, s);
    if gs == [] {
      assert fs + gs == fs;
      assert PeriodicallyExecute(gs, s1) == (s1, []);
      assert Shift([], |fs|) == [];
      assert f1 + [] == f1;
    } else {
      var n := |gs| - 1;
      assert (fs + gs)[..|fs| + n] == fs + gs[..n];
      assert (fs + gs)[|fs| + n] == gs[n];
      assert |fs + gs| - 1 == |fs| + n;
      PeriodicallyExecuteAppend(fs, gs[..n], s);
      var (t, f2) := PeriodicallyExecute(gs[..n], s1);
      assert PeriodicallyExecute(fs + gs[..n], s) == (t, f1 + Shift(f2, |fs|));
      match gs[n](t)
      case Success(u) =>
        assert PeriodicallyExecute(gs, s1) == (u, f2);
        assert PeriodicallyExecute(fs + gs, s) == (u, f1 + Shift(f2, |fs|));
      case Failure(_) =>
        assert PeriodicallyExecute(gs, s1) == (t, f2 + [n]);
        assert Shift(f2 + [n], |fs|) == Shift(f2, |fs|) + [n + |fs|];
        assert PeriodicallyExecute(fs + gs, s) == (t, f1 + Shift(f2, |fs|) + [n + |fs|]);
        assert f1 + Shift(f2, |fs|) + [n + |fs|] == f1 + (Shift(f2, |fs|) + [n + |fs|]);
    }
  }

  /** When no function raises, nothing is reported. */
  lemma {:induction false} PeriodicallyExecuteAllSucceed<S(!new)>(functions: seq<S -> Result<S>>, s: S)
    requires forall k :: 0 <= k < |functions| ==> NeverRaises(functions[k])
    ensures PeriodicallyExecute(functions, s).1 == []
    decreases |functions|
  {
    if functions != [] {
      var n := |functions| - 1;
      assert forall k :: 0 <= k < n ==> functions[..n][k] == functions[k];
      PeriodicallyExecuteAllSucceed(functions[..n], s);
      assert NeverRaises(functions[n]);
    }
  }

  ghost predicate NeverRaises<S(!new)>(f: S -> Result<S>) {
    forall t :: f(t).Success?
  }
}

=== FILE: mind_map.dfy ===
/** The mind-map plugin's text handling: the page range read from the
    document, greedy chunking of page texts under a token budget, the
    parameter dialog, stripping the code fence around the model's answer,
    and the title and file name offered when saving.

    Token counting (`tiktoken`, or a quarter of the length when that fails)
    is a parameter: nothing here depends on how tokens are counted.
 */
module MindMap {
  import opened Wrappers
  import opened Text
  import AiConfigure

  // ---------------------------------------------------------------------
  // Page range

  /** The end of a page range: a page number, or infinity for "to the last
      page". */
  datatype PageEnd = Finite(n: int) | Infinite

  /** `min(end_page, total_pages)`. */
  function Stop(end: PageEnd, total: nat): (s: int)
    ensures s <= total
    ensures end.Infinite? ==> s == total
  {
    match end
    case Finite(n) => if n < total then n else total
    case Infinite => total
  }

  /** `doc[i]` on a PyMuPDF document: a number at or past the page count
      raises `IndexError`; a negative one wraps around as often as needed
      (`WrapIndex`). A document without pages has no page to wrap onto and
      is taken to raise too. */
  function PageAt(pages: seq<string>, i: int): (r: Result<string>)
    ensures 0 <= i < |pages| ==> r == Success(pages[i])
    ensures r.Failure? <==> i >= |pages| || (i < 0 && |pages| == 0)
    ensures r.Failure? ==> r.error == IndexError
  {
    if 0 <= i < |pages| then Success(pages[i])
    else if i < 0 && |pages| > 0 then Success(pages[WrapIndex(i, |pages|)])
    else Failure(IndexError)
  }

  /** PyMuPDF's `while i < 0: i += page_count`. */
  function WrapIndex(i: int, n: int): (w: int)
    requires n > 0
    ensures i < n ==> 0 <= w < n
    ensures i >= 0 ==> w == i
    decreases if i < 0 then -i else 0
  {
    if i < 0 then WrapIndex(i + n, n) else i
  }

  lemma {:induction false} AtLeastOnce(k: nat, n: nat)
    requires k >= 1
    ensures k * n >= n
    decreases k
  {
    if k > 1 {
      AtLeastOnce(k - 1, n);
      assert k * n == (k - 1) * n + n;
    }
  }

  /** The wrap lands on the one index in range that differs from `i` by a
      whole number of page counts. */
  lemma {:induction false} WrapLands(i: int, n: int, k: nat)
    requires n > 0 && 0 <= i + k * n < n
    ensures WrapIndex(i, n) == i + k * n
    decreases k
  {
    if i >= 0 {
      if k >= 1 { AtLeastOnce(k, n); }
    } else {
      if k == 0 { assert false; }
      assert (i + n) + (k - 1) * n == i + k * n;
      WrapLands(i + n, n, k - 1);
    }
  }

  /** A negative page number reads the page a whole number of page counts
      further on. */
  lemma PageAtWraps(pages: seq<string>, i: int, k: nat)
    requires i < 0 && 0 <= i + k * |pages| < |pages|
    ensures PageAt(pages, i) == Success(pages[i + k * |pages|])
  {
    WrapLands(i, |pages|, k);
  }

  function PagesFrom(pages: seq<string>, i: int, stop: int): (r: Result<seq<string>>)
    ensures r.Success? ==> |r.value| == (if i < stop then stop - i else 0)
    ensures r.Success? && i < stop ==> stop <= |pages|
    ensures r.Success? && |pages| > 0 ==>
              forall j :: 0 <= j < |r.value| ==> r.value[j] == pages[WrapIndex(i + j, |pages|)]
    ensures stop <= |pages| ==> (r.Failure? <==> i < stop && i < 0 && |pages| == 0)
    decreases stop - i
  {
    if i >= stop then Success([])
    else
      var text :- PageAt(pages, i);
      var rest :- PagesFrom(pages, i + 1, stop);
      Success([text] + rest)
  }

  /** `extract_document_text`: the texts of pages `start - 1` up to but not
      including `min(end, total)`. */
  function ExtractDocumentText(pages: seq<string>, start: int, end: PageEnd): (r: Result<seq<string>>)
    ensures r.Failure? <==> |pages| == 0 && start - 1 < Stop(end, |pages|)
    ensures r.Success? ==> |r.value| == (if start - 1 < Stop(end, |pages|) then Stop(end, |pages|) - (start - 1) else 0)
    ensures r.Success? && |pages| > 0 ==>
              forall j :: 0 <= j < |r.value| ==> r.value[j] == pages[WrapIndex(start - 1 + j, |pages|)]
  {
    PagesFrom(pages, start - 1, Stop(end, |pages|))
  }

  /** A start before the first page wraps round the document: from page
      -5 of three pages, the pages are read three times over. */
  lemma ExtractWrapsRound()
    ensures ExtractDocumentText(["a", "b", "c"], -5, Infinite) == Success(["a", "b", "c", "a", "b", "c", "a", "b", "c"])
  {
    var pages := ["a", "b", "c"];
    var thrice := ["a", "b", "c", "a", "b", "c", "a", "b", "c"];
    var r := ExtractDocumentText(pages, -5, Infinite);
    assert r.Success? && |r.value| == 9;
    forall j | 0 <= j < 9
      ensures r.value[j] == thrice[j]
    {
      WrapLands(-6 + j, 3, if j < 3 then 2 else if j < 6 then 1 else 0);
    }
    assert r.value == thrice;
  }

  lemma {:induction false} PagesFromSlice(pages: seq<string>, i: int, stop: int)
    requires 0 <= i && stop <= |pages|
    ensures PagesFrom(pages, i, stop) == Success(if i < stop then pages[i..stop] else [])
    decreases stop - i
  {
    if i < stop {
      PagesFromSlice(pages, i + 1, stop);
      assert [pages[i]] + (if i + 1 < stop then pages[i + 1..stop] else []) == pages[i..stop];
    }
  }

  /** From a positive start page the extracted texts are exactly the pages
      `start` to `end` (1-based, both included), cut at the last page. */
  lemma ExtractIsSlice(pages: seq<string>, start: int, end: PageEnd)
    requires start >= 1
    ensures var stop := Stop(end, |pages|);
            ExtractDocumentText(pages, start, end) == Success(if start - 1 < stop then pages[start - 1..stop] else [])
  {
    PagesFromSlice(pages, start - 1, Stop(end, |pages|));
  }

  // ---------------------------------------------------------------------
  // Chunking

  /** The chunker's state: the closed chunks as groups of texts, the texts
      of the open chunk and its token count. */
  datatype ChunkState = ChunkState(done: seq<seq<string>>, current: seq<string>, tokens: int)

  /** One text of the loop in `_split_text_into_chunks`: it starts the chunk
      when the open chunk is empty, joins it while the count stays below the
      budget, and otherwise closes it and starts the next. */
  function Feed(st: ChunkState, t: string, maxTokens: int, count: string -> int): ChunkState
  {
    if Join(st.current, "\n") == "" then st.(current := [t], tokens := count(t))
    else if st.tokens + count(t) < maxTokens then st.(current := st.current + [t], tokens := st.tokens + count(t))
    else ChunkState(st.done + [st.current], [t], count(t))
  }

  function FeedAll(texts: seq<string>, maxTokens: int, count: string -> int): ChunkState
  {
    if texts == [] then ChunkState([], [], 0)
    else Feed(FeedAll(texts[..|texts| - 1], maxTokens, count), texts[|texts| - 1], maxTokens, count)
  }

  function JoinAll(groups: seq<seq<string>>): (r: seq<string>)
    ensures |r| == |groups| && forall k :: 0 <= k < |r| ==> r[k] == Join(groups[k], "\n")
  {
    seq(|groups|, k requires 0 <= k < |groups| => Join(groups[k], "\n"))
  }

  /** The chunks returned: the closed ones, then the open one stripped when
      it is not empty. */
  function Chunks(texts: seq<string>, maxTokens: int, count: string -> int): seq<string>
  {
    var st := FeedAll(texts, maxTokens, count);
    JoinAll(st.done) + (if Join(st.current, "\n") != "" then [Strip(Join(st.current, "\n"))] else [])
  }

  /** `_split_text_into_chunks`. */
  method SplitIntoChunks(texts: seq<string>, maxTokens: int, count: string -> int) returns (chunks: seq<string>)
    ensures chunks == Chunks(texts, maxTokens, count)
  {
    chunks := [];
    var current := "";
    var currentTokens := 0;
    ghost var st := ChunkState([], [], 0);
    for i := 0 to |texts|
      invariant st == FeedAll(texts[..i], maxTokens, count)
      invariant current == Join(st.current, "\n") && currentTokens == st.tokens
      invariant chunks == JoinAll(st.done)
    {
      var text := texts[i];
      var tokens := count(text);
      assert texts[..i + 1][..i] == texts[..i];
      if current == "" {
        current := text;
        currentTokens := tokens;
      } else if currentTokens + tokens < maxTokens {
        JoinAppend(st.current, "\n", text);
        current := current + "\n" + text;
        currentTokens := currentTokens + tokens;
      } else {
        chunks := chunks + [current];
        current := text;
        currentTokens := tokens;
      }
      st := Feed(st, text, maxTokens, count);
    }
    assert texts[..|texts|] == texts;
    if current != "" {
      chunks := chunks + [Strip(current)];
    }
  }

  /** The texts of a list of groups, in order. */
  function Flatten(groups: seq<seq<string>>): seq<string>
  {
    if groups == [] then [] else Flatten(groups[..|groups| - 1]) + groups[|groups| - 1]
  }

  function SumTokens(g: seq<string>, count: string -> int): int
  {
    if g == [] then 0 else SumTokens(g[..|g| - 1], count) + count(g[|g| - 1])
  }

  /** All chunk groups, the open one last. */
  function Groups(st: ChunkState): seq<seq<string>> {
    st.done + [st.current]
  }

  /** What greedy chunking guarantees, for texts none of which is empty:
      the groups hold the texts in order, the count kept is the open
      group's, no group is empty, a group of several texts stays below the
      budget, and each closed group was closed only because the next text
      would have reached the budget. */
  predicate Greedy(st: ChunkState, texts: seq<string>, maxTokens: int, count: string -> int) {
    && Flatten(Groups(st)) == texts
    && st.tokens == SumTokens(st.current, count)
    && NoEmptyGroup(Groups(st))
    && UnderBudget(Groups(st), maxTokens, count)
    && ClosedAtBudget(Groups(st), maxTokens, count)
  }

  predicate NoEmptyGroup(gs: seq<seq<string>>) {
    forall k :: 0 <= k < |gs| ==> gs[k] != []
  }

  predicate UnderBudget(gs: seq<seq<string>>, maxTokens: int, count: string -> int) {
    forall k :: 0 <= k < |gs| ==> |gs[k]| > 1 ==> SumTokens(gs[k], count) < maxTokens
  }

  predicate ClosedAtBudget(gs: seq<seq<string>>, maxTokens: int, count: string -> int)
    requires NoEmptyGroup(gs)
  {
    forall k :: 0 <= k < |gs| - 1 ==> SumTokens(gs[k], count) + count(gs[k + 1][0]) >= maxTokens
  }

  predicate NoneEmpty(texts: seq<string>) {
    forall k :: 0 <= k < |texts| ==> texts[k] != ""
  }

  lemma FlattenAppend(groups: seq<seq<string>>, g: seq<string>)
    ensures Flatten(groups + [g]) == Flatten(groups) + g
  {
    assert (groups + [g])[..|groups|] == groups;
  }

  lemma SumTokensAppend(g: seq<string>, t: string, count: string -> int)
    ensures SumTokens(g + [t], count) == SumTokens(g, count) + count(t)
  {
    assert (g + [t])[..|g|] == g;
  }

  /** Joining parts whose first part is not empty gives a non-empty text. */
  lemma JoinNotEmpty(parts: seq<string>, sep: string)
    requires parts != [] && parts[0] != ""
    ensures Join(parts, sep) != ""
  {
    if |parts| > 1 {
      assert Join(parts, sep) == parts[0] + sep + Join(parts[1..], sep);
    }
  }

  /** Once a text has been fed, the open chunk is never empty. */
  lemma OpenChunkNotEmpty(st: ChunkState, texts: seq<string>, maxTokens: int, count: string -> int)
    requires NoneEmpty(texts) && Greedy(st, texts, maxTokens, count)
    ensures Join(st.current, "\n") != ""
  {
    FlattenAppend(st.done, st.current);
    assert st.current[0] == texts[|Flatten(st.done)|];
    JoinNotEmpty(st.current, "\n");
  }

  /** A text that fits joins the open chunk. */
  lemma ExtendKeepsGreedy(st: ChunkState, texts: seq<string>, t: string, maxTokens: int, count: string -> int)
    requires Greedy(st, texts, maxTokens, count) && st.tokens + count(t) < maxTokens
    ensures var next := st.(current := st.current + [t], tokens := st.tokens + count(t));
            Greedy(next, texts + [t], maxTokens, count)
  {
    var next := st.(current := st.current + [t], tokens := st.tokens + count(t));
    var gs, gs' := Groups(st), Groups(next);
    SumTokensAppend(st.current, t, count);
    FlattenAppend(st.done, st.current);
    FlattenAppend(st.done, st.current + [t]);
    assert |gs'| == |gs| && gs'[|gs| - 1] == gs[|gs| - 1] + [t];
    assert forall k :: 0 <= k < |gs| - 1 ==> gs'[k] == gs[k];
    assert NoEmptyGroup(gs');
    forall k | 0 <= k < |gs'| - 1
      ensures SumTokens(gs'[k], count) + count(gs'[k + 1][0]) >= maxTokens
    {
      assert gs'[k + 1][0] == gs[k + 1][0];
    }
  }

  /** A text that does not fit closes the open chunk and opens the next. */
  lemma CloseKeepsGreedy(st: ChunkState, texts: seq<string>, t: string, maxTokens: int, count: string -> int)
    requires Greedy(st, texts, maxTokens, count) && st.tokens + count(t) >= maxTokens
    ensures Greedy(ChunkState(st.done + [st.current], [t], count(t)), texts + [t], maxTokens, count)
  {
    var next := ChunkState(st.done + [st.current], [t], count(t));
    var gs, gs' := Groups(st), Groups(next);
    FlattenAppend(st.done, st.current);
    FlattenAppend(st.done + [st.current], [t]);
    assert gs' == gs + [[t]];
    assert SumTokens([t], count) == count(t) by {
      SumTokensAppend([], t, count);
      assert [] + [t] == [t];
    }
    assert NoEmptyGroup(gs');
    forall k | 0 <= k < |gs'| && |gs'[k]| > 1
      ensures SumTokens(gs'[k], count) < maxTokens
    {
      assert k < |gs|;
      assert gs'[k] == gs[k];
    }
    forall k | 0 <= k < |gs'| - 1
      ensures SumTokens(gs'[k], count) + count(gs'[k + 1][0]) >= maxTokens
    {
      if k < |gs| - 1 {
        assert gs'[k] == gs[k] && gs'[k + 1] == gs[k + 1];
      } else {
        assert gs'[k] == st.current && gs'[k + 1] == [t];
      }
    }
  }

  /** Feeding one more non-empty text keeps the greedy guarantees. */
  lemma FeedKeepsGreedy(st: ChunkState, texts: seq<string>, t: string, maxTokens: int, count: string -> int)
    requires NoneEmpty(texts) && Greedy(st, texts, maxTokens, count)
    ensures Greedy(Feed(st, t, maxTokens, count), texts + [t], maxTokens, count)
  {
    OpenChunkNotEmpty(st, texts, maxTokens, count);
    if st.tokens + count(t) < maxTokens {
      ExtendKeepsGreedy(st, texts, t, maxTokens, count);
    } else {
      CloseKeepsGreedy(st, texts, t, maxTokens, count);
    }
  }

  /** For texts none of which is empty, the chunker's state satisfies the
      greedy guarantees. */
  lemma {:induction false} FeedAllGreedy(texts: seq<string>, maxTokens: int, count: string -> int)
    requires texts != [] && NoneEmpty(texts)
    ensures Greedy(FeedAll(texts, maxTokens, count), texts, maxTokens, count)
    decreases |texts|
  {
    var prefix := texts[..|texts| - 1];
    var t := texts[|texts| - 1];
    assert prefix + [t] == texts;
    assert FeedAll(texts, maxTokens, count) == Feed(FeedAll(prefix, maxTokens, count), t, maxTokens, count);
    if prefix == [] {
      FirstFeedGreedy(t, maxTokens, count);
    } else {
      assert NoneEmpty(prefix) by {
        forall k | 0 <= k < |prefix|
          ensures prefix[k] != ""
        {
          assert prefix[k] == texts[k];
        }
      }
      FeedAllGreedy(prefix, maxTokens, count);
      FeedKeepsGreedy(FeedAll(prefix, maxTokens, count), prefix, t, maxTokens, count);
    }
  }

  /** The first text fed opens the first chunk on its own. */
  lemma FirstFeedGreedy(t: string, maxTokens: int, count: string -> int)
    ensures Greedy(Feed(ChunkState([], [], 0), t, maxTokens, count), [t], maxTokens, count)
  {
    var st := Feed(ChunkState([], [], 0), t, maxTokens, count);
    assert Join([], "\n") == "";
    assert st == ChunkState([], [t], count(t));
    assert Groups(st) == [[t]];
    FlattenAppend([], [t]);
    assert [] + [[t]] == [[t]];
    SumTokensAppend([], t, count);
    assert [] + [t] == [t];
  }

  /** Non-empty groups hold at least as many texts as there are groups. */
  lemma {:induction false} FlattenLength(gs: seq<seq<string>>)
    requires NoEmptyGroup(gs)
    ensures |Flatten(gs)| >= |gs|
    decreases |gs|
  {
    if gs != [] {
      FlattenLength(gs[..|gs| - 1]);
    }
  }

  /** No texts give no chunks. For texts none of which is empty, there are
      at most as many chunks as texts; every chunk but the last is its group
      joined by newlines, and only the last is stripped. */
  lemma ChunksShape(texts: seq<string>, maxTokens: int, count: string -> int)
    ensures texts == [] ==> Chunks(texts, maxTokens, count) == []
    ensures texts != [] && NoneEmpty(texts) ==>
              var st, r := FeedAll(texts, maxTokens, count), Chunks(texts, maxTokens, count);
              && |r| == |st.done| + 1 <= |texts|
              && (forall k :: 0 <= k < |st.done| ==> r[k] == Join(st.done[k], "\n"))
              && r[|st.done|] == Strip(Join(st.current, "\n"))
  {
    if texts != [] && NoneEmpty(texts) {
      var st := FeedAll(texts, maxTokens, count);
      FeedAllGreedy(texts, maxTokens, count);
      OpenChunkNotEmpty(st, texts, maxTokens, count);
      FlattenLength(Groups(st));
    }
  }

  predicate AllEmpty(texts: seq<string>) {
    forall k :: 0 <= k < |texts| ==> texts[k] == ""
  }

  /** Empty texts alone close nothing and leave an open chunk that joins to
      the empty text. */
  lemma {:induction false} BlanksLeaveNothing(es: seq<string>, maxTokens: int, count: string -> int)
    requires AllEmpty(es)
    ensures FeedAll(es, maxTokens, count).done == []
    ensures Join(FeedAll(es, maxTokens, count).current, "\n") == ""
    decreases |es|
  {
    if es != [] {
      BlanksLeaveNothing(es[..|es| - 1], maxTokens, count);
    }
  }

  /** Feeding empty texts first ends in the state the other texts alone
      reach. */
  lemma {:induction false} BlanksThenTexts(es: seq<string>, texts: seq<string>, maxTokens: int, count: string -> int)
    requires AllEmpty(es) && texts != []
    ensures FeedAll(es + texts, maxTokens, count) == FeedAll(texts, maxTokens, count)
    decreases |texts|
  {
    var all := es + texts;
    var last := texts[|texts| - 1];
    assert all[|all| - 1] == last;
    if |texts| == 1 {
      assert all[..|all| - 1] == es;
      BlanksLeaveNothing(es, maxTokens, count);
    } else {
      var init := texts[..|texts| - 1];
      assert all[..|all| - 1] == es + init;
      BlanksThenTexts(es, init, maxTokens, count);
    }
  }

  /** Empty texts before the others change nothing: each leaves the open
      chunk empty, and the next text replaces it. */
  lemma LeadingBlanksVanish(es: seq<string>, texts: seq<string>, maxTokens: int, count: string -> int)
    requires AllEmpty(es)
    ensures texts != [] ==> FeedAll(es + texts, maxTokens, count) == FeedAll(texts, maxTokens, count)
    ensures Chunks(es + texts, maxTokens, count) == Chunks(texts, maxTokens, count)
  {
    if texts == [] {
      assert es + texts == es;
      BlanksLeaveNothing(es, maxTokens, count);
    } else {
      BlanksThenTexts(es, texts, maxTokens, count);
    }
  }

  /** An empty text after a non-empty open chunk, while the count stays
      below the budget, joins it as one more line break. */
  lemma BlankExtendsChunk(st: ChunkState, maxTokens: int, count: string -> int)
    requires Join(st.current, "\n") != "" && st.tokens + count("") < maxTokens
    ensures Join(Feed(st, "", maxTokens, count).current, "\n") == Join(st.current, "\n") + "\n"
    ensures Feed(st, "", maxTokens, count).done == st.done
  {
    JoinAppend(st.current, "\n", "");
  }

  // ---------------------------------------------------------------------
  // The parameter dialog

  /** The result of pressing OK: the parameters, a start page after the end
      page, or a field that is not a number. */
  datatype DialogResult =
    | Accepted(depth: int, start: int, end: PageEnd)
    | StartAfterEnd
    | NotANumber

  /** `MindMapDialog._on_ok`. An empty end field, and also an end page of 0
      (falsy in Python), mean "to the last page". */
  function OnOk(depthText: string, startText: string, endText: string): (r: DialogResult)
    ensures r.Accepted? ==> ParseInt(depthText) == Some(r.depth) && ParseInt(startText) == Some(r.start)
    ensures r.Accepted? && r.end.Finite? ==> r.start <= r.end.n && r.end.n != 0
    ensures r.Accepted? && r.end.Infinite? ==> endText == "" || ParseInt(endText) == Some(0)
    ensures r == StartAfterEnd ==> ParseInt(endText).Some? && ParseInt(startText).Some?
                                   && ParseInt(endText).value != 0 && ParseInt(startText).value > ParseInt(endText).value
  {
    var depth, start := ParseInt(depthText), ParseInt(startText);
    if depth.None? || start.None? then NotANumber
    else if endText == "" then Accepted(depth.value, start.value, Infinite)
    else
      var end := ParseInt(endText);
      if end.None? then NotANumber
      else if end.value != 0 && start.value > end.value then StartAfterEnd
      else Accepted(depth.value, start.value, if end.value != 0 then Finite(end.value) else Infinite)
  }

  /** Entering numbers as they print is accepted exactly when the start
      does not come after a non-zero end. */
  lemma OnOkAcceptsNumbers(depth: int, start: int, end: int)
    ensures var r := OnOk(IntToString(depth), IntToString(start), IntToString(end));
            && (r.Accepted? <==> end == 0 || start <= end)
            && (r.Accepted? ==> r == Accepted(depth, start, if end == 0 then Infinite else Finite(end)))
  {
    ParseIntToString(depth);
    ParseIntToString(start);
    ParseIntToString(end);
    OnOkParsed(IntToString(depth), IntToString(start), IntToString(end), depth, start, end);
  }

  /** Three fields that parse, the last one non-empty: the dialog accepts
      unless the start comes after a non-zero end. */
  lemma OnOkParsed(depthText: string, startText: string, endText: string, depth: int, start: int, end: int)
    requires ParseInt(depthText) == Some(depth) && ParseInt(startText) == Some(start)
    requires endText != "" && ParseInt(endText) == Some(end)
    ensures OnOk(depthText, startText, endText)
              == if end != 0 && start > end then StartAfterEnd
                 else Accepted(depth, start, if end == 0 then Infinite else Finite(end))
  {
  }

  // ---------------------------------------------------------------------
  // The model's answer

  /** The answer with a leading code fence removed: when the (already
      stripped) answer starts with a backquote, its first and last lines are
      dropped. */
  function Unfence(t: string): (r: string)
    ensures !StartsWith(t, "`") ==> r == t
  {
    if StartsWith(t, "`") then Join(DropEnds(Split(t, '\n')), "\n") else t
  }

  /** The answer as displayed: stripped, then unfenced. */
  function StripFence(answer: string): (r: string)
    ensures !StartsWith(Strip(answer), "`") ==> r == Strip(answer)
  {
    Unfence(Strip(answer))
  }

  /** `lines[1:-1]`. */
  function DropEnds(lines: seq<string>): (r: seq<string>)
    ensures |lines| >= 2 ==> r == lines[1..|lines| - 1]
    ensures |lines| < 2 ==> r == []
  {
    if |lines| >= 2 then lines[1..|lines| - 1] else []
  }

  /** A fenced answer, the opening fence line, the body lines and the
      closing fence joined by newlines, gives back exactly the body. */
  lemma UnfenceRoundTrip(opening: string, body: seq<string>)
    requires StartsWith(opening, "`") && '\n' !in opening
    requires forall k :: 0 <= k < |body| ==> '\n' !in body[k]
    ensures Unfence(Join([opening] + body + ["```"], "\n")) == Join(body, "\n")
  {
    var parts := [opening] + body + ["```"];
    FenceLinesHaveNoBreak(opening, body);
    UnfenceLines(parts);
    assert DropEnds(parts) == body;
  }

  /** Lines without newlines, the first opening with a backquote, joined
      by newlines, lose exactly their first and last line. */
  lemma UnfenceLines(parts: seq<string>)
    requires |parts| >= 1 && StartsWith(parts[0], "`")
    requires forall k :: 0 <= k < |parts| ==> '\n' !in parts[k]
    ensures Unfence(Join(parts, "\n")) == Join(DropEnds(parts), "\n")
  {
    JoinStartsWith(parts, "\n");
    SplitJoin(parts, '\n');
  }

  lemma FenceLinesHaveNoBreak(opening: string, body: seq<string>)
    requires '\n' !in opening
    requires forall k :: 0 <= k < |body| ==> '\n' !in body[k]
    ensures var parts := [opening] + body + ["```"]; forall k :: 0 <= k < |parts| ==> '\n' !in parts[k]
  {
    var parts := [opening] + body + ["```"];
    forall k | 0 <= k < |parts|
      ensures '\n' !in parts[k]
    {
      if 0 < k < |parts| - 1 {
        assert parts[k] == body[k - 1];
      }
    }
  }

  /** Joined parts start as their first part does. */
  lemma JoinStartsWith(parts: seq<string>, sep: string)
    requires |parts| >= 1 && StartsWith(parts[0], "`")
    ensures StartsWith(Join(parts, sep), "`")
  {
    var s := Join(parts, sep);
    if |parts| > 1 {
      assert s == parts[0] + sep + Join(parts[1..], sep);
    }
    assert s[..1] == parts[0][..1];
  }

  // ---------------------------------------------------------------------
  // Title and file name

  /** The title a line carries: the text after `# ` in the stripped line,
      itself stripped; `""` for a line that is not a heading. */
  function LineTitle(line: string): string
  {
    var t := Strip(line);
    if StartsWith(t, "# ") then Strip(t[2..]) else ""
  }

  /** The first non-empty `f(xs[k])` for `k` from `i` on, or `""`. */
  function FirstNonEmpty(xs: seq<string>, i: nat, f: string -> string): string
    decreases |xs| - i
  {
    if i >= |xs| then ""
    else if f(xs[i]) != "" then f(xs[i])
    else FirstNonEmpty(xs, i + 1, f)
  }

  /** `_get_title`: the first non-empty level-one heading, or `""`. A
      heading with an empty title is passed over. */
  function GetTitle(markdown: string): string
  {
    FirstNonEmpty(Lines(markdown), 0, LineTitle)
  }

  /** The search gives `""` exactly when every value from `i` on is empty,
      and otherwise the value at the first place where one is not. */
  lemma {:induction false} FirstNonEmptyIsFirst(xs: seq<string>, i: nat, f: string -> string)
    ensures FirstNonEmpty(xs, i, f) == "" <==> forall k :: i <= k < |xs| ==> f(xs[k]) == ""
    ensures FirstNonEmpty(xs, i, f) != "" ==>
              exists k :: && i <= k < |xs| && f(xs[k]) == FirstNonEmpty(xs, i, f)
                          && forall j :: i <= j < k ==> f(xs[j]) == ""
    decreases |xs| - i
  {
    if i < |xs| && f(xs[i]) == "" {
      FirstNonEmptyIsFirst(xs, i + 1, f);
      if FirstNonEmpty(xs, i, f) != "" {
        var k :| && i + 1 <= k < |xs| && f(xs[k]) == FirstNonEmpty(xs, i + 1, f)
                 && forall j :: i + 1 <= j < k ==> f(xs[j]) == "";
        assert forall j :: i <= j < k ==> f(xs[j]) == "";
      }
    }
  }

  /** The title is that of the first line of the text carrying a non-empty
      title; there is none exactly when no line carries one. (`title` is
      `LineTitle`, applied as a function value.) */
  lemma GetTitleIsFirst(markdown: string)
    ensures var lines, r, title := Lines(markdown), GetTitle(markdown), LineTitle;
            && (r == "" <==> forall k :: 0 <= k < |lines| ==> title(lines[k]) == "")
            && (r != "" ==> exists k :: && 0 <= k < |lines| && title(lines[k]) == r
                                        && forall j :: 0 <= j < k ==> title(lines[j]) == "")
  {
    var lines := Lines(markdown);
    assert GetTitle(markdown) == FirstNonEmpty(lines, 0, LineTitle);
    FirstNonEmptyIsFirst(lines, 0, LineTitle);
  }

  const DefaultFilename: string := "untitled_mindmap"
  const InvalidFilenameChars: set<char> := {'\\', '/', ':', '*', '?', '"', '<', '>', '|'}

  /** The default name needs no replacement. */
  lemma DefaultFilenameValid()
    ensures forall i :: 0 <= i < |DefaultFilename| ==> DefaultFilename[i] !in InvalidFilenameChars
  {
  }

  /** The file name offered for a title: the title, or the default name
      when there is none, with every forbidden character replaced by `_`. */
  function FilenameFor(title: string): (r: string)
    ensures r != ""
    ensures forall i :: 0 <= i < |r| ==> r[i] !in InvalidFilenameChars
  {
    ReplaceChars(if title != "" then title else DefaultFilename, InvalidFilenameChars, '_')
  }

  /** `_get_initial_filename` for the text in the editor (which the widget
      hands over stripped). */
  function InitialFilename(editorText: string): (r: string)
    ensures r != "" && forall i :: 0 <= i < |r| ==> r[i] !in InvalidFilenameChars
    ensures GetTitle(Strip(editorText)) == "" ==> r == DefaultFilename
  {
    FilenameFromTitle(GetTitle(Strip(editorText)));
    FilenameFor(GetTitle(Strip(editorText)))
  }

  /** Without a title the default name is offered; a title that is already
      a valid file name is used as it is, and any other title keeps its
      length with each forbidden character replaced by `_`. */
  lemma FilenameFromTitle(title: string)
    ensures var r := FilenameFor(title);
            && (title == "" ==> r == DefaultFilename)
            && (title != "" ==> |r| == |title|)
            && (title != "" ==> forall i :: 0 <= i < |r| ==> r[i] == (if title[i] in InvalidFilenameChars then '_' else title[i]))
            && (title != "" && (forall i :: 0 <= i < |title| ==> title[i] !in InvalidFilenameChars) ==> r == title)
  {
    if title == "" {
      DefaultFilenameValid();
      ReplaceCharsClean(DefaultFilename, InvalidFilenameChars, '_');
    } else if forall i :: 0 <= i < |title| ==> title[i] !in InvalidFilenameChars {
      ReplaceCharsClean(title, InvalidFilenameChars, '_');
    }
  }

  // ---------------------------------------------------------------------
  // The configuration check of `run`

  /** `run` as written: the configuration must have a truthy `url`,
      `api_key` and `model`. */
  predicate ConfigReadyAsWritten(config: AiConfigure.ConfigDict) {
    AiConfigure.Truthy(config, "url") && AiConfigure.Truthy(config, "api_key") && AiConfigure.Truthy(config, "model")
  }

  /** The configuration service never provides `api_key` (the key is called
      `token`), so as written the command always stops at "configure AI
      first", however the AI has been configured. */
  lemma MindMapNeverReady(st: AiConfigure.Storage, c: AiConfigure.AIConfiguration)
    ensures !ConfigReadyAsWritten(AiConfigure.GetConfiguration(st).0) || "api_key" in st.saved.GetOr(map[])
    ensures var saved := AiConfigure.SaveConfiguration(st, AiConfigure.ToDict(c)).value;
            !ConfigReadyAsWritten(AiConfigure.GetConfigurationInPlace(saved).0)
  {
  }

  /** With the corrected check, any configuration confirmed in the dialog
      lets the command proceed. */
  lemma ConfirmedConfigReady(st: AiConfigure.Storage, url: string, token: string, model: string, stream: bool)
    requires AiConfigure.OnConfirm(url, token, model, stream).Some?
    ensures var c := AiConfigure.OnConfirm(url, token, model, stream).value;
            AiConfigure.Usable(AiConfigure.GetConfiguration(AiConfigure.Configure(st, Some(c))).0)
  {
    AiConfigure.ConfirmedUsable(st, url, token, model, stream);
  }
}

=== FILE: ocr.dfy ===
/** OCR bookkeeping: the per-page result cache, recognising the images of a
    page and mapping detections onto the page, merging recognised text into
    the plain-text output of `get_text`, and the prioritised task queue.

    The recognition engine and the document backend are inputs: for each
    image of the page, whether its bytes could be read, where it is placed,
    its pixel size as handed to the engine, and the engine's detections.
 */
module Ocr {
  import opened Wrappers
  import opened Text
  import opened Geometry
  import Menus

  // ---------------------------------------------------------------------
  // Cache

  /** A recognised text with its box in page coordinates. */
  datatype OcrResult = OcrResult(text: string, bbox: Rect, confidence: real)

  /** The `ocr_cache` dictionary of the reader's data. */
  type Cache = map<string, seq<OcrResult>>

  const PageMarker: string := "#page"

  /** `get_ocr_cache_key`: `f"{file_path}#page{page_no}"`. */
  function CacheKey(file: string, page: int): (k: string)
    ensures |k| > |file| + |PageMarker| && k[..|file|] == file
    ensures k[|file|..|file| + |PageMarker|] == PageMarker
    ensures k[|file| + |PageMarker|..] == IntToString(page)
  {
    file + PageMarker + IntToString(page)
  }

  lemma NoHashInNumber(i: int)
    ensures '#' !in IntToString(i)
  {
    var s := IntToString(i);
    forall k | 0 <= k < |s|
      ensures s[k] != '#'
    {
      assert (i < 0 && k == 0) || IsDigit(s[k]);
    }
  }

  /** The key's last `#` sits right after the file path. */
  lemma LastHashAfterFile(file: string, page: int, j: int)
    requires |file| < j < |CacheKey(file, page)|
    ensures CacheKey(file, page)[j] != '#'
  {
    var k := CacheKey(file, page);
    NoHashInNumber(page);
    if j >= |file| + |PageMarker| {
      assert k[j] == IntToString(page)[j - |file| - |PageMarker|];
    } else {
      assert k[j] == PageMarker[j - |file|];
    }
  }

  /** Different pages, or pages of different files, never share a key. */
  lemma CacheKeyInjective(f1: string, p1: int, f2: string, p2: int)
    requires CacheKey(f1, p1) == CacheKey(f2, p2)
    ensures f1 == f2 && p1 == p2
  {
    var k := CacheKey(f1, p1);
    if |f1| < |f2| {
      assert k[|f2|] == '#';
      LastHashAfterFile(f1, p1, |f2|);
    } else if |f2| < |f1| {
      assert k[|f1|] == '#';
      LastHashAfterFile(f2, p2, |f1|);
    }
    assert f1 == k[..|f1|] == f2;
    IntToStringInjective(p1, p2);
  }

  /** `get_cached_ocr_result` as written: it fetches the cache through
      `self.context.data`, which the context does not have, so every lookup
      raises before the cache is reached. */
  function CachedResultAsWritten(cache: Cache, file: string, page: int): (r: Result<Option<seq<OcrResult>>>)
    ensures r == Failure(AttributeError)
  {
    match Menus.ContextAttribute("data", cache)
    case Failure(e) => Failure(e)
    case Success(c) => Success(CachedResult(c, file, page))
  }

  /** `save_ocr_result` as written: it raises in the same way and saves
      nothing. */
  function SaveResultAsWritten(cache: Cache, file: string, page: int, results: seq<OcrResult>): (r: Result<Cache>)
    ensures r == Failure(AttributeError)
  {
    match Menus.ContextAttribute("data", cache)
    case Failure(e) => Failure(e)
    case Success(c) => Success(SaveResult(c, file, page, results))
  }

  /** `get_cached_ocr_result` with the cache reached through the reader's
      data, as `context.get_data()` gives it. */
  function CachedResult(cache: Cache, file: string, page: int): (r: Option<seq<OcrResult>>)
    ensures r.Some? <==> CacheKey(file, page) in cache
    ensures r.Some? ==> r.value == cache[CacheKey(file, page)]
  {
    var key := CacheKey(file, page);
    if key in cache then Some(cache[key]) else None
  }

  /** `save_ocr_result` with the cache reached through the reader's data. */
  function SaveResult(cache: Cache, file: string, page: int, results: seq<OcrResult>): (c: Cache)
    ensures c.Keys == cache.Keys + {CacheKey(file, page)}
  {
    cache[CacheKey(file, page) := results]
  }

  /** Saving and then reading a page gives the saved results, and every other
      page reads as before. */
  lemma SaveThenGet(cache: Cache, file: string, page: int, results: seq<OcrResult>, f: string, p: int)
    ensures CachedResult(SaveResult(cache, file, page, results), file, page) == Some(results)
    ensures (f, p) != (file, page) ==>
              CachedResult(SaveResult(cache, file, page, results), f, p) == CachedResult(cache, f, p)
  {
    if (f, p) != (file, page) && CacheKey(f, p) == CacheKey(file, page) {
      CacheKeyInjective(f, p, file, page);
    }
  }

  // ---------------------------------------------------------------------
  // Recognition

  /** A detection: the four corners of its quadrilateral in image pixels,
      the text and the confidence. */
  datatype Detection = Detection(p0: (real, real), p1: (real, real), p2: (real, real), p3: (real, real),
                                 text: string, confidence: real)

  /** An image of the page as the recogniser sees it: whether its bytes were
      extracted and decoded, where it is placed on the page, its pixel size
      after any downscaling, and the engine's detections on it. */
  datatype OcrImage = OcrImage(readable: bool, rects: seq<Rect>, width: nat, height: nat,
                               detections: seq<Detection>)

  const MinConfidence: real := 0.2
  const MinImageSide: real := 10.0

  function Min4(a: real, b: real, c: real, d: real): (m: real)
    ensures m <= a && m <= b && m <= c && m <= d
    ensures m == a || m == b || m == c || m == d
  {
    Min(Min(a, b), Min(c, d))
  }

  function Max4(a: real, b: real, c: real, d: real): (m: real)
    ensures m >= a && m >= b && m >= c && m >= d
    ensures m == a || m == b || m == c || m == d
  {
    Max(Max(a, b), Max(c, d))
  }

  /** Along one axis: a pixel position in an image `size` pixels long, as
      a fraction of it, placed in `[origin, origin + extent]`. */
  function Place(pos: real, size: real, origin: real, extent: real): real
    requires size > 0.0
  {
    origin + pos / size * extent
  }

  /** The detection's bounding box relative to the image, placed in the
      image's rectangle on the page. */
  function PageBox(d: Detection, bbox: Rect, width: nat, height: nat): (r: Rect)
    requires width > 0 && height > 0
  {
    var w, h := width as real, height as real;
    var bw, bh := bbox.x1 - bbox.x0, bbox.y1 - bbox.y0;
    Rect(Place(Min4(d.p0.0, d.p1.0, d.p2.0, d.p3.0), w, bbox.x0, bw),
         Place(Min4(d.p0.1, d.p1.1, d.p2.1, d.p3.1), h, bbox.y0, bh),
         Place(Max4(d.p0.0, d.p1.0, d.p2.0, d.p3.0), w, bbox.x0, bw),
         Place(Max4(d.p0.1, d.p1.1, d.p2.1, d.p3.1), h, bbox.y0, bh))
  }

  /** All four corners inside the image. */
  predicate InsideImage(d: Detection, width: nat, height: nat) {
    && 0.0 <= d.p0.0 <= width as real && 0.0 <= d.p0.1 <= height as real
    && 0.0 <= d.p1.0 <= width as real && 0.0 <= d.p1.1 <= height as real
    && 0.0 <= d.p2.0 <= width as real && 0.0 <= d.p2.1 <= height as real
    && 0.0 <= d.p3.0 <= width as real && 0.0 <= d.p3.1 <= height as real
  }

  /** A detection inside the image lands inside the image's rectangle on the
      page, as a normal rectangle. */
  lemma PageBoxWithinImage(d: Detection, bbox: Rect, width: nat, height: nat)
    requires width > 0 && height > 0 && bbox.Normal() && InsideImage(d, width, height)
    ensures PageBox(d, bbox, width, height).Within(bbox)
    ensures PageBox(d, bbox, width, height).Normal()
  {
    Placed(Min4(d.p0.0, d.p1.0, d.p2.0, d.p3.0), Max4(d.p0.0, d.p1.0, d.p2.0, d.p3.0),
           width as real, bbox.x0, bbox.x1 - bbox.x0);
    Placed(Min4(d.p0.1, d.p1.1, d.p2.1, d.p3.1), Max4(d.p0.1, d.p1.1, d.p2.1, d.p3.1),
           height as real, bbox.y0, bbox.y1 - bbox.y0);
  }

  /** Along one axis: `lo <= hi` in `[0, size]` map to positions inside
      `[origin, origin + extent]`, in the same order. */
  lemma Placed(lo: real, hi: real, size: real, origin: real, extent: real)
    requires 0.0 <= lo <= hi <= size && size > 0.0 && extent >= 0.0
    ensures origin <= Place(lo, size, origin, extent) <= Place(hi, size, origin, extent) <= origin + extent
  {
    DivideMonotone(0.0, lo, size);
    DivideMonotone(lo, hi, size);
    DivideMonotone(hi, size, size);
    var a, b := lo / size, hi / size;
    assert 0.0 <= a <= b <= 1.0;
    assert a * extent <= b * extent by {
      assert b * extent - a * extent == (b - a) * extent;
    }
    assert b * extent <= extent by {
      assert extent - b * extent == (1.0 - b) * extent;
    }
  }

  /** A kept detection as a result: stripped text, box on the page. */
  function Recognised(d: Detection, bbox: Rect, width: nat, height: nat): (r: OcrResult)
    requires width > 0 && height > 0
    ensures r.confidence == d.confidence && r.text == Strip(d.text)
  {
    OcrResult(Strip(d.text), PageBox(d, bbox, width, height), d.confidence)
  }

  /** The results of one image's detections: low-confidence ones dropped,
      texts stripped, boxes mapped onto the page. */
  function MapDetections(ds: seq<Detection>, bbox: Rect, width: nat, height: nat): (r: seq<OcrResult>)
    requires width > 0 && height > 0
    ensures |r| <= |ds|
    ensures forall k :: 0 <= k < |r| ==> r[k].confidence >= MinConfidence
  {
    if ds == [] then []
    else
      var rest := MapDetections(ds[1..], bbox, width, height);
      if ds[0].confidence < MinConfidence then rest
      else [Recognised(ds[0], bbox, width, height)] + rest
  }

  /** Exactly the detections of confidence at least 0.2 are kept, each as
      its recognised result. */
  lemma {:induction false} MapDetectionsKeeps(ds: seq<Detection>, bbox: Rect, width: nat, height: nat)
    requires width > 0 && height > 0
    ensures forall d :: d in ds && d.confidence >= MinConfidence ==>
              Recognised(d, bbox, width, height) in MapDetections(ds, bbox, width, height)
    ensures forall x :: x in MapDetections(ds, bbox, width, height) ==>
              (exists d :: d in ds && d.confidence >= MinConfidence && x == Recognised(d, bbox, width, height))
  {
    if ds != [] {
      var tail := ds[1..];
      MapDetectionsKeeps(tail, bbox, width, height);
      var rest := MapDetections(tail, bbox, width, height);
      var first := Recognised(ds[0], bbox, width, height);
      var all := MapDetections(ds, bbox, width, height);
      var keepFirst := ds[0].confidence >= MinConfidence;
      assert all == if keepFirst then [first] + rest else rest;
      forall d | d in ds && d.confidence >= MinConfidence
        ensures Recognised(d, bbox, width, height) in all
      {
        if d == ds[0] {
          assert all[0] == first;
        } else {
          assert d in tail;
          assert Recognised(d, bbox, width, height) in rest;
        }
      }
      forall x | x in all
        ensures exists d :: d in ds && d.confidence >= MinConfidence && x == Recognised(d, bbox, width, height)
      {
        if keepFirst && x == first {
          assert ds[0] in ds;
        } else {
          assert x in rest;
          var d :| d in tail && d.confidence >= MinConfidence && x == Recognised(d, bbox, width, height);
          assert d in ds;
        }
      }
    }
  }

  /** Narrower or lower than 10 points. */
  predicate TooSmall(bbox: Rect) {
    bbox.x1 - bbox.x0 < MinImageSide || bbox.y1 - bbox.y0 < MinImageSide
  }

  /** One image's contribution: nothing when it cannot be read, is not
      placed, is placed in a rectangle narrower or lower than 10 points, or
      has an empty pixel size (the division raises and the image is
      skipped); otherwise its mapped detections. */
  function ImageResults(img: OcrImage): (r: seq<OcrResult>)
    ensures forall k :: 0 <= k < |r| ==> r[k].confidence >= MinConfidence
    ensures !img.readable || img.rects == [] ==> r == []
    ensures img.rects != [] && TooSmall(img.rects[0]) ==> r == []
  {
    if !img.readable || img.rects == [] then []
    else
      var bbox := img.rects[0];
      if TooSmall(bbox) then []
      else if img.width == 0 || img.height == 0 then []
      else MapDetections(img.detections, bbox, img.width, img.height)
  }

  function AllImageResults(images: seq<OcrImage>): (r: seq<OcrResult>)
    ensures forall k :: 0 <= k < |r| ==> r[k].confidence >= MinConfidence
  {
    if images == [] then [] else ImageResults(images[0]) + AllImageResults(images[1..])
  }

  /** The opened document as the recogniser sees it: its page count and the
      images of the requested page. */
  datatype OcrDoc = OcrDoc(pageCount: nat, images: seq<OcrImage>)

  /** `perform_ocr_on_page`: a cached result is returned as is; without an
      engine, or when the file does not open, or the page is out of range,
      the result is empty and nothing is cached; otherwise the page's images
      are recognised and the results cached. */
  function PerformOcr(cache: Cache, file: string, page: int, engineReady: bool, doc: Option<OcrDoc>): (r: (Cache, seq<OcrResult>))
    ensures CachedResult(cache, file, page).Some? ==> r == (cache, CachedResult(cache, file, page).value)
    ensures CachedResult(cache, file, page).None? ==>
              forall k :: 0 <= k < |r.1| ==> r.1[k].confidence >= MinConfidence
    ensures CachedResult(cache, file, page).None? && doc.Some? && page >= doc.value.pageCount ==> r == (cache, [])
    ensures r.0 == cache || r.0 == SaveResult(cache, file, page, r.1)
  {
    match CachedResult(cache, file, page)
    case Some(cached) => (cache, cached)
    case None =>
      if !engineReady || doc.None? || page >= doc.value.pageCount then (cache, [])
      else if doc.value.images == [] then (SaveResult(cache, file, page, []), [])
      else
        var results := AllImageResults(doc.value.images);
        (SaveResult(cache, file, page, results), results)
  }

  /** `perform_ocr_on_page` as written: its first step, the cache lookup,
      raises `AttributeError` outside any `try`, so nothing is recognised or
      saved. */
  function PerformOcrAsWritten(cache: Cache, file: string, page: int, engineReady: bool, doc: Option<OcrDoc>)
    : (r: Result<(Cache, seq<OcrResult>)>)
    ensures r == Failure(AttributeError)
  {
    match CachedResultAsWritten(cache, file, page)
    case Failure(e) => Failure(e)
    case Success(_) => Success(PerformOcr(cache, file, page, engineReady, doc))
  }

  /** Once a page has been recognised, asking again returns the same results
      from the cache, whatever the engine and the document would now do. */
  lemma PerformOcrCached(cache: Cache, file: string, page: int, engineReady: bool, doc: Option<OcrDoc>,
                         engine2: bool, doc2: Option<OcrDoc>)
    ensures var (c1, r1) := PerformOcr(cache, file, page, engineReady, doc);
            c1 != cache ==> PerformOcr(c1, file, page, engine2, doc2) == (c1, r1)
  {
    var (c1, r1) := PerformOcr(cache, file, page, engineReady, doc);
    if c1 != cache {
      SaveThenGet(cache, file, page, r1, file, page);
    }
  }

  // ---------------------------------------------------------------------
  // Merging into `get_text`

  /** The results the clip keeps (all of them without one); rectangle
      intersection is the backend's. */
  function Clipped(results: seq<OcrResult>, clip: Option<Rect>, intersects: (Rect, Rect) -> bool): (r: seq<OcrResult>)
    ensures |r| <= |results|
    ensures clip.None? ==> r == results
    ensures forall x :: x in r ==> x in results && (clip.None? || intersects(x.bbox, clip.value))
  {
    if results == [] then []
    else
      var rest := Clipped(results[1..], clip, intersects);
      if clip.Some? && !intersects(results[0].bbox, clip.value) then rest
      else [results[0]] + rest
  }

  function Texts(results: seq<OcrResult>): (r: seq<string>)
    ensures |r| == |results| && forall k :: 0 <= k < |r| ==> r[k] == results[k].text
  {
    seq(|results|, k requires 0 <= k < |results| => results[k].text)
  }

  /** Appending OCR texts to a page's text: one per line, after a line break
      that is added only when the text is non-empty and lacks a final one. */
  function Merge(original: string, parts: seq<string>): (r: string)
    ensures parts == [] ==> r == original
  {
    if parts == [] then original
    else (if original != "" && !EndsWith(original, "\n") then original + "\n" else original) + Join(parts, "\n")
  }

  /** The page's own text is kept in front, and the OCR lines can be read
      back from what follows it. */
  lemma MergeRecoverable(original: string, parts: seq<string>)
    requires parts != [] && forall k :: 0 <= k < |parts| ==> '\n' !in parts[k]
    ensures var r := Merge(original, parts);
            var head := if original != "" && !EndsWith(original, "\n") then original + "\n" else original;
            && |head| <= |r| && r[..|head|] == head && r[..|original|] == original
            && Split(r[|head|..], '\n') == parts
  {
    var head := if original != "" && !EndsWith(original, "\n") then original + "\n" else original;
    var r := Merge(original, parts);
    assert r == head + Join(parts, "\n");
    assert r[|head|..] == Join(parts, "\n");
    assert r[..|original|] == head[..|original|];
    SplitJoin(parts, '\n');
  }

  /** A block of a dictionary-format page: one of the backend's own, or a
      text block made from a recognised text (one line of one span, font
      `OCR`, size 10, at the result's box). */
  datatype Block = Native(id: nat) | OcrBlock(text: string, bbox: Rect)

  /** What `get_text` returns: the backend's own output, a plain text, or a
      block dictionary (serialised to JSON when `asJson`). */
  datatype TextOutput = Unchanged | Plain(text: string) | Blocks(blocks: seq<Block>, asJson: bool)

  const TextFormats: set<string> := {"text", "TEXT"}
  const DictFormats: set<string> := {"dict", "json", "rawdict", "rawjson"}
  const JsonFormats: set<string> := {"json", "rawjson"}

  function OcrBlocks(results: seq<OcrResult>): (r: seq<Block>)
    ensures |r| == |results|
    ensures forall k :: 0 <= k < |r| ==> r[k] == OcrBlock(results[k].text, results[k].bbox)
  {
    seq(|results|, k requires 0 <= k < |results| => OcrBlock(results[k].text, results[k].bbox))
  }

  /** `modified_get_text`: the output and the OCR queue after the call. A
      page never recognised is queued with priority 1 when automatic OCR is
      on and the backend's output is returned. Recognised texts are appended
      as lines in the text formats and as blocks in the dictionary formats;
      `originalBlocks` is the backend's block list, `None` when its output
      does not parse (the list then starts empty). */
  function ModifiedGetText(able: bool, docName: string, page: int, cache: Cache, autoOcr: bool,
                           queue: seq<Task>, format: string, clip: Option<Rect>,
                           intersects: (Rect, Rect) -> bool,
                           original: string, originalBlocks: Option<seq<Block>>): (r: (TextOutput, seq<Task>))
    ensures !able || docName == "" ==> r == (Unchanged, queue)
    ensures r.1 == queue || (able && autoOcr && CachedResult(cache, docName, page).None? &&
                             r.1 == Enqueue(queue, docName, page, 1))
    ensures r.0 != Unchanged ==> able && CachedResult(cache, docName, page).Some?
                                 && CachedResult(cache, docName, page).value != []
    ensures r.0.Plain? ==>
              && format in TextFormats
              && r.0.text == Merge(original, Texts(Clipped(CachedResult(cache, docName, page).value, clip, intersects)))
    ensures r.0.Blocks? ==>
              && format in DictFormats && r.0.asJson == (format in JsonFormats)
              && r.0.blocks == originalBlocks.GetOr([]) +
                               OcrBlocks(Clipped(CachedResult(cache, docName, page).value, clip, intersects))
  {
    if !able || docName == "" then (Unchanged, queue)
    else match CachedResult(cache, docName, page)
      case None => if autoOcr then (Unchanged, Enqueue(queue, docName, page, 1)) else (Unchanged, queue)
      case Some(results) =>
        if results == [] then (Unchanged, queue)
        else
          var kept := Clipped(results, clip, intersects);
          if format in TextFormats then
            if kept == [] then (Unchanged, queue) else (Plain(Merge(original, Texts(kept))), queue)
          else if format in DictFormats then
            (Blocks(originalBlocks.GetOr([]) + OcrBlocks(kept), format in JsonFormats), queue)
          else (Unchanged, queue)
  }

  /** The replacement `get_text` as written: the cache lookup raises inside
      the `try`, whose handler returns the backend's text, so the text is
      never merged and no page is queued. */
  function ModifiedGetTextAsWritten(able: bool, docName: string, page: int, cache: Cache, autoOcr: bool,
                                    queue: seq<Task>, format: string, clip: Option<Rect>,
                                    intersects: (Rect, Rect) -> bool,
                                    original: string, originalBlocks: Option<seq<Block>>): (r: (TextOutput, seq<Task>))
    ensures r == (Unchanged, queue)
  {
    if !able || docName == "" then (Unchanged, queue)
    else match CachedResultAsWritten(cache, docName, page)
      case Failure(_) => (Unchanged, queue)
      case Success(_) =>
        ModifiedGetText(able, docName, page, cache, autoOcr, queue, format, clip, intersects, original, originalBlocks)
  }

  /** In the text formats, for recognised lines without line breaks, the
      merged text starts with the page's own text and the recognised lines
      kept by the clip can be read back from what follows it. */
  lemma MergedTextRecoverable(docName: string, page: int, cache: Cache, autoOcr: bool, queue: seq<Task>,
                              format: string, clip: Option<Rect>, intersects: (Rect, Rect) -> bool,
                              original: string, originalBlocks: Option<seq<Block>>)
    requires format in TextFormats && docName != ""
    requires CachedResult(cache, docName, page).Some?
    requires var kept := Clipped(CachedResult(cache, docName, page).value, clip, intersects);
             kept != [] && forall k :: 0 <= k < |kept| ==> '\n' !in kept[k].text
    ensures var kept := Clipped(CachedResult(cache, docName, page).value, clip, intersects);
            var r := ModifiedGetText(true, docName, page, cache, autoOcr, queue, format, clip, intersects,
                                     original, originalBlocks);
            && r == (Plain(Merge(original, Texts(kept))), queue)
            && r.0.text[..|original|] == original
            && exists n :: |original| <= n <= |r.0.text| && Split(r.0.text[n..], '\n') == Texts(kept)
  {
    var kept := Clipped(CachedResult(cache, docName, page).value, clip, intersects);
    MergeRecoverable(original, Texts(kept));
    var head := if original != "" && !EndsWith(original, "\n") then original + "\n" else original;
    assert |original| <= |head|;
  }

  // ---------------------------------------------------------------------
  // Task queue

  /** `(priority, file_path, page_no)`; a smaller priority is served first. */
  datatype Task = Task(priority: int, file: string, page: int)

  predicate SameKey(t: Task, file: string, page: int) {
    t.file == file && t.page == page
  }

  /** Non-decreasing priority from the front. */
  predicate Sorted(q: seq<Task>) {
    forall i, j :: 0 <= i < j < |q| ==> q[i].priority <= q[j].priority
  }

  /** At most one task per page. */
  predicate Unique(q: seq<Task>) {
    forall i, j :: 0 <= i < j < |q| ==> !(q[i].file == q[j].file && q[i].page == q[j].page)
  }

  /** The first task for the page. */
  function FindTask(q: seq<Task>, file: string, page: int): (r: Option<nat>)
    ensures r.Some? ==> r.value < |q| && SameKey(q[r.value], file, page)
    ensures r.Some? ==> forall j :: 0 <= j < r.value ==> !SameKey(q[j], file, page)
    ensures r.None? ==> forall j :: 0 <= j < |q| ==> !SameKey(q[j], file, page)
  {
    if q == [] then None
    else if SameKey(q[0], file, page) then Some(0)
    else match FindTask(q[1..], file, page)
      case Some(i) => Some(i + 1)
      case None => None
  }

  /** Where a task of priority `p` is inserted: before the first task of a
      strictly larger priority, else at the end. */
  function InsertPos(q: seq<Task>, p: int): (k: nat)
    ensures k <= |q|
    ensures forall j :: 0 <= j < k ==> q[j].priority <= p
    ensures k < |q| ==> p < q[k].priority
  {
    if q == [] then 0
    else if p < q[0].priority then 0
    else 1 + InsertPos(q[1..], p)
  }

  function InsertTask(q: seq<Task>, t: Task): (r: seq<Task>)
    ensures |r| == |q| + 1
  {
    var k := InsertPos(q, t.priority);
    q[..k] + [t] + q[k..]
  }

  function RemoveAt(q: seq<Task>, i: nat): (r: seq<Task>)
    requires i < |q|
    ensures |r| == |q| - 1
  {
    q[..i] + q[i + 1..]
  }

  /** `add_to_ocr_queue` as a function on the queue: a task already queued
      for the page is moved only for a strictly better priority, otherwise
      the call does nothing; a new task is inserted by priority. */
  function Enqueue(q: seq<Task>, file: string, page: int, priority: int): (r: seq<Task>)
    ensures FindTask(q, file, page).None? ==> |r| == |q| + 1
    ensures FindTask(q, file, page).Some? ==> |r| == |q|
    ensures FindTask(q, file, page).Some? && priority >= q[FindTask(q, file, page).value].priority ==> r == q
  {
    match FindTask(q, file, page)
    case Some(i) =>
      if priority < q[i].priority then InsertTask(RemoveAt(q, i), Task(priority, file, page)) else q
    case None => InsertTask(q, Task(priority, file, page))
  }

  /** The two scans of `add_to_ocr_queue`. */
  method AddToQueue(q: seq<Task>, file: string, page: int, priority: int) returns (r: seq<Task>)
    ensures r == Enqueue(q, file, page, priority)
  {
    var work := q;
    var i := 0;
    while i < |q|
      invariant 0 <= i <= |q|
      invariant forall j :: 0 <= j < i ==> !SameKey(q[j], file, page)
    {
      if q[i].file == file && q[i].page == page {
        if priority < q[i].priority {
          work := q[..i] + q[i + 1..];
          break;
        } else {
          return q;
        }
      }
      i := i + 1;
    }
    assert work == q || (i < |q| && FindTask(q, file, page) == Some(i) && work == RemoveAt(q, i) &&
                         priority < q[i].priority);
    assert work == q ==> FindTask(q, file, page).None?;
    var k := 0;
    while k < |work| && !(priority < work[k].priority)
      invariant 0 <= k <= |work|
      invariant forall j :: 0 <= j < k ==> work[j].priority <= priority
    {
      k := k + 1;
    }
    InsertPosUnique(work, priority, k);
    r := work[..k] + [Task(priority, file, page)] + work[k..];
  }

  /** The insertion position is determined by its two properties. */
  lemma InsertPosUnique(q: seq<Task>, p: int, k: nat)
    requires k <= |q|
    requires forall j :: 0 <= j < k ==> q[j].priority <= p
    requires k < |q| ==> p < q[k].priority
    ensures k == InsertPos(q, p)
  {
  }

  lemma InsertKeepsSorted(q: seq<Task>, t: Task)
    requires Sorted(q)
    ensures Sorted(InsertTask(q, t))
  {
    var k := InsertPos(q, t.priority);
    var r := InsertTask(q, t);
    forall i, j | 0 <= i < j < |r|
      ensures r[i].priority <= r[j].priority
    {
      if j < k {
        assert r[i] == q[i] && r[j] == q[j];
      } else if j == k {
        assert r[j] == t && r[i] == q[i];
      } else if i < k {
        assert r[i] == q[i] && r[j] == q[j - 1];
      } else if i == k {
        assert r[i] == t && r[j] == q[j - 1];
        assert q[k].priority <= q[j - 1].priority;
      } else {
        assert r[i] == q[i - 1] && r[j] == q[j - 1];
      }
    }
  }

  lemma RemoveKeepsSortedAndUnique(q: seq<Task>, i: nat)
    requires i < |q|
    ensures Sorted(q) ==> Sorted(RemoveAt(q, i))
    ensures Unique(q) ==> Unique(RemoveAt(q, i))
    ensures forall t :: t in RemoveAt(q, i) ==> t in q
  {
    var r := RemoveAt(q, i);
    assert forall a :: 0 <= a < |r| ==> r[a] == (if a < i then q[a] else q[a + 1]);
  }

  lemma InsertKeepsUnique(q: seq<Task>, t: Task)
    requires Unique(q) && forall j :: 0 <= j < |q| ==> !SameKey(q[j], t.file, t.page)
    ensures Unique(InsertTask(q, t))
  {
    var k := InsertPos(q, t.priority);
    var r := InsertTask(q, t);
    assert forall a :: 0 <= a < |r| ==> r[a] == (if a < k then q[a] else if a == k then t else q[a - 1]);
  }

  /** Adding a task keeps the queue ordered by priority and free of
      duplicate pages. */
  lemma EnqueueKeepsInvariant(q: seq<Task>, file: string, page: int, priority: int)
    requires Sorted(q) && Unique(q)
    ensures Sorted(Enqueue(q, file, page, priority)) && Unique(Enqueue(q, file, page, priority))
  {
    match FindTask(q, file, page)
    case Some(i) =>
      if priority < q[i].priority {
        var rest := RemoveAt(q, i);
        RemoveKeepsSortedAndUnique(q, i);
        assert forall a :: 0 <= a < |rest| ==> rest[a] == (if a < i then q[a] else q[a + 1]);
        InsertKeepsSorted(rest, Task(priority, file, page));
        InsertKeepsUnique(rest, Task(priority, file, page));
      }
    case None =>
      InsertKeepsSorted(q, Task(priority, file, page));
      InsertKeepsUnique(q, Task(priority, file, page));
  }

  /** After adding, the page's task is queued with the better of its old and
      new priorities, behind every task of equal priority and ahead of every
      task of larger priority. */
  lemma EnqueuePlacesTask(q: seq<Task>, file: string, page: int, priority: int)
    requires Sorted(q) && Unique(q)
    ensures var r := Enqueue(q, file, page, priority);
            var prior := FindTask(q, file, page);
            var best := if prior.Some? && q[prior.value].priority <= priority then q[prior.value].priority else priority;
            exists k :: 0 <= k < |r| && r[k] == Task(best, file, page)
  {
    match FindTask(q, file, page)
    case Some(i) =>
      if priority < q[i].priority {
        var rest := RemoveAt(q, i);
        var r := Enqueue(q, file, page, priority);
        assert r == InsertTask(rest, Task(priority, file, page));
        assert r[InsertPos(rest, priority)] == Task(priority, file, page);
      } else {
        assert q[i] == Task(q[i].priority, file, page);
      }
    case None =>
      assert InsertTask(q, Task(priority, file, page))[InsertPos(q, priority)] == Task(priority, file, page);
  }

  /** A newly placed task follows every task whose priority is not larger
      and precedes every task whose priority is larger. */
  lemma InsertIsStable(q: seq<Task>, t: Task)
    requires Sorted(q)
    ensures var r := InsertTask(q, t);
            var k := InsertPos(q, t.priority);
            && r[k] == t
            && (forall j :: 0 <= j < k ==> r[j].priority <= t.priority)
            && (forall j :: k < j < |r| ==> r[j].priority > t.priority)
  {
    var k := InsertPos(q, t.priority);
    var r := InsertTask(q, t);
    forall j | k < j < |r|
      ensures r[j].priority > t.priority
    {
      assert r[j] == q[j - 1];
      assert q[k].priority <= q[j - 1].priority;
    }
  }

  /** In a queue without duplicate pages, the page's task is the one found. */
  lemma FindInUnique(q: seq<Task>, file: string, page: int, k: nat)
    requires Unique(q) && k < |q| && SameKey(q[k], file, page)
    ensures FindTask(q, file, page) == Some(k)
  {
  }

  /** Adding the same request twice is adding it once. */
  lemma EnqueueIdempotent(q: seq<Task>, file: string, page: int, priority: int)
    requires Sorted(q) && Unique(q)
    ensures Enqueue(Enqueue(q, file, page, priority), file, page, priority) == Enqueue(q, file, page, priority)
  {
    var r := Enqueue(q, file, page, priority);
    EnqueueKeepsInvariant(q, file, page, priority);
    EnqueuePlacesTask(q, file, page, priority);
    var k :| 0 <= k < |r| && SameKey(r[k], file, page) && r[k].priority <= priority;
    FindInUnique(r, file, page, k);
  }
}

=== FILE: ocr_debug.dfy ===
/** The OCR debugging command: boxes drawn over the canvas for each
    recognised text, coloured by confidence, and the textual summary of a
    page's results; also the `get_text` preview.

    Float formatting of the confidence (`{:.2f}`) is a parameter.
 */
module OcrDebug {
  import opened Wrappers
  import opened Text
  import opened Geometry
  import opened Ocr
  import Tabs

  datatype Colour = Green | Orange | Red

  /** Green above 0.8, orange above 0.5, red otherwise. */
  function ColourOf(confidence: real): (c: Colour)
    ensures c == Green <==> confidence > 0.8
    ensures c == Red <==> confidence <= 0.5
  {
    if confidence > 0.8 then Green else if confidence > 0.5 then Orange else Red
  }

  /** Colours ranked from worst to best. */
  function Rank(c: Colour): nat {
    match c
    case Red => 0
    case Orange => 1
    case Green => 2
  }

  /** A more confident result is never drawn in a worse colour. */
  lemma ColourMonotone(a: real, b: real)
    requires a <= b
    ensures Rank(ColourOf(a)) <= Rank(ColourOf(b))
  {
  }

  const LabelLength: nat := 20
  const LabelLift: real := 5.0

  /** A rectangle on the canvas with its label: the first 20 characters of
      the text, anchored 5 pixels above the top-left corner. */
  datatype DebugBox = DebugBox(box: Rect, labelAt: (real, real), caption: string, colour: Colour)

  /** The box drawn for one result at the tab's zoom. */
  function BoxFor(r: OcrResult, zoom: real): (b: DebugBox)
    ensures |b.caption| <= LabelLength && b.caption == Take(r.text, LabelLength)
    ensures b.box == r.bbox.Scale(zoom) && b.colour == ColourOf(r.confidence)
  {
    var box := r.bbox.Scale(zoom);
    DebugBox(box, (box.x0, box.y0 - LabelLift), Take(r.text, LabelLength), ColourOf(r.confidence))
  }

  /** `draw_ocr_boxes`: one box per result, in order. */
  function DrawBoxes(results: seq<OcrResult>, zoom: real): (boxes: seq<DebugBox>)
    ensures |boxes| == |results|
    ensures forall k :: 0 <= k < |boxes| ==> boxes[k] == BoxFor(results[k], zoom)
  {
    seq(|results|, k requires 0 <= k < |results| => BoxFor(results[k], zoom))
  }

  /** At a positive zoom each drawn box converts back to its result's page
      box, and its label is a prefix of the text that is the whole text when
      it has at most 20 characters. */
  lemma BoxesInvertible(results: seq<OcrResult>, zoom: real, k: nat)
    requires zoom > 0.0 && k < |results|
    ensures DrawBoxes(results, zoom)[k].box.Divide(zoom) == results[k].bbox
    ensures var l := DrawBoxes(results, zoom)[k].caption;
            && l == results[k].text[..|l|]
            && (|results[k].text| <= LabelLength ==> l == results[k].text)
  {
    DivideScaleRoundTrip(results[k].bbox, zoom);
  }

  const SummaryLimit: nat := 10

  /** One summary line: its 1-based number, the confidence and the text. */
  datatype Entry = Entry(number: nat, confidence: real, text: string)

  /** The summary shown for a page with results: the 1-based page number,
      the number of results, the first ten as entries, and how many were
      left out (shown only when positive). */
  datatype Summary = Summary(page: int, count: nat, entries: seq<Entry>, remaining: nat)

  function Summarise(results: seq<OcrResult>, pageNo: int): (s: Summary)
  {
    var shown := Take(results, SummaryLimit);
    Summary(pageNo + 1, |results|,
            seq(|shown|, k requires 0 <= k < |shown| => Entry(k + 1, shown[k].confidence, shown[k].text)),
            if |results| > SummaryLimit then |results| - SummaryLimit else 0)
  }

  /** The summary numbers its entries 1, 2, … in the order of the results,
      shows at most ten, and accounts for every result: shown plus left out
      is the count. */
  lemma SummaryAccounts(results: seq<OcrResult>, pageNo: int)
    ensures var s := Summarise(results, pageNo);
            && |s.entries| == (if |results| <= SummaryLimit then |results| else SummaryLimit)
            && |s.entries| + s.remaining == s.count == |results|
            && forall k :: 0 <= k < |s.entries| ==>
                 s.entries[k] == Entry(k + 1, results[k].confidence, results[k].text)
  {
  }

  /** The summary as displayed; `fmt` formats a confidence. */
  function SummaryText(s: Summary, fmt: real -> string): (t: string)
    ensures StartsWith(t, "第 " + IntToString(s.page) + " 页")
    ensures s.remaining <= 0 ==> EndsWith(t, EntryLines(s.entries, fmt))
  {
    Framed("第 " + IntToString(s.page) + " 页",
           " OCR 结果：\n\n共识别到 " + IntToString(s.count) + " 个文本块\n\n",
           EntryLines(s.entries, fmt),
           if s.remaining > 0 then "\n... 还有 " + IntToString(s.remaining) + " 个文本块" else "")
  }

  /** A text that opens with `heading` and, when nothing follows them, ends with `lines`. */
  function Framed(heading: string, middle: string, lines: string, more: string): (t: string)
    ensures StartsWith(t, heading)
    ensures more == "" ==> EndsWith(t, lines)
  {
    var t := heading + middle + lines + more;
    assert t[..|heading|] == heading;
    assert more == "" ==> t[|t| - |lines|..] == lines;
    t
  }

  function EntryLines(entries: seq<Entry>, fmt: real -> string): (t: string)
    ensures entries == [] ==> t == ""
  {
    if entries == [] then ""
    else
      IntToString(entries[0].number) + ". [" + fmt(entries[0].confidence) + "] " + entries[0].text + "\n"
      + EntryLines(entries[1..], fmt)
  }

  /** The outcome of the debug command. */
  datatype DebugOutcome =
    | NoDocument
    | NoOcrPlugin
    | NothingRecognised(cache: Cache, shownPage: int)
    | Shown(cache: Cache, boxes: seq<DebugBox>, summary: Summary)

  /** `show_ocr_results`: needs a tab with an open document and the OCR
      plugin; a page not yet in the cache is recognised first. */
  function ShowOcrResults(tab: Option<Tabs.Tab>, ocrPlugin: bool, filePath: string, pageNo: int, zoom: real,
                          cache: Cache, engineReady: bool, doc: Option<OcrDoc>): (o: DebugOutcome)
    ensures tab.None? || !Tabs.HasPages(tab.value.doc) ==> o == NoDocument
    ensures o.Shown? ==> |o.boxes| == o.summary.count > 0 && o.summary.page == pageNo + 1
  {
    if tab.None? || !Tabs.HasPages(tab.value.doc) then NoDocument
    else if !ocrPlugin then NoOcrPlugin
    else
      var (c, results) := match CachedResult(cache, filePath, pageNo)
        case Some(r) => (cache, r)
        case None => PerformOcr(cache, filePath, pageNo, engineReady, doc);
      if results == [] then NothingRecognised(c, pageNo + 1)
      else Shown(c, DrawBoxes(results, zoom), Summarise(results, pageNo))
  }

  /** `show_ocr_results` as written: with a document and the OCR plugin, the
      cache lookup raises `AttributeError` out of the command, so nothing is
      drawn or shown. */
  function ShowOcrResultsAsWritten(tab: Option<Tabs.Tab>, ocrPlugin: bool, filePath: string, pageNo: int, zoom: real,
                                   cache: Cache, engineReady: bool, doc: Option<OcrDoc>): (r: Result<DebugOutcome>)
    ensures tab.None? || !Tabs.HasPages(tab.value.doc) ==> r == Success(NoDocument)
    ensures tab.Some? && Tabs.HasPages(tab.value.doc) && !ocrPlugin ==> r == Success(NoOcrPlugin)
    ensures tab.Some? && Tabs.HasPages(tab.value.doc) && ocrPlugin ==> r == Failure(AttributeError)
  {
    if tab.None? || !Tabs.HasPages(tab.value.doc) then Success(NoDocument)
    else if !ocrPlugin then Success(NoOcrPlugin)
    else match CachedResultAsWritten(cache, filePath, pageNo)
      case Failure(e) => Failure(e)
      case Success(_) => Success(ShowOcrResults(tab, ocrPlugin, filePath, pageNo, zoom, cache, engineReady, doc))
  }

  /** A page already recognised is shown from the cache, which stays as it
      is; otherwise it is recognised first and the cache is what recognition
      leaves. */
  lemma ShowUsesCache(tab: Tabs.Tab, filePath: string, pageNo: int, zoom: real,
                      cache: Cache, engineReady: bool, doc: Option<OcrDoc>)
    requires Tabs.HasPages(tab.doc)
    ensures var o := ShowOcrResults(Some(tab), true, filePath, pageNo, zoom, cache, engineReady, doc);
            var (c, results) := PerformOcr(cache, filePath, pageNo, engineReady, doc);
            && (results == [] ==> o == NothingRecognised(c, pageNo + 1))
            && (results != [] ==> o == Shown(c, DrawBoxes(results, zoom), Summarise(results, pageNo)))
            && (CachedResult(cache, filePath, pageNo).Some? ==> c == cache)
  {
  }

  const PreviewLength: nat := 500

  /** The `get_text` preview: the first 500 characters, followed by `...`
      when the text is longer. */
  function Preview(text: string): (p: string)
    ensures |p| <= PreviewLength + 3
    ensures |text| <= PreviewLength ==> p == text
    ensures |text| > PreviewLength ==> p == text[..PreviewLength] + "..."
  {
    Take(text, PreviewLength) + (if |text| > PreviewLength then "..." else "")
  }
}

=== FILE: page_turning.dfy ===
/** The page-turning plugins on the current tab: next page, previous page,
    the navigation buttons, and the legacy previous-page plugin that works
    on the host's own tab.

    The plugin tab keeps `page_no` in its record, so turning a page writes
    the record list. A command that raises keeps what it wrote before the
    exception; the outcome records the exception instead of unwinding.
 */
module PageTurning {
  import opened Wrappers
  import opened JsonValue
  import opened FileStates
  import opened Tabs
  import opened Pages
  import LegacyTabs

  /** The record list after the command, the exception it ended with, the
      page it drew, and whether the page label and buttons were refreshed
      (which happens only after drawing). */
  datatype Outcome = Outcome(store: Store, error: Option<Error>, render: Option<Render>, refreshed: bool)

  /** `x -= 1` on a stored value. */
  function Decrement(v: Json): (r: Result<Json>)
    ensures v.JInt? ==> r == Success(JInt(v.i - 1))
    ensures v.JReal? ==> r == Success(JReal(v.r - 1.0))
    ensures r.Failure? <==> !(v.JInt? || v.JReal? || v.JBool?)
  {
    match v
    case JInt(i) => Success(JInt(i - 1))
    case JReal(x) => Success(JReal(x - 1.0))
    case JBool(b) => Success(JInt(if b then 0 else -1))
    case _ => Failure(TypeError)
  }

  /** The test and step of a page turn: read `page_no` (`AttributeError`
      when the record lacks it), compare it (`TypeError` for a non-number)
      and, when the guard holds, the stepped value. `None` means the guard
      failed and nothing is done. */
  function Turn(store: Store, tab: Tab, forward: bool): (r: Result<Option<Json>>)
    requires Valid(store, tab)
    ensures forall p: int :: StateValue(store, tab, PageNo) == Success(JInt(p)) ==>
              r == Success(if forward then (if p < tab.totalPages - 1 then Some(JInt(p + 1)) else None)
                           else (if p > 0 then Some(JInt(p - 1)) else None))
    ensures StateValue(store, tab, PageNo).Failure? ==> r == Failure(AttributeError)
  {
    var pageNo :- StateValue(store, tab, PageNo);
    var x :- ToNumber(pageNo);
    if forward then
      if x < tab.totalPages as real - 1.0 then Success(Some(Increment(pageNo).value))
      else Success(None)
    else
      if x > 0.0 then Success(Some(Decrement(pageNo).value))
      else Success(None)
  }

  /** `tab.show_page()` followed by the label and button refresh. */
  function Redraw(store: Store, tab: Tab, rasterOk: bool): (o: Outcome)
    requires Valid(store, tab)
    ensures o.store == store
    ensures o.refreshed <==> ShowPage(store, tab, rasterOk).Success?
    ensures o.refreshed ==> o.render == ShowPage(store, tab, rasterOk).value && o.error.None?
  {
    match ShowPage(store, tab, rasterOk)
    case Success(shown) => Outcome(store, None, shown, true)
    case Failure(e) => Outcome(store, Some(e), None, false)
  }

  /** A page turn: nothing without a tab or when the guard fails; otherwise
      write the stepped page number into the record and redraw. */
  function Run(store: Store, tab: Option<Tab>, rasterOk: bool, forward: bool): (o: Outcome)
    requires tab.Some? ==> Valid(store, tab.value)
    ensures tab.None? ==> o == Outcome(store, None, None, false)
    ensures |o.store| == |store|
  {
    if tab.None? then Outcome(store, None, None, false)
    else match Turn(store, tab.value, forward)
      case Failure(e) => Outcome(store, Some(e), None, false)
      case Success(None) => Outcome(store, None, None, false)
      case Success(Some(v)) => Redraw(SetStateValue(store, tab.value, PageNo, v), tab.value, rasterOk)
  }

  /** `PageDownPlugin.run`. */
  function PageDown(store: Store, tab: Option<Tab>, rasterOk: bool): (o: Outcome)
    requires tab.Some? ==> Valid(store, tab.value)
    ensures tab.None? ==> o == Outcome(store, None, None, false)
  {
    Run(store, tab, rasterOk, true)
  }

  /** `PageUpPlugin.run` with the page drawn by `show_page`. */
  function PageUp(store: Store, tab: Option<Tab>, rasterOk: bool): (o: Outcome)
    requires tab.Some? ==> Valid(store, tab.value)
    ensures tab.None? ==> o == Outcome(store, None, None, false)
  {
    Run(store, tab, rasterOk, false)
  }

  /** `PageUpPlugin.run` as written: after the decrement it calls
      `current_tab.render_page()`. The tab class defines no such method and
      no record key has that name, so `__getattr__` raises `AttributeError`:
      the page number has moved but nothing is drawn or refreshed. */
  function PageUpAsWritten(store: Store, tab: Option<Tab>): (o: Outcome)
    requires tab.Some? ==> Valid(store, tab.value)
    ensures tab.None? ==> o == Outcome(store, None, None, false)
  {
    if tab.None? then Outcome(store, None, None, false)
    else match Turn(store, tab.value, false)
      case Failure(e) => Outcome(store, Some(e), None, false)
      case Success(None) => Outcome(store, None, None, false)
      case Success(Some(v)) =>
        var written := SetStateValue(store, tab.value, PageNo, v);
        match GetAttr(map[], Some(written[tab.value.state.value]), "render_page")
        case Failure(e) => Outcome(written, Some(e), None, false)
        case Success(_) => Redraw(written, tab.value, true)
  }

  /** No record ever answers `render_page`. */
  lemma RenderPageMissing(rec: Record)
    ensures GetAttr(map[], Some(rec), "render_page") == Failure(AttributeError)
  {
    assert KeyNamed("render_page").None?;
  }

  /** As written, a previous-page command that moves the page never draws it
      and never refreshes the label or the buttons. */
  lemma PageUpAsWrittenNeverRedraws(store: Store, tab: Tab, p: int)
    requires Valid(store, tab) && tab.state.Some?
    requires StateValue(store, tab, PageNo) == Success(JInt(p)) && p > 0
    ensures var o := PageUpAsWritten(store, Some(tab));
            && StateValue(o.store, tab, PageNo) == Success(JInt(p - 1))
            && o.error == Some(AttributeError) && o.render.None? && !o.refreshed
  {
    RenderPageMissing(SetStateValue(store, tab, PageNo, JInt(p - 1))[tab.state.value]);
  }

  /** The page number a turn leaves in the record is the one the page
      stepping rule gives, for an integer page number. */
  lemma RunSteps(store: Store, tab: Tab, rasterOk: bool, forward: bool, p: int)
    requires Valid(store, tab) && tab.state.Some?
    requires StateValue(store, tab, PageNo) == Success(JInt(p))
    ensures var o := Run(store, Some(tab), rasterOk, forward);
            && StateValue(o.store, tab, PageNo) ==
                 Success(JInt(if forward then NextPage(p, tab.totalPages) else PrevPage(p)))
            && forall j :: 0 <= j < |store| && j != tab.state.value ==> o.store[j] == store[j]
  {
  }

  /** A page inside the document stays inside it after either turn, and the
      other keys of the record are untouched. */
  lemma RunKeepsBounds(store: Store, tab: Tab, rasterOk: bool, forward: bool, p: int, k: Key)
    requires Valid(store, tab) && tab.state.Some?
    requires StateValue(store, tab, PageNo) == Success(JInt(p)) && InBounds(p, tab.totalPages)
    requires k != PageNo
    ensures var o := Run(store, Some(tab), rasterOk, forward);
            && StateValue(o.store, tab, PageNo).Success?
            && StateValue(o.store, tab, PageNo).value.JInt?
            && InBounds(StateValue(o.store, tab, PageNo).value.i, tab.totalPages)
            && StateValue(o.store, tab, k) == StateValue(store, tab, k)
  {
    RunSteps(store, tab, rasterOk, forward, p);
    StepsKeepBounds(p, tab.totalPages);
  }

  /** Turning to a page of an open document with a numeric zoom draws that
      page and refreshes the label and buttons. */
  lemma TurnDraws(store: Store, tab: Tab, forward: bool, p: int)
    requires Valid(store, tab) && tab.state.Some? && HasPages(tab.doc)
    requires StateValue(store, tab, PageNo) == Success(JInt(p)) && InBounds(p, tab.totalPages)
    requires StateValue(store, tab, Zoom).Success? && ToNumber(StateValue(store, tab, Zoom).value).Success?
    requires if forward then p < tab.totalPages - 1 else p > 0
    ensures var o := Run(store, Some(tab), true, forward);
            && o.error.None? && o.refreshed
            && o.render.Some? && o.render.value.page == (if forward then p + 1 else p - 1)
  {
    var q := if forward then p + 1 else p - 1;
    var written := SetStateValue(store, tab, PageNo, JInt(q));
    assert StateValue(written, tab, Zoom) == StateValue(store, tab, Zoom);
    assert InRange(JInt(q), tab.totalPages) == Success(true);
  }

  // ---------------------------------------------------------------------
  // Buttons

  /** `update_page_turning_button` on the plugin tab: the page number is
      read from the record and compared, which raises for a missing or
      non-numeric value. */
  function TabButtons(store: Store, tab: Option<Tab>): (r: Result<Buttons>)
    requires tab.Some? ==> Valid(store, tab.value)
    ensures tab.None? ==> r == Success(ButtonStates(None))
  {
    if tab.None? then Success(ButtonStates(None))
    else
      var pageNo :- StateValue(store, tab.value, PageNo);
      var x :- ToNumber(pageNo);
      Success(Buttons(!(x <= 0.0), !(x >= tab.value.totalPages as real - 1.0)))
  }

  /** For an integer page number the tab's buttons are the page-state
      buttons, so a button is enabled exactly when its command would turn
      the page. */
  lemma TabButtonsMatchTurns(store: Store, tab: Tab, p: int)
    requires Valid(store, tab)
    requires StateValue(store, tab, PageNo) == Success(JInt(p))
    ensures TabButtons(store, Some(tab)) == Success(ButtonStates(Some((p, tab.totalPages as int))))
    ensures TabButtons(store, Some(tab)).value.prevEnabled <==> Turn(store, tab, false).value.Some?
    ensures TabButtons(store, Some(tab)).value.nextEnabled <==> Turn(store, tab, true).value.Some?
  {
  }

  // ---------------------------------------------------------------------
  // The legacy previous-page plugin on the host's tab

  /** The host tab after the command, the exception it ended with, the page
      drawn and whether the label was refreshed. */
  datatype LegacyOutcome = LegacyOutcome(tab: Option<LegacyTabs.LegacyTab>, error: Option<Error>,
                                         render: Option<Render>, refreshed: bool)

  /** `PageUpPlugin.run` of the legacy plugin: step `current_page` back when
      it is positive, draw and refresh the label. */
  function LegacyPageUp(tab: Option<LegacyTabs.LegacyTab>, rasterOk: bool): (o: LegacyOutcome)
    ensures tab.None? ==> o == LegacyOutcome(None, None, None, false)
    ensures tab.Some? ==> o.tab.Some? && o.tab.value == tab.value.(currentPage := PrevPage(tab.value.currentPage))
    ensures tab.Some? && tab.value.currentPage <= 0 ==> o == LegacyOutcome(tab, None, None, false)
  {
    match tab
    case None => LegacyOutcome(None, None, None, false)
    case Some(t) =>
      if t.currentPage > 0 then
        var moved := t.(currentPage := t.currentPage - 1);
        match LegacyTabs.ShowPage(moved, rasterOk)
        case Success(shown) => LegacyOutcome(Some(moved), None, shown, true)
        case Failure(e) => LegacyOutcome(Some(moved), Some(e), None, false)
      else LegacyOutcome(tab, None, None, false)
  }

  /** The legacy command never makes a non-negative page negative, keeps a
      page inside the document, and draws the page it moved to. */
  lemma LegacyPageUpBounds(t: LegacyTabs.LegacyTab, rasterOk: bool)
    requires t.currentPage >= 0
    ensures var o := LegacyPageUp(Some(t), rasterOk);
            && o.tab.value.currentPage >= 0
            && (InBounds(t.currentPage, t.totalPages) ==> InBounds(o.tab.value.currentPage, t.totalPages))
            && (o.render.Some? ==> o.render.value.page == t.currentPage - 1)
  {
  }
}

=== FILE: pages.dfy ===
/** Page stepping shared by every page-turning entry point, the enabled
    state of the two navigation buttons, and the page label `"{n}/{total}"`.
    Page numbers are 0-based; the label shows them 1-based.
 */
module Pages {
  import opened Wrappers
  import opened Text

  predicate InBounds(page: int, total: int) {
    0 <= page < total
  }

  /** One page forward: only when `page < total - 1`. */
  function NextPage(page: int, total: int): (r: int)
    ensures r == page || r == page + 1
    ensures r == page + 1 <==> page < total - 1
  {
    if page < total - 1 then page + 1 else page
  }

  /** One page back: only when `page > 0`. */
  function PrevPage(page: int): (r: int)
    ensures r == page || r == page - 1
    ensures r == page - 1 <==> page > 0
  {
    if page > 0 then page - 1 else page
  }

  /** Stepping keeps a page inside the document, and stepping back never
      makes a non-negative page negative. */
  lemma StepsKeepBounds(page: int, total: int)
    requires InBounds(page, total)
    ensures InBounds(NextPage(page, total), total)
    ensures InBounds(PrevPage(page), total)
  {
  }

  /** Forward then back, and back then forward, return to the page started
      from whenever the first step moved. */
  lemma StepsInverse(page: int, total: int)
    ensures 0 <= page < total - 1 ==> PrevPage(NextPage(page, total)) == page
    ensures page > 0 && page < total ==> NextPage(PrevPage(page), total) == page
  {
  }

  /** Whether the previous-page and next-page buttons are enabled. */
  datatype Buttons = Buttons(prevEnabled: bool, nextEnabled: bool)

  /** `update_page_turning_button`: both disabled without a tab; otherwise
      previous is disabled at `page <= 0` and next at `page >= total - 1`.
      `page` is `(page_no, total_pages)` of the current tab. */
  function ButtonStates(page: Option<(int, int)>): (b: Buttons)
    ensures page.None? ==> b == Buttons(false, false)
  {
    match page
    case None => Buttons(false, false)
    case Some((p, total)) => Buttons(!(p <= 0), !(p >= total - 1))
  }

  /** A button is enabled exactly when pressing it would change the page. */
  lemma ButtonsMatchSteps(p: int, total: int)
    ensures ButtonStates(Some((p, total))).prevEnabled <==> PrevPage(p) != p
    ensures ButtonStates(Some((p, total))).nextEnabled <==> NextPage(p, total) != p
  {
  }

  /** The label `"{page + 1}/{total}"` when there is a tab with pages,
      otherwise `"0/0"`. */
  function Label(page: Option<(int, int)>): (s: string)
    ensures page.None? || page.value.1 <= 0 ==> s == "0/0"
  {
    match page
    case Some((p, total)) =>
      if total > 0 then IntToString(p + 1) + "/" + IntToString(total) else "0/0"
    case None => "0/0"
  }

  /** The label splits at its one `/` into the shown page and the total. */
  lemma LabelParts(p: int, total: int)
    requires total > 0
    ensures Split(Label(Some((p, total))), '/') == [IntToString(p + 1), IntToString(total)]
  {
    var a, b := IntToString(p + 1), IntToString(total);
    NoSlashInNumber(p + 1);
    NoSlashInNumber(total);
    assert Join([a, b], ['/']) == a + "/" + b by {
      assert Join([b], ['/']) == b;
    }
    SplitJoin([a, b], '/');
  }

  lemma NoSlashInNumber(i: int)
    ensures '/' !in IntToString(i)
  {
    var s := IntToString(i);
    forall k | 0 <= k < |s|
      ensures s[k] != '/'
    {
      assert (i < 0 && k == 0) || IsDigit(s[k]);
    }
  }

  /** Different pages or totals never share a label. */
  lemma LabelInjective(p1: int, t1: int, p2: int, t2: int)
    requires t1 > 0 && t2 > 0
    requires Label(Some((p1, t1))) == Label(Some((p2, t2)))
    ensures p1 == p2 && t1 == t2
  {
    LabelParts(p1, t1);
    LabelParts(p2, t2);
    IntToStringInjective(p1 + 1, p2 + 1);
    IntToStringInjective(t1, t2);
  }

  /** For a page inside the document the label shows a page number between
      1 and the total. */
  lemma LabelShowsPageInRange(p: int, total: int)
    requires InBounds(p, total)
    ensures exists n :: 1 <= n <= total && Label(Some((p, total))) == IntToString(n) + "/" + IntToString(total)
  {
    assert Label(Some((p, total))) == IntToString(p + 1) + "/" + IntToString(total);
  }
}

=== FILE: pdf_reader.dfy ===
/** The single-file multi-tab reader (`pdf_reader.py`): its tab, which also
    keeps the words and image rectangles of the shown page in canvas
    coordinates and a mouse selection, and the reader's tab list and page
    label. The page's words and images are given as an input: they are what
    the document backend reports for the shown page.
 */
module PdfReader {
  import opened Wrappers
  import opened Geometry
  import opened Tabs
  import Pages

  /** A word of the page with its box in page coordinates. */
  datatype Word = Word(box: Rect, text: string)

  /** An image of the page: its cross-reference number and the rectangles
      where it is placed. */
  datatype Image = Image(xref: nat, rects: seq<Rect>)

  /** What the backend reports for a page. */
  datatype PageContent = PageContent(words: seq<Word>, images: seq<Image>)

  /** A placed image rectangle in canvas coordinates. */
  datatype ImageSegment = ImageSegment(box: Rect, xref: nat)

  datatype PdfTab = PdfTab(
    filePath: Option<string>,
    doc: Option<Doc>,
    currentPage: int,
    totalPages: nat,
    zoom: real,
    selectedArea: Option<Rect>,
    textSegments: seq<Word>,
    imageSegments: seq<ImageSegment>,
    start: Option<(real, real)>)

  /** `PDFTab.__init__`: no document, page 0 of 0, zoom 1.0, nothing
      selected and no mouse-down seen yet. */
  function NewPdfTab(filePath: Option<string>): (t: PdfTab)
    ensures t.filePath == filePath && t.doc.None? && t.currentPage == 0 && t.totalPages == 0
    ensures t.zoom == 1.0 && t.selectedArea.None? && t.textSegments == [] && t.imageSegments == []
    ensures t.start.None?
  {
    PdfTab(filePath, None, 0, 0, 1.0, None, [], [], None)
  }

  // ---------------------------------------------------------------------
  // Segments

  /** Every word box multiplied by `zoom`, the text kept. */
  function ScaleWords(words: seq<Word>, zoom: real): (r: seq<Word>)
    ensures |r| == |words|
    ensures forall i :: 0 <= i < |words| ==> r[i] == Word(words[i].box.Scale(zoom), words[i].text)
  {
    if words == [] then [] else [Word(words[0].box.Scale(zoom), words[0].text)] + ScaleWords(words[1..], zoom)
  }

  /** Dividing the segments by a non-zero zoom recovers the page's words. */
  lemma ScaleWordsInvertible(words: seq<Word>, zoom: real)
    requires zoom != 0.0
    ensures forall i :: 0 <= i < |words| ==>
              Word(ScaleWords(words, zoom)[i].box.Divide(zoom), ScaleWords(words, zoom)[i].text) == words[i]
  {
    forall i | 0 <= i < |words|
      ensures ScaleWords(words, zoom)[i].box.Divide(zoom) == words[i].box
    {
      DivideScaleRoundTrip(words[i].box, zoom);
    }
  }

  /** Every placement of every image, in order, multiplied by `zoom`. */
  function ScaleImages(images: seq<Image>, zoom: real): (r: seq<ImageSegment>)
    ensures forall s :: s in r ==>
              exists i, j :: 0 <= i < |images| && 0 <= j < |images[i].rects| &&
                             s == ImageSegment(images[i].rects[j].Scale(zoom), images[i].xref)
  {
    if images == [] then []
    else ScaleRects(images[0].rects, images[0].xref, zoom) + ScaleImages(images[1..], zoom)
  }

  function ScaleRects(rects: seq<Rect>, xref: nat, zoom: real): (r: seq<ImageSegment>)
    ensures |r| == |rects|
    ensures forall j :: 0 <= j < |rects| ==> r[j] == ImageSegment(rects[j].Scale(zoom), xref)
  {
    if rects == [] then [] else [ImageSegment(rects[0].Scale(zoom), xref)] + ScaleRects(rects[1..], xref, zoom)
  }

  /** No placement is lost: each image rectangle appears scaled, with its
      image's number. */
  lemma {:induction false} ScaleImagesComplete(images: seq<Image>, zoom: real, i: nat, j: nat)
    requires i < |images| && j < |images[i].rects|
    ensures ImageSegment(images[i].rects[j].Scale(zoom), images[i].xref) in ScaleImages(images, zoom)
    decreases i
  {
    if i > 0 {
      ScaleImagesComplete(images[1..], zoom, i - 1, j);
    } else {
      assert ScaleRects(images[0].rects, images[0].xref, zoom)[j] ==
             ImageSegment(images[i].rects[j].Scale(zoom), images[i].xref);
    }
  }

  // ---------------------------------------------------------------------
  // Showing, turning, opening, resetting

  predicate Showable(t: PdfTab) {
    HasPages(t.doc) && Pages.InBounds(t.currentPage, t.totalPages)
  }

  /** `PDFTab.show_page`: nothing unless the document has pages and the page
      is in range. Otherwise the segments and the selection are cleared
      first; then the page is rasterised (which may raise, leaving them
      cleared) and the segments are rebuilt from `content` at `zoom`. */
  function ShowPage(t: PdfTab, content: PageContent, rasterOk: bool): (r: (PdfTab, Option<Error>))
    ensures !Showable(t) ==> r == (t, None)
    ensures Showable(t) ==> r.0.selectedArea.None?
    ensures Showable(t) && rasterOk ==> r.1.None? && r.0.textSegments == ScaleWords(content.words, t.zoom)
                                        && r.0.imageSegments == ScaleImages(content.images, t.zoom)
    ensures Showable(t) && !rasterOk ==> r.1 == Some(RenderError) && r.0.textSegments == []
    ensures r.0.(selectedArea := t.selectedArea, textSegments := t.textSegments,
                 imageSegments := t.imageSegments) == t
  {
    if !Showable(t) then (t, None)
    else
      var cleared := t.(textSegments := [], imageSegments := [], selectedArea := None);
      if !rasterOk then (cleared, Some(RenderError))
      else (cleared.(textSegments := ScaleWords(content.words, t.zoom),
                     imageSegments := ScaleImages(content.images, t.zoom)), None)
  }

  /** `PDFTab.reset_tab`: no document, page 0 of 0, no path. */
  function ResetTab(t: PdfTab): (r: PdfTab)
    ensures r.doc.None? && r.currentPage == 0 && r.totalPages == 0 && r.filePath.None?
    ensures r.zoom == t.zoom && r.textSegments == t.textSegments && r.selectedArea == t.selectedArea
  {
    t.(doc := None, currentPage := 0, totalPages := 0, filePath := None)
  }

  /** `PDFTab.open_pdf`: the tab and the returned flag. */
  function OpenPdf(t: PdfTab, path: string, attempt: Result<Doc>, content: PageContent, rasterOk: bool): (r: (PdfTab, bool))
    ensures r.1 <==> attempt.Success? && (attempt.value.pageCount == 0 || rasterOk)
    ensures r.1 ==> && r.0.filePath == Some(path) && r.0.doc == Some(attempt.value)
                    && r.0.totalPages == attempt.value.pageCount && r.0.currentPage == 0 && r.0.zoom == 1.0
    ensures !r.1 ==> r.0.doc.None? && r.0.currentPage == 0 && r.0.totalPages == 0 && r.0.filePath.None?
  {
    match attempt
    case Failure(_) => (ResetTab(t), false)
    case Success(doc) =>
      var loaded := t.(filePath := Some(path), doc := Some(doc), totalPages := doc.pageCount,
                       currentPage := 0, zoom := 1.0);
      var (shown, error) := ShowPage(loaded, content, rasterOk);
      if error.Some? then (ResetTab(shown), false) else (shown, true)
  }

  /** `prev_page`: step back and show the page, returning whether the page
      moved; an exception from drawing propagates after the step. */
  function PrevPage(t: PdfTab, content: PageContent, rasterOk: bool): (r: (PdfTab, Result<bool>))
    ensures r.0.currentPage == Pages.PrevPage(t.currentPage)
    ensures r.1.Success? ==> (r.1.value <==> t.currentPage > 0)
    ensures t.currentPage <= 0 ==> r == (t, Success(false))
  {
    if t.currentPage > 0 then
      var (shown, error) := ShowPage(t.(currentPage := t.currentPage - 1), content, rasterOk);
      (shown, if error.Some? then Failure(error.value) else Success(true))
    else (t, Success(false))
  }

  /** `next_page`: step forward and show the page, returning whether the
      page moved. */
  function NextPage(t: PdfTab, content: PageContent, rasterOk: bool): (r: (PdfTab, Result<bool>))
    ensures r.0.currentPage == Pages.NextPage(t.currentPage, t.totalPages)
    ensures r.1.Success? ==> (r.1.value <==> t.currentPage < t.totalPages - 1)
    ensures t.currentPage >= t.totalPages - 1 ==> r == (t, Success(false))
  {
    if t.currentPage < t.totalPages - 1 then
      var (shown, error) := ShowPage(t.(currentPage := t.currentPage + 1), content, rasterOk);
      (shown, if error.Some? then Failure(error.value) else Success(true))
    else (t, Success(false))
  }

  /** Going forward and then back returns to the page started from, and the
      words shown are those of the page content at the tab's zoom. */
  lemma NextThenPrev(t: PdfTab, content: PageContent)
    requires HasPages(t.doc) && 0 <= t.currentPage < t.totalPages - 1
    ensures var (t1, moved) := NextPage(t, content, true);
            var (t2, back) := PrevPage(t1, content, true);
            && moved == Success(true) && back == Success(true)
            && t2.currentPage == t.currentPage
            && t2.textSegments == ScaleWords(content.words, t.zoom)
  {
  }

  // ---------------------------------------------------------------------
  // Mouse selection

  /** `on_mouse_down`: remember the start point, drop the selection. */
  function OnMouseDown(t: PdfTab, x: real, y: real): (r: PdfTab)
    ensures r.start == Some((x, y)) && r.selectedArea.None?
  {
    t.(start := Some((x, y)), selectedArea := None)
  }

  /** `on_mouse_up`: store the rectangle spanned by the start point and the
      release point; without a prior mouse-down `start_x` does not exist and
      the handler raises `AttributeError`. */
  function OnMouseUp(t: PdfTab, x: real, y: real): (r: Result<PdfTab>)
    ensures t.start.None? <==> r == Failure(AttributeError)
    ensures r.Success? ==> r.value.selectedArea.Some? && r.value.selectedArea.value.Normal()
  {
    match t.start
    case None => Failure(AttributeError)
    case Some((sx, sy)) => Success(t.(selectedArea := Some(Normalise(sx, sy, x, y))))
  }

  /** The stored selection holds both the press and the release point, and
      a drag from either corner of it to the other reproduces it. */
  lemma SelectionSpansPoints(t: PdfTab, sx: real, sy: real, x: real, y: real)
    ensures var r := OnMouseUp(OnMouseDown(t, sx, sy), x, y);
            && r.Success?
            && r.value.selectedArea.value.Contains(sx, sy)
            && r.value.selectedArea.value.Contains(x, y)
            && r == OnMouseUp(OnMouseDown(t, x, y), sx, sy).(value := r.value.(start := Some((sx, sy))))
  {
    NormaliseContainsCorners(sx, sy, x, y);
    NormaliseSymmetric(sx, sy, x, y);
  }

  // ---------------------------------------------------------------------
  // The reader

  /** The notebook: the tabs' frames in the reader's list, the selected
      widget path ("" for none), the path-to-frame resolution and the number
      of pages the notebook manages. */
  datatype Reader = Reader(tabs: seq<nat>, selected: string, widgets: map<string, nat>, notebookCount: nat)

  /** What `close_current_tab` did: nothing selected, refused because one
      tab must stay, or closed (the new list and the frame of the tab that
      was reset, if the selection resolved to one). */
  datatype CloseResult = NoSelection | Refused | Closed(tabs: seq<nat>, reset: Option<nat>)

  /** `PDFReader.close_current_tab` on the tab list. */
  function CloseCurrentTab(r: Reader): (c: CloseResult)
    ensures c == NoSelection <==> r.selected == ""
    ensures c == Refused <==> r.selected != "" && r.notebookCount <= 1
    ensures c.Closed? ==> match GetCurrentTab(r.tabs, r.selected, r.widgets)
                          case None => c.tabs == r.tabs && c.reset.None?
                          case Some(i) => c.reset == Some(r.tabs[i]) && c.tabs == r.tabs[..i] + r.tabs[i + 1..]
  {
    if r.selected == "" then NoSelection
    else if r.notebookCount <= 1 then Refused
    else match GetCurrentTab(r.tabs, r.selected, r.widgets)
      case None => Closed(r.tabs, None)
      case Some(i) => Closed(CloseTab(r.tabs, r.tabs[i]), Some(r.tabs[i]))
  }

  /** Closing removes one tab and keeps every other frame. */
  lemma CloseCurrentTabKeepsOthers(r: Reader, other: nat)
    requires CloseCurrentTab(r).Closed? && CloseCurrentTab(r).reset.Some?
    requires other != CloseCurrentTab(r).reset.value
    ensures |CloseCurrentTab(r).tabs| == |r.tabs| - 1
    ensures multiset(CloseCurrentTab(r).tabs)[other] == multiset(r.tabs)[other]
  {
    var i := GetCurrentTab(r.tabs, r.selected, r.widgets).value;
    CloseTabKeepsOthers(r.tabs, r.tabs[i], other);
  }

  const LabelPrefix: string := "页码: "

  /** `update_page_label`: the prefix and the page label of the current tab
      (`None` when there is no current tab). */
  function PageLabel(current: Option<PdfTab>): (s: string)
    ensures |LabelPrefix| <= |s| && s[..|LabelPrefix|] == LabelPrefix
    ensures current.None? || current.value.totalPages == 0 ==> s == LabelPrefix + "0/0"
  {
    LabelPrefix + Pages.Label(if current.None? then None else Some((current.value.currentPage, current.value.totalPages as int)))
  }

  /** Two tabs with pages show the same label only when they are at the
      same page of equally long documents. */
  lemma PageLabelInjective(a: PdfTab, b: PdfTab)
    requires a.totalPages > 0 && b.totalPages > 0
    requires PageLabel(Some(a)) == PageLabel(Some(b))
    ensures a.currentPage == b.currentPage && a.totalPages == b.totalPages
  {
    var la := Pages.Label(Some((a.currentPage, a.totalPages as int)));
    var lb := Pages.Label(Some((b.currentPage, b.totalPages as int)));
    assert la == PageLabel(Some(a))[|LabelPrefix|..];
    assert lb == PageLabel(Some(b))[|LabelPrefix|..];
    Pages.LabelInjective(a.currentPage, a.totalPages, b.currentPage, b.totalPages);
  }
}

=== FILE: plugins.dfy ===
/** The plugin base class and the plugin manager: registration by name and
    hotkey, indexing, the start-up (`loaded`), hotkey (`run`) and shut-down
    (`unloaded`) calls, and which files of the plugin directory are loaded.
 */
module Plugins {
  import opened Wrappers
  import opened Text

  /** A plugin instance: its class attributes and whether it is enabled.
      `hotkeyAttr` is a `hotkey` attribute a class may define in place of
      the default property. */
  datatype Plugin = Plugin(name: string, hotkeys: seq<string>, hotkeyAttr: Option<string>,
                           description: string, able: bool)

  /** What a plugin class may define; missing attributes take the base
      class's defaults. */
  datatype PluginClass = PluginClass(name: string, hotkeys: Option<seq<string>>,
                                     hotkeyAttr: Option<string>, description: Option<string>)

  const DefaultDescription: string := "plugin"

  /** Instantiating a plugin class. */
  function NewPlugin(c: PluginClass): (p: Plugin)
    ensures p.able && p.name == c.name && p.hotkeyAttr == c.hotkeyAttr
    ensures c.hotkeys.None? ==> p.hotkeys == []
    ensures c.description.None? ==> p.description == DefaultDescription
  {
    Plugin(c.name, c.hotkeys.GetOr([]), c.hotkeyAttr, c.description.GetOr(DefaultDescription), true)
  }

  /** The `hotkey` property: a class attribute of that name wins, otherwise
      the first of `hotkeys`, or none. */
  function Hotkey(p: Plugin): (h: Option<string>)
    ensures p.hotkeyAttr.None? ==> (h.Some? <==> p.hotkeys != [])
    ensures p.hotkeyAttr.None? && h.Some? ==> h.value == p.hotkeys[0]
  {
    if p.hotkeyAttr.Some? then p.hotkeyAttr
    else if p.hotkeys != [] then Some(p.hotkeys[0]) else None
  }

  function Enable(p: Plugin): (r: Plugin)
    ensures r.able && r.(able := p.able) == p
  {
    p.(able := true)
  }

  function Disable(p: Plugin): (r: Plugin)
    ensures !r.able && r.(able := p.able) == p
  {
    p.(able := false)
  }

  // ---------------------------------------------------------------------
  // The manager

  /** The plugin list, and the name and hotkey maps, which refer to plugins
      by their position in the list. */
  datatype Manager = Manager(plugins: seq<Plugin>, names: map<string, nat>, hotkeys: map<string, nat>)

  /** Every mapping points into the list, and a name points to a plugin of
      that name. */
  predicate Valid(m: Manager) {
    && (forall n :: n in m.names ==> m.names[n] < |m.plugins| && m.plugins[m.names[n]].name == n)
    && (forall h :: h in m.hotkeys ==> m.hotkeys[h] < |m.plugins|)
  }

  const Empty: Manager := Manager([], map[], map[])

  /** `append`: the plugin goes at the end of the list, its name maps to it
      (replacing an earlier plugin of that name) and so does each of its
      hotkeys (replacing any earlier owner). */
  function Append(m: Manager, p: Plugin): (r: Manager)
    ensures r.plugins == m.plugins + [p]
    ensures r.names == m.names[p.name := |m.plugins|]
    ensures r.hotkeys.Keys == m.hotkeys.Keys + (set h | h in p.hotkeys)
    ensures forall h :: h in p.hotkeys ==> r.hotkeys[h] == |m.plugins|
    ensures forall h :: h in m.hotkeys && h !in p.hotkeys ==> r.hotkeys[h] == m.hotkeys[h]
  {
    var i := |m.plugins|;
    Manager(m.plugins + [p], m.names[p.name := i],
            map h | h in m.hotkeys.Keys + (set h | h in p.hotkeys) :: if h in p.hotkeys then i else m.hotkeys[h])
  }

  /** Appending keeps the manager valid, and a plugin without hotkeys gets
      no hotkey mapping whatever its `hotkey` attribute says. */
  lemma AppendValid(m: Manager, p: Plugin)
    requires Valid(m)
    ensures Valid(Append(m, p))
    ensures p.hotkeys == [] ==> Append(m, p).hotkeys == m.hotkeys
  {
    var r := Append(m, p);
    forall n | n in r.names
      ensures r.names[n] < |r.plugins| && r.plugins[r.names[n]].name == n
    {
      if n != p.name {
        assert r.plugins[m.names[n]] == m.plugins[m.names[n]];
      }
    }
  }

  /** A key of `manager[key]`. */
  datatype Key = IntKey(i: int) | SliceKey(start: Option<int>, stop: Option<int>) | StrKey(s: string) | OtherKey

  /** What indexing gives: one plugin, or a list for a slice. */
  datatype Got = One(plugin: Plugin) | Many(list: seq<Plugin>)

  /** Python's bound for one end of a slice with step 1. */
  function SliceBound(b: Option<int>, default: nat, len: nat): (r: nat)
    ensures r <= len
  {
    match b
    case None => if default <= len then default else len
    case Some(x) =>
      if x < 0 then (if x + len < 0 then 0 else x + len)
      else if x > len then len else x
  }

  /** `__getitem__`: integers (negative ones from the end) and slices index
      the list, strings look up the name map, and anything else is a type
      error. */
  function GetItem(m: Manager, key: Key): (r: Result<Got>)
    requires Valid(m)
    ensures key.OtherKey? <==> r == Failure(TypeError)
    ensures key.StrKey? ==> (r.Success? <==> key.s in m.names)
    ensures key.StrKey? && key.s in m.names ==> r == Success(One(m.plugins[m.names[key.s]]))
    ensures key.IntKey? ==> (r.Success? <==> -|m.plugins| <= key.i < |m.plugins|)
    ensures key.IntKey? && 0 <= key.i < |m.plugins| ==> r == Success(One(m.plugins[key.i]))
    ensures key.IntKey? && -|m.plugins| <= key.i < 0 ==> r == Success(One(m.plugins[key.i + |m.plugins|]))
    ensures key.SliceKey? ==>
              var a, b := SliceBound(key.start, 0, |m.plugins|), SliceBound(key.stop, |m.plugins|, |m.plugins|);
              r == Success(Many(if a < b then m.plugins[a..b] else []))
    ensures key == SliceKey(None, None) ==> r == Success(Many(m.plugins))
    ensures key.SliceKey? && key.start.Some? && key.stop.Some? && 0 <= key.start.value <= key.stop.value <= |m.plugins| ==>
              r == Success(Many(m.plugins[key.start.value..key.stop.value]))
    ensures key.SliceKey? ==> r.Success? && r.value.Many? && |r.value.list| <= |m.plugins|
  {
    var len := |m.plugins|;
    match key
    case IntKey(i) =>
      if 0 <= i < len then Success(One(m.plugins[i]))
      else if -len <= i < 0 then Success(One(m.plugins[i + len]))
      else Failure(IndexError)
    case SliceKey(start, stop) =>
      var a := SliceBound(start, 0, len);
      var b := SliceBound(stop, len, len);
      assert m.plugins[0..len] == m.plugins;
      Success(Many(if a < b then m.plugins[a..b] else []))
    case StrKey(s) =>
      if s in m.names then Success(One(m.plugins[m.names[s]])) else Failure(KeyError)
    case OtherKey => Failure(TypeError)
  }

  /** A name registered after another plugin of the same name refers to the
      newest one, which indexing by name returns. */
  lemma AppendedIsFound(m: Manager, p: Plugin)
    requires Valid(m)
    ensures GetItem(Append(m, p), StrKey(p.name)) == Success(One(p))
    ensures GetItem(Append(m, p), IntKey(-1)) == Success(One(p))
  {
    AppendValid(m, p);
  }

  /** Switching one plugin on or off. */
  function SetAble(m: Manager, i: nat, able: bool): (r: Manager)
    requires i < |m.plugins|
    ensures |r.plugins| == |m.plugins| && r.names == m.names && r.hotkeys == m.hotkeys
    ensures r.plugins[i].able == able
    ensures forall j :: 0 <= j < |m.plugins| && j != i ==> r.plugins[j] == m.plugins[j]
  {
    m.(plugins := m.plugins[i := if able then Enable(m.plugins[i]) else Disable(m.plugins[i])])
  }

  /** `run(hotkey)`: the position of the plugin whose `run` is called, if
      any; an unmapped hotkey or a disabled plugin calls nothing. */
  function Run(m: Manager, hotkey: string): (r: Option<nat>)
    requires Valid(m)
    ensures r.Some? <==> hotkey in m.hotkeys && m.plugins[m.hotkeys[hotkey]].able
    ensures r.Some? ==> r.value == m.hotkeys[hotkey]
  {
    if hotkey in m.hotkeys && m.plugins[m.hotkeys[hotkey]].able then Some(m.hotkeys[hotkey]) else None
  }

  /** Disabling a plugin stops its hotkeys and enabling it again restores
      them. */
  lemma DisableStopsRun(m: Manager, hotkey: string)
    requires Valid(m) && hotkey in m.hotkeys
    ensures var i := m.hotkeys[hotkey];
            && Run(SetAble(m, i, false), hotkey).None?
            && Run(SetAble(m, i, true), hotkey) == Some(i)
  {
  }

  /** `unloaded`: the positions of the enabled plugins, in list order. */
  function Unloaded(plugins: seq<Plugin>): (r: seq<nat>)
    ensures forall k :: 0 <= k < |r| ==> r[k] < |plugins| && plugins[r[k]].able
    ensures forall k, l :: 0 <= k < l < |r| ==> r[k] < r[l]
    ensures forall i :: 0 <= i < |plugins| && plugins[i].able ==> i in r
    decreases |plugins|
  {
    if plugins == [] then []
    else
      var n := |plugins| - 1;
      Unloaded(plugins[..n]) + (if plugins[n].able then [n] else [])
  }

  // ---------------------------------------------------------------------
  // Start-up order

  /** The first position of a name in a list. */
  function IndexOf(order: seq<string>, n: string): (k: nat)
    requires n in order
    ensures k < |order| && order[k] == n && n !in order[..k]
  {
    if order[0] == n then 0 else 1 + IndexOf(order[1..], n)
  }

  /** The registered names whose plugin is enabled. */
  function EnabledNames(m: Manager): (r: set<string>)
    requires Valid(m)
    ensures forall n :: n in r <==> n in m.names && m.plugins[m.names[n]].able
  {
    set n | n in m.names && m.plugins[m.names[n]].able
  }

  /** The first loop of `loaded`: names from the loading order that are
      still waiting are called (when enabled) and stop waiting. The result
      is the names called and the names still waiting. */
  function OrderedCalls(order: seq<string>, waiting: set<string>, enabled: set<string>): (r: (seq<string>, set<string>))
    ensures r.1 == waiting - (set n | n in order)
    ensures |r.0| <= |order|
    decreases |order|
  {
    if order == [] then ([], waiting)
    else
      var n := order[0];
      var (rest, left) := OrderedCalls(order[1..], waiting - {n}, enabled);
      ((if n in waiting && n in enabled then [n] else []) + rest, left)
  }

  /** The first loop calls exactly the enabled plugins that were waiting
      and are named in the order. */
  lemma {:induction false} OrderedCallsWhom(order: seq<string>, waiting: set<string>, enabled: set<string>)
    ensures forall n :: n in OrderedCalls(order, waiting, enabled).0 <==> n in waiting && n in order && n in enabled
    decreases |order|
  {
    if order != [] {
      OrderedCallsWhom(order[1..], waiting - {order[0]}, enabled);
      assert forall n :: n in order <==> n == order[0] || n in order[1..];
    }
  }

  lemma IndexOfTail(order: seq<string>, n: string)
    requires order != [] && n in order[1..] && n != order[0]
    ensures IndexOf(order, n) == 1 + IndexOf(order[1..], n)
  {
  }

  /** Names in a list, strictly ordered by their first position in `order`. */
  predicate SortedBy(r: seq<string>, order: seq<string>) {
    forall k, l :: 0 <= k < l < |r| ==> Precedes(order, r[k], r[l])
  }

  /** `a` comes strictly before `b` in `order`. */
  predicate Precedes(order: seq<string>, a: string, b: string) {
    a in order && b in order && IndexOf(order, a) < IndexOf(order, b)
  }

  /** The first loop calls plugins in the order their names first appear
      in the loading order. */
  lemma {:induction false} OrderedCallsSorted(order: seq<string>, waiting: set<string>, enabled: set<string>)
    ensures SortedBy(OrderedCalls(order, waiting, enabled).0, order)
    decreases |order|
  {
    if order != [] {
      var n := order[0];
      OrderedCallsSorted(order[1..], waiting - {n}, enabled);
      OrderedCallsWhom(order[1..], waiting - {n}, enabled);
      var rest := OrderedCalls(order[1..], waiting - {n}, enabled).0;
      var here := if n in waiting && n in enabled then [n] else [];
      SortedCons(order, here, rest);
    }
  }

  /** One step of the first loop: the head of `order`, when it is called,
      in front of calls ordered by the rest of `order` keeps them ordered. */
  lemma SortedCons(order: seq<string>, here: seq<string>, rest: seq<string>)
    requires order != [] && (here == [] || here == [order[0]])
    requires SortedBy(rest, order[1..])
    requires forall x :: x in rest ==> x in order[1..] && x != order[0]
    ensures SortedBy(here + rest, order)
  {
    SortedShift(order, rest);
    if here == [] {
      assert here + rest == rest;
    } else {
      forall j | 0 <= j < |rest| ensures Precedes(order, order[0], rest[j]) {
        assert rest[j] in rest;
        IndexOfTail(order, rest[j]);
        assert IndexOf(order, order[0]) == 0;
      }
      SortedConsHead(order, rest);
    }
  }

  /** The head of `order` in front of a list of later names keeps it
      ordered. */
  lemma SortedConsHead(order: seq<string>, rest: seq<string>)
    requires order != [] && SortedBy(rest, order)
    requires forall j :: 0 <= j < |rest| ==> Precedes(order, order[0], rest[j])
    ensures SortedBy([order[0]] + rest, order)
  {
    var all := [order[0]] + rest;
    forall k, l | 0 <= k < l < |all|
      ensures Precedes(order, all[k], all[l])
    {
      assert all[l] == rest[l - 1];
      if k == 0 {
        assert all[k] == order[0];
      } else {
        assert all[k] == rest[k - 1];
      }
    }
  }

  /** A list ordered by the tail of `order`, without its head, is ordered by
      all of `order`. */
  lemma SortedShift(order: seq<string>, rest: seq<string>)
    requires order != [] && SortedBy(rest, order[1..])
    requires forall x :: x in rest ==> x in order[1..] && x != order[0]
    ensures SortedBy(rest, order)
  {
    forall k, l | 0 <= k < l < |rest|
      ensures Precedes(order, rest[k], rest[l])
    {
      assert rest[k] in rest && rest[l] in rest;
      ShiftPair(order, rest[k], rest[l]);
    }
  }

  /** Two later names keep their relative order when the head of `order` is
      put back. */
  lemma ShiftPair(order: seq<string>, x: string, y: string)
    requires order != [] && x in order[1..] && y in order[1..] && x != order[0] && y != order[0]
    requires Precedes(order[1..], x, y)
    ensures Precedes(order, x, y)
  {
    IndexOfTail(order, x);
    IndexOfTail(order, y);
  }

  /** The second loop of `loaded`: the remaining names, in the order the
      set yields them; the names whose plugin is enabled are called. */
  function RestCalls(names: seq<string>, enabled: set<string>): (r: seq<string>)
    ensures forall n :: n in r <==> n in names && n in enabled
    ensures |r| <= |names|
  {
    if names == [] then []
    else (if names[0] in enabled then [names[0]] else []) + RestCalls(names[1..], enabled)
  }

  lemma {:induction false} RestCallsDistinct(names: seq<string>, enabled: set<string>)
    requires Distinct(names)
    ensures Distinct(RestCalls(names, enabled))
    decreases |names|
  {
    if names != [] {
      RestCallsDistinct(names[1..], enabled);
      var r := RestCalls(names[1..], enabled);
      var here := if names[0] in enabled then [names[0]] else [];
      var all := here + r;
      assert names[0] !in names[1..];
      forall k, l | 0 <= k < l < |all|
        ensures all[k] != all[l]
      {
        assert all[l] == r[l - |here|] && all[l] in r;
        if k >= |here| {
          assert all[k] == r[k - |here|];
        }
      }
    }
  }

  /** No name occurs twice. */
  predicate Distinct(names: seq<string>) {
    forall k, l :: 0 <= k < l < |names| ==> names[k] != names[l]
  }

  /** `loaded`: the names whose plugin's `loaded` is called, in call
      order. The set of names left after the first loop is iterated in an
      order Python does not fix; `leftover` is that order. */
  function Loaded(m: Manager, order: seq<string>, leftover: seq<string>): (r: seq<string>)
    requires Valid(m) && Distinct(leftover)
    requires forall n :: n in leftover <==> n in m.names && n !in order
    ensures |r| <= |order| + |leftover|
    ensures forall n :: n in leftover && n in EnabledNames(m) ==> n in r
  {
    OrderedCalls(order, m.names.Keys, EnabledNames(m)).0 + RestCalls(leftover, EnabledNames(m))
  }

  /** `loaded` calls exactly the enabled registered plugins, each once:
      first those named in the loading order, in that order, then the
      rest. */
  lemma LoadedCallsEachOnce(m: Manager, order: seq<string>, leftover: seq<string>)
    requires Valid(m) && Distinct(leftover)
    requires forall n :: n in leftover <==> n in m.names && n !in order
    ensures var calls := Loaded(m, order, leftover);
            && (forall n :: n in calls <==> n in m.names && m.plugins[m.names[n]].able)
            && Distinct(calls)
    ensures var first := OrderedCalls(order, m.names.Keys, EnabledNames(m)).0;
            var calls := Loaded(m, order, leftover);
            && calls[..|first|] == first
            && SortedBy(first, order)
            && (forall k :: |first| <= k < |calls| ==> calls[k] !in order)
  {
    var enabled := EnabledNames(m);
    var first := OrderedCalls(order, m.names.Keys, enabled).0;
    var second := RestCalls(leftover, enabled);
    var calls := first + second;
    OrderedCallsWhom(order, m.names.Keys, enabled);
    OrderedCallsSorted(order, m.names.Keys, enabled);
    RestCallsDistinct(leftover, enabled);
    assert calls[..|first|] == first;
    forall k | |first| <= k < |calls|
      ensures calls[k] !in order
    {
      assert calls[k] == second[k - |first|] && calls[k] in second;
    }
    forall k, l | 0 <= k < l < |calls|
      ensures calls[k] != calls[l]
    {
      if l < |first| {
        assert IndexOf(order, first[k]) < IndexOf(order, first[l]);
      } else if k < |first| {
        assert first[k] in first;
        assert calls[l] == second[l - |first|] && calls[l] in second;
      } else {
        assert calls[k] == second[k - |first|] && calls[l] == second[l - |first|];
      }
    }
  }

  /** `_call_plugin`: a method that raises is reported and yields `None`,
      so a call never fails. */
  function CallPlugin<V>(outcome: Result<Option<V>>): (r: Option<V>)
    ensures outcome.Failure? ==> r.None?
    ensures outcome.Success? ==> r == outcome.value
  {
    match outcome
    case Success(v) => v
    case Failure(_) => None
  }

  // ---------------------------------------------------------------------
  // Loading from a directory

  /** A file found in the plugin directory: its name, the exception that
      executing it as a module raises (`None` when it imports cleanly), and
      the plugin classes it defines. */
  datatype SourceFile = SourceFile(name: string, raises: Option<Error>, classes: seq<PluginClass>)

  /** Files named with a leading underscore are skipped; only Python
      files match the search pattern. */
  predicate Loadable(fileName: string) {
    EndsWith(fileName, ".py") && !StartsWith(fileName, "_")
  }

  /** A loadable file whose module raises when executed. */
  predicate Broken(f: SourceFile) {
    Loadable(f.name) && f.raises.Some?
  }

  /** `load_plugins_from_directory` over the files found: each loadable
      file is loaded in turn and the count of plugins is summed. Nothing
      catches an exception from a file, so the first broken file stops the
      whole load with its exception. */
  function LoadDirectory(m: Manager, files: seq<SourceFile>): (r: Result<(Manager, nat)>)
    ensures r.Success? ==> |r.value.0.plugins| == |m.plugins| + r.value.1
    ensures r.Success? ==> r.value.0.plugins[..|m.plugins|] == m.plugins
    decreases |files|
  {
    if files == [] then Success((m, 0))
    else
      var n := |files| - 1;
      var before :- LoadDirectory(m, files[..n]);
      if Loadable(files[n].name) then
        var loaded :- LoadFile(before.0, files[n]);
        Success((loaded.0, before.1 + loaded.1))
      else Success(before)
  }

  /** `load_plugins_from_file`: the module is executed first, and an
      exception it raises propagates; otherwise each plugin class it defines
      is instantiated and appended, and the count is returned. */
  function LoadFile(m: Manager, f: SourceFile): (r: Result<(Manager, nat)>)
    ensures r.Failure? <==> f.raises.Some?
    ensures r.Failure? ==> r.error == f.raises.value
    ensures r.Success? ==> r.value.1 == |f.classes|
    ensures r.Success? ==> |r.value.0.plugins| == |m.plugins| + |f.classes|
    ensures r.Success? ==> r.value.0.plugins[..|m.plugins|] == m.plugins
    ensures r.Success? ==> forall k :: 0 <= k < |f.classes| ==>
              r.value.0.plugins[|m.plugins| + k] == NewPlugin(f.classes[k])
  {
    match f.raises
    case Some(e) => Failure(e)
    case None => Success(Instantiate(m, f.classes))
  }

  /** The loop over a module's plugin classes: one plugin per class, in
      order, each appended. */
  function Instantiate(m: Manager, classes: seq<PluginClass>): (r: (Manager, nat))
    ensures r.1 == |classes|
    ensures |r.0.plugins| == |m.plugins| + |classes|
    ensures r.0.plugins[..|m.plugins|] == m.plugins
    ensures forall k :: 0 <= k < |classes| ==> r.0.plugins[|m.plugins| + k] == NewPlugin(classes[k])
    decreases |classes|
  {
    if classes == [] then (m, 0)
    else
      var n := |classes| - 1;
      var (m1, c) := Instantiate(m, classes[..n]);
      (Append(m1, NewPlugin(classes[n])), c + 1)
  }

  /** Plugins come only from loadable files: a file whose name starts with
      an underscore adds nothing, a loadable one that imports adds one
      plugin per class, and a broken one stops the load. */
  lemma SkippedFilesAddNothing(m: Manager, files: seq<SourceFile>, f: SourceFile)
    ensures !Loadable(f.name) ==> LoadDirectory(m, files + [f]) == LoadDirectory(m, files)
    ensures Loadable(f.name) && f.raises.None? && LoadDirectory(m, files).Success? ==>
              && LoadDirectory(m, files + [f]).Success?
              && LoadDirectory(m, files + [f]).value.1 == LoadDirectory(m, files).value.1 + |f.classes|
    ensures Broken(f) ==> LoadDirectory(m, files + [f]).Failure?
    ensures StartsWith(f.name, "_") ==> !Loadable(f.name)
  {
    assert (files + [f])[..|files|] == files;
  }

  /** Loading a directory fails exactly when one of its loadable files is
      broken, and then with the exception of the first such file. */
  lemma {:induction false} LoadFailsIff(m: Manager, files: seq<SourceFile>)
    ensures LoadDirectory(m, files).Failure? <==> exists k :: 0 <= k < |files| && Broken(files[k])
    ensures LoadDirectory(m, files).Failure? ==>
              exists k :: && 0 <= k < |files| && Broken(files[k])
                          && files[k].raises.value == LoadDirectory(m, files).error
                          && forall j :: 0 <= j < k ==> !Broken(files[j])
    decreases |files|
  {
    if files != [] {
      var n := |files| - 1;
      var prefix := files[..n];
      LoadFailsIff(m, prefix);
      assert forall k :: 0 <= k < n ==> prefix[k] == files[k];
      if LoadDirectory(m, prefix).Failure? {
        var k :| && 0 <= k < n && Broken(prefix[k]) && prefix[k].raises.value == LoadDirectory(m, prefix).error
                 && forall j :: 0 <= j < k ==> !Broken(prefix[j]);
        assert Broken(files[k]);
      } else if Broken(files[n]) {
        assert forall j :: 0 <= j < n ==> !Broken(files[j]);
      } else {
        assert forall k :: 0 <= k < |files| ==> !Broken(files[k]);
      }
    }
  }

  /** A broken file anywhere in the directory's listing stops the whole
      load, whatever the other files define. */
  lemma BrokenFileStopsLoading(m: Manager, before: seq<SourceFile>, f: SourceFile, after: seq<SourceFile>)
    requires Broken(f)
    ensures LoadDirectory(m, before + [f] + after).Failure?
  {
    var files := before + [f] + after;
    assert files[|before|] == f;
    LoadFailsIff(m, files);
  }

  const ContextMenuName: string := "ContextMenu.py"

  lemma ContextMenuNameLoadable()
    ensures Loadable(ContextMenuName)
  {
    assert ContextMenuName[|ContextMenuName| - 3..] == ".py";
    assert ContextMenuName[..1] != "_" by { assert ContextMenuName[..1][0] == 'C'; }
  }

  /** plugins/ContextMenu.py as shipped: it imports a helper that the
      access module does not define, so executing it raises `ImportError`. */
  function ContextMenuAsWritten(classes: seq<PluginClass>): (r: SourceFile)
    ensures Broken(r) && r.raises == Some(ImportError)
  {
    ContextMenuNameLoadable();
    SourceFile(ContextMenuName, Some(ImportError), classes)
  }

  /** The context-menu file with its helper available: it imports cleanly. */
  function ContextMenuFixed(classes: seq<PluginClass>): (r: SourceFile)
    ensures Loadable(r.name) && r.raises.None? && r.classes == classes
  {
    ContextMenuNameLoadable();
    SourceFile(ContextMenuName, None, classes)
  }

  /** As shipped, the context-menu file stops the reader's plugin load with
      `ImportError` unless an earlier file has already stopped it. */
  lemma ContextMenuStopsLoading(m: Manager, before: seq<SourceFile>, classes: seq<PluginClass>, after: seq<SourceFile>)
    requires forall k :: 0 <= k < |before| ==> !Broken(before[k])
    ensures LoadDirectory(m, before + [ContextMenuAsWritten(classes)] + after) == Failure(ImportError)
  {
    var files := before + [ContextMenuAsWritten(classes)] + after;
    assert files[|before|] == ContextMenuAsWritten(classes);
    assert forall k :: 0 <= k < |before| ==> files[k] == before[k];
    LoadFailsIff(m, files);
  }

  /** With the helper defined, the context-menu file adds its plugins to a
      load that had succeeded so far. */
  lemma ContextMenuFixedLoads(m: Manager, before: seq<SourceFile>, classes: seq<PluginClass>)
    requires LoadDirectory(m, before).Success?
    ensures LoadDirectory(m, before + [ContextMenuFixed(classes)]).Success?
    ensures LoadDirectory(m, before + [ContextMenuFixed(classes)]).value.1 == LoadDirectory(m, before).value.1 + |classes|
  {
    SkippedFilesAddNothing(m, before, ContextMenuFixed(classes));
  }
}

=== FILE: summary.dfy ===
/** The AI summary plugin: the stored summary length, the text chosen for
    summarising (the selection, else every page), the request sent to the
    AI service and the way its reply is assembled.

    The AI service is a parameter: a function from the full prompt and the
    stream flag to the reply it would give.
 */
module Summary {
  import opened Wrappers
  import opened Text
  import opened JsonValue
  import AiConfigure
  import Menus

  /** The reader's persistent data dictionary. */
  type Data = map<string, Json>

  const LengthKey: string := "summary_length"
  const DefaultLength: string := "medium"

  /** `LENGTH_PROMPTS`: the instruction for each summary length. */
  function LengthPrompts(): map<string, string> {
    map[
      "short" := "请用简短的语言（50-100字）总结以下内容：",
      "medium" := "请用中等长度的语言（200-300字）总结以下内容：",
      "detailed" := "请用详细的语言（500-800字）总结以下内容："
    ]
  }

  /** `get_summary_length` as written: it reads `self.context.data`, which
      the context does not have. */
  function GetSummaryLengthAsWritten(data: Data): (r: Result<Json>)
    ensures r == Failure(AttributeError)
  {
    match Menus.ContextAttribute("data", data)
    case Failure(e) => Failure(e)
    case Success(d) => Success(GetSummaryLength(d))
  }

  /** `set_summary_length` as written: an unknown length is ignored before
      the context is touched, and storing a known one raises on
      `self.context.data`. */
  function SetSummaryLengthAsWritten(data: Data, length: string): (r: Result<Data>)
    ensures r.Failure? <==> length in LengthPrompts()
    ensures r.Failure? ==> r.error == AttributeError
    ensures r.Success? ==> r.value == data
  {
    if length in LengthPrompts() then
      match Menus.ContextAttribute("data", data)
      case Failure(e) => Failure(e)
      case Success(d) => Success(SetSummaryLength(d, length))
    else Success(data)
  }

  /** `get_summary_length` with the data reached through `get_data()`: the
      stored value, `"medium"` when there is none. */
  function GetSummaryLength(data: Data): (r: Json)
    ensures LengthKey in data ==> r == data[LengthKey]
    ensures LengthKey !in data ==> r == JStr(DefaultLength)
  {
    Get(data, LengthKey, JStr(DefaultLength))
  }

  /** `set_summary_length` with the data reached through `get_data()`: only
      a known length is stored. */
  function SetSummaryLength(data: Data, length: string): (r: Data)
    ensures length in LengthPrompts() ==> r == data[LengthKey := JStr(length)]
    ensures length !in LengthPrompts() ==> r == data
  {
    if length in LengthPrompts() then data[LengthKey := JStr(length)] else data
  }

  /** Setting a known length makes it the one read back and touches no
      other key; an unknown one changes nothing. */
  lemma SetThenGetLength(data: Data, length: string, other: string)
    requires other != LengthKey
    ensures length in LengthPrompts() ==> GetSummaryLength(SetSummaryLength(data, length)) == JStr(length)
    ensures length !in LengthPrompts() ==> GetSummaryLength(SetSummaryLength(data, length)) == GetSummaryLength(data)
    ensures other in SetSummaryLength(data, length) <==> other in data
    ensures other in data ==> SetSummaryLength(data, length)[other] == data[other]
  {
  }

  /** The stored length, if any, is one the plugin knows. */
  predicate ValidLength(data: Data) {
    LengthKey in data ==> data[LengthKey].JStr? && data[LengthKey].s in LengthPrompts()
  }

  /** `configure_length`: the dialog's choice (`None` when cancelled) is
      stored when it is not empty. */
  function ConfigureLength(data: Data, choice: Option<string>): (r: Data)
    ensures choice.None? || choice == Some("") ==> r == data
    ensures r.Keys <= data.Keys + {LengthKey}
    ensures forall other :: other in data && other != LengthKey ==> other in r && r[other] == data[other]
  {
    match choice
    case Some(c) => if c != "" then SetSummaryLength(data, c) else data
    case None => data
  }

  /** `configure_length` as written: it first reads the current length,
      which raises `AttributeError`, so no dialog is shown and nothing is
      stored. */
  function ConfigureLengthAsWritten(data: Data, choice: Option<string>): (r: Result<Data>)
    ensures r == Failure(AttributeError)
  {
    match GetSummaryLengthAsWritten(data)
    case Failure(e) => Failure(e)
    case Success(_) => Success(ConfigureLength(data, choice))
  }

  /** Configuring the length never stores an unknown value, so the length
      read back is always one with its own prompt. */
  lemma ConfigureKeepsValid(data: Data, choice: Option<string>)
    requires ValidLength(data)
    ensures ValidLength(ConfigureLength(data, choice))
    ensures GetSummaryLength(ConfigureLength(data, choice)).s in LengthPrompts()
  {
  }

  /** Whether Python can hash the value, as a `dict.get` key must be:
      lists and dictionaries cannot. */
  predicate Hashable(v: Json) {
    !v.JList? && !v.JObj?
  }

  /** The instruction for a length; any other hashable value falls back to
      the medium one, and an unhashable one makes `dict.get` raise
      `TypeError`. */
  function PromptFor(length: Json): (p: Result<string>)
    ensures p.Failure? <==> !Hashable(length)
    ensures p.Failure? ==> p.error == TypeError
    ensures p.Success? ==> p.value in LengthPrompts().Values
    ensures length.JStr? && length.s in LengthPrompts() ==> p == Success(LengthPrompts()[length.s])
  {
    if !Hashable(length) then Failure(TypeError)
    else if length.JStr? && length.s in LengthPrompts() then Success(LengthPrompts()[length.s])
    else Success(LengthPrompts()[DefaultLength])
  }

  /** The text sent to the service: the instruction, a blank line, the text. */
  function FullPrompt(length: Json, text: string): Result<string>
  {
    var prompt :- PromptFor(length);
    Success(prompt + "\n\n" + text)
  }

  /** The full prompt starts with one of the three instructions and ends
      with the text exactly, so the text can be read back from it. */
  lemma FullPromptSplits(length: Json, text: string)
    ensures FullPrompt(length, text).Success? <==> Hashable(length)
    ensures Hashable(length) ==>
              var f, p := FullPrompt(length, text).value, PromptFor(length).value;
              && p in LengthPrompts().Values
              && f[..|p|] == p && f[|p|..|p| + 2] == "\n\n" && f[|p| + 2..] == text
  {
  }

  // ---------------------------------------------------------------------
  // The text to summarise

  /** The current tab as the plugin sees it: its document's page texts
      (`None` when the tab has no document), each of which may fail to be
      extracted. */
  datatype SummaryTab = SummaryTab(pages: Option<seq<Result<string>>>)

  /** The page texts that were extracted and are not empty, in order. */
  function PageTexts(pages: seq<Result<string>>): (r: seq<string>)
    ensures |r| <= |pages|
    ensures forall k :: 0 <= k < |r| ==> r[k] != ""
  {
    if pages == [] then []
    else
      var rest := PageTexts(pages[1..]);
      if pages[0].Success? && pages[0].value != "" then [pages[0].value] + rest else rest
  }

  /** Exactly the extracted, non-empty page texts are kept. */
  lemma {:induction false} PageTextsKeeps(pages: seq<Result<string>>, t: string)
    ensures t in PageTexts(pages) <==> t != "" && Success(t) in pages
    decreases |pages|
  {
    if pages != [] {
      PageTextsKeeps(pages[1..], t);
      assert pages == [pages[0]] + pages[1..];
    }
  }

  /** `get_text_to_summarize`: a non-blank selection, stripped; otherwise
      the page texts joined by blank lines, or `""` without a document.
      Reading the selection may fail, which counts as no selection. */
  function GetTextToSummarize(selection: Result<Option<string>>, tab: Option<SummaryTab>): (r: string)
    ensures selection.Success? && selection.value.Some? && Strip(selection.value.value) != ""
            ==> r == Strip(selection.value.value)
  {
    if selection.Success? && selection.value.Some? && Strip(selection.value.value) != "" then
      Strip(selection.value.value)
    else if tab.None? || tab.value.pages.None? then ""
    else Join(PageTexts(tab.value.pages.value), "\n\n")
  }

  /** Without a usable selection the text is empty exactly when no page
      yields any text, so the "nothing to summarise" warning is shown
      exactly then. */
  lemma NothingToSummarise(selection: Result<Option<string>>, tab: Option<SummaryTab>)
    requires !(selection.Success? && selection.value.Some? && Strip(selection.value.value) != "")
    ensures GetTextToSummarize(selection, tab) == "" <==>
              tab.None? || tab.value.pages.None? || PageTexts(tab.value.pages.value) == []
  {
    if tab.Some? && tab.value.pages.Some? && PageTexts(tab.value.pages.value) != [] {
      JoinFirstNotEmpty(PageTexts(tab.value.pages.value), "\n\n");
    }
  }

  lemma JoinFirstNotEmpty(parts: seq<string>, sep: string)
    requires parts != [] && parts[0] != ""
    ensures Join(parts, sep) != ""
  {
    if |parts| > 1 {
      assert Join(parts, sep) == parts[0] + sep + Join(parts[1..], sep);
    }
  }

  // ---------------------------------------------------------------------
  // Calling the service

  /** What the service gives back: a stream of deltas, each with or without
      content, or a whole message whose content may be missing. */
  datatype Reply = Deltas(deltas: seq<Option<string>>) | Message(content: Option<string>) | Raised

  /** The contents of a stream, a missing one read as empty. */
  function Contents(deltas: seq<Option<string>>): (r: seq<string>)
    ensures |r| == |deltas|
    ensures forall k :: 0 <= k < |r| ==> r[k] == deltas[k].GetOr("")
  {
    seq(|deltas|, k requires 0 <= k < |deltas| => deltas[k].GetOr(""))
  }

  /** `call_ai_api`: the summary, `None` when the whole message had no
      content. An incomplete configuration raises `ValueError` before the
      service is asked, and an unhashable length `TypeError` after that
      check; a failing call, or a reply not in the shape asked for, is
      re-raised as a generic error. */
  function CallAiApi(config: AiConfigure.ConfigDict, text: string, length: Json,
                     service: (string, bool) -> Reply): (r: Result<Option<string>>)
    ensures r == Failure(ValueError) <==> !AiConfigure.Usable(config)
    ensures AiConfigure.Usable(config) && !Hashable(length) ==> r == Failure(TypeError)
  {
    if !AiConfigure.Usable(config) then Failure(ValueError)
    else
      var prompt :- FullPrompt(length, text);
      var stream := AiConfigure.Truthy(config, "stream");
      match service(prompt, stream)
      case Deltas(ds) =>
        if stream then Success(Some(Concat(NonEmpty(Contents(ds))))) else Failure(ApiError)
      case Message(content) =>
        if stream then Failure(ApiError) else Success(content)
      case Raised => Failure(ApiError)
  }

  /** A streamed summary is the whole stream in order: skipping the empty
      deltas loses nothing. */
  lemma StreamedIsWholeText(config: AiConfigure.ConfigDict, text: string, length: Json,
                            service: (string, bool) -> Reply)
    requires AiConfigure.Usable(config) && AiConfigure.Truthy(config, "stream") && Hashable(length)
    requires service(FullPrompt(length, text).value, true).Deltas?
    ensures CallAiApi(config, text, length, service)
            == Success(Some(Concat(Contents(service(FullPrompt(length, text).value, true).deltas))))
  {
    ConcatNonEmpty(Contents(service(FullPrompt(length, text).value, true).deltas));
  }

  /** Any configuration confirmed in the configuration dialog and read
      back passes `validate_input`, whatever was stored before. */
  lemma ConfirmedConfigComplete(st: AiConfigure.Storage, url: string, token: string, model: string, stream: bool)
    requires AiConfigure.OnConfirm(url, token, model, stream).Some?
    ensures var c := AiConfigure.OnConfirm(url, token, model, stream).value;
            AiConfigure.Usable(AiConfigure.GetConfiguration(AiConfigure.Configure(st, Some(c))).0)
  {
    AiConfigure.ConfirmedUsable(st, url, token, model, stream);
  }

  // ---------------------------------------------------------------------
  // The command

  /** What the summary command ends with. */
  datatype Outcome =
    | NoDocument
    | NothingToSay
    | Failed(error: Error)
    | NoSummary
    | Summarised(summary: string)

  /** `generate_summary`, with the service answering in time (the sixty
      second timeout and the worker thread are not modelled). */
  function GenerateSummary(tab: Option<SummaryTab>, selection: Result<Option<string>>, data: Data,
                           config: AiConfigure.ConfigDict, service: (string, bool) -> Reply): (o: Outcome)
    ensures tab.None? <==> o == NoDocument
    ensures o == NothingToSay <==> tab.Some? && Strip(GetTextToSummarize(selection, tab)) == ""
    ensures tab.Some? && !AiConfigure.Usable(config) && o != NothingToSay ==> o == Failed(ValueError)
    ensures tab.Some? && AiConfigure.Usable(config) && !Hashable(GetSummaryLength(data)) && o != NothingToSay
            ==> o == Failed(TypeError)
  {
    if tab.None? then NoDocument
    else
      var text := GetTextToSummarize(selection, tab);
      if Strip(text) == "" then NothingToSay
      else match CallAiApi(config, text, GetSummaryLength(data), service)
        case Failure(e) => Failed(e)
        case Success(None) => NoSummary
        case Success(Some(s)) => Summarised(s)
  }

  /** `generate_summary` as written: once there is text to summarise, the
      length is read through `get_summary_length`, which raises
      `AttributeError` out of the command before the service is asked. */
  function GenerateSummaryAsWritten(tab: Option<SummaryTab>, selection: Result<Option<string>>, data: Data,
                                    config: AiConfigure.ConfigDict, service: (string, bool) -> Reply): (r: Result<Outcome>)
    ensures tab.None? ==> r == Success(NoDocument)
    ensures tab.Some? && Strip(GetTextToSummarize(selection, tab)) == "" ==> r == Success(NothingToSay)
    ensures tab.Some? && Strip(GetTextToSummarize(selection, tab)) != "" ==> r == Failure(AttributeError)
  {
    if tab.None? then Success(NoDocument)
    else if Strip(GetTextToSummarize(selection, tab)) == "" then Success(NothingToSay)
    else match GetSummaryLengthAsWritten(data)
      case Failure(e) => Failure(e)
      case Success(_) => Success(GenerateSummary(tab, selection, data, config, service))
  }

  /** With text to summarise, the command reports the service call made
      with the stored length. */
  lemma GenerateCallsService(tab: SummaryTab, selection: Result<Option<string>>, data: Data,
                             config: AiConfigure.ConfigDict, service: (string, bool) -> Reply)
    requires Strip(GetTextToSummarize(selection, Some(tab))) != ""
    ensures var o := GenerateSummary(Some(tab), selection, data, config, service);
            var r := CallAiApi(config, GetTextToSummarize(selection, Some(tab)), GetSummaryLength(data), service);
            && (r.Failure? ==> o == Failed(r.error))
            && (r == Success(None) ==> o == NoSummary)
            && (r.Success? && r.value.Some? ==> o == Summarised(r.value.value))
  {
  }

  /** The service is asked exactly once, with the stored length's
      instruction followed by the text to summarise. */
  lemma GenerateAsksWithStoredLength(tab: SummaryTab, selection: Result<Option<string>>, data: Data,
                                     config: AiConfigure.ConfigDict, service: (string, bool) -> Reply)
    requires AiConfigure.Usable(config) && Strip(GetTextToSummarize(selection, Some(tab))) != ""
    requires ValidLength(data) && LengthKey in data
    ensures var text := GetTextToSummarize(selection, Some(tab));
            var reply := service(LengthPrompts()[data[LengthKey].s] + "\n\n" + text, AiConfigure.Truthy(config, "stream"));
            && (reply.Raised? ==> GenerateSummary(Some(tab), selection, data, config, service) == Failed(ApiError))
            && (reply.Message? && !AiConfigure.Truthy(config, "stream") && reply.content.Some? ==>
                  GenerateSummary(Some(tab), selection, data, config, service) == Summarised(reply.content.value))
  {
    var text := GetTextToSummarize(selection, Some(tab));
    GenerateCallsService(tab, selection, data, config, service);
    StoredPrompt(data, text);
    CallReportsReply(config, text, GetSummaryLength(data), service);
  }

  /** A stored length selects its own instruction. */
  lemma StoredPrompt(data: Data, text: string)
    requires ValidLength(data) && LengthKey in data
    ensures FullPrompt(GetSummaryLength(data), text) == Success(LengthPrompts()[data[LengthKey].s] + "\n\n" + text)
  {
  }

  /** With a usable configuration, an unhashable length raises `TypeError`;
      otherwise a service that raises is an API error, and a whole message
      answering a non-streamed request is the summary. */
  lemma CallReportsReply(config: AiConfigure.ConfigDict, text: string, length: Json,
                         service: (string, bool) -> Reply)
    requires AiConfigure.Usable(config)
    ensures !Hashable(length) ==> CallAiApi(config, text, length, service) == Failure(TypeError)
    ensures Hashable(length) ==>
              var stream := AiConfigure.Truthy(config, "stream");
              var reply := service(FullPrompt(length, text).value, stream);
              && (reply.Raised? ==> CallAiApi(config, text, length, service) == Failure(ApiError))
              && (reply.Message? && !stream ==> CallAiApi(config, text, length, service) == Success(reply.content))
  {
  }
}

=== FILE: tab.dfy ===
/** A document tab of the plugin-based reader: the find-or-create lookup of
    its saved record, attribute routing between the tab object and that
    record, opening, the page-display guard, resetting, and the reader's
    list of tabs.

    The tab's `state` is the very dictionary held in the persisted
    `file_states` list, so writes through the tab change the list. The
    model keeps the list (`Store`) explicit and the tab refers to its record
    by position. The document backend is a parameter: `attempt` is what
    opening the file yields and `rasterOk` whether rasterising succeeds.
 */
module Tabs {
  import opened Wrappers
  import opened JsonValue
  import opened FileStates

  /** The persisted `file_states` list. */
  type Store = seq<Record>

  /** An open document; only its page count matters to the tab. */
  datatype Doc = Doc(pageCount: nat)

  /** The tab's own fields: the position of its record (`None` once reset),
      the open document and its page count. */
  datatype Tab = Tab(state: Option<nat>, doc: Option<Doc>, totalPages: nat)

  /** The tab refers to a record that exists. */
  predicate Valid(store: Store, tab: Tab) {
    tab.state.Some? ==> tab.state.value < |store|
  }

  /** A rasterised page: its index and the scale of the rendering matrix. */
  datatype Render = Render(page: int, scale: real)

  // ---------------------------------------------------------------------
  // Finding or creating the record

  /** Python's `records[j]["file_path"] == path`, with a missing key raising
      `KeyError`. JSON values compare structurally. */
  predicate Matches(rec: Record, path: Json) {
    FilePath in rec && rec[FilePath] == path
  }

  /** The `for ... else` scan of `file_states` from position `from`: the
      first matching position, `None` if the scan completes, or `KeyError`
      at the first record without a `file_path` met before a match. */
  function FindFrom(store: Store, path: Json, from: nat): (r: Result<Option<nat>>)
    requires from <= |store|
    ensures r.Success? && r.value.Some? ==>
              from <= r.value.value < |store| && Matches(store[r.value.value], path)
    ensures r.Success? ==> forall j :: from <= j < |store| && (r.value.None? || j < r.value.value) ==>
              FilePath in store[j] && !Matches(store[j], path)
    ensures r.Failure? ==> r.error == KeyError
    ensures r.Failure? ==> exists j :: from <= j < |store| && FilePath !in store[j]
    decreases |store| - from
  {
    if from == |store| then Success(None)
    else if FilePath !in store[from] then Failure(KeyError)
    else if store[from][FilePath] == path then Success(Some(from))
    else FindFrom(store, path, from + 1)
  }

  /** `Tab.__init__`'s lookup: the first record for `path`, or a new default
      record inserted at the front of the list. */
  function FindOrCreate(store: Store, path: Json): (r: Result<(Store, nat)>)
    ensures r.Success? ==> r.value.1 < |r.value.0| && Matches(r.value.0[r.value.1], path)
    ensures r.Success? ==> forall j :: 0 <= j < r.value.1 ==> !Matches(r.value.0[j], path)
    ensures (forall j :: 0 <= j < |store| ==> FilePath in store[j]) ==> r.Success?
    ensures r.Failure? ==> r.error == KeyError
  {
    var found :- FindFrom(store, path, 0);
    match found
    case Some(i) => Success((store, i))
    case None => Success(([DefaultRecord(path)] + store, 0))
  }

  /** The record inserted for a new path: the saved form of a default file
      state, which starts on `page_no` 1. */
  function DefaultRecord(path: Json): (r: Record)
    ensures r.Keys == AllKeys
  {
    ToJson(NewFileState(path))
  }

  /** The record a new tab is evidently meant to start from: the default
      record, but on page 0, the first page in the tab's 0-based page
      numbering. */
  function FreshRecord(path: Json): (r: Record)
    ensures r.Keys == AllKeys && r[PageNo] == JInt(0)
    ensures forall k :: k in r && k != PageNo ==> r[k] == DefaultRecord(path)[k]
  {
    DefaultRecord(path)[PageNo := JInt(0)]
  }

  /** When a record for `path` exists (and every earlier one has a path), the
      list is unchanged and the tab uses the first such record. */
  lemma FindOrCreateExisting(store: Store, path: Json, i: nat)
    requires i < |store| && Matches(store[i], path)
    requires forall j :: 0 <= j < i ==> FilePath in store[j]
    ensures var r := FindOrCreate(store, path);
            r.Success? && r.value.0 == store && r.value.1 <= i
  {
    var r := FindFrom(store, path, 0);
    if r.Failure? {
      var j :| 0 <= j < |store| && FilePath !in store[j];
      FindFromFailsOnlyBeforeMatch(store, path, 0, i);
    }
  }

  lemma {:induction false} FindFromFailsOnlyBeforeMatch(store: Store, path: Json, from: nat, i: nat)
    requires from <= i < |store| && Matches(store[i], path)
    requires forall j :: from <= j < i ==> FilePath in store[j]
    ensures FindFrom(store, path, from).Success?
    ensures FindFrom(store, path, from).value.Some?
    decreases i - from
  {
    if from < i && store[from][FilePath] != path {
      FindFromFailsOnlyBeforeMatch(store, path, from + 1, i);
    }
  }

  /** When no record has `path`, a default record for it goes to position 0,
      the list grows by one and the old records keep their order. */
  lemma FindOrCreateNew(store: Store, path: Json)
    requires forall j :: 0 <= j < |store| ==> Matches(store[j], path) == false && FilePath in store[j]
    ensures var r := FindOrCreate(store, path);
            && r.Success? && r.value.1 == 0
            && |r.value.0| == |store| + 1
            && r.value.0[0] == DefaultRecord(path)
            && r.value.0[1..] == store
  {
    FindFromNone(store, path, 0);
  }

  /** A scan over records that all have a different path finds nothing. */
  lemma {:induction false} FindFromNone(store: Store, path: Json, from: nat)
    requires from <= |store|
    requires forall j :: 0 <= j < |store| ==> Matches(store[j], path) == false && FilePath in store[j]
    ensures FindFrom(store, path, from) == Success(None)
    decreases |store| - from
  {
    if from < |store| {
      FindFromNone(store, path, from + 1);
    }
  }

  // ---------------------------------------------------------------------
  // Attribute routing

  /** Where an attribute assignment on a tab lands. */
  datatype Target = StateRef | ObjectAttr | StateKey(k: Key)

  /** `Tab.__setattr__`: `state` itself is set on the object; a name that is
      a class annotation, or any name while there is no record, or one the
      record lacks, goes on the object; anything else is written into the
      record. */
  function SetTarget(name: string, annotations: set<string>, state: Option<Record>): (t: Target)
    ensures t == StateRef <==> name == "state"
    ensures t.StateKey? <==>
              name != "state" && name !in annotations && state.Some? &&
              KeyNamed(name).Some? && KeyNamed(name).value in state.value
    ensures t.StateKey? ==> t.k.Name() == name && t.k in state.value
  {
    if name == "state" then StateRef
    else if name in annotations || state.None? then ObjectAttr
    else match KeyNamed(name)
      case Some(k) => if k in state.value then StateKey(k) else ObjectAttr
      case None => ObjectAttr
  }

  /** Attribute read: the object's own attributes first; otherwise
      `__getattr__` looks the name up in the record, else `AttributeError`. */
  function GetAttr(attrs: map<string, Json>, state: Option<Record>, name: string): (r: Result<Json>)
    ensures name in attrs ==> r == Success(attrs[name])
    ensures name !in attrs && state.None? ==> r == Failure(AttributeError)
    ensures r.Failure? <==>
              (name !in attrs && (state.None? || KeyNamed(name).None? || KeyNamed(name).value !in state.value))
  {
    if name in attrs then Success(attrs[name])
    else if state.None? then Failure(AttributeError)
    else match KeyNamed(name)
      case Some(k) => if k in state.value then Success(state.value[k]) else Failure(AttributeError)
      case None => Failure(AttributeError)
  }

  /** An attribute assignment other than `state` itself: the new object
      attributes and the new record. */
  function SetAttr(attrs: map<string, Json>, annotations: set<string>, state: Option<Record>,
                   name: string, v: Json): (r: (map<string, Json>, Option<Record>))
    requires name != "state"
    ensures SetTarget(name, annotations, state).StateKey? ==> r.0 == attrs
    ensures SetTarget(name, annotations, state).ObjectAttr? ==> r.1 == state
    ensures r.1.Some? <==> state.Some?
    ensures state.Some? ==> r.1.value.Keys == state.value.Keys
  {
    match SetTarget(name, annotations, state)
    case StateKey(k) => (attrs, Some(state.value[k := v]))
    case _ => (attrs[name := v], state)
  }

  /** Reading back an assigned attribute gives the assigned value, unless
      the object already had an attribute of that name and the assignment
      went into the record. */
  lemma SetThenGet(attrs: map<string, Json>, annotations: set<string>, state: Option<Record>,
                   name: string, v: Json)
    requires name != "state"
    requires name !in attrs || SetTarget(name, annotations, state).ObjectAttr?
    ensures var (a, s) := SetAttr(attrs, annotations, state, name, v);
            GetAttr(a, s, name) == Success(v)
  {
    var t := SetTarget(name, annotations, state);
    if t.StateKey? {
      KeyNamedName(t.k);
    }
  }

  /** The exception: an object attribute shadows the record key the
      assignment wrote. */
  lemma ShadowedAssignment()
    ensures var state := Some(map[PageNo := JInt(3)]);
            var attrs := map["page_no" := JInt(7)];
            var (a, s) := SetAttr(attrs, {}, state, "page_no", JInt(4));
            s == Some(map[PageNo := JInt(4)]) && GetAttr(a, s, "page_no") == Success(JInt(7))
  {
    KeyNamedName(PageNo);
    assert KeyNamed("page_no") == Some(PageNo);
    assert map[PageNo := JInt(3)][PageNo := JInt(4)] == map[PageNo := JInt(4)];
  }

  // ---------------------------------------------------------------------
  // Reading the record through the tab

  /** `self.<key>` for a key that the tab object never holds itself. */
  function StateValue(store: Store, tab: Tab, k: Key): (r: Result<Json>)
    requires Valid(store, tab)
    ensures r.Success? <==> tab.state.Some? && k in store[tab.state.value]
    ensures r.Success? ==> r.value == store[tab.state.value][k]
    ensures r.Failure? ==> r.error == AttributeError
  {
    if tab.state.None? then Failure(AttributeError)
    else if k !in store[tab.state.value] then Failure(AttributeError)
    else Success(store[tab.state.value][k])
  }

  /** `self.<key> = v` for a key the record already holds: the class declares
      no annotations, so the write lands in the record and so in the list. */
  function SetStateValue(store: Store, tab: Tab, k: Key, v: Json): (s: Store)
    requires Valid(store, tab) && tab.state.Some?
    ensures |s| == |store| && Valid(s, tab)
    ensures s[tab.state.value] == store[tab.state.value][k := v]
    ensures forall j :: 0 <= j < |store| && j != tab.state.value ==> s[j] == store[j]
    ensures StateValue(s, tab, k) == Success(v)
  {
    store[tab.state.value := store[tab.state.value][k := v]]
  }

  /** A JSON value used as a number: ints, floats and booleans. */
  function ToNumber(v: Json): (r: Result<real>)
    ensures v.JInt? ==> r == Success(v.i as real)
    ensures v.JReal? ==> r == Success(v.r)
    ensures r.Failure? <==> !(v.JInt? || v.JReal? || v.JBool?)
  {
    match v
    case JInt(i) => Success(i as real)
    case JReal(x) => Success(x)
    case JBool(b) => Success(if b then 1.0 else 0.0)
    case _ => Failure(TypeError)
  }

  /** `0 <= v < total`, which raises `TypeError` for a non-number. */
  function InRange(v: Json, total: nat): (r: Result<bool>)
    ensures v.JInt? ==> r == Success(0 <= v.i < total)
    ensures r.Failure? <==> ToNumber(v).Failure?
  {
    var x :- ToNumber(v);
    Success(0.0 <= x < total as real)
  }

  /** `x += 1` on a stored value. */
  function Increment(v: Json): (r: Result<Json>)
    ensures v.JInt? ==> r == Success(JInt(v.i + 1))
    ensures v.JReal? ==> r == Success(JReal(v.r + 1.0))
    ensures r.Failure? <==> !(v.JInt? || v.JReal? || v.JBool?)
  {
    match v
    case JInt(i) => Success(JInt(i + 1))
    case JReal(x) => Success(JReal(x + 1.0))
    case JBool(b) => Success(JInt(if b then 2 else 1))
    case _ => Failure(TypeError)
  }

  /** A document is truthy when it has at least one page. */
  predicate HasPages(doc: Option<Doc>) {
    doc.Some? && doc.value.pageCount > 0
  }

  /** The rendering matrix as written, `fitz.Matrix(zoom / 100, zoom / 100)`:
      it reads the zoom as a percentage. */
  function RenderScaleAsWritten(zoom: real): (s: real)
    ensures s * 100.0 == zoom
  {
    zoom / 100.0
  }

  /** The rendering matrix with the zoom read as the factor it is (the
      record's default 1.0 and the shipped zoom levels are factors). */
  function RenderScale(zoom: real): (s: real)
    ensures s == 100.0 * RenderScaleAsWritten(zoom)
    ensures zoom == 1.0 ==> s == 1.0
  {
    zoom
  }

  /** As written, a page shown at a zoom is rendered a hundred times smaller
      than that zoom, so the default zoom 1.0 renders at a hundredth of the
      page's size. With the zoom read as a factor, the default renders the
      page at its own size and a larger zoom at a larger scale. */
  lemma RenderScaleUnits(zoom: real, other: real)
    requires zoom > 0.0
    ensures RenderScaleAsWritten(zoom) < RenderScale(zoom)
    ensures RenderScaleAsWritten(1.0) == 0.01 && RenderScale(1.0) == 1.0
    ensures zoom < other ==> RenderScale(zoom) < RenderScale(other)
  {
  }

  /** `Tab.show_page`: nothing is drawn unless the document has pages and
      `0 <= page_no < total_pages`; otherwise page `page_no` is rasterised
      at the zoom. Only integer page numbers index the document. */
  function ShowPage(store: Store, tab: Tab, rasterOk: bool): (r: Result<Option<Render>>)
    requires Valid(store, tab)
    ensures !HasPages(tab.doc) ==> r == Success(None)
    ensures r.Success? && r.value.Some? ==>
              && HasPages(tab.doc)
              && StateValue(store, tab, PageNo) == Success(JInt(r.value.value.page))
              && 0 <= r.value.value.page < tab.totalPages
              && StateValue(store, tab, Zoom).Success?
              && ToNumber(StateValue(store, tab, Zoom).value) == Success(r.value.value.scale)
    ensures (&& HasPages(tab.doc) && StateValue(store, tab, PageNo).Success?
             && StateValue(store, tab, PageNo).value.JInt?
             && !(0 <= StateValue(store, tab, PageNo).value.i < tab.totalPages)) ==> r == Success(None)
  {
    if !HasPages(tab.doc) then Success(None)
    else
      var pageNo :- StateValue(store, tab, PageNo);
      var inRange :- InRange(pageNo, tab.totalPages);
      if !inRange then Success(None)
      else if !pageNo.JInt? then Failure(IndexError)
      else
        var zoomValue :- StateValue(store, tab, Zoom);
        var zoom :- ToNumber(zoomValue);
        if !rasterOk then Failure(RenderError)
        else Success(Some(Render(pageNo.i, RenderScale(zoom))))
  }

  /** `show_page` as written: the same page, rasterised at the zoom divided
      by 100. (`RenderScale` is the zoom itself, so the scale of a corrected
      render is the zoom it was drawn at.) */
  function ShowPageAsWritten(store: Store, tab: Tab, rasterOk: bool): (r: Result<Option<Render>>)
    requires Valid(store, tab)
    ensures r.Success? <==> ShowPage(store, tab, rasterOk).Success?
    ensures r.Success? ==> (r.value.Some? <==> ShowPage(store, tab, rasterOk).value.Some?)
    ensures r.Success? && r.value.Some? ==>
              var shown := ShowPage(store, tab, rasterOk).value.value;
              r.value.value.page == shown.page && r.value.value.scale == RenderScaleAsWritten(shown.scale)
  {
    match ShowPage(store, tab, rasterOk)
    case Success(Some(shown)) => Success(Some(Render(shown.page, RenderScaleAsWritten(shown.scale))))
    case other => other
  }

  /** `Tab.reset_tab`: the record reference, the document and the page count
      are cleared; the record itself stays in the list. */
  function ResetTab(tab: Tab): (t: Tab)
    ensures t.state.None? && t.doc.None? && t.totalPages == 0
  {
    Tab(None, None, 0)
  }

  /** The outcome of `Tab.open`: the list, the tab and the returned flag. */
  datatype Opened = Opened(store: Store, tab: Tab, ok: bool)

  /** `Tab.open`: open the record's file, show the page, set the title and
      count the opening. Any exception resets the tab and returns False. */
  function Open(store: Store, tab: Tab, attempt: Result<Doc>, rasterOk: bool): (r: Opened)
    requires Valid(store, tab)
    ensures Valid(r.store, r.tab)
    ensures !r.ok ==> r.store == store && r.tab == ResetTab(tab)
    ensures r.ok ==> && tab.state.Some? && attempt.Success?
                     && r.tab == Tab(tab.state, Some(attempt.value), attempt.value.pageCount)
                     && OpenCounted(store, r.store, tab.state.value)
    ensures tab.state.None? || attempt.Failure? ==> !r.ok
  {
    var attemptResult := OpenSteps(store, tab, attempt, rasterOk);
    if attemptResult.Failure? then Opened(store, ResetTab(tab), false)
    else Opened(attemptResult.value.0, attemptResult.value.1, true)
  }

  /** Only the record at `ix` changes, and only its `open_count`, which is
      incremented. */
  predicate OpenCounted(before: Store, after: Store, ix: nat) {
    && ix < |before| && |after| == |before|
    && (forall j :: 0 <= j < |before| && j != ix ==> after[j] == before[j])
    && OpenCount in before[ix]
    && Increment(before[ix][OpenCount]).Success?
    && after[ix] == before[ix][OpenCount := Increment(before[ix][OpenCount]).value]
  }

  /** The body of the `try` in `Tab.open`, with its first exception. */
  function OpenSteps(store: Store, tab: Tab, attempt: Result<Doc>, rasterOk: bool): (r: Result<(Store, Tab)>)
    requires Valid(store, tab)
    ensures r.Success? ==> && tab.state.Some? && attempt.Success?
                           && r.value.1 == Tab(tab.state, Some(attempt.value), attempt.value.pageCount)
                           && OpenCounted(store, r.value.0, tab.state.value)
  {
    var path :- StateValue(store, tab, FilePath);
    var doc :- attempt;
    var withDoc := Tab(tab.state, Some(doc), doc.pageCount);
    var _ :- ShowPage(store, withDoc, rasterOk);
    if !path.JStr? then Failure(TypeError)
    else
      var ix := tab.state.value;
      var count :- if OpenCount in store[ix] then Success(store[ix][OpenCount]) else Failure(KeyError);
      var next :- Increment(count);
      Success((store[ix := store[ix][OpenCount := next]], withDoc))
  }

  /** Opening a record whose count is an integer raises it by exactly one. */
  lemma OpenCountsOnce(store: Store, tab: Tab, attempt: Result<Doc>, rasterOk: bool, n: int)
    requires Valid(store, tab) && tab.state.Some?
    requires OpenCount in store[tab.state.value] && store[tab.state.value][OpenCount] == JInt(n)
    ensures var r := Open(store, tab, attempt, rasterOk);
            r.ok ==> r.store[tab.state.value][OpenCount] == JInt(n + 1)
    ensures var r := Open(store, tab, attempt, rasterOk);
            !r.ok ==> r.store[tab.state.value][OpenCount] == JInt(n)
  {
  }

  /** A freshly found or created record, a document that opens with pages,
      and a page number in range: the tab opens and the page is drawn. */
  lemma OpenSucceeds(store: Store, path: string, pages: nat, rasterOk: bool)
    requires rasterOk && pages >= 1
    requires forall j :: 0 <= j < |store| ==> FilePath in store[j] && !Matches(store[j], JStr(path))
    ensures var c := FindOrCreate(store, JStr(path));
            && c.Success?
            && var tab := Tab(Some(c.value.1), None, 0);
               var r := Open(c.value.0, tab, Success(Doc(pages)), rasterOk);
               r.ok && r.store[0][OpenCount] == JInt(1)
  {
    FindOrCreateNew(store, JStr(path));
    var c := FindOrCreate(store, JStr(path));
    DefaultRecordOpens(c.value.0, JStr(path), pages);
  }

  /** A new record names its file, has never been opened, sits at zoom 1.0
      and starts on `page_no` 1. */
  lemma DefaultRecordFields(path: Json)
    ensures var r := DefaultRecord(path);
            && r[FilePath] == path && r[OpenCount] == JInt(0) && r[Zoom] == JReal(1.0) && r[PageNo] == JInt(1)
  {
  }

  /** Opening a list whose first record is the new one for a file path,
      with a document that has pages, succeeds and counts the first
      opening. */
  lemma DefaultRecordOpens(store: Store, path: Json, pages: nat)
    requires |store| >= 1 && store[0] == DefaultRecord(path) && path.JStr? && pages >= 1
    ensures var r := Open(store, Tab(Some(0), None, 0), Success(Doc(pages)), true);
            r.ok && r.store[0][OpenCount] == JInt(1)
  {
    DefaultRecordFields(path);
    RecordOpens(store, pages);
  }

  /** Opening succeeds when the first record has a string path, an integer
      page number (in range or not: an out-of-range page is simply not
      drawn), a float zoom and an integer count, and the document has pages;
      the count goes up by one. */
  lemma RecordOpens(store: Store, pages: nat)
    requires |store| >= 1 && pages >= 1
    requires FilePath in store[0] && store[0][FilePath].JStr?
    requires PageNo in store[0] && store[0][PageNo].JInt?
    requires Zoom in store[0] && store[0][Zoom].JReal?
    requires OpenCount in store[0] && store[0][OpenCount].JInt?
    ensures var r := Open(store, Tab(Some(0), None, 0), Success(Doc(pages)), true);
            r.ok && r.store[0][OpenCount] == JInt(store[0][OpenCount].i + 1)
  {
    var tab := Tab(Some(0), None, 0);
    var withDoc := Tab(Some(0), Some(Doc(pages)), pages);
    ShowPageOfRecord(store, withDoc, store[0][PageNo].i, store[0][Zoom].r);
    assert OpenSteps(store, tab, Success(Doc(pages)), true).Success?;
  }

  /** A record with an integer page number and a float zoom: the page is
      drawn at that zoom exactly when it is in range. */
  lemma ShowPageOfRecord(store: Store, tab: Tab, p: int, z: real)
    requires Valid(store, tab) && tab.state.Some? && HasPages(tab.doc)
    requires PageNo in store[tab.state.value] && store[tab.state.value][PageNo] == JInt(p)
    requires Zoom in store[tab.state.value] && store[tab.state.value][Zoom] == JReal(z)
    ensures ShowPage(store, tab, true) == Success(if 0 <= p < tab.totalPages then Some(Render(p, z)) else None)
  {
  }

  /** As written, a new record starts on `page_no` 1, which the tab reads as
      a 0-based index: a new document opens on its second page, and a
      one-page document shows nothing at all. With the scale as written too,
      that second page is rasterised at a hundredth of its size. */
  lemma DefaultPageSkipsFirst(path: Json, pages: nat)
    requires pages >= 1
    ensures var store := [DefaultRecord(path)];
            var tab := Tab(Some(0), Some(Doc(pages)), pages);
            && (pages == 1 ==> ShowPage(store, tab, true) == Success(None))
            && (pages == 1 ==> ShowPageAsWritten(store, tab, true) == Success(None))
            && (pages >= 2 ==> ShowPage(store, tab, true) == Success(Some(Render(1, 1.0))))
            && (pages >= 2 ==> ShowPageAsWritten(store, tab, true) == Success(Some(Render(1, 0.01))))
  {
    DefaultRecordFields(path);
    ShowPageOfRecord([DefaultRecord(path)], Tab(Some(0), Some(Doc(pages)), pages), 1, 1.0);
  }

  /** A new tab's record shows the first page of any document with pages,
      at the document's own size. */
  lemma FreshRecordShowsFirstPage(path: Json, pages: nat)
    requires pages >= 1
    ensures ShowPage([FreshRecord(path)], Tab(Some(0), Some(Doc(pages)), pages), true)
              == Success(Some(Render(0, 1.0)))
  {
    var rec := FreshRecord(path);
    DefaultRecordFields(path);
    assert rec[Zoom] == DefaultRecord(path)[Zoom];
    ShowPageOfRecord([rec], Tab(Some(0), Some(Doc(pages)), pages), 0, 1.0);
  }

  /** `TabPlugin.create_tab` without the widgets: find or create the record,
      then open it. A record list with a path-less record raises `KeyError`
      before the tab exists. */
  function CreateTab(store: Store, path: Json, attempt: Result<Doc>, rasterOk: bool): (r: Result<Opened>)
    ensures (forall j :: 0 <= j < |store| ==> FilePath in store[j]) ==> r.Success?
    ensures r.Success? ==> |r.value.store| == |store| || |r.value.store| == |store| + 1
  {
    var found :- FindOrCreate(store, path);
    Success(Open(found.0, Tab(Some(found.1), None, 0), attempt, rasterOk))
  }

  /** A tab that ends up open refers to the record for its own path. */
  lemma CreateTabMatches(store: Store, path: Json, attempt: Result<Doc>, rasterOk: bool)
    ensures var r := CreateTab(store, path, attempt, rasterOk);
            r.Success? && r.value.tab.state.Some? ==> Matches(r.value.store[r.value.tab.state.value], path)
  {
    var found := FindOrCreate(store, path);
    if found.Success? {
      var o := Open(found.value.0, Tab(Some(found.value.1), None, 0), attempt, rasterOk);
      if o.ok {
        OpenCountedKeepsOtherKeys(found.value.0, o.store, found.value.1, FilePath);
      }
    }
  }

  /** As written, a new tab for a one-page document opens successfully and
      counts the opening, yet its page is never drawn: the record's page 1
      is past the only page. */
  lemma NewOnePageTabBlank(store: Store, path: string)
    requires forall j :: 0 <= j < |store| ==> FilePath in store[j] && !Matches(store[j], JStr(path))
    ensures var r := CreateTab(store, JStr(path), Success(Doc(1)), true);
            && r.Success? && r.value.ok && r.value.tab.state == Some(0)
            && r.value.store[0][OpenCount] == JInt(1)
            && ShowPage(r.value.store, r.value.tab, true) == Success(None)
  {
    FindOrCreateNew(store, JStr(path));
    var c := FindOrCreate(store, JStr(path));
    DefaultRecordOpens(c.value.0, JStr(path), 1);
    DefaultRecordFields(JStr(path));
    var o := Open(c.value.0, Tab(Some(0), None, 0), Success(Doc(1)), true);
    OpenCountedKeepsOtherKeys(c.value.0, o.store, 0, PageNo);
    OpenCountedKeepsOtherKeys(c.value.0, o.store, 0, Zoom);
    ShowPageOfRecord(o.store, o.tab, 1, 1.0);
  }

  /** Counting an opening changes no other key of the record. */
  lemma OpenCountedKeepsOtherKeys(before: Store, after: Store, ix: nat, k: Key)
    requires OpenCounted(before, after, ix) && k != OpenCount
    ensures k in after[ix] <==> k in before[ix]
    ensures k in before[ix] ==> after[ix][k] == before[ix][k]
  {
  }

  // ---------------------------------------------------------------------
  // The reader's list of tabs

  /** `TabPlugin.get_current_tab`. Tabs are identified by their frame;
      `selected` is the notebook's selected widget path ("" when none) and
      `widgets` resolves paths to frames (`nametowidget`, `KeyError` when
      unknown). The result is the position of the first tab with that
      frame. */
  function GetCurrentTab(tabs: seq<nat>, selected: string, widgets: map<string, nat>): (r: Option<nat>)
    ensures r.Some? ==> && r.value < |tabs| && selected != "" && selected in widgets
                        && tabs[r.value] == widgets[selected]
                        && forall j :: 0 <= j < r.value ==> tabs[j] != widgets[selected]
    ensures r.None? ==> tabs == [] || selected == "" || selected !in widgets ||
                        widgets[selected] !in tabs
  {
    if tabs == [] || selected == "" || selected !in widgets then None
    else FirstIndex(tabs, widgets[selected])
  }

  function FirstIndex(xs: seq<nat>, x: nat): (r: Option<nat>)
    ensures r.Some? ==> r.value < |xs| && xs[r.value] == x && x !in xs[..r.value]
    ensures r.None? <==> x !in xs
  {
    if |xs| == 0 then None
    else if xs[0] == x then Some(0)
    else match FirstIndex(xs[1..], x)
      case Some(i) => assert xs[1..][..i] == xs[1..i + 1]; Some(i + 1)
      case None => None
  }

  /** `TabPlugin.close_tab` on the list: `tabs.remove(tab)` when present
      (its first occurrence), otherwise nothing. */
  function CloseTab(tabs: seq<nat>, tab: nat): (r: seq<nat>)
    ensures tab !in tabs ==> r == tabs
    ensures tab in tabs ==> |r| == |tabs| - 1
    ensures tab in tabs ==> exists i :: 0 <= i < |tabs| && tabs[i] == tab && tab !in tabs[..i] &&
                                        r == tabs[..i] + tabs[i + 1..]
  {
    match FirstIndex(tabs, tab)
    case None => tabs
    case Some(i) => tabs[..i] + tabs[i + 1..]
  }

  /** Closing a tab keeps every other tab, in order. */
  lemma CloseTabKeepsOthers(tabs: seq<nat>, tab: nat, other: nat)
    requires other != tab
    ensures multiset(CloseTab(tabs, tab))[other] == multiset(tabs)[other]
  {
    match FirstIndex(tabs, tab)
    case None =>
    case Some(i) =>
      assert tabs == tabs[..i] + [tabs[i]] + tabs[i + 1..];
  }
}

=== FILE: text.dfy ===
/** The handful of Python `str` operations the reader's plugins rely on:
    `strip`, `startswith`/`endswith`, `split`, `join`, slicing a prefix,
    decimal formatting of integers and per-character replacement.
 */
module Text {
  import opened Wrappers

  /** Python's `str.isspace` for a single character (the characters whose
      bidirectional class is whitespace, segment or paragraph separator, or
      whose category is Zs). */
  predicate IsSpace(c: char) {
    || c == ' ' || c == '\t' || c == '\n' || c == '\r'
    || c == '\U{000B}' || c == '\U{000C}'
    || ('\U{001C}' <= c <= '\U{001F}')
    || c == '\U{0085}' || c == '\U{00A0}' || c == '\U{1680}'
    || ('\U{2000}' <= c <= '\U{200A}')
    || c == '\U{2028}' || c == '\U{2029}' || c == '\U{202F}'
    || c == '\U{205F}' || c == '\U{3000}'
  }

  predicate AllSpace(s: string) {
    forall i :: 0 <= i < |s| ==> IsSpace(s[i])
  }

  /** Whitespace before a run of whitespace is still a run of whitespace. */
  lemma AllSpaceCons(c: char, t: string)
    requires IsSpace(c) && AllSpace(t)
    ensures AllSpace([c] + t)
  {
    forall i | 0 <= i < |[c] + t| ensures IsSpace(([c] + t)[i]) {
      if i > 0 { assert ([c] + t)[i] == t[i - 1]; }
    }
  }

  /** Whitespace after a run of whitespace is still a run of whitespace. */
  lemma AllSpaceSnoc(t: string, c: char)
    requires IsSpace(c) && AllSpace(t)
    ensures AllSpace(t + [c])
  {
    forall i | 0 <= i < |t + [c]| ensures IsSpace((t + [c])[i]) {
      if i < |t| { assert (t + [c])[i] == t[i]; }
    }
  }

  /** `s.lstrip()` */
  function StripLeft(s: string): (r: string)
    ensures |r| <= |s| && r == s[|s| - |r|..]
    ensures r == [] || !IsSpace(r[0])
    ensures AllSpace(s[..|s| - |r|])
  {
    if |s| > 0 && IsSpace(s[0]) then
      var t := s[1..];
      var r := StripLeft(t);
      var k := |t| - |r|;
      assert t[k..] == s[k + 1..];
      assert s[..k + 1] == [s[0]] + t[..k];
      AllSpaceCons(s[0], t[..k]);
      r
    else s
  }

  /** `s.rstrip()` */
  function StripRight(s: string): (r: string)
    ensures |r| <= |s| && r == s[..|r|]
    ensures r == [] || !IsSpace(r[|r| - 1])
    ensures AllSpace(s[|r|..])
  {
    if |s| > 0 && IsSpace(s[|s| - 1]) then
      var r := StripRight(s[..|s| - 1]);
      assert s[..|s| - 1][..|r|] == s[..|r|];
      assert s[|r|..] == s[..|s| - 1][|r|..] + [s[|s| - 1]];
      AllSpaceSnoc(s[..|s| - 1][|r|..], s[|s| - 1]);
      r
    else s
  }

  /** `s.strip()`: the text between the leading and the trailing whitespace. */
  function Strip(s: string): (r: string)
    ensures |r| <= |s|
    ensures r == [] || (!IsSpace(r[0]) && !IsSpace(r[|r| - 1]))
    ensures r == [] <==> AllSpace(s)
    ensures (s == [] || (!IsSpace(s[0]) && !IsSpace(s[|s| - 1]))) ==> r == s
    ensures exists i, j :: PaddedInfix(s, r, i, j)
  {
    var l := StripLeft(s);
    var r := StripRight(l);
    InfixOfParts(s, l, r);
    assert r == [] ==> AllSpace(s) by {
      if r == [] { PadsOnly(s, |s| - |l|); }
    }
    r
  }

  /** Stripping twice is stripping once. */
  lemma StripIdempotent(s: string)
    ensures Strip(Strip(s)) == Strip(s)
  {
    var r := Strip(s);
    assert r == [] || (!IsSpace(r[0]) && !IsSpace(r[|r| - 1]));
  }

  /** `r` is `s[i..j]`, with only whitespace before and after it. */
  predicate PaddedInfix(s: string, r: string, i: int, j: int) {
    0 <= i <= j <= |s| && r == s[i..j] && AllSpace(s[..i]) && AllSpace(s[j..])
  }

  /** A prefix `r` of a suffix `l` of `s`, each cut at whitespace, is a
      padded infix of `s`. */
  lemma InfixOfParts(s: string, l: string, r: string)
    requires |l| <= |s| && l == s[|s| - |l|..] && AllSpace(s[..|s| - |l|])
    requires |r| <= |l| && r == l[..|r|] && AllSpace(l[|r|..])
    ensures PaddedInfix(s, r, |s| - |l|, |s| - |l| + |r|)
  {
    var j := |s| - |l| + |r|;
    assert s[j..] == l[|r|..];
  }

  /** The stripped text is the only infix of `s` with whitespace around it
      that is empty or starts and ends with a non-space. */
  lemma StripUnique(s: string, i: nat, j: nat)
    requires i <= j <= |s| && AllSpace(s[..i]) && AllSpace(s[j..])
    requires i == j || (!IsSpace(s[i]) && !IsSpace(s[j - 1]))
    ensures Strip(s) == s[i..j]
  {
    var r := Strip(s);
    var i', j' :| PaddedInfix(s, r, i', j');
    InfixUnique(s, r, i, j, i', j');
  }

  /** Two padded infixes that are each empty or bounded by non-spaces, the
      first empty only when the text is all whitespace, are the same. */
  lemma InfixUnique(s: string, r: string, i: nat, j: nat, i': nat, j': nat)
    requires PaddedInfix(s, r, i', j') && (r == [] <==> AllSpace(s))
    requires r == [] || (!IsSpace(r[0]) && !IsSpace(r[|r| - 1]))
    requires i <= j <= |s| && AllSpace(s[..i]) && AllSpace(s[j..])
    requires i == j || (!IsSpace(s[i]) && !IsSpace(s[j - 1]))
    ensures r == s[i..j]
  {
    if i == j {
      PadsOnly(s, i);
    } else {
      assert s[i] == s[i..j][0];
      NotAllSpace(s, i);
      assert r[0] == s[i'] && r[|r| - 1] == s[j' - 1];
      SameStart(s, i, i');
      SameEnd(s, j, j');
    }
  }

  /** With whitespace before and after position `i`, the text is all
      whitespace. */
  lemma PadsOnly(s: string, i: nat)
    requires i <= |s| && AllSpace(s[..i]) && AllSpace(s[i..])
    ensures AllSpace(s)
  {
    forall k | 0 <= k < |s| ensures IsSpace(s[k]) {
      if k < i { assert s[k] == s[..i][k]; } else { assert s[k] == s[i..][k - i]; }
    }
  }

  lemma NotAllSpace(s: string, i: nat)
    requires i < |s| && !IsSpace(s[i])
    ensures !AllSpace(s)
  {
  }

  /** Two whitespace prefixes each followed by a non-space have the same
      length. */
  lemma SameStart(s: string, i: nat, i': nat)
    requires i < |s| && i' < |s| && AllSpace(s[..i]) && AllSpace(s[..i'])
    requires !IsSpace(s[i]) && !IsSpace(s[i'])
    ensures i == i'
  {
  }

  /** Two whitespace suffixes each preceded by a non-space have the same
      start. */
  lemma SameEnd(s: string, j: nat, j': nat)
    requires 0 < j <= |s| && 0 < j' <= |s| && AllSpace(s[j..]) && AllSpace(s[j'..])
    requires !IsSpace(s[j - 1]) && !IsSpace(s[j' - 1])
    ensures j == j'
  {
  }

  predicate StartsWith(s: string, prefix: string) {
    |prefix| <= |s| && s[..|prefix|] == prefix
  }

  predicate EndsWith(s: string, suffix: string) {
    |suffix| <= |s| && s[|s| - |suffix|..] == suffix
  }

  /** `sub in s` on two strings: `sub` occurs somewhere in `s`. */
  predicate Contains(s: string, sub: string) {
    exists i :: 0 <= i <= |s| - |sub| && StartsWith(s[i..], sub)
  }

  /** `sep.join(parts)` */
  function Join(parts: seq<string>, sep: string): string
  {
    if |parts| == 0 then ""
    else if |parts| == 1 then parts[0]
    else parts[0] + sep + Join(parts[1..], sep)
  }

  /** `s.split(c)` for a one-character separator: never empty, and the
      pieces contain no separator. */
  function Split(s: string, c: char): (r: seq<string>)
    ensures |r| >= 1
    ensures forall k :: 0 <= k < |r| ==> c !in r[k]
  {
    if |s| == 0 then [""]
    else if s[0] == c then [""] + Split(s[1..], c)
    else
      var rest := Split(s[1..], c);
      [[s[0]] + rest[0]] + rest[1..]
  }

  /** Joining the pieces of a split with the separator gives back the text. */
  lemma {:induction false} JoinSplit(s: string, c: char)
    ensures Join(Split(s, c), [c]) == s
    decreases |s|
  {
    if |s| == 0 {
    } else if s[0] == c {
      JoinSplit(s[1..], c);
      assert Split(s, c) == [""] + Split(s[1..], c);
    } else {
      var rest := Split(s[1..], c);
      JoinSplit(s[1..], c);
      if |rest| == 1 {
        assert Split(s, c) == [[s[0]] + rest[0]];
      } else {
        assert Split(s, c)[1..] == rest[1..];
        assert Join(rest, [c]) == rest[0] + [c] + Join(rest[1..], [c]);
      }
    }
  }

  /** Splitting the join of separator-free pieces gives back the pieces. */
  lemma {:induction false} SplitJoin(parts: seq<string>, c: char)
    requires |parts| >= 1
    requires forall k :: 0 <= k < |parts| ==> c !in parts[k]
    ensures Split(Join(parts, [c]), c) == parts
    decreases parts
  {
    if |parts| == 1 {
      SplitNoSeparator(parts[0], c);
    } else {
      var tail := Join(parts[1..], [c]);
      SplitJoin(parts[1..], c);
      SplitPrefix(parts[0], tail, c);
    }
  }

  lemma {:induction false} SplitNoSeparator(s: string, c: char)
    requires c !in s
    ensures Split(s, c) == [s]
    decreases |s|
  {
    if |s| > 0 {
      SplitNoSeparator(s[1..], c);
      assert s == [s[0]] + s[1..];
    }
  }

  lemma {:induction false} SplitPrefix(p: string, t: string, c: char)
    requires c !in p
    ensures Split(p + [c] + t, c) == [p] + Split(t, c)
    decreases |p|
  {
    if |p| == 0 {
      assert p + [c] + t == [c] + t;
      assert ([c] + t)[1..] == t;
    } else {
      SplitPrefix(p[1..], t, c);
      assert (p + [c] + t)[1..] == p[1..] + [c] + t;
      assert [p[0]] + p[1..] == p;
    }
  }

  /** The line-break characters of Python's `str.splitlines`. */
  predicate IsLineBreak(c: char) {
    || c == '\n' || c == '\r' || c == '\U{000B}' || c == '\U{000C}'
    || c == '\U{001C}' || c == '\U{001D}' || c == '\U{001E}'
    || c == '\U{0085}' || c == '\U{2028}' || c == '\U{2029}'
  }

  /** The text cut at every line-break character. Unlike `splitlines`, a
      "\r\n" pair yields an extra empty piece and a trailing break yields a
      final empty piece; the only caller ignores empty lines. */
  function Lines(s: string): (r: seq<string>)
    ensures |r| >= 1
    ensures forall k :: 0 <= k < |r| ==> forall i :: 0 <= i < |r[k]| ==> !IsLineBreak(r[k][i])
  {
    if |s| == 0 then [""]
    else if IsLineBreak(s[0]) then [""] + Lines(s[1..])
    else
      var rest := Lines(s[1..]);
      [[s[0]] + rest[0]] + rest[1..]
  }

  /** `s[:n]` for a non-negative `n`. */
  function Take<T>(s: seq<T>, n: nat): (r: seq<T>)
    ensures |r| == if n <= |s| then n else |s|
    ensures r == s[..|r|]
  {
    if n <= |s| then s[..n] else s
  }

  /** Concatenation of a sequence of strings, `"".join(parts)`. */
  function Concat(parts: seq<string>): string
  {
    if |parts| == 0 then "" else parts[0] + Concat(parts[1..])
  }

  /** The parts that are non-empty, in order. */
  function NonEmpty(parts: seq<string>): (r: seq<string>)
    ensures |r| <= |parts|
    ensures forall k :: 0 <= k < |r| ==> r[k] != ""
  {
    if |parts| == 0 then []
    else if parts[0] == "" then NonEmpty(parts[1..])
    else [parts[0]] + NonEmpty(parts[1..])
  }

  /** Empty strings contribute nothing to a concatenation. */
  lemma {:induction false} ConcatNonEmpty(parts: seq<string>)
    ensures Concat(NonEmpty(parts)) == Concat(parts)
    decreases |parts|
  {
    if |parts| > 0 {
      ConcatNonEmpty(parts[1..]);
    }
  }

  /** Replace every character of `bad` by `repl`, like a chain of `str.replace`. */
  function ReplaceChars(s: string, bad: set<char>, repl: char): (r: string)
    requires repl !in bad
    ensures |r| == |s|
    ensures forall i :: 0 <= i < |r| ==> r[i] !in bad
    ensures forall i :: 0 <= i < |r| ==> (if s[i] in bad then r[i] == repl else r[i] == s[i])
  {
    if |s| == 0 then ""
    else [if s[0] in bad then repl else s[0]] + ReplaceChars(s[1..], bad, repl)
  }

  /** Replacement changes nothing in a text free of the replaced
      characters. */
  lemma ReplaceCharsClean(s: string, bad: set<char>, repl: char)
    requires repl !in bad
    requires forall i :: 0 <= i < |s| ==> s[i] !in bad
    ensures ReplaceChars(s, bad, repl) == s
  {
  }

  function DigitChar(d: nat): (c: char)
    requires d < 10
    ensures '0' <= c <= '9'
    ensures c as int == 48 + d
  {
    (48 + d) as char
  }

  predicate IsDigit(c: char) {
    '0' <= c <= '9'
  }

  /** Decimal representation of a natural number, as `str(n)`. */
  function NatToString(n: nat): (r: string)
    ensures |r| >= 1
    ensures forall i :: 0 <= i < |r| ==> IsDigit(r[i])
    decreases n
  {
    if n < 10 then [DigitChar(n)] else NatToString(n / 10) + [DigitChar(n % 10)]
  }

  /** Decimal representation of an integer, as `str(i)` or an f-string. */
  function IntToString(i: int): (r: string)
    ensures |r| >= 1
    ensures i >= 0 ==> forall k :: 0 <= k < |r| ==> IsDigit(r[k])
    ensures i < 0 ==> r[0] == '-' && forall k :: 1 <= k < |r| ==> IsDigit(r[k])
  {
    if i < 0 then "-" + NatToString(-i) else NatToString(i)
  }

  /** Distinct numbers print differently. */
  lemma {:induction false} NatToStringInjective(a: nat, b: nat)
    requires NatToString(a) == NatToString(b)
    ensures a == b
    decreases a
  {
    var sa, sb := NatToString(a), NatToString(b);
    if a < 10 && b < 10 {
      assert DigitChar(a) == sa[0] == sb[0] == DigitChar(b);
    } else if a >= 10 && b >= 10 {
      assert DigitChar(a % 10) == sa[|sa| - 1] == sb[|sb| - 1] == DigitChar(b % 10);
      assert NatToString(a / 10) == sa[..|sa| - 1] == sb[..|sb| - 1] == NatToString(b / 10);
      NatToStringInjective(a / 10, b / 10);
    }
  }

  lemma IntToStringInjective(a: int, b: int)
    requires IntToString(a) == IntToString(b)
    ensures a == b
  {
    var sa, sb := IntToString(a), IntToString(b);
    if a < 0 && b < 0 {
      assert NatToString(-a) == sa[1..] == sb[1..] == NatToString(-b);
      NatToStringInjective(-a, -b);
    } else if a >= 0 && b >= 0 {
      NatToStringInjective(a, b);
    }
  }

  predicate AllDigits(s: string) {
    forall i :: 0 <= i < |s| ==> IsDigit(s[i])
  }

  /** The value of a run of decimal digits. */
  function DigitsValue(s: string): (n: nat)
    requires AllDigits(s)
  {
    if |s| == 0 then 0
    else
      assert IsDigit(s[|s| - 1]);
      DigitsValue(s[..|s| - 1]) * 10 + (s[|s| - 1] as int - '0' as int)
  }

  lemma {:induction false} DigitsValueOfNat(n: nat)
    ensures DigitsValue(NatToString(n)) == n
    decreases n
  {
    var s := NatToString(n);
    if n >= 10 {
      DigitsValueOfNat(n / 10);
      assert s[..|s| - 1] == NatToString(n / 10);
    }
  }

  /** Python's `int(s)` on text: surrounding whitespace, an optional sign
      and ASCII decimal digits; anything else raises `ValueError`, shown as
      `None`. */
  function ParseInt(s: string): (r: Option<int>)
    ensures Strip(s) == "" ==> r.None?
    ensures r.Some? && r.value < 0 ==> Strip(s)[0] == '-'
  {
    var t := Strip(s);
    if t == "" then None
    else
      var digits := if t[0] == '-' || t[0] == '+' then t[1..] else t;
      if digits == [] || !AllDigits(digits) then None
      else
        var v: int := DigitsValue(digits);
        Some(if t[0] == '-' then -v else v)
  }

  /** Printing a number and parsing it back gives the number. */
  lemma ParseIntToString(i: int)
    ensures ParseInt(IntToString(i)) == Some(i)
  {
    if i < 0 {
      NegativeForm(i);
      ParseSigned(IntToString(i));
    } else {
      DigitsValueOfNat(i);
      ParseDigits(NatToString(i));
    }
  }

  /** A negative number prints as a minus sign and the digits of its
      magnitude, with nothing to strip. */
  lemma NegativeForm(i: int)
    requires i < 0
    ensures var s := IntToString(i);
            && |s| >= 2 && s[0] == '-' && AllDigits(s[1..]) && Strip(s) == s && DigitsValue(s[1..]) == -i
  {
    NegativeDigits(i);
    NegativeStrip(i);
    DigitsValueOfNat(-i);
  }

  /** A negative number prints as a minus sign before the digits of its
      absolute value. */
  lemma NegativeDigits(i: int)
    requires i < 0
    ensures var s := IntToString(i);
            |s| >= 2 && s[0] == '-' && s[1..] == NatToString(-i)
  {
    var s := IntToString(i);
    var d := NatToString(-i);
    assert s == "-" + d;
    assert s[1..] == d;
  }

  /** A printed negative number has no surrounding whitespace. */
  lemma NegativeStrip(i: int)
    requires i < 0
    ensures Strip(IntToString(i)) == IntToString(i)
  {
    var s := IntToString(i);
    assert IsDigit(s[|s| - 1]);
    StripNoSpaceEnds(s);
  }

  /** A run of digits parses to its value. */
  lemma ParseDigits(d: string)
    requires d != [] && AllDigits(d)
    ensures ParseInt(d) == Some(DigitsValue(d) as int)
  {
    assert Strip(d) == d by {
      StripNoSpaceEnds(d);
    }
    assert IsDigit(d[0]);
  }

  /** A minus sign and a run of digits, with nothing to strip, parse to the
      negated value. */
  lemma ParseSigned(t: string)
    requires |t| >= 2 && t[0] == '-' && AllDigits(t[1..]) && Strip(t) == t
    ensures ParseInt(t) == Some(-(DigitsValue(t[1..]) as int))
  {
  }

  /** A text that neither starts nor ends with a digit-free space is its
      own strip. */
  lemma StripNoSpaceEnds(s: string)
    requires s != [] && (s[0] == '-' || IsDigit(s[0])) && IsDigit(s[|s| - 1])
    ensures Strip(s) == s
  {
    assert !IsSpace(s[0]) && !IsSpace(s[|s| - 1]);
  }

  /** Joining one more part appends the separator and the part. */
  lemma {:induction false} JoinAppend(parts: seq<string>, sep: string, t: string)
    requires parts != []
    ensures Join(parts + [t], sep) == Join(parts, sep) + sep + t
    decreases |parts|
  {
    if |parts| == 1 {
      assert (parts + [t])[1..] == [t];
    } else {
      JoinAppend(parts[1..], sep, t);
      assert (parts + [t])[1..] == parts[1..] + [t];
    }
  }
}

=== FILE: text_selection.dfy ===
/** Selecting text with a long press: pressing starts a half-second timer
    whose firing enters selection mode, dragging then draws the selection
    rectangle, and releasing extracts the text under it and shows it.

    The timer thread is represented by explicit events: each press starts
    a timer with a new number, and a timer fires only while it is neither
    fired nor cancelled.
 */
module TextSelection {
  import opened Wrappers
  import opened Text
  import opened Geometry
  import opened JsonValue
  import Tabs
  import FileStates

  /** `selection_state`, with `timer` as the number of the last timer
      started and `live` the timers that can still fire. */
  datatype SelectionState = SelectionState(
    start: Option<(int, int)>,
    rect: Option<Rect>,
    timer: Option<nat>,
    live: set<nat>,
    nextTimer: nat,
    selecting: bool,
    canvasId: Option<nat>)

  const Initial: SelectionState := SelectionState(None, None, None, {}, 0, false, None)

  /** `on_mouse_down`: remember the press, leave selection mode and start a
      new timer (an earlier one is not cancelled). */
  function MouseDown(st: SelectionState, x: int, y: int): (r: SelectionState)
    ensures r.start == Some((x, y)) && !r.selecting
    ensures r.timer == Some(st.nextTimer) && r.live == st.live + {st.nextTimer}
  {
    st.(start := Some((x, y)), selecting := false, timer := Some(st.nextTimer),
        live := st.live + {st.nextTimer}, nextTimer := st.nextTimer + 1)
  }

  /** A timer firing: selection mode starts if it was still live. */
  function TimerFires(st: SelectionState, t: nat): (r: SelectionState)
    ensures t in st.live ==> r.selecting && r.live == st.live - {t}
    ensures t !in st.live ==> r == st
  {
    if t in st.live then st.(selecting := true, live := st.live - {t}) else st
  }

  /** `on_mouse_drag`: ignored unless selecting with a press recorded;
      otherwise the rectangle drawn (`newId` being its canvas id) is
      replaced and the normalised rectangle stored. */
  function MouseDrag(st: SelectionState, x: int, y: int, newId: nat): (r: SelectionState)
    ensures !st.selecting || st.start.None? ==> r == st
    ensures st.selecting && st.start.Some? ==>
              && r.rect == Some(Normalise(st.start.value.0 as real, st.start.value.1 as real, x as real, y as real))
              && r.canvasId == Some(newId)
              && r.(rect := st.rect, canvasId := st.canvasId) == st
  {
    if !st.selecting || st.start.None? then st
    else
      var (x1, y1) := st.start.value;
      st.(canvasId := Some(newId), rect := Some(Normalise(x1 as real, y1 as real, x as real, y as real)))
  }

  /** What is shown after a release. */
  datatype Message = Extracted(preview: string) | NoText | ExtractFailed(error: Error)

  const PreviewLength: nat := 300

  /** The page, the view and the text extraction `_extract_text_from_rect`
      works with. */
  datatype View = View(zoom: real, pageWidth: real, pageHeight: real, xScroll: real, yScroll: real)

  /** A canvas coordinate on the page: divided by the zoom and shifted by
      the page dimension times the scroll fraction. */
  function ToPage(rect: Rect, v: View): (r: Rect)
    requires v.zoom != 0.0
  {
    Rect(rect.x0 / v.zoom + v.pageWidth * v.xScroll, rect.y0 / v.zoom + v.pageHeight * v.yScroll,
         rect.x1 / v.zoom + v.pageWidth * v.xScroll, rect.y1 / v.zoom + v.pageHeight * v.yScroll)
  }

  /** The canvas coordinate a page coordinate came from. */
  function ToCanvas(rect: Rect, v: View): (r: Rect)
  {
    Rect((rect.x0 - v.pageWidth * v.xScroll) * v.zoom, (rect.y0 - v.pageHeight * v.yScroll) * v.zoom,
         (rect.x1 - v.pageWidth * v.xScroll) * v.zoom, (rect.y1 - v.pageHeight * v.yScroll) * v.zoom)
  }

  /** The conversion is invertible at a non-zero zoom, and keeps a
      normalised selection normalised at a positive one. */
  lemma ToPageRoundTrip(rect: Rect, v: View)
    requires v.zoom != 0.0
    ensures ToCanvas(ToPage(rect, v), v) == rect
    ensures v.zoom > 0.0 && rect.Normal() ==> ToPage(rect, v).Normal()
  {
    if v.zoom > 0.0 && rect.Normal() {
      DivideMonotone(rect.x0, rect.x1, v.zoom);
      DivideMonotone(rect.y0, rect.y1, v.zoom);
    }
  }

  /** `_extract_text_from_rect`: the text of the page clipped to the
      converted rectangle; a zero zoom raises. */
  function ExtractText(rect: Rect, v: View, getText: Rect -> string): (r: Result<string>)
    ensures r.Failure? <==> v.zoom == 0.0
    ensures r.Success? ==> r.value == getText(ToPage(rect, v))
  {
    if v.zoom == 0.0 then Failure(ZeroDivisionError) else Success(getText(ToPage(rect, v)))
  }

  /** `_extract_text_from_rect` as written: it reads `tab.page` before
      dividing by the zoom, and no tab is given that name (`attrs` are the
      tab object's own attributes, `state` its record, and no record key
      has it), so it raises `AttributeError` whatever the rectangle. */
  function ExtractTextAsWritten(attrs: map<string, Json>, state: Option<FileStates.Record>,
                                rect: Rect, v: View, getText: Rect -> string): (r: Result<string>)
    ensures "page" !in attrs ==> r == Failure(AttributeError)
    ensures "page" in attrs ==> r == ExtractText(rect, v, getText)
  {
    match Tabs.GetAttr(attrs, state, "page")
    case Failure(e) => Failure(e)
    case Success(_) => ExtractText(rect, v, getText)
  }

  /** What a release shows for an extraction outcome. */
  function MessageFor(extracted: Result<string>): (m: Message)
    ensures extracted.Failure? <==> m.ExtractFailed?
    ensures extracted.Failure? ==> m.error == extracted.error
  {
    match extracted
    case Failure(e) => ExtractFailed(e)
    case Success(text) => if Strip(text) != "" then Extracted(Take(text, PreviewLength)) else NoText
  }

  /** `on_mouse_up`, given the extraction it calls: the latest timer is
      cancelled; without a selection selection mode just ends. Otherwise
      the rectangle is deleted, the text extracted and shown (its first
      300 characters, or a note when it is blank, or the error), and the
      selection cleared. */
  function Release(st: SelectionState, extract: Rect -> Result<string>): (r: (SelectionState, Option<Message>))
    ensures r.0.timer.None? && (st.timer.Some? ==> st.timer.value !in r.0.live)
    ensures !r.0.selecting
    ensures !st.selecting || st.rect.None? ==> r.1.None? && r.0.rect == st.rect && r.0.canvasId == st.canvasId
    ensures st.selecting && st.rect.Some? ==> r.1 == Some(MessageFor(extract(st.rect.value))) && r.0.rect.None? && r.0.canvasId.None?
  {
    var live := if st.timer.Some? then st.live - {st.timer.value} else st.live;
    var st1 := st.(timer := None, live := live);
    if !st1.selecting || st1.rect.None? then (st1.(selecting := false), None)
    else (st1.(canvasId := None, selecting := false, rect := None), Some(MessageFor(extract(st1.rect.value))))
  }

  /** `on_mouse_up` with the page reachable. */
  function MouseUp(st: SelectionState, v: View, getText: Rect -> string): (r: (SelectionState, Option<Message>))
    ensures r.0.timer.None? && (st.timer.Some? ==> st.timer.value !in r.0.live)
    ensures !r.0.selecting
    ensures !st.selecting || st.rect.None? ==> r.1.None? && r.0.rect == st.rect && r.0.canvasId == st.canvasId
    ensures st.selecting && st.rect.Some? ==> r.1.Some? && r.0.rect.None? && r.0.canvasId.None?
  {
    Release(st, rect => ExtractText(rect, v, getText))
  }

  /** `on_mouse_up` as written: the selection handling is the same, but
      every release with a selection shows the extraction error. */
  function MouseUpAsWritten(st: SelectionState, attrs: map<string, Json>, state: Option<FileStates.Record>,
                            v: View, getText: Rect -> string): (r: (SelectionState, Option<Message>))
    ensures r.0 == MouseUp(st, v, getText).0
    ensures "page" !in attrs && st.selecting && st.rect.Some? ==> r.1 == Some(ExtractFailed(AttributeError))
    ensures "page" in attrs ==> r == MouseUp(st, v, getText)
  {
    Release(st, rect => ExtractTextAsWritten(attrs, state, rect, v, getText))
  }

  /** What a release shows: the preview is a prefix of the extracted text
      of at most 300 characters, the whole text when it is short enough. */
  lemma ReleaseShowsPreview(st: SelectionState, v: View, getText: Rect -> string)
    requires st.selecting && st.rect.Some? && v.zoom != 0.0
    ensures var text := getText(ToPage(st.rect.value, v));
            var m := MouseUp(st, v, getText).1.value;
            && (Strip(text) == "" <==> m == NoText)
            && (m.Extracted? ==> |m.preview| <= PreviewLength && m.preview == text[..|m.preview|])
            && (m.Extracted? && |text| <= PreviewLength ==> m.preview == text)
  {
  }

  /** A long-press selection from the start: press, the timer fires, drag,
      release. The text shown is the text under the rectangle spanned by
      the press and the drag point, and afterwards nothing is selected and
      no timer is live. */
  lemma LongPressSelects(x1: int, y1: int, x2: int, y2: int, newId: nat, v: View, getText: Rect -> string)
    requires v.zoom != 0.0
    ensures var s1 := MouseDown(Initial, x1, y1);
            var s2 := TimerFires(s1, 0);
            var s3 := MouseDrag(s2, x2, y2, newId);
            var (s4, m) := MouseUp(s3, v, getText);
            var rect := Normalise(x1 as real, y1 as real, x2 as real, y2 as real);
            && s3.rect == Some(rect)
            && m.Some?
            && (Strip(getText(ToPage(rect, v))) == "" <==> m.value == NoText)
            && s4.rect.None? && !s4.selecting && s4.live == {}
  {
  }

  /** As written, a complete long-press selection always ends in the
      error message, whatever the page holds. */
  lemma LongPressFailsAsWritten(attrs: map<string, Json>, state: Option<FileStates.Record>,
                                x1: int, y1: int, x2: int, y2: int, newId: nat, v: View, getText: Rect -> string)
    requires "page" !in attrs
    ensures var s3 := MouseDrag(TimerFires(MouseDown(Initial, x1, y1), 0), x2, y2, newId);
            var (s4, m) := MouseUpAsWritten(s3, attrs, state, v, getText);
            m == Some(ExtractFailed(AttributeError)) && s4.rect.None? && !s4.selecting && s4.live == {}
  {
    var s3 := MouseDrag(TimerFires(MouseDown(Initial, x1, y1), 0), x2, y2, newId);
    assert s3.selecting && s3.rect.Some?;
  }

  /** Releasing before the timer fires extracts nothing, and the cancelled
      timer can no longer start selection mode. */
  lemma ShortPressSelectsNothing(x: int, y: int, v: View, getText: Rect -> string)
    ensures var s1 := MouseDown(Initial, x, y);
            var (s2, m) := MouseUp(s1, v, getText);
            && m.None? && !s2.selecting
            && TimerFires(s2, 0) == s2
  {
  }
}

=== FILE: viewport.dfy ===
/** The viewport-rendering prototype: only the visible part of the page,
    widened by a margin, is rasterised; a re-render is skipped while the
    view's centre has moved by no more than a threshold; and render
    requests are debounced so that the last one wins. Because the canvas's
    `xview` and `yview` are wrapped to request a render, and the render
    itself reads the view through them, every render arms the next one.

    Tk's `after`/`after_cancel` are modelled by an explicit scheduler whose
    callbacks are identified by number; time itself is not modelled.
 */
module Viewport {
  import opened Wrappers
  import opened Geometry
  import JsonValue

  const Dpi: real := 200.0
  /** Pixels per PDF point at `Dpi` (PDF space is 72 points per inch). */
  const Scale: real := Dpi / 72.0
  const Threshold: real := 15.0
  const Margin: real := 80.0

  /** `int(extent * scale)`: the page's pixel size along one axis. */
  function TotalPixels(extent: real): (n: int)
    requires extent >= 0.0
    ensures 0 <= n && n as real <= extent * Scale < n as real + 1.0
  {
    JsonValue.Truncate(extent * Scale)
  }

  /** The viewer: the page's pixel size, the last rendered region and where
      the last image was drawn. */
  datatype Viewer = Viewer(totalW: int, totalH: int, rendered: Option<Rect>, drawnAt: Option<(real, real)>)

  predicate ValidViewer(v: Viewer) {
    v.totalW >= 0 && v.totalH >= 0
  }

  /** The viewer just after construction, nothing rendered yet. */
  function NewViewer(width: real, height: real): (v: Viewer)
    requires width >= 0.0 && height >= 0.0
    ensures ValidViewer(v) && v.rendered.None?
  {
    Viewer(TotalPixels(width), TotalPixels(height), None, None)
  }

  /** The scroll state: the visible fractions `xview()` and `yview()`. */
  datatype View = View(xStart: real, xEnd: real, yStart: real, yEnd: real)

  /** Tk reports visible fractions with `0 <= start <= end <= 1`. */
  predicate OrderedView(view: View) {
    0.0 <= view.xStart <= view.xEnd <= 1.0 && 0.0 <= view.yStart <= view.yEnd <= 1.0
  }

  /** The visible pixel rectangle widened by `Margin` and clamped to the
      page's pixel size. */
  function ClampedPixels(v: Viewer, view: View): (p: Rect)
    requires ValidViewer(v)
    ensures 0.0 <= p.x0 && p.x1 <= v.totalW as real
    ensures 0.0 <= p.y0 && p.y1 <= v.totalH as real
    ensures p.x0 == Max(0.0, view.xStart * v.totalW as real - Margin)
    ensures p.x1 == Min(v.totalW as real, view.xEnd * v.totalW as real + Margin)
    ensures p.y0 == Max(0.0, view.yStart * v.totalH as real - Margin)
    ensures p.y1 == Min(v.totalH as real, view.yEnd * v.totalH as real + Margin)
  {
    var w := v.totalW as real;
    var h := v.totalH as real;
    Rect(Max(0.0, view.xStart * w - Margin), Max(0.0, view.yStart * h - Margin),
         Min(w, view.xEnd * w + Margin), Min(h, view.yEnd * h + Margin))
  }

  /** `calculate_visible_rect`: the clamped pixel rectangle in PDF points. */
  function VisibleRect(v: Viewer, view: View): (r: Rect)
    requires ValidViewer(v)
    ensures r.Scale(Scale) == ClampedPixels(v, view)
    ensures 0.0 <= r.x0 && r.x1 * Scale <= v.totalW as real
    ensures 0.0 <= r.y0 && r.y1 * Scale <= v.totalH as real
  {
    ClampedPixels(v, view).Divide(Scale)
  }

  /** The clip covers everything visible, and overshoots it by at most the
      margin on each side: in pixels, `[xStart * W, xEnd * W]` lies inside
      the clip's horizontal span, which starts and ends within `Margin` of
      it, and likewise vertically. */
  lemma VisibleRectCoversView(v: Viewer, view: View)
    requires ValidViewer(v) && OrderedView(view)
    ensures VisibleRect(v, view).Scale(Scale) == ClampedPixels(v, view)
    ensures Covers(ClampedPixels(v, view), view, v.totalW as real, v.totalH as real)
  {
    DivideThenScale(ClampedPixels(v, view));
    ClampedCovers(v, view);
  }

  /** The widened and clamped pixel rectangle covers the view. */
  lemma ClampedCovers(v: Viewer, view: View)
    requires ValidViewer(v) && OrderedView(view)
    ensures Covers(ClampedPixels(v, view), view, v.totalW as real, v.totalH as real)
  {
    var p := ClampedPixels(v, view);
    AxisCovers(view.xStart, view.xEnd, v.totalW as real, p.x0, p.x1);
    AxisCovers(view.yStart, view.yEnd, v.totalH as real, p.y0, p.y1);
  }

  /** A pixel rectangle that contains the visible part of a `w` by `h`
      page and extends at most `Margin` beyond it on every side. */
  predicate Covers(p: Rect, view: View, w: real, h: real) {
    SpanCovers(p.x0, p.x1, view.xStart, view.xEnd, w) && SpanCovers(p.y0, p.y1, view.yStart, view.yEnd, h)
  }

  /** Along one axis: `[lo, hi]` contains `[start * total, end * total]`
      and extends at most `Margin` beyond it at each end. */
  predicate SpanCovers(lo: real, hi: real, start: real, end: real, total: real) {
    && lo <= start * total && end * total <= hi
    && start * total - lo <= Margin && hi - end * total <= Margin
  }

  /** Converting pixels to points and back is exact on the reals. */
  lemma DivideThenScale(p: Rect)
    ensures p.Divide(Scale).Scale(Scale) == p
  {
  }

  /** Along one axis, the widened and clamped span covers the visible one
      and exceeds it by at most the margin at each end. */
  lemma AxisCovers(start: real, end: real, total: real, lo: real, hi: real)
    requires 0.0 <= start <= end <= 1.0 && total >= 0.0
    requires lo == Max(0.0, start * total - Margin) && hi == Min(total, end * total + Margin)
    ensures SpanCovers(lo, hi, start, end, total)
  {
    FractionOf(start, total);
    FractionOf(end, total);
  }

  /** The visible rectangle lies on the page: inside
      `[0, total_pix_width / scale] x [0, total_pix_height / scale]`. */
  lemma VisibleRectOnPage(v: Viewer, view: View)
    requires ValidViewer(v)
    ensures VisibleRect(v, view).Within(Rect(0.0, 0.0, v.totalW as real / Scale, v.totalH as real / Scale))
  {
    var p := ClampedPixels(v, view);
    DivideMonotone(0.0, p.x0, Scale);
    DivideMonotone(p.x1, v.totalW as real, Scale);
    DivideMonotone(0.0, p.y0, Scale);
    DivideMonotone(p.y1, v.totalH as real, Scale);
  }

  /** For ordered view fractions the visible rectangle is normal. */
  lemma VisibleRectNormal(v: Viewer, view: View)
    requires ValidViewer(v) && OrderedView(view)
    ensures VisibleRect(v, view).Normal()
  {
    ClampedPixelsNormal(v, view);
    ScaleKeepsNormal(ClampedPixels(v, view), Scale);
  }

  /** For ordered view fractions the clamped pixel rectangle is normal. */
  lemma ClampedPixelsNormal(v: Viewer, view: View)
    requires ValidViewer(v) && OrderedView(view)
    ensures ClampedPixels(v, view).Normal()
  {
    ClampedWidth(v, view);
    ClampedHeight(v, view);
  }

  /** The clamped span is not empty horizontally. */
  lemma ClampedWidth(v: Viewer, view: View)
    requires ValidViewer(v) && OrderedView(view)
    ensures ClampedPixels(v, view).x0 <= ClampedPixels(v, view).x1
  {
    AxisNormal(view.xStart, view.xEnd, v.totalW as real);
  }

  /** The clamped span is not empty vertically. */
  lemma ClampedHeight(v: Viewer, view: View)
    requires ValidViewer(v) && OrderedView(view)
    ensures ClampedPixels(v, view).y0 <= ClampedPixels(v, view).y1
  {
    AxisNormal(view.yStart, view.yEnd, v.totalH as real);
  }

  /** Along one axis, the widened and clamped span of ordered fractions is
      not empty. */
  lemma AxisNormal(start: real, end: real, total: real)
    requires 0.0 <= start <= end <= 1.0 && total >= 0.0
    ensures Max(0.0, start * total - Margin) <= Min(total, end * total + Margin)
  {
    MulMonotone(start, end, total);
    FractionOf(start, total);
    FractionOf(end, total);
    MaxMin(0.0, start * total - Margin, total, end * total + Margin);
  }

  /** `max(a, b) <= min(c, d)` when each of `a`, `b` is at most each of `c`, `d`. */
  lemma MaxMin(a: real, b: real, c: real, d: real)
    requires a <= c && a <= d && b <= c && b <= d
    ensures Max(a, b) <= Min(c, d)
  {
  }

  lemma FractionOf(a: real, c: real)
    requires 0.0 <= a <= 1.0 && c >= 0.0
    ensures 0.0 <= a * c <= c
  {
    assert c - a * c == (1.0 - a) * c;
  }

  lemma MulMonotone(a: real, b: real, c: real)
    requires a <= b && c >= 0.0
    ensures a * c <= b * c
  {
    assert b * c - a * c == (b - a) * c;
  }

  /** The centre of a rectangle in pixels. */
  function CentreX(r: Rect): real {
    (r.x0 + r.x1) / 2.0 * Scale
  }

  function CentreY(r: Rect): real {
    (r.y0 + r.y1) / 2.0 * Scale
  }

  function Abs(x: real): (a: real)
    ensures a >= 0.0 && (a == x || a == -x)
  {
    if x < 0.0 then -x else x
  }

  /** `is_region_changed`: always when nothing was rendered, otherwise when
      the pixel centre moved by more than `Threshold` along some axis. */
  function RegionChanged(rendered: Option<Rect>, r: Rect): (changed: bool)
    ensures rendered.None? ==> changed
    ensures rendered.Some? ==>
              (changed <==> Abs(CentreX(r) - CentreX(rendered.value)) > Threshold ||
                            Abs(CentreY(r) - CentreY(rendered.value)) > Threshold)
  {
    match rendered
    case None => true
    case Some(prev) =>
      Abs(CentreX(r) - CentreX(prev)) > Threshold || Abs(CentreY(r) - CentreY(prev)) > Threshold
  }

  /** The region just rendered never counts as changed. */
  lemma SameRegionUnchanged(r: Rect)
    ensures !RegionChanged(Some(r), r)
  {
  }

  /** A shift of the view by no more than the threshold along both axes
      (measured at the centre) is not a change. */
  lemma SmallShiftUnchanged(prev: Rect, r: Rect, dx: real, dy: real)
    requires CentreX(r) == CentreX(prev) + dx && CentreY(r) == CentreY(prev) + dy
    requires -Threshold <= dx <= Threshold && -Threshold <= dy <= Threshold
    ensures !RegionChanged(Some(prev), r)
  {
  }

  /** What `render_visible_area` draws: the clip it rasterises and the
      canvas position of the image's top-left corner. */
  datatype Draw = Draw(clip: Rect, x: real, y: real)

  /** `render_visible_area`: compute the rectangle, stop if it has not
      changed, otherwise record it as rendered before rasterising and draw
      the image at its top-left corner in pixels. `rasterOk` says whether
      `get_pixmap` succeeds; when it raises, the region stays recorded, the
      old image stays on the canvas and the callback ends with the error. */
  function RenderVisibleArea(v: Viewer, view: View, rasterOk: bool): (r: (Viewer, Result<Option<Draw>>))
    requires ValidViewer(v)
    ensures ValidViewer(r.0)
    ensures var rect := VisibleRect(v, view);
            if RegionChanged(v.rendered, rect) then
              && r.0.rendered == Some(rect)
              && (rasterOk ==> r.1 == Success(Some(Draw(rect, rect.x0 * Scale, rect.y0 * Scale)))
                               && r.0.drawnAt == Some((rect.x0 * Scale, rect.y0 * Scale)))
              && (!rasterOk ==> r.1 == Failure(RenderError) && r.0.drawnAt == v.drawnAt)
            else r == (v, Success(None))
    ensures r.0.totalW == v.totalW && r.0.totalH == v.totalH
  {
    var rect := VisibleRect(v, view);
    if !RegionChanged(v.rendered, rect) then (v, Success(None))
    else
      var recorded := v.(rendered := Some(rect));
      if !rasterOk then (recorded, Failure(RenderError))
      else
        var d := Draw(rect, rect.x0 * Scale, rect.y0 * Scale);
        (recorded.(drawnAt := Some((d.x, d.y))), Success(Some(d)))
  }

  /** Rendering twice with the same view draws once, whatever either
      rasterisation does. */
  lemma RenderIdempotent(v: Viewer, view: View, firstOk: bool, secondOk: bool)
    requires ValidViewer(v)
    ensures var (v1, _) := RenderVisibleArea(v, view, firstOk);
            RenderVisibleArea(v1, view, secondOk) == (v1, Success(None))
  {
    var rect := VisibleRect(v, view);
    var (v1, _) := RenderVisibleArea(v, view, firstOk);
    assert VisibleRect(v1, view) == rect;
    if RegionChanged(v.rendered, rect) {
      assert v1.rendered == Some(rect);
      SameRegionUnchanged(rect);
    }
  }

  /** A failed rasterisation is not retried: the next render of the same
      view, or of one whose centre is within the threshold, draws nothing
      even when rasterising would now succeed, and the canvas keeps the old
      image. */
  lemma FailedRenderNotRetried(v: Viewer, view: View, view2: View)
    requires ValidViewer(v) && RegionChanged(v.rendered, VisibleRect(v, view))
    requires !RegionChanged(Some(VisibleRect(v, view)), VisibleRect(v, view2))
    ensures var (v1, r1) := RenderVisibleArea(v, view, false);
            && r1 == Failure(RenderError)
            && v1.drawnAt == v.drawnAt
            && RenderVisibleArea(v1, view2, true) == (v1, Success(None))
  {
    var rect := VisibleRect(v, view);
    var v1 := v.(rendered := Some(rect));
    assert RenderVisibleArea(v, view, false) == (v1, Failure(RenderError));
    SameSizeSameRect(v, v1, view2);
  }

  /** The visible rectangle depends only on the page's pixel size. */
  lemma SameSizeSameRect(v: Viewer, v1: Viewer, view: View)
    requires ValidViewer(v) && v1.totalW == v.totalW && v1.totalH == v.totalH
    ensures VisibleRect(v1, view) == VisibleRect(v, view)
  {
    assert ClampedPixels(v1, view) == ClampedPixels(v, view);
  }

  /** The image lands where the clamped pixel rectangle starts. */
  lemma DrawnAtClampedCorner(v: Viewer, view: View)
    requires ValidViewer(v)
    ensures var (_, d) := RenderVisibleArea(v, view, true);
            d.Success? && d.value.Some? ==>
              d.value.value.x == ClampedPixels(v, view).x0 && d.value.value.y == ClampedPixels(v, view).y0
  {
  }

  // ---------------------------------------------------------------------
  // Debounced scheduling

  /** `after`/`after_cancel` bookkeeping: the id last stored in
      `render_after_id`, the callbacks still armed, and the next id Tk would
      hand out. */
  datatype Scheduler = Scheduler(pending: Option<nat>, armed: set<nat>, nextId: nat)

  /** At most one render is armed, and it is the one last requested. */
  predicate SchedulerInv(s: Scheduler) {
    && (forall id :: id in s.armed ==> id < s.nextId)
    && (s.pending.Some? ==> s.pending.value < s.nextId)
    && (s.pending.None? ==> s.armed == {})
    && (s.pending.Some? ==> s.armed <= {s.pending.value})
  }

  const NoSchedule: Scheduler := Scheduler(None, {}, 0)

  /** `schedule_render`: cancel the stored callback, if any, then arm a new
      one and store its id. The delay (100 for the constructor's request, 5
      otherwise) only affects time. */
  function Schedule(s: Scheduler): (s': Scheduler)
    requires SchedulerInv(s)
    ensures SchedulerInv(s')
    ensures s'.pending == Some(s.nextId) && s'.armed == {s.nextId}
    ensures s'.nextId == s.nextId + 1
  {
    var remaining := if s.pending.Some? then s.armed - {s.pending.value} else s.armed;
    Scheduler(Some(s.nextId), remaining + {s.nextId}, s.nextId + 1)
  }

  /** Tk firing callback `id`: it renders only if still armed. The stored id
      is not cleared, as in the prototype. */
  function Fire(s: Scheduler, id: nat): (r: (Scheduler, bool))
    requires SchedulerInv(s)
    ensures SchedulerInv(r.0)
    ensures r.1 <==> id in s.armed
    ensures r.0.armed == s.armed - {id} && r.0.pending == s.pending
  {
    (s.(armed := s.armed - {id}), id in s.armed)
  }

  /** The last request wins: after a second request, the first callback no
      longer renders and the second one does. */
  lemma LastRequestWins(s: Scheduler)
    requires SchedulerInv(s)
    ensures var s1 := Schedule(s);
            var s2 := Schedule(s1);
            !Fire(s2, s1.pending.value).1 && Fire(s2, s2.pending.value).1
  {
  }

  /** Any number of requests leaves exactly one armed render. */
  lemma {:induction false} RequestsCoalesce(s: Scheduler, n: nat)
    requires SchedulerInv(s) && n >= 1
    ensures var t := ScheduleTimes(s, n);
            SchedulerInv(t) && |t.armed| == 1 && t.pending.Some? && t.armed == {t.pending.value}
    decreases n
  {
    if n > 1 {
      RequestsCoalesce(s, n - 1);
    }
  }

  /** The constructor: a viewer with nothing rendered, and its first render
      request armed. */
  function Start(width: real, height: real): (r: (Viewer, Scheduler))
    requires width >= 0.0 && height >= 0.0
    ensures ValidViewer(r.0) && r.0.rendered.None?
    ensures SchedulerInv(r.1) && r.1.pending.Some? && r.1.armed == {r.1.pending.value}
  {
    (NewViewer(width, height), Schedule(NoSchedule))
  }

  /** The first callback after start-up always draws: nothing has been
      rendered, so any view counts as changed. It also arms the next
      render. */
  lemma FirstCallbackDraws(width: real, height: real, view: View)
    requires width >= 0.0 && height >= 0.0
    ensures var (v, s) := Start(width, height);
            var (_, s1, d) := Callback(v, s, s.pending.value, view, true);
            && d.Success? && d.value.Some?
            && s1.pending.Some? && s1.armed == {s1.pending.value}
  {
  }

  /** `n` successive render requests. */
  function ScheduleTimes(s: Scheduler, n: nat): (t: Scheduler)
    requires SchedulerInv(s)
    ensures SchedulerInv(t)
    ensures t.nextId == s.nextId + n
  {
    if n == 0 then s else Schedule(ScheduleTimes(s, n - 1))
  }

  /** One Tk callback: `id` fires, and when it was still armed the render
      runs. The render's `calculate_visible_rect` reads the view through
      the overridden `xview()` and `yview()`, and each of those requests a
      render, so the callback arms a new one (the second request replacing
      the first) before it even decides whether the region changed. */
  function Callback(v: Viewer, s: Scheduler, id: nat, view: View, rasterOk: bool): (r: (Viewer, Scheduler, Result<Option<Draw>>))
    requires ValidViewer(v) && SchedulerInv(s)
    ensures ValidViewer(r.0) && SchedulerInv(r.1)
    ensures id !in s.armed ==> r == (v, s, Success(None))
    ensures id in s.armed ==>
              && r.1 == Scheduler(Some(s.nextId + 1), {s.nextId + 1}, s.nextId + 2)
              && (r.0, r.2) == RenderVisibleArea(v, view, rasterOk)
  {
    var (fired, run) := Fire(s, id);
    if !run then (v, s, Success(None))
    else
      var rearmed := Schedule(Schedule(fired));
      var (v1, d) := RenderVisibleArea(v, view, rasterOk);
      (v1, rearmed, d)
  }

  /** Letting the armed callback fire once per view in `views`, rasterising
      successfully: the viewer and scheduler afterwards. */
  function Poll(v: Viewer, s: Scheduler, views: seq<View>): (r: (Viewer, Scheduler))
    requires ValidViewer(v) && SchedulerInv(s)
    ensures ValidViewer(r.0) && SchedulerInv(r.1)
    decreases |views|
  {
    if views == [] || s.pending.None? then (v, s)
    else
      var (v1, s1, _) := Callback(v, s, s.pending.value, views[0], true);
      Poll(v1, s1, views[1..])
  }

  /** The viewer never goes idle: once a render is armed, however many
      times it fires and whatever the views, exactly one render is armed
      again afterwards. */
  lemma {:induction false} PollsForever(v: Viewer, s: Scheduler, views: seq<View>)
    requires ValidViewer(v) && SchedulerInv(s) && s.pending.Some? && s.armed == {s.pending.value}
    ensures var (_, t) := Poll(v, s, views);
            t.pending.Some? && t.armed == {t.pending.value} && t.nextId == s.nextId + 2 * |views|
    decreases |views|
  {
    if views != [] {
      var (v1, s1, _) := Callback(v, s, s.pending.value, views[0], true);
      PollsForever(v1, s1, views[1..]);
    }
  }

  /** A callback whose view has not moved draws nothing, yet still arms the
      next render: the viewer keeps polling with nothing to do. */
  lemma IdleCallbackRearms(v: Viewer, s: Scheduler, view: View)
    requires ValidViewer(v) && SchedulerInv(s) && s.pending.Some? && s.armed == {s.pending.value}
    requires v.rendered == Some(VisibleRect(v, view))
    ensures var (v1, s1, d) := Callback(v, s, s.pending.value, view, true);
            && v1 == v && d == Success(None)
            && s1.pending.Some? && s1.armed == {s1.pending.value} && s1.pending != s.pending
  {
    SameRegionUnchanged(VisibleRect(v, view));
  }
}

=== FILE: wrappers.dfy ===
/** Failure-carrying datatypes shared by every module of the model.

    Python raises exceptions where this model returns `Failure`; the
    `Error` datatype names the exception class the source would raise.
 */
module Wrappers {

  datatype Option<+T> = None | Some(value: T) {
    function GetOr(default: T): T {
      match this
      case Some(v) => v
      case None => default
    }
  }

  /** The Python exception classes the modelled code raises or catches. */
  datatype Error =
    | ValueError
    | KeyError
    | TypeError
    | IndexError
    | AttributeError
    | OpenError      // the document backend refused to open a file
    | RenderError    // rasterisation or another backend call failed
    | ApiError       // the AI service call failed, re-raised as `Exception`
    | ZeroDivisionError
    | ImportError     // a plugin module failed while being imported

  datatype Result<+R> = Success(value: R) | Failure(error: Error) {
    predicate IsFailure() {
      Failure?
    }

    function PropagateFailure<U>(): Result<U>
      requires Failure?
    {
      Failure(error)
    }

    function Extract(): R
      requires Success?
    {
      value
    }
  }
}

=== FILE: zoom.dfy ===
/** Stepping the zoom of the current tab through the `zoom_levels` setting:
    zooming in picks the first level, in list order, above the current zoom
    (else the last level); zooming out picks the last level below it (else
    the first level). Levels are reals; the zoom read from the record may be
    any JSON value.
 */
module Zoom {
  import opened Wrappers
  import opened JsonValue
  import opened FileStates
  import opened Tabs

  /** The `zoom_levels` setting shipped with the reader. */
  const ShippedLevels: seq<real> :=
    [0.0833, 0.125, 0.18, 0.25, 0.3333, 0.5, 0.6667, 0.75, 1.0, 1.25, 1.5, 2.0,
     3.0, 4.0, 6.0, 8.0, 10.0, 12.0, 16.0, 20.0, 24.0, 32.0, 48.0, 64.0]

  /** `get_setting("zoom_levels", [100])`. */
  function Levels(setting: Option<seq<real>>): (levels: seq<real>)
    ensures setting.Some? ==> levels == setting.value
    ensures setting.None? ==> levels == [100.0]
  {
    setting.GetOr([100.0])
  }

  predicate StrictlyAscending(levels: seq<real>) {
    forall i, j :: 0 <= i < j < |levels| ==> levels[i] < levels[j]
  }

  /** The shipped levels are strictly ascending. */
  lemma ShippedLevelsAscending()
    ensures StrictlyAscending(ShippedLevels)
  {
    forall i | 0 <= i < |ShippedLevels| - 1
      ensures ShippedLevels[i] < ShippedLevels[i + 1]
    {
    }
    AdjacentAscending(ShippedLevels);
  }

  /** As written, every shipped zoom level renders a page smaller than its
      own size, since the largest level 64.0 becomes the scale 0.64; read
      as factors, the levels from 1.0 up render at or above that size. */
  lemma ShippedLevelsRenderScale()
    ensures forall i :: 0 <= i < |ShippedLevels| ==> RenderScaleAsWritten(ShippedLevels[i]) < 1.0
    ensures forall i :: 0 <= i < |ShippedLevels| ==>
              (RenderScale(ShippedLevels[i]) >= 1.0 <==> ShippedLevels[i] >= 1.0)
  {
    forall i | 0 <= i < |ShippedLevels|
      ensures ShippedLevels[i] <= 64.0
    {
      ShippedLevelsAscending();
    }
  }

  /** Adjacent order implies order between any two positions. */
  lemma {:induction false} AdjacentAscending(levels: seq<real>)
    requires forall i :: 0 <= i < |levels| - 1 ==> levels[i] < levels[i + 1]
    ensures StrictlyAscending(levels)
    decreases |levels|
  {
    if |levels| > 1 {
      AdjacentAscending(levels[1..]);
      forall i, j | 0 <= i < j < |levels|
        ensures levels[i] < levels[j]
      {
        if i > 0 {
          assert levels[1..][i - 1] < levels[1..][j - 1];
        } else if j > 1 {
          assert levels[1..][0] < levels[1..][j - 1];
        }
      }
    }
  }

  /** The `for level in zoom_levels: if level > zoom: break` scan from
      position `from`: the position of the first level above `z`. */
  function FirstAbove(levels: seq<real>, z: real, from: nat): (r: Option<nat>)
    requires from <= |levels|
    ensures r.Some? ==> from <= r.value < |levels| && levels[r.value] > z
    ensures r.Some? ==> forall j :: from <= j < r.value ==> levels[j] <= z
    ensures r.None? ==> forall j :: from <= j < |levels| ==> levels[j] <= z
    decreases |levels| - from
  {
    if from == |levels| then None
    else if levels[from] > z then Some(from)
    else FirstAbove(levels, z, from + 1)
  }

  /** The `for level in reversed(zoom_levels): if level < zoom: break` scan
      over positions below `upto`: the position of the last level below `z`. */
  function LastBelow(levels: seq<real>, z: real, upto: nat): (r: Option<nat>)
    requires upto <= |levels|
    ensures r.Some? ==> r.value < upto && levels[r.value] < z
    ensures r.Some? ==> forall j :: r.value < j < upto ==> levels[j] >= z
    ensures r.None? ==> forall j :: 0 <= j < upto ==> levels[j] >= z
  {
    if upto == 0 then None
    else if levels[upto - 1] < z then Some(upto - 1)
    else LastBelow(levels, z, upto - 1)
  }

  /** The level `ZoomInPlugin.run` selects; `zoom_levels[-1]` raises
      `IndexError` on an empty list. */
  function NextLevel(levels: seq<real>, z: real): (r: Result<real>)
    ensures levels == [] <==> r == Failure(IndexError)
    ensures r.Success? ==> r.value in levels
  {
    if levels == [] then Failure(IndexError)
    else match FirstAbove(levels, z, 0)
      case Some(i) => Success(levels[i])
      case None => Success(levels[|levels| - 1])
  }

  /** The level `ZoomOutPlugin.run` selects; `zoom_levels[0]` raises
      `IndexError` on an empty list. */
  function PrevLevel(levels: seq<real>, z: real): (r: Result<real>)
    ensures levels == [] <==> r == Failure(IndexError)
    ensures r.Success? ==> r.value in levels
  {
    if levels == [] then Failure(IndexError)
    else match LastBelow(levels, z, |levels|)
      case Some(i) => Success(levels[i])
      case None => Success(levels[0])
  }

  /** Zooming in gives the first level in list order that is larger than the
      zoom, or the last level when none is. */
  lemma NextLevelIsFirstLarger(levels: seq<real>, z: real)
    requires levels != []
    ensures var r := NextLevel(levels, z).value;
            || (exists i :: 0 <= i < |levels| && levels[i] == r && r > z &&
                            forall j :: 0 <= j < i ==> levels[j] <= z)
            || ((forall j :: 0 <= j < |levels| ==> levels[j] <= z) && r == levels[|levels| - 1])
  {
    match FirstAbove(levels, z, 0)
    case Some(i) =>
    case None =>
  }

  /** Zooming out gives the last level in list order that is smaller than
      the zoom, or the first level when none is. */
  lemma PrevLevelIsLastSmaller(levels: seq<real>, z: real)
    requires levels != []
    ensures var r := PrevLevel(levels, z).value;
            || (exists i :: 0 <= i < |levels| && levels[i] == r && r < z &&
                            forall j :: i < j < |levels| ==> levels[j] >= z)
            || ((forall j :: 0 <= j < |levels| ==> levels[j] >= z) && r == levels[0])
  {
    match LastBelow(levels, z, |levels|)
    case Some(i) =>
    case None =>
  }

  /** On a strictly ascending list, zooming in from a level below the top
      gives the next level. */
  lemma NextLevelIsSuccessor(levels: seq<real>, i: nat)
    requires StrictlyAscending(levels) && i + 1 < |levels|
    ensures NextLevel(levels, levels[i]) == Success(levels[i + 1])
  {
    assert levels[i + 1] > levels[i];
  }

  /** On a strictly ascending list, zooming out from a level above the
      bottom gives the previous level. */
  lemma PrevLevelIsPredecessor(levels: seq<real>, i: nat)
    requires StrictlyAscending(levels) && 0 < i < |levels|
    ensures PrevLevel(levels, levels[i]) == Success(levels[i - 1])
  {
    assert levels[i - 1] < levels[i];
  }

  /** On a strictly ascending list, zooming in and then out returns to the
      level started from, unless it was already the top one; symmetrically
      for zooming out and then in. */
  lemma ZoomInOutRoundTrip(levels: seq<real>, i: nat)
    requires StrictlyAscending(levels) && i < |levels|
    ensures i + 1 < |levels| ==> PrevLevel(levels, NextLevel(levels, levels[i]).value) == Success(levels[i])
    ensures 0 < i ==> NextLevel(levels, PrevLevel(levels, levels[i]).value) == Success(levels[i])
  {
    if i + 1 < |levels| {
      NextLevelIsSuccessor(levels, i);
      PrevLevelIsPredecessor(levels, i + 1);
    }
    if 0 < i {
      PrevLevelIsPredecessor(levels, i);
      NextLevelIsSuccessor(levels, i - 1);
    }
  }

  /** At or above the top level zooming in stays at the top; at or below the
      bottom level zooming out stays at the bottom. */
  lemma LevelsSaturate(levels: seq<real>, z: real)
    requires StrictlyAscending(levels) && levels != []
    ensures z >= levels[|levels| - 1] ==> NextLevel(levels, z) == Success(levels[|levels| - 1])
    ensures z <= levels[0] ==> PrevLevel(levels, z) == Success(levels[0])
  {
    var top := |levels| - 1;
    if z >= levels[top] {
      forall j | 0 <= j < |levels|
        ensures levels[j] <= z
      {
        if j < top {
          assert levels[j] < levels[top];
        }
      }
    }
    if z <= levels[0] {
      forall j | 0 <= j < |levels|
        ensures levels[j] >= z
      {
        if j > 0 {
          assert levels[0] < levels[j];
        }
      }
    }
  }

  // ---------------------------------------------------------------------
  // The plugins on the current tab

  /** `ZoomInPlugin.run` (`zoomIn`) and `ZoomOutPlugin.run` (`!zoomIn`): with
      no current tab nothing changes; otherwise the zoom is read from the
      record (`AttributeError` when absent), the level is selected (comparing
      a non-number raises `TypeError`) and written back into the record. */
  function Step(store: Store, tab: Option<Tab>, setting: Option<seq<real>>, zoomIn: bool): (r: Result<Store>)
    requires tab.Some? ==> Valid(store, tab.value)
    ensures tab.None? ==> r == Success(store)
    ensures tab.Some? && Levels(setting) == [] && StateValue(store, tab.value, Zoom).Success? ==>
              r == Failure(IndexError)
    ensures r.Success? && tab.Some? ==>
              && StateValue(store, tab.value, Zoom).Success?
              && ToNumber(StateValue(store, tab.value, Zoom).value).Success?
              && var z := ToNumber(StateValue(store, tab.value, Zoom).value).value;
                 var level := if zoomIn then NextLevel(Levels(setting), z) else PrevLevel(Levels(setting), z);
                 level.Success? && r.value == SetStateValue(store, tab.value, Zoom, JReal(level.value))
  {
    if tab.None? then Success(store)
    else
      var current :- StateValue(store, tab.value, Zoom);
      var levels := Levels(setting);
      if levels == [] then Failure(IndexError)
      else
        var z :- ToNumber(current);
        var level := if zoomIn then NextLevel(levels, z) else PrevLevel(levels, z);
        Success(SetStateValue(store, tab.value, Zoom, JReal(level.value)))
  }

  /** With the shipped levels and a numeric zoom recorded for the tab, both
      plugins succeed and leave a shipped level in the record. */
  lemma StepStoresShippedLevel(store: Store, tab: Tab, zoomIn: bool)
    requires Valid(store, tab) && tab.state.Some?
    requires Zoom in store[tab.state.value] && store[tab.state.value][Zoom].JReal?
    ensures var r := Step(store, Some(tab), Some(ShippedLevels), zoomIn);
            && r.Success?
            && StateValue(r.value, tab, Zoom).Success?
            && StateValue(r.value, tab, Zoom).value.JReal?
            && StateValue(r.value, tab, Zoom).value.r in ShippedLevels
  {
  }
}
